=== FILE: README.md ===
# Filter engine, input widgets and block logic of the blog blueprint site

This project is a Dafny model of the client-side logic of a content site
built from blocks. Once the document tree is abstracted away, that logic is
deterministic computation over strings, sequences, maps and small integers.

- An item becomes `Tags.Item`: its type, tags text, title and the
  `bg-transparent` flag.
- A widget becomes a record of options, selection, open flag, focus and
  hidden flags: `NiceSelect.Select` and `NiceText.TextField`.
- A block becomes a configuration map read from its rows.

Browser effects become values. A widget's `nice-input` events are a list of
`Notice` records returned by each transition. Taxonomy, dictionary rows,
URL mapping and URL resolution are parameters.

The modules follow the source files:

- `Tags`: tag normalisation, the `ns:category/sub` token parser, the tag
  matcher and the item matcher. Source: `blocks/filters/partials/helpers.js`.
- `Filters`: the filter block's state. This covers facet collection,
  selection updates, JSON persistence and rehydration, pagination by rank,
  counters and load-more. Source: `blocks/filters/filters.js`.
- `FilterWidgets`: the same block's wiring of one dropdown per category and
  one search field. Source: `blocks/filters/filters.js`.
- `Json`: the JSON subset that the persistence writes and reads back.
- `NiceSelect`: the custom select's state machine, covering open and close,
  single and multiple mode, display text, arrow-key focus, option search,
  `reset`, `setValue`, `update` and the value getter.
- `NiceText`: the custom text field's value, reset, events and flag
  setters.
- `ArticleFeed`, `TeaserList`: path and tag-slug normalisation and the page
  inclusion rules.
- `BlockHelpers`: `cx`, `createTag`'s attribute rule, the dictionary key
  nesting and the country/language extraction. Source: `blocks/helpers.js`.
- `BlockOptions`: cell reading, from `scripts/utils.js`.
- `Button`, `CustomButton`: button parameter normalisation and href schemes.
- `Gallery`, `Carousel`, `EventTeasers`, `Accordion`: the index and
  open-state machines of the navigation blocks.
- `FilterItem`, `Teaser`, `HeaderTeaser`, `FramedGrid`, `ContentImageTeaser`:
  the decision functions of the remaining blocks.
- `Text`, `Seqs`, `Wrappers`: string, sequence and option helpers. These are
  JavaScript's `trim`, `toLowerCase`, `split`, `join`, `indexOf`, `filter`
  and stable `sort`.

Where the code and its comments disagree, the model follows the code.

- `parseSelectedTags` does not lower-case.
- `normalizePath` is not idempotent.
- NiceSelect's search hides the options that match.
- The native select of NiceSelect is single-valued even in multiple mode.
- The dictionary nesting stores values at the top level.
- NiceText's reset emits two events.
- content-image-teaser never reads a title type or an image alt.
- header-teaser's calls to action lose their link.

## Model

| member | source | states |
|---|---|---|
| Tags.NormalizeShape | blocks/filters/partials/helpers.js:41 | a normalised value is trimmed and lower-case, is its own normal form, and trimming first changes nothing |
| Tags.NormalizedIff | blocks/filters/partials/helpers.js:41 | a string is a fixed point of normalisation exactly when it is trimmed and lower-case |
| Tags.ParseToken | blocks/filters/partials/helpers.js:66-68 | a token is accepted only as namespace ':' category '/' non-empty subcategory without ':' in the namespace or '/' in the category, and the parts spell the token back |
| Tags.ParseTokenComplete | blocks/filters/partials/helpers.js:66-68 | every well-formed token is accepted and split into exactly its parts |
| Tags.FallbacksHaveNoDash | blocks/filters/partials/helpers.js:74-75 | the names derived from slugs on a taxonomy miss contain no '-' |
| Tags.AddTagWellFormed | blocks/filters/partials/helpers.js:82-90 | adding one tag keeps every key and member normalised, every set non-empty and every display name trimmed and normalising to its key |
| Tags.TokenStepWellFormed | blocks/filters/partials/helpers.js:65-90 | processing one token, accepted or skipped, keeps the tag maps well formed |
| Tags.ParseItemTags | blocks/filters/partials/helpers.js:56-94 | empty content gives two empty maps, and every result is well formed |
| Tags.ItemMapIsReference | blocks/filters/partials/helpers.js:56-94 | the tag map is the per-category set union of the (category, subcategory) pairs of the accepted tokens |
| Tags.ItemMapOrderFree | blocks/filters/partials/helpers.js:61-90 | token order and duplicates do not change the tag map |
| Tags.LaterDisplayNameWins | blocks/filters/partials/helpers.js:85-87 | after a later token for the same key, the display name is the later token's name |
| Tags.AnySub | blocks/filters/partials/helpers.js:116-119 | a category matches when at least one normalised selected subcategory is among the item's |
| Tags.MatchesTagFilters | blocks/filters/partials/helpers.js:103-122 | the tag filter holds exactly when every selected category matches, so an empty selection matches everything |
| Tags.MoreSubsKeepMatch | blocks/filters/partials/helpers.js:103-122 | adding subcategories to selected categories never removes a match |
| Tags.MoreCategoriesNarrow | blocks/filters/partials/helpers.js:103-122 | adding categories never creates a match |
| Tags.EmptyCategoryNeverMatches | blocks/filters/partials/helpers.js:116-119 | a selected category with no subcategories matches no item |
| Tags.MatchesReference | blocks/filters/partials/helpers.js:103-122 | matching against the parsed map is matching against the token pairs themselves |
| Tags.ItemMatchesIff | blocks/filters/partials/helpers.js:132-153 | an item matches exactly when the tags match, the active type is empty or equals the normalised item type, and the query is empty or occurs in the lower-cased trimmed title |
| Tags.MapTagIdToPath | blocks/filters/partials/helpers.js:186-189 | an empty id maps to nothing; any other id maps to a path under the namespace's tag root |
| Tags.MapTagIdToPathCases | blocks/filters/partials/helpers.js:186-189 | the first 'blog-blueprint:' is removed from the id; an id without it is appended unchanged |
| Tags.TagName | blocks/filters/partials/helpers.js:201 | the name is the text after the last '/', or empty when there is no '/' |
| Tags.MapTaxonomy | blocks/filters/partials/helpers.js:196-205 | a non-array gives no tags; otherwise length and order are kept, and each tag's name is TagName of its id (the text after the last '/') and its path is MapTagIdToPath of its id |
| Filters.Dedup | blocks/filters/filters.js:305 | building a Set keeps exactly the same members without repetition |
| Filters.SetEntry | blocks/filters/filters.js:306 | Map.set stores the list under its key, keeps every other key, and replaces in place or appends |
| Filters.DeleteEntry | blocks/filters/filters.js:302-303 | Map.delete removes the key and keeps every other key |
| Filters.UpdateSelectedTag | blocks/filters/filters.js:295-321 | a selection update keeps the selection well formed |
| Filters.UpdateSelectedTagSpec | blocks/filters/filters.js:295-307 | a category normalising to '' is ignored, an empty list deletes it, and a non-empty list stores the set of normalised values; other categories are unchanged |
| Filters.UpdatePersists | blocks/filters/filters.js:309-320 | after a real update the persisted attribute reads back as exactly the new selection |
| Filters.UpdateKeepsNormal | blocks/filters/filters.js:295-307 | updates never store a category with an empty set or an unnormalised key or value |
| Filters.SerializeSelection | blocks/filters/filters.js:309-320 | the attribute text parses back to the `[[category, [sub, ...]], ...]` array of the selection |
| Filters.BuildMap | blocks/filters/filters.js:447-449 | every entry's category ends up in the Map, and the last entry's list is stored under its category |
| Filters.RehydrateSelection | blocks/filters/filters.js:442-454 | an absent or empty attribute, or text that is not a JSON array, keeps the current selection; a change only comes from an array whose entries all decode, and is the Map built from them; a well-formed selection stays well-formed (no duplicate sub-tag in a category) |
| Filters.DecodeEntriesDistinct | blocks/filters/filters.js:447-449 | every decoded entry carries a duplicate-free sub-tag list, as `new Set(subArray)` builds |
| Filters.BuildMapWellFormed | blocks/filters/filters.js:447-449 | the Map built from entries with duplicate-free sub-tags is a well-formed selection |
| Filters.PersistenceRoundTrip | blocks/filters/filters.js:442-454 | rehydrating the JSON written for a selection gives back that selection |
| Filters.RehydrateRejects | blocks/filters/filters.js:442-454 | malformed JSON or a non-array value leaves the current selection unchanged |
| Filters.DecodeEncodedEntries | blocks/filters/filters.js:311-316 | the entry arrays written for a selection decode back to its entries |
| Filters.BuildMapOfDistinctKeys | blocks/filters/filters.js:447-449 | rebuilding a Map from entries with distinct keys gives those entries in order |
| Filters.RankIsCardinality | blocks/filters/filters.js:256-276 | a row's rank is the number of matching rows before it |
| Filters.ShownCountIs | blocks/filters/filters.js:256-276 | the number of shown rows is the number of matches, capped by the page size when it is positive |
| Filters.Paginate | blocks/filters/filters.js:256-282 | a row is hidden exactly when it does not match, or when the page size is positive and its 1-based rank among matches exceeds it |
| Filters.ApplyMultiTagFilter | blocks/filters/filters.js:256-282 | the rows hidden are exactly those not shown under the current filters and page size |
| Filters.CountTrue | blocks/filters/filters.js:203-216 | the count is the number of set flags |
| Filters.CountMatchingItems | blocks/filters/filters.js:203-216 | the count is the number of items that match the current filters |
| Filters.LoadMoreHiddenIffAllShown | blocks/filters/filters.js:219-231 | the load-more button is hidden exactly when every matching row is shown |
| Filters.CounterReadsBack | blocks/filters/filters.js:234-244 | the counter reads back as the shown count, then '/', then the matching count |
| Filters.TotalText | blocks/filters/filters.js:246-251 | the total line `updateTotalCount` writes is exactly the caption, one space and the count's decimal digits, which read back as the count |
| Filters.ParseInt | blocks/filters/filters.js:197 | text starting with a digit parses to a non-negative number |
| Filters.ParseIntOfNat | blocks/filters/filters.js:197 | parsing the decimal text of a number gives that number |
| Filters.NumberOfItems | blocks/filters/filters.js:197 | text that does not parse gives 0; otherwise the parsed number |
| Filters.NumberOfItemsOfNat | blocks/filters/filters.js:197 | a count written in decimal is read back as that count |
| Filters.TotalItems | blocks/filters/filters.js:457 | the static count that decides whether load-more is built is at most the number of items: all of them when none is bg-transparent, none when all are |
| Filters.TotalItemsCounts | blocks/filters/filters.js:457 | the static count used for the load-more decision is exactly the number of item positions without the bg-transparent class |
| Filters.InitialPageSize | blocks/filters/filters.js:197-200 | a positive configured count makes the initial page size positive |
| Filters.Initialize | blocks/filters/filters.js:194-454 | decoration sets the page size from the configured count only when none is set, re-applies the stored type filter in normalised form, rehydrates the persisted selection (keeping it well-formed) and touches nothing else |
| Filters.LoadMore | blocks/filters/filters.js:476-480 | a load-more click grows the page size by exactly the configured count and changes nothing else |
| Filters.LoadMoreShowsMore | blocks/filters/filters.js:476-480 | a load-more click never hides a row that was shown and never shows fewer rows |
| Filters.PageSizeAfterClicks | blocks/filters/filters.js:467-480 | after k clicks the page size is the configured count times k plus one |
| Filters.ApplyFilter | blocks/filters/filters.js:284-285 | the active type becomes the normalised selected type, and nothing else in the state changes |
| Filters.TypeTagStates | blocks/filters/filters.js:286-291 | one flag per type tag, set exactly when the tag's normalised type equals the normalised selected type |
| Filters.ExactlyOneTypeTag | blocks/filters/filters.js:284-293 | when the chosen type is one of the tags, exactly that tag is selected |
| Filters.OnTypeTag | blocks/filters/filters.js:339-348 | selecting a tag makes its normalised type active; deselecting the active tag resets to ''; deselecting another tag changes nothing |
| Filters.OnTypeTagKeepsActiveTag | blocks/filters/filters.js:339-348 | the active type stays one of the tags; selecting a tag makes it active; deselecting the active tag resets to ''; deselecting another tag changes nothing |
| Filters.DropdownValues | blocks/filters/filters.js:399-410 | a string value yields at most one entry, and a falsy one yields none |
| Filters.OnDropdown | blocks/filters/filters.js:399-410 | a dropdown event keeps the selection well formed |
| Filters.StringEventSelectsAtMostOne | blocks/filters/filters.js:399-410 | a string event stores at most one value for its category |
| Filters.OnSearch | blocks/filters/filters.js:429-433 | the stored query is the lower-cased, trimmed value, and nothing else in the state changes |
| Filters.SearchStoredNormalized | blocks/filters/filters.js:429-433 | the stored query is already lower-case and trimmed, so storing it again changes nothing |
| Filters.CollectFacets | blocks/filters/filters.js:151-184 | each item contributes at most one type |
| Filters.CollectedTypes | blocks/filters/filters.js:157-159 | the types are distinct, and they are exactly the non-empty normalised item types |
| Filters.CollectedTagsAreUnion | blocks/filters/filters.js:178-183 | the facet map is the per-category union of all items' tag maps |
| Filters.CollectedDisplayFirstWins | blocks/filters/filters.js:171-175 | a display name is known exactly when some item provides one, and the first item providing it wins |
| Filters.NamesFirstWin | blocks/filters/filters.js:171-175 | first-writer-wins folding over item display maps, for any fold result |
| FilterWidgets.DisplayOr | blocks/filters/filters.js:379-397 | the caption is the non-empty display name or the key itself |
| FilterWidgets.TagDropdown | blocks/filters/filters.js:379-397 | each category's dropdown is valid, multiple, named after the category, and offers one unselected option per subcategory in order |
| FilterWidgets.OnTagNotice | blocks/filters/filters.js:399-410 | a dropdown notice keeps the selection well formed |
| FilterWidgets.DropdownStoresAtMostOne | blocks/filters/filters.js:399-410 | however many options are ticked, a dropdown click stores at most one value |
| FilterWidgets.OnSearchNotice | blocks/filters/filters.js:429-433 | the stored query is the lower-cased, trimmed notice value |
| FilterWidgets.SearchResetClearsOnce | blocks/filters/filters.js:429-433 | clearing the search field clears the query with its first notice, and its second notice changes nothing |
| Json.Stringify | blocks/filters/filters.js:317 | the written text is never empty and starts with '[' exactly for an array and with '"' exactly for a string |
| Json.Parse | blocks/filters/filters.js:444 | blank text is rejected; a parsed value is an array, an object or a string exactly when its text starts with '[', '{' or '"' |
| Json.ParseStringify | blocks/filters/filters.js:317 | parsing the text written for an encodable value gives that value back |
| Json.ParseValueRoundTrip | blocks/filters/filters.js:444 | parsing the text of a value followed by more text consumes exactly the value |
| NiceSelect.Create | scripts/global/libs/nice-select/nice-select.js:176-189 | the selection is the options flagged selected, in order; with none the value is ''; the widget starts closed and unfocused |
| NiceSelect.InstanceIdsDisjoint | scripts/global/libs/nice-select/nice-select.js:101-105 | element ids of different instances never collide |
| NiceSelect.DisplayText | scripts/global/libs/nice-select/nice-select.js:312-331 | single mode shows the first selected text or the placeholder; multiple mode with nothing selected shows the placeholder |
| NiceSelect.DisplayListReadsBack | scripts/global/libs/nice-select/nice-select.js:312-331 | the listed form splits back into the selected texts |
| NiceSelect.DisplayCountReadsBack | scripts/global/libs/nice-select/nice-select.js:312-331 | the counted form is the count in decimal, a space, and the selected-text caption |
| NiceSelect.Open | scripts/global/libs/nice-select/nice-select.js:370-376 | open succeeds unless disabled and changes nothing else |
| NiceSelect.Close | scripts/global/libs/nice-select/nice-select.js:378-388 | close leaves the list closed with no focus and nothing else changed |
| NiceSelect.OnClicked | scripts/global/libs/nice-select/nice-select.js:507-539 | a closed widget opens on a click not on cancel; an open single widget closes; an open multiple widget closes only on the display; opening clears the search |
| NiceSelect.ClickOutside | scripts/global/libs/nice-select/nice-select.js:640-648 | a click outside closes and unfocuses without changing the selection |
| NiceSelect.SingleClickTwiceCloses | scripts/global/libs/nice-select/nice-select.js:507-539 | in single mode one click opens and the next one closes |
| NiceSelect.ItemClicked | scripts/global/libs/nice-select/nice-select.js:541-565 | a disabled option changes nothing; otherwise one notice is emitted, single mode replaces the selection, and multiple mode removes by value or appends; after a removal the `selected` attribute is cleared on the first option of the removed value and set again on the first option of every value still selected |
| NiceSelect.ClickOption | scripts/global/libs/nice-select/nice-select.js:507-565 | an option click has the events, selection, attributes and value of the item handler; a disabled option changes nothing; on an open list the click then closes a single list and leaves a multiple one open |
| NiceSelect.ToggleTwiceRestores | scripts/global/libs/nice-select/nice-select.js:541-565 | in multiple mode clicking an option twice restores its selected state |
| NiceSelect.SingleClickDisplays | scripts/global/libs/nice-select/nice-select.js:541-572 | in single mode the display shows the clicked option's text |
| NiceSelect.FindNext | scripts/global/libs/nice-select/nice-select.js:719-732 | the next focus is the nearest later option that is neither disabled nor hidden, if any |
| NiceSelect.FindPrev | scripts/global/libs/nice-select/nice-select.js:734-746 | the previous focus is the nearest earlier such option, if any |
| NiceSelect.KeyPressed | scripts/global/libs/nice-select/nice-select.js:650-706 | Enter and the arrows open a closed list, Escape closes an open enabled one and does nothing on a closed or disabled one, arrows move focus to the next or previous eligible option, and other keys do nothing |
| NiceSelect.DownThenUpReturns | scripts/global/libs/nice-select/nice-select.js:650-706 | a successful down arrow followed by an up arrow restores the focus |
| NiceSelect.ArrowsNeverWrap | scripts/global/libs/nice-select/nice-select.js:650-706 | at the last or first eligible option the arrows keep the focus where it is |
| NiceSelect.SearchInput | scripts/global/libs/nice-select/nice-select.js:748-765 | empty text unhides everything; on an open list each option's hidden flag becomes whether the pattern matches its lower-cased label; an invalid pattern changes nothing |
| NiceSelect.SearchSkipsMatches | scripts/global/libs/nice-select/nice-select.js:748-760 | after a search on an open list, the down arrow only lands on an option whose label does not match the pattern |
| NiceSelect.Rebuild | scripts/global/libs/nice-select/nice-select.js:390-426 | one item class per option, and every selected entry is the index of an option |
| NiceSelect.RebuildDistinct | scripts/global/libs/nice-select/nice-select.js:390-426 | rebuilding from native options selects exactly the flagged ones, in order |
| NiceSelect.RebuildNone | scripts/global/libs/nice-select/nice-select.js:390-426 | with no flagged options the rebuilt selection is empty |
| NiceSelect.Update | scripts/global/libs/nice-select/nice-select.js:390-426 | update copies each native option's disabled and selected flags onto the first widget option with that value (the last native option of a value wins), leaves the other options alone, rebuilds the selection from the native flags, keeps the native value and closes a single list |
| NiceSelect.RefreshWritesFirst | scripts/global/libs/nice-select/nice-select.js:400-419 | after the refresh loop, the first widget option with a value carries the disabled and selected flags of the last native option of that value |
| NiceSelect.RefreshKeepsOthers | scripts/global/libs/nice-select/nice-select.js:400-419 | a widget option that is not the first with its value is never written by the refresh loop |
| NiceSelect.UpdateDistinctCopies | scripts/global/libs/nice-select/nice-select.js:400-419 | with distinct values every widget option ends with its own native option's disabled flag |
| NiceSelect.UpdateDisablesFirstOfValue | scripts/global/libs/nice-select/nice-select.js:400-419 | once update has copied a native disabled flag, a click on that widget option changes nothing and emits nothing |
| NiceSelect.Reset | scripts/global/libs/nice-select/nice-select.js:468-473 | reset makes the value '', emits one notice carrying '', and refreshes the options' disabled flags from the native options as update does |
| NiceSelect.ResetClears | scripts/global/libs/nice-select/nice-select.js:468-473 | after reset nothing is selected and the placeholder shows |
| NiceSelect.CancelClicked | scripts/global/libs/nice-select/nice-select.js:486-492 | the cancel button resets |
| NiceSelect.SetValue | scripts/global/libs/nice-select/nice-select.js:574-600 | with no options it fails; otherwise exactly the options with listed values whose native option is not disabled are flagged, or the first option when none match; the widget options are then refreshed as update does |
| NiceSelect.SetValueSelects | scripts/global/libs/nice-select/nice-select.js:574-600 | after setValue the selection is the matching options whose native option is enabled, in order, or the first option, and no notice is emitted |
| NiceSelect.SetDisabled | scripts/global/libs/nice-select/nice-select.js:437-450 | only the disabled flag changes |
| NiceSelect.SetRequired | scripts/global/libs/nice-select/nice-select.js:815-819 | only the required flag changes |
| NiceSelect.SetReadOnly | scripts/global/libs/nice-select/nice-select.js:830-834 | only the read-only flag changes |
| NiceSelect.ReadOnlyStillOpens | scripts/global/libs/nice-select/nice-select.js:840-843 | a read-only but enabled select still opens, because the getter reads an unset property |
| NiceText.Create | scripts/global/libs/nice-text/nice-text.js:114-179 | the field starts with the configured value, sanitised for its input type, and the configured flags, unfocused, with aria attributes mirroring the flags |
| NiceText.InstanceIdsDisjoint | scripts/global/libs/nice-text/nice-text.js:81-85 | element ids of different instances never collide |
| NiceText.UserInput | scripts/global/libs/nice-text/nice-text.js:199-222 | typing stores the text and emits one notice carrying it |
| NiceText.Reset | scripts/global/libs/nice-text/nice-text.js:229-232 | reset empties the value and emits the same notice twice |
| NiceText.CancelClicked | scripts/global/libs/nice-text/nice-text.js:182-187 | cancel resets and focuses the field |
| NiceText.StripLineBreaks | scripts/global/libs/nice-text/nice-text.js:241-243 | the value loses exactly its line feeds and carriage returns, and a value without them is kept |
| NiceText.SetValue | scripts/global/libs/nice-text/nice-text.js:241-243 | setValue changes only the value; a text-like input stores the value without line breaks, and a value without line breaks is stored as given |
| NiceText.SetValueReadBack | scripts/global/libs/nice-text/nice-text.js:241-243 | setting the value the field reports changes nothing |
| NiceText.SetValueIsSilent | scripts/global/libs/nice-text/nice-text.js:241-243 | a value set silently is overwritten by the next input as if it had never been set |
| NiceText.ResetForgetsValue | scripts/global/libs/nice-text/nice-text.js:229-243 | reset gives the same field and notices whatever value was typed or set before |
| NiceText.SetDisabled | scripts/global/libs/nice-text/nice-text.js:254-259 | the flag is mirrored onto the input, the cancel button and both aria-disabled attributes |
| NiceText.SetRequired | scripts/global/libs/nice-text/nice-text.js:296-299 | the flag is mirrored onto aria-required and nothing else changes |
| NiceText.SetReadOnly | scripts/global/libs/nice-text/nice-text.js:311-314 | the flag is mirrored onto aria-readonly and nothing else changes |
| ArticleFeed.HtmlEnding | blocks/article-feed/article-feed.js:5-11 | the stripped ending is one of the html/htm forms the path ends with, ignoring case; it is empty exactly when the path ends with none of them, and otherwise it is the longest one |
| ArticleFeed.NormalizePath | blocks/article-feed/article-feed.js:5-11 | an empty path stays empty |
| ArticleFeed.NormalizePathShape | blocks/article-feed/article-feed.js:5-11 | the trimmed path is the result, then a '/' exactly when the path cut before its html ending is longer than one character and ends in '/', then the html ending as written in the path |
| ArticleFeed.NormalizePathNotIdempotent | blocks/article-feed/article-feed.js:5-11 | normalising twice can differ from normalising once |
| ArticleFeed.ParseSelectedTags | blocks/article-feed/article-feed.js:31-38 | every parsed tag is non-empty, trimmed and free of ',', ';' and line breaks; a setting with no separator and non-blank text gives exactly its trimmed text |
| ArticleFeed.ParseSelectedTagsKeepsCase | blocks/article-feed/article-feed.js:31-38 | for every setting, each parsed tag occurs letter for letter in the setting's text, so no letter case is changed |
| ArticleFeed.ParseSelectedTagsUpper | blocks/article-feed/article-feed.js:31-38 | the setting 'A' parses to the single tag 'A' |
| ArticleFeed.NormalizeTagToken | blocks/article-feed/article-feed.js:46-55 | the slug uses only [a-z0-9-], has no edge '-' and no doubled '-' |
| ArticleFeed.SlugIsFixed | blocks/article-feed/article-feed.js:46-55 | a slug normalises to itself |
| ArticleFeed.NormalizeTagTokenIdempotent | blocks/article-feed/article-feed.js:46-55 | normalising a tag token twice is normalising it once |
| ArticleFeed.SlugsOfKeeps | blocks/article-feed/article-feed.js:102-104 | every non-empty slug of a token is among the article's slugs |
| ArticleFeed.Feed | blocks/article-feed/article-feed.js:83-122 | the feed keeps exactly the included articles, in index order |
| ArticleFeed.ExclusionsInEveryMode | blocks/article-feed/article-feed.js:87-89 | titles with 'Index' and paths with '/nav' or '/footer' are excluded in every mode |
| ArticleFeed.ParentModeListsOnlyParent | blocks/article-feed/article-feed.js:117-119 | parent mode lists only the parent path itself, and nothing without a parent |
| ArticleFeed.TagModeNeedsSlugAndDescendant | blocks/article-feed/article-feed.js:95-115 | tag mode needs a shared slug and, with a parent, a path strictly below it |
| ArticleFeed.TagFeedAvoidsParentFeed | blocks/article-feed/article-feed.js:95-119 | a tag feed and a parent feed with the same settings share no article |
| TeaserList.ParentPages | blocks/teaser-list/teaser-list.js:60-67 | parent mode keeps, in order, the pages strictly below the mapped parent path |
| TeaserList.Rooted | blocks/teaser-list/teaser-list.js:75-78 | every listed path starts with '/', and one is added only when missing |
| TeaserList.ListedPaths | blocks/teaser-list/teaser-list.js:69-78 | one rooted, mapped path per trimmed non-empty comma-separated entry |
| TeaserList.ListedPathsNonEmpty | blocks/teaser-list/teaser-list.js:71-78 | no listed path is empty |
| TeaserList.IndividualPagesOrder | blocks/teaser-list/teaser-list.js:75-86 | individual mode keeps only listed pages, ordered by their position in the list |
| TeaserList.SortedPages | blocks/teaser-list/teaser-list.js:81-85 | the position sort keeps the same pages, orders them by key and is stable |
| TeaserList.TagPages | blocks/teaser-list/teaser-list.js:87-93 | tag mode keeps, in order, the pages sharing a tag with the authored list |
| TeaserList.AuthoredTagsUntrimmed | blocks/teaser-list/teaser-list.js:87-93 | authored entries are not trimmed, so ' b' never matches a page tag 'b' |
| TeaserList.SelectPages | blocks/teaser-list/teaser-list.js:60-94 | an unknown list type selects nothing, and every selected page is an input page |
| TeaserList.OrElse | blocks/teaser-list/teaser-list.js:99-105 | the first value when it is non-empty, else the second |
| TeaserList.ButtonLabel | blocks/teaser-list/teaser-list.js:119-122 | an authored label always wins |
| TeaserList.LabelNeverFromDictionary | blocks/teaser-list/teaser-list.js:119-122 | without an authored label the dictionary never supplies a string |
| TeaserList.LabelKeyMisses | blocks/teaser-list/teaser-list.js:119-122 | the dictionary key nested from its row still leaves the default 'Read more' |
| TeaserList.CardOf | blocks/teaser-list/teaser-list.js:98-132 | the heading defaults to 'h3', a page without a path gets '#' and aria-disabled, and a non-empty teaser title is shown |
| TeaserList.Cards | blocks/teaser-list/teaser-list.js:98-132 | one card per selected page, in order |
| BlockHelpers.Cx | blocks/helpers.js:14-16 | the class string is empty exactly when every argument is falsy |
| BlockHelpers.CxReadsBack | blocks/helpers.js:14-16 | splitting the class string on spaces gives back the truthy arguments in order |
| BlockHelpers.AttrWritten | blocks/helpers.js:67-76 | false, null and '' write nothing; true writes ''; any other value is written as given |
| BlockHelpers.CreateTagAttributes | blocks/helpers.js:67-76 | exactly the attributes with a written value are set, each to that value |
| BlockHelpers.CreateTagFlags | blocks/helpers.js:67-76 | true sets an empty attribute, false sets none, and non-empty text is set verbatim |
| BlockHelpers.DocumentLanguage | blocks/helpers.js:21 | the lower-cased page language, or 'en-us' when that is empty; always non-empty and lower-case |
| BlockHelpers.RowsWith | blocks/helpers.js:29-34 | exactly the rows with a column for the language are kept |
| BlockHelpers.LanguagePairs | blocks/helpers.js:29-34 | at most one pair per row |
| BlockHelpers.LanguagePairsOfRows | blocks/helpers.js:29-34 | one [key, value] pair per kept row, in order |
| BlockHelpers.EnsurePath | blocks/helpers.js:45-52 | creating the leading segments keeps every existing key and value and adds only the first segment; it throws exactly when the walk meets a stored value before the last leading segment |
| BlockHelpers.Insert | blocks/helpers.js:40-53 | a key with an empty last segment changes nothing; it throws exactly when its leading segments walk into a stored value; otherwise every existing top-level value other than the one overwritten is kept and the value sits at the top level under the last segment |
| BlockHelpers.Dictionary | blocks/helpers.js:20-58 | with no row in the page language the dictionary is empty; it throws exactly when some row's key walks into a value stored by an earlier row; otherwise every such row with a non-empty last key segment leaves that name at the top level, holding the value of the last row written to that name |
| BlockHelpers.Nest | blocks/helpers.js:38-57 | every pair with a non-empty last segment leaves that name at the top level, and the last pair's value is the one stored under its name |
| BlockHelpers.NestLastWriterWins | blocks/helpers.js:38-57 | when no later pair writes the same last segment, the pair's value is the one stored under that name |
| BlockHelpers.NestNone | blocks/helpers.js:38-57 | the build throws exactly when some pair's leading segments walk into a value stored by the pairs before it |
| BlockHelpers.NestWalksIntoValue | blocks/helpers.js:45-52 | a key a.b.c after a key a throws, because a already holds a value |
| BlockHelpers.InsertStoresAtTop | blocks/helpers.js:53 | the value is stored at the top level under the key's last segment |
| BlockHelpers.InsertSkipsEmptyLast | blocks/helpers.js:40-44 | a key whose last segment is empty stores nothing |
| BlockHelpers.NestAB | blocks/helpers.js:38-57 | 'a.b' nests to {a: {}, b: value} |
| BlockHelpers.NestThree | blocks/helpers.js:38-57 | 'a.b.c' nests to {a: {b: {}}, c: value} |
| BlockHelpers.NestValuesOnTop | blocks/helpers.js:38-57 | every stored value is at the top level and nested objects are empty of values |
| BlockHelpers.FirstMatch | blocks/helpers.js:8-11 | the first position where the xx-yy pattern matches, if any |
| BlockHelpers.CountryLanguage | blocks/helpers.js:8-11 | two codes come back exactly when the pattern matches somewhere |
| BlockHelpers.CountryLanguageFirst | blocks/helpers.js:8-11 | the codes are those of the first matching segment |
| BlockOptions.NodeValue | scripts/utils.js:7-14 | a missing cell reads as '', a cell with markup reads as undefined, and a text cell reads as its trimmed text |
| BlockOptions.ItemOptions | scripts/utils.js:22-30 | only listed names are keys, and each name takes the cell at its last index |
| BlockOptions.LastIndexOf | scripts/utils.js:22-30 | the index of a name is its last occurrence |
| BlockOptions.Or | blocks/content-image-teaser/content-image-teaser.js:44-45 | a non-empty option value, else the fallback for a missing or empty option |
| BlockOptions.ItemOptionsTrimmed | scripts/utils.js:22-30 | every value read from a text cell is trimmed |
| Button.Coalesce | components/button/button.js:34-42 | the first defined value, else '' |
| Button.Normalise | components/button/button.js:34-42 | each legacy parameter wins over its simplified one |
| Button.EmptyLegacyTextHidesLabel | components/button/button.js:34-42 | an empty legacy text still wins, so the label is empty |
| Button.Base | components/button/button.js:45-51 | a given anchor is used as is; otherwise a fresh 'button' anchor with href = link or '' |
| Button.WriteAttributes | components/button/button.js:54-56 | target, text and title are written only when non-empty |
| Button.SchemeHref | components/button/button.js:59-72 | 'telephone' prefixes 'tel:', 'email' prefixes 'mailto:', other types keep the href |
| Button.Render | components/button/button.js:32-81 | the rendered anchor has the scheme href, the download flag for 'download' and the written attributes |
| Button.RenderClasses | components/button/button.js:75 | the style class is added only when non-empty |
| Button.NoHrefAnchorLosesLink | components/button/button.js:45-78 | a given anchor without href ends with '', 'tel:' or 'mailto:' |
| Button.FreshAnchorKeepsLink | components/button/button.js:45-78 | a fresh anchor keeps the link behind its scheme |
| CustomButton.Get | blocks/custom-button/custom-button.js:4-13 | a value exists exactly for configured keys |
| CustomButton.Default | blocks/custom-button/custom-button.js:4-13 | a configured key's value, else the default |
| CustomButton.Shown | blocks/custom-button/custom-button.js:22 | an undefined value renders as 'undefined' |
| CustomButton.Build | blocks/custom-button/custom-button.js:3-60 | style 'primary' and target '_self' by default; the title falls back to the text; a label span appears only with a label and precedes the text span |
| CustomButton.HrefByType | blocks/custom-button/custom-button.js:26-40 | href is 'tel:' or 'mailto:' plus the content, or the content itself |
| CustomButton.EmptyConfig | blocks/custom-button/custom-button.js:5-13 | an empty configuration gives a primary '_self' link whose href and title read 'undefined' and whose only span is an empty text span |
| Accordion.SingleOpen | blocks/accordion/accordion.js:10 | single-open unless the attribute is exactly 'false' |
| Accordion.InitiallyOpen | blocks/accordion/accordion.js:22-23 | an item starts open exactly when its last cell's trimmed text is 'true' |
| Accordion.Build | blocks/accordion/accordion.js:12-52 | one state per item from its last cell, with panels hidden exactly when collapsed |
| Accordion.Click | blocks/accordion/accordion.js:77-99 | a click toggles the clicked item and keeps panels consistent |
| Accordion.SingleOpenLeavesOne | blocks/accordion/accordion.js:80-91 | opening in single-open mode leaves exactly the clicked item open |
| Accordion.OtherwiseOnlyClicked | blocks/accordion/accordion.js:77-99 | closing, or any click in multi-open mode, changes only the clicked item |
| Accordion.MultiClickTwiceRestores | blocks/accordion/accordion.js:93-98 | in multi-open mode two clicks restore the state |
| Accordion.SingleOpenKeepsAtMostOne | blocks/accordion/accordion.js:77-99 | in single-open mode at most one item stays open |
| Carousel.PictureCount | blocks/carousel/carousel.js:210-211 | the picture rows are at least the strip slides |
| Carousel.PlaceFrom | blocks/carousel/carousel.js:111-127 | rows without a picture become content and take no slide index; the others are numbered in order |
| Carousel.Place | blocks/carousel/carousel.js:246-262 | each picture row's slide index is the number of strip slides before it |
| Carousel.StripIndicesIncrease | blocks/carousel/carousel.js:246-262 | slide indices increase strictly with row order |
| Carousel.Indicators | blocks/carousel/carousel.js:227-257 | indicators 0..n-1 exist only with controls, otherwise none |
| Carousel.ShowSlide | blocks/carousel/carousel.js:29-36 | a negative index becomes the last slide, an index past the end becomes 0, and others are kept |
| Carousel.PrevTarget | blocks/carousel/carousel.js:71-80 | the previous slide, wrapping from 0 to the last |
| Carousel.NextTarget | blocks/carousel/carousel.js:82-91 | the next slide, wrapping from the last to 0 |
| Carousel.Prev | blocks/carousel/carousel.js:71-80 | prev needs an observed active slide and shows the one before it |
| Carousel.Next | blocks/carousel/carousel.js:82-91 | next needs an observed active slide and shows the one after it |
| Carousel.NextThenPrevReturns | blocks/carousel/carousel.js:71-91 | once observed, next and then prev returns to the active slide |
| Carousel.NextTwiceBeforeObserver | blocks/carousel/carousel.js:82-91 | before the observer updates, a second next shows the same slide |
| Carousel.ShowIndicator | blocks/carousel/carousel.js:58-66 | an indicator click shows its slide and leaves the active slide |
| Carousel.Observe | blocks/carousel/carousel.js:93-108 | the observer records the active slide |
| Carousel.Activate | blocks/carousel/carousel.js:4-27 | activating slide i un-hides only slide i and disables only indicator i |
| Carousel.ActivateShowsOne | blocks/carousel/carousel.js:4-27 | after activation exactly one slide is visible when the index is in range |
| ContentImageTeaser.ConfigOf | blocks/content-image-teaser/content-image-teaser.js:23-37 | the configuration holds only listed field names |
| ContentImageTeaser.AlignClass | blocks/content-image-teaser/content-image-teaser.js:44-45 | 'align-' and the lower-cased alignment, default 'left', with no whitelist |
| ContentImageTeaser.CoralLineIgnoresCase | blocks/content-image-teaser/content-image-teaser.js:48-50 | the accent flag ignores letter case and is off when unset |
| ContentImageTeaser.Heading | blocks/content-image-teaser/content-image-teaser.js:97-99 | the heading is h2 to h6, and h2 without a title type |
| ContentImageTeaser.ImageOf | blocks/content-image-teaser/content-image-teaser.js:56-82 | the configured image, or the placeholder when none is configured |
| ContentImageTeaser.Cta | blocks/content-image-teaser/content-image-teaser.js:115-129 | a button exactly when a label is present, carrying that label |
| ContentImageTeaser.RowsGiveDefaultHeadingAndAlt | blocks/content-image-teaser/content-image-teaser.js:24-34 | a configuration read from rows always gives h2 and the fallback alt |
| ContentImageTeaser.UnlistedFields | blocks/content-image-teaser/content-image-teaser.js:24-34 | the field map has no title type and no image alt |
| EventTeasers.Configs | blocks/event-teasers/event-teasers.js:72-88 | one configuration per row |
| EventTeasers.CardOf | blocks/event-teasers/event-teasers.js:15-70 | category and title fall back to 'Event' and 'Untitled Event'; date, location and button appear exactly when set |
| EventTeasers.CardsPerPage | blocks/event-teasers/event-teasers.js:126-131 | 4 from 1200, 3 from 900, 2 from 600, and 1 below 600 |
| EventTeasers.CardsPerPageMonotone | blocks/event-teasers/event-teasers.js:126-131 | a wider window never shows fewer cards per page |
| EventTeasers.MaxPage | blocks/event-teasers/event-teasers.js:134 | the last page index is the ceiling of cards over page size minus one, and 0 without cards |
| EventTeasers.NewSlider | blocks/event-teasers/event-teasers.js:133 | a new slider starts on page 0 within bounds |
| EventTeasers.PrevPage | blocks/event-teasers/event-teasers.js:143-146 | prev moves back one page and stays at 0 |
| EventTeasers.NextPage | blocks/event-teasers/event-teasers.js:147-150 | next moves on one page and stays at the last |
| EventTeasers.NextThenPrev | blocks/event-teasers/event-teasers.js:143-150 | below the last page, next then prev returns |
| EventTeasers.SwipePages | blocks/event-teasers/event-teasers.js:157-167 | a swipe longer than 50 moves one page, leftward to the next, with the same clamping |
| EventTeasers.Resize | blocks/event-teasers/event-teasers.js:169-173 | a resize clamps the page to the new last page |
| EventTeasers.ButtonsDisabled | blocks/event-teasers/event-teasers.js:136-141 | prev is disabled exactly at page 0, next exactly at the last page |
| EventTeasers.OnePageDisablesBoth | blocks/event-teasers/event-teasers.js:136-141 | with a single page both buttons are disabled |
| FilterItem.NameRun | blocks/filter-item/filter-item.js:70-73 | the longest prefix of icon-name characters |
| FilterItem.ConvertPlain | blocks/filter-item/filter-item.js:70-73 | text without ':' is left unchanged |
| FilterItem.ConvertLeadingIcon | blocks/filter-item/filter-item.js:70-73 | a leading ':name:' becomes an icon span and the rest is converted on |
| FilterItem.TitleOr | blocks/filter-item/filter-item.js:76-91 | the non-empty taxonomy title, else the fallback |
| FilterItem.TagLabelShape | blocks/filter-item/filter-item.js:76-91 | a tag with exactly one '/' renders description, parent and child titles; any other renders its title or the trimmed tag |
| FilterItem.TagLabels | blocks/filter-item/filter-item.js:76-92 | one label per comma-separated tag, and none without the show-tags flag or tags |
| FilterItem.Target | blocks/filter-item/filter-item.js:113 | videos get no target; other items get one |
| FilterItem.HrefRestoresLink | blocks/filter-item/filter-item.js:98-110 | the href is the link with the first repository prefix removed |
| FilterItem.VideoUrl | blocks/filter-item/filter-item.js:114 | a video URL exists exactly for '.mp4' items |
| FilterItem.ItemOf | blocks/filter-item/filter-item.js:95 | bg-transparent is set exactly when the type text is '' |
| FilterItem.Render | blocks/filter-item/filter-item.js:94-136 | videos get '#' and no target; other items get '_blank', and a '.pdf' asset replaces the link |
| FramedGrid.Or | blocks/framed-grid/framed-grid.js:14 | a non-empty value, else the fallback |
| FramedGrid.BackgroundOf | blocks/framed-grid/framed-grid.js:8-17 | background from the image source else the link, alt from the image else cell 1, layout from cell 2 |
| FramedGrid.ItemOf | blocks/framed-grid/framed-grid.js:22-61 | cell 2's anchor, then its text, then any anchor give the link; non-empty cells override anchor-derived values |
| FramedGrid.Items | blocks/framed-grid/framed-grid.js:20-62 | only the six rows after the config row become items |
| FramedGrid.LayoutClass | blocks/framed-grid/framed-grid.js:67-68 | a layout class only for exactly 'half' or 'quarter' |
| FramedGrid.Render | blocks/framed-grid/framed-grid.js:74-125 | title, description and button only when non-empty; frames at positions 0, 2 and 4 only with a background |
| Gallery.AspectRatioClass | blocks/gallery/gallery.js:4-12 | the four known ratios become dashed classes and anything else becomes '16-9' |
| Gallery.YouTubeComId | blocks/gallery/gallery.js:16 | after `youtube.com/`, no id is found only when none of the `v/`, `embed/`, `e/` and `[?&]v=` alternatives is followed by 11 id characters; an `embed/` without an id falls through to the others |
| Gallery.YouTubeIdAt | blocks/gallery/gallery.js:16 | the pattern matches at a position exactly when `youtube.com/` leads to an id or `youtu.be/` is followed by 11 id characters |
| Gallery.YouTubeId | blocks/gallery/gallery.js:15-18 | the id is the capture of the leftmost position where the pattern matches; no id means it matches nowhere |
| Gallery.EmbedWithoutIdUsesQuery | blocks/gallery/gallery.js:15-20 | `https://www.youtube.com/embed/x?v=dQw4w9WgXcQ` becomes the embed URL of `dQw4w9WgXcQ` |
| Gallery.VimeoId | blocks/gallery/gallery.js:24-30 | an extracted id is the digits right after 'vimeo.com/', and none exists when no such digits follow |
| Gallery.EmbedSource | blocks/gallery/gallery.js:145-157 | YouTube and Vimeo links with an id become embed URLs, and anything else is returned unchanged |
| Gallery.Classify | blocks/gallery/gallery.js:446-460 | image before video before embed, others skipped |
| Gallery.ReadConfig | blocks/gallery/gallery.js:414-421 | the type defaults to 'grid' and the columns to '3' |
| Gallery.BlockClasses | blocks/gallery/gallery.js:424-471 | the block gets `gallery` and its type class; a column class follows exactly when there are items, one column for carousels |
| Gallery.NewCarousel | blocks/gallery/gallery.js:211-213 | a carousel starts at 0 and not moving |
| Gallery.GoTo | blocks/gallery/gallery.js:238-252 | no-op while moving or to the current index; otherwise the index becomes the target and a transition starts |
| Gallery.TransitionEnd | blocks/gallery/gallery.js:249-251 | the end of a transition clears the flag |
| Gallery.PrevIndex | blocks/gallery/gallery.js:254-257 | the previous index wraps from 0 to the last |
| Gallery.NextIndex | blocks/gallery/gallery.js:259-262 | the next index wraps from the last to 0 |
| Gallery.Prev | blocks/gallery/gallery.js:254-257 | prev is ignored during a transition and otherwise moves to the wrapped previous index |
| Gallery.Next | blocks/gallery/gallery.js:259-262 | next is ignored during a transition and otherwise moves to the wrapped next index |
| Gallery.KeyDown | blocks/gallery/gallery.js:369-390 | Home goes to 0, End to the last item, and other keys do nothing |
| Gallery.Swipe | blocks/gallery/gallery.js:264-275 | only a swipe longer than 50 acts: positive goes next, negative goes prev |
| Gallery.TransitionBlocksNavigation | blocks/gallery/gallery.js:238-275 | while a transition runs every navigation input is ignored |
| Gallery.NextThenPrevReturns | blocks/gallery/gallery.js:254-262 | next, the end of its transition, then prev returns to the start |
| Gallery.NavigationWraps | blocks/gallery/gallery.js:254-262 | next wraps the last to 0 and prev wraps 0 to the last |
| Gallery.ControlsOf | blocks/gallery/gallery.js:222-236 | prev is disabled exactly at 0, next exactly at the last, and exactly the current thumbnail is active |
| HeaderTeaser.HeadingTag | blocks/header-teaser/header-teaser.js:6-11 | the lower-cased level when it is h1 to h6 in any case, else 'h2' |
| HeaderTeaser.HeadingTagKeepsLowerLevel | blocks/header-teaser/header-teaser.js:6-11 | a lower-case level is used as is |
| HeaderTeaser.TitleHeading | blocks/header-teaser/header-teaser.js:214-218 | a heading exactly when a title is set, at the given level or h2 |
| HeaderTeaser.Cta | blocks/header-teaser/header-teaser.js:20-33 | a call to action only with both link and text; the type defaults to 'link' and is lower-cased; the link itself never reaches the anchor |
| HeaderTeaser.Ctas | blocks/header-teaser/header-teaser.js:227-250 | at most two calls to action, and the container is empty only when neither exists |
| HeaderTeaser.StyleTokens | blocks/header-teaser/header-teaser.js:107-109 | the tokens are the non-empty trimmed, lower-cased comma-separated pieces |
| HeaderTeaser.LowerTrimAll | blocks/header-teaser/header-teaser.js:109 | each piece trimmed, then lower-cased |
| HeaderTeaser.ApplyStyleTokens | blocks/header-teaser/header-teaser.js:107-136 | position tokens go to the content, the listed text tokens to textbox and media, and unknown tokens nowhere |
| HeaderTeaser.DesktopMedia | blocks/header-teaser/header-teaser.js:49-73 | a video only for type 'video' with a URL, otherwise a picture of the image or the placeholder |
| HeaderTeaser.MobileMedia | blocks/header-teaser/header-teaser.js:76-102 | no override for type 'same', the default; otherwise a video or a picture falling back to the desktop values |
| HeaderTeaser.EmptyConfigMedia | blocks/header-teaser/header-teaser.js:175-182 | with nothing authored the desktop placeholder shows and there is no mobile override |
| Teaser.SmartCrop | blocks/teaser/teaser.js:60-64 | one of the known crops, and '1-1' for a regular teaser |
| Teaser.SmartCropIsLastMatching | blocks/teaser/teaser.js:60-64 | the crop is that of the last matching rule in source order, 'original' when none matches |
| Teaser.ArticleClass | blocks/teaser/teaser.js:75-77 | the class string is the authored text with its commas removed |
| Teaser.ParentAfter | blocks/teaser/teaser.js:82-91 | without opacity options the background and opacity classes are removed from the parent |
| Teaser.TeaserType | blocks/teaser/teaser.js:94-96 | a non-empty result is a parent class ending in '-teaser' with no such class before it; '' only when no class ends in '-teaser' |
| Teaser.Tweaks | blocks/teaser/teaser.js:100-111 | the target defaults to '_self', three teaser types get the arrow and glass-effect gets 'primary' |
| Teaser.ShowImageCases | blocks/teaser/teaser.js:80-127 | the three cases of the image decision: inherited or own opacity in a grid, never outside one, and removed classes or own opacity without options |
| Teaser.ImageSlotOf | blocks/teaser/teaser.js:129-132 | the picture shows exactly when the image decision holds and an image exists |
| Seqs.Filter | blocks/article-feed/article-feed.js:122 | filtering keeps exactly the accepted elements, in order |
| Seqs.FilterIdempotent | blocks/article-feed/article-feed.js:122 | filtering twice is filtering once |
| Seqs.SortByKeySorted | blocks/teaser-list/teaser-list.js:81-85 | the sort orders by key |
| Seqs.SortByKeyStable | blocks/teaser-list/teaser-list.js:81-85 | the sort keeps the input order within a key |
| Seqs.FirstIndex | blocks/teaser-list/teaser-list.js:81-85 | the first position of an element, or -1 exactly when it is absent |

## Left out

- Building the document tree is not modelled. This covers innerHTML templates, CSS loading, `createOptimizedPicture`, `moveInstrumentation`, and focus/blur beyond a focused flag. Blocks are modelled through the records they compute.
- Timers and observers become explicit events. This covers gallery's transition end, carousel's intersection observer and the slider's resize.
- Pixel layout is not modelled: translateX, scroll widths and framed-grid frame positioning. These are floating-point rendering, not decision logic.
- Fetches are not modelled. Taxonomy, dictionary rows, the query index and the article index are inputs. This covers `fetchIndex`, `queryEntireIndex`, `getQueryIndex` and `getTaxonomy`.
- `mapPath`, URL resolution and `window.location` are function parameters. They depend on the browser's URL API.
- Letter case: `toLowerCase` folds only A–Z. Unicode case mapping is outside the model.
- The regex engine is not modelled. Every fixed regex is written as a character scanner. NiceSelect's search pattern is user text, so compiling it is a parameter, and a failed compile is `None`.
- JSON numbers, objects and non-string members are kept only as their kind. The persistence writes only arrays of strings. As a model choice, rehydrating an entry whose category is not a string, or whose list holds a non-string, leaves the selection unchanged. The source instead builds a Map with that numeric key or member: `[["c",[1]]]` and `[[1,["x"]]]` are two such inputs.
- Filters.CollectFacets: the facet map is a Dafny map of sets, which has no order. The source's Map and Set keep insertion order, which fixes the order of the dropdowns and of their options. That order is not stated; FilterWidgets.TagDropdown takes its option order as an input.
- Browser selectedness is an input. The value a native single select reports after attribute changes comes from the browser's selectedness algorithm.
- NiceTag is not part of this model. Its `nice-input` events are inputs to the type-tag handler.
- Prototype keys of plain objects are not modelled. Maps are Dafny maps, so keys such as `__proto__` are not special.
- `moveClassToTargetedChild`, `getBlockChildren` and `moveClassToChild` only move classes between elements.
- Swipe coordinates are integers. The browser reports them as floating point.
- gallery's `processImageItem`, `processVideoItem` and `processEmbedItem` are modelled only through the kind classification and the embed URL. The element attributes they set are not modelled.
- editor-support, plyr, commerce-teaser and event-teaser are not modelled. They are authoring I/O, a module loader, and cell reading with constant fallbacks.
- NiceSelect.DisplayText: the multiple-mode texts and count forms are stated by DisplayListReadsBack and DisplayCountReadsBack rather than in its own contract.
- NiceSelect.SetValue: modelled as failing when there are no options. The source throws a TypeError on `options[0]`.
- NiceSelect.Reset: does not keep the widget options unchanged. Its closing update() copies each native option's disabled and selected flags onto the first widget option with that value, so the contract states that copy (DisabledCopied).
- NiceSelect.SetValue: the same holds. Its closing update() refreshes the widget options, so they are stated through DisabledCopied rather than kept as they were.
- Carousel.Prev: modelled as failing before the observer has set the active slide. The source computes with NaN and throws.
- NiceSelect.Rebuild: its own contract states only the shape of the result; the content is stated by RebuildDistinct and RebuildNone.
- NiceText.SetValue: value sanitisation is modelled for the text-like input types only, which drop line breaks. The email and url types also trim white space, and the number, date and colour types reject malformed values; for those types the model stores the value as given.
- ArticleFeed.NormalizePath: its own contract covers only the empty path; the shape of a non-empty path's result is stated by NormalizePathShape.
- ArticleFeed.ParseSelectedTags: its contract does not describe the order of the tags or which pieces were dropped as blank; case keeping is stated by ParseSelectedTagsKeepsCase.
- TeaserList.ButtonLabel: its own contract covers only the authored label; the dictionary and default cases are the two lemmas that follow it.
- Gallery.BlockClasses: the classes are returned in the order they are added; `classList` drops a repeated token, and a gallery type or column count containing white space makes `classList.add` throw, which is not modelled.
- Button.Render: an authored class name containing white space makes `classList.add` throw (components/button/button.js:75); the model adds it as one token.
- Button.RenderClasses: as for Button.Render, a white-space class name is kept as one token instead of throwing.
- FramedGrid.Render: a derived class containing white space makes `classList.add` throw (blocks/framed-grid/framed-grid.js:109); the model adds it as one token.
- ContentImageTeaser.AlignClass: an alignment text containing white space makes `classList.add` throw (blocks/content-image-teaser/content-image-teaser.js:45); the model returns the class.
- TeaserList.SelectPages: the page list is taken to be the array of query-index entries. The source calls `filter` on what `getQueryIndex` returns, which is the whole index body, while article-feed reads its entries from `.data`; with an index body that is an object, the source's call would throw.
- Accordion.Click: one accordion per page is assumed. Panel ids `accordion-sect-<index>` restart at 0 in every accordion block, and in single-open mode the other items' panels are found with `getElementById`, which returns the first element with the id. With two accordions on a page, opening an item in the second can hide panels of the first and leave its own siblings' panels shown.
- Gallery.YouTubeComId: when no id is found, the contract does not restate that the first alternative (`[^/]+/.+/` before the id) failed too.

=== FILE: accordion.dfy ===
/** The accordion block: which items start open and what a click on an
    item's trigger does in single-open and multi-open mode. */
module Accordion {
  import opened Wrappers
  import opened Text

  /** Single-open mode is on unless the block's `data-single-open`
      attribute is exactly "false" (a missing attribute leaves it on). */
  function SingleOpen(attribute: Option<string>): (r: bool)
    ensures !r <==> attribute == Some("false")
  {
    attribute != Some("false")
  }

  /** An item starts open exactly when the row has a last cell whose trimmed
      text is "true". */
  function InitiallyOpen(lastCell: Option<string>): (r: bool)
    ensures r <==> lastCell.Some? && Trim(lastCell.value) == "true"
  {
    match lastCell
    case None => false
    case Some(t) => Trim(t) == "true"
  }

  /** The items' expanded flags and their panels' hidden flags. */
  datatype State = State(single: bool, expanded: seq<bool>, hidden: seq<bool>)

  /** Every panel is hidden exactly when its item is collapsed. */
  predicate Consistent(s: State) {
    |s.expanded| == |s.hidden| && forall i :: 0 <= i < |s.expanded| ==> s.hidden[i] == !s.expanded[i]
  }

  /** The state the block builds from its rows' last cells. */
  function Build(attribute: Option<string>, lastCells: seq<Option<string>>): (s: State)
    ensures Consistent(s) && s.single == SingleOpen(attribute) && |s.expanded| == |lastCells|
    ensures forall i :: 0 <= i < |lastCells| ==> (s.expanded[i] <==> InitiallyOpen(lastCells[i]))
  {
    State(SingleOpen(attribute),
          seq(|lastCells|, i requires 0 <= i < |lastCells| => InitiallyOpen(lastCells[i])),
          seq(|lastCells|, i requires 0 <= i < |lastCells| => !InitiallyOpen(lastCells[i])))
  }

  /** A click on item `i`'s trigger. When opening in single-open mode every
      other item is collapsed first; then item `i` and its panel toggle. */
  function Click(s: State, i: nat): (r: State)
    requires Consistent(s) && i < |s.expanded|
    ensures Consistent(r) && r.single == s.single && |r.expanded| == |s.expanded|
    ensures r.expanded[i] == !s.expanded[i]
  {
    var opening := !s.expanded[i];
    var closeOthers := s.single && opening;
    var e := seq(|s.expanded|, j requires 0 <= j < |s.expanded| =>
               if j == i then opening else if closeOthers then false else s.expanded[j]);
    State(s.single, e, seq(|e|, j requires 0 <= j < |e| => !e[j]))
  }

  /** Opening an item in single-open mode leaves it the only open one. */
  lemma SingleOpenLeavesOne(s: State, i: nat)
    requires Consistent(s) && i < |s.expanded| && s.single && !s.expanded[i]
    ensures forall j :: 0 <= j < |s.expanded| ==> (Click(s, i).expanded[j] <==> j == i)
  {
  }

  /** Closing an item, and any click in multi-open mode, changes that item
      alone. */
  lemma OtherwiseOnlyClicked(s: State, i: nat)
    requires Consistent(s) && i < |s.expanded| && (s.expanded[i] || !s.single)
    ensures forall j :: 0 <= j < |s.expanded| && j != i ==> Click(s, i).expanded[j] == s.expanded[j]
  {
  }

  /** Two clicks on the same item in multi-open mode restore the state. */
  lemma MultiClickTwiceRestores(s: State, i: nat)
    requires Consistent(s) && i < |s.expanded| && !s.single
    ensures Click(Click(s, i), i) == s
  {
    var r := Click(Click(s, i), i);
    assert r.expanded == s.expanded;
    assert r.hidden == s.hidden;
  }

  /** In single-open mode, once at most one item is open it stays so. */
  lemma SingleOpenKeepsAtMostOne(s: State, i: nat)
    requires Consistent(s) && i < |s.expanded| && s.single
    requires forall j, k :: 0 <= j < k < |s.expanded| ==> !(s.expanded[j] && s.expanded[k])
    ensures forall j, k :: 0 <= j < k < |s.expanded| ==> !(Click(s, i).expanded[j] && Click(s, i).expanded[k])
  {
  }
}

=== FILE: article_feed.dfy ===
/** The article-feed block: which query-index articles a feed lists, by
    parent page, by an explicit list of pages, or by tag. */
module ArticleFeed {
  import opened Wrappers
  import opened Text
  import opened Seqs

  // ---------------------------------------------------------------- paths

  /** `s` ends with `suffix`, compared case-insensitively (`suffix` is lower case). */
  predicate EndsWithLower(s: string, suffix: string) {
    |s| >= |suffix| && forall k :: 0 <= k < |suffix| ==> LowerChar(s[|s| - |suffix| + k]) == suffix[k]
  }

  const HtmlEndings: set<string> := {".html", "html", ".htm", "htm"}

  /** `p` ends with none of the html endings, in any letter case. */
  predicate NoHtmlEnding(p: string) {
    forall e :: e in HtmlEndings ==> !EndsWithLower(p, e)
  }

  /** No html ending that `p` ends with is longer than `r`. */
  predicate LongestHtmlEnding(p: string, r: string) {
    forall e :: e in HtmlEndings && EndsWithLower(p, e) ==> |e| <= |r|
  }

  /** The ending the pattern `\.?html?$` (case-insensitive) matches, "" when
      none; the leftmost match is the longest such ending. */
  function HtmlEnding(p: string): (r: string)
    ensures r == "" || (r in HtmlEndings && EndsWithLower(p, r))
    ensures r == "" <==> NoHtmlEnding(p)
    ensures LongestHtmlEnding(p, r)
  {
    if EndsWithLower(p, ".html") then ".html"
    else if EndsWithLower(p, "html") then "html"
    else if EndsWithLower(p, ".htm") then ".htm"
    else if EndsWithLower(p, "htm") then "htm"
    else ""
  }

  /** `normalizePath`: '' for a missing path; otherwise trimmed, without an
      `.html`/`html`/`.htm`/`htm` ending, and without one trailing '/' when
      longer than one character. */
  function NormalizePath(path: string): (r: string)
    ensures path == "" ==> r == ""
  {
    if path == "" then ""
    else
      var p := Trim(path);
      var q := p[..|p| - |HtmlEnding(p)|];
      if |q| > 1 && q[|q| - 1] == '/' then q[..|q| - 1] else q
  }

  /** The normalised path is the trimmed path with its longest html ending
      (in any letter case) cut off, and then one '/' cut off exactly when
      what remains is longer than one character and ends in '/'. */
  lemma NormalizePathShape(path: string)
    requires path != ""
    ensures var p := Trim(path); var cut := |p| - |HtmlEnding(p)|;
      var slash := if cut > 1 && p[cut - 1] == '/' then "/" else "";
      0 <= cut <= |p| && ToLower(p[cut..]) == HtmlEnding(p)
      && p == NormalizePath(path) + slash + p[cut..]
  {
    var p := Trim(path);
    var suf := HtmlEnding(p);
    var cut := |p| - |suf|;
    var q := p[..cut];
    var tail := p[cut..];
    assert p == q + tail;
    if suf != "" {
      LowerTail(p, suf);
    }
    var r := NormalizePath(path);
    var slash: string := if cut > 1 && p[cut - 1] == '/' then "/" else "";
    assert q == r + slash by {
      if slash == "/" {
        assert q == q[..|q| - 1] + [q[|q| - 1]];
      }
    }
    assert p == r + slash + tail;
  }

  /** A suffix matched in any letter case lower-cases to the pattern. */
  lemma LowerTail(p: string, suf: string)
    requires EndsWithLower(p, suf)
    ensures ToLower(p[|p| - |suf|..]) == suf
  {
    var tail := p[|p| - |suf|..];
    assert forall k :: 0 <= k < |suf| ==> ToLower(tail)[k] == LowerChar(p[|p| - |suf| + k]);
  }

  /** `NormalizePath` of an already trimmed path, for the examples below. */
  lemma NormalizeTrimmed(p: string)
    requires p != "" && Trim(p) == p
    ensures var cut := |p| - |HtmlEnding(p)|;
      NormalizePath(p) == if cut > 1 && p[cut - 1] == '/' then p[..cut - 1] else p[..cut]
  {
  }

  /** "a/html/" is trimmed and has no html ending (it ends in '/'). */
  lemma FirstStepInput()
    ensures Trim("a/html/") == "a/html/" && HtmlEnding("a/html/") == ""
  {
    var p := "a/html/";
    assert !IsSpace(p[0]) && !IsSpace(p[|p| - 1]);
    TrimOfTrimmed(p);
    assert !EndsWithLower(p, ".html") by { assert LowerChar(p[|p| - 5 + 4]) != ".html"[4]; }
    assert !EndsWithLower(p, "html") by { assert LowerChar(p[|p| - 4 + 3]) != "html"[3]; }
    assert !EndsWithLower(p, ".htm") by { assert LowerChar(p[|p| - 4 + 3]) != ".htm"[3]; }
    assert !EndsWithLower(p, "htm") by { assert LowerChar(p[|p| - 3 + 2]) != "htm"[2]; }
  }

  lemma NormalizeFirstStep()
    ensures NormalizePath("a/html/") == "a/html"
  {
    var p := "a/html/";
    FirstStepInput();
    NormalizeTrimmed(p);
    assert p[..|p| - 1] == "a/html";
  }

  /** "a/html" is trimmed and its html ending is "html". */
  lemma SecondStepInput()
    ensures Trim("a/html") == "a/html" && HtmlEnding("a/html") == "html"
  {
    var q := "a/html";
    assert !IsSpace(q[0]) && !IsSpace(q[|q| - 1]);
    TrimOfTrimmed(q);
    assert !EndsWithLower(q, ".html") by { assert LowerChar(q[|q| - 5]) != ".html"[0]; }
    assert EndsWithLower(q, "html") by {
      assert forall k :: 0 <= k < 4 ==> q[|q| - 4 + k] == "html"[k];
    }
  }

  lemma NormalizeSecondStep()
    ensures NormalizePath("a/html") == "a"
  {
    var q := "a/html";
    SecondStepInput();
    NormalizeTrimmed(q);
    assert q[..2] == "a/" && q[..1] == "a";
  }

  /** Normalising twice can cut further: the function is not idempotent. */
  lemma NormalizePathNotIdempotent()
    ensures NormalizePath("a/html/") == "a/html"
    ensures NormalizePath(NormalizePath("a/html/")) == "a"
  {
    NormalizeFirstStep();
    NormalizeSecondStep();
  }

  // ---------------------------------------------------------------- tags

  predicate IsListSep(c: char) { c == ',' || c == ';' || c == '\n' }

  /** `parseSelectedTags`: split on ',', ';' or a line feed, trimmed, empties
      dropped. Letters keep their case. */
  function ParseSelectedTags(raw: string): (r: seq<string>)
    ensures forall k :: 0 <= k < |r| ==> r[k] != "" && IsTrimmed(r[k])
    ensures forall k, j :: 0 <= k < |r| && 0 <= j < |r[k]| ==> !IsListSep(r[k][j])
    ensures (forall j :: 0 <= j < |raw| ==> !IsListSep(raw[j])) && Trim(raw) != "" ==> r == [Trim(raw)]
  {
    var parts := SplitWhen(raw, IsListSep);
    SplitPiecesFree(raw, IsListSep);
    SplitWhenNoSep(raw, IsListSep);
    TrimmedPieces(parts);
    NonEmpty(TrimAll(parts))
  }

  /** Trimming a piece free of separators leaves a trimmed piece free of
      separators. */
  lemma TrimmedPiece(p: string)
    requires NoSepIn(p, IsListSep)
    ensures IsTrimmed(Trim(p)) && NoSepIn(Trim(p), IsListSep)
  {
    var t := Trim(p);
    TrimShape(p);
    var i := LeadingSpace(p);
    forall j | 0 <= j < |t| ensures !IsListSep(t[j]) {
      assert t[j] == p[i + j];
    }
  }

  lemma TrimmedPieces(parts: seq<string>)
    requires forall k :: 0 <= k < |parts| ==> NoSepIn(parts[k], IsListSep)
    ensures forall k :: 0 <= k < |parts| ==> IsTrimmed(TrimAll(parts)[k])
    ensures forall k :: 0 <= k < |parts| ==> NoSepIn(TrimAll(parts)[k], IsListSep)
  {
    forall k | 0 <= k < |parts|
      ensures IsTrimmed(TrimAll(parts)[k]) && NoSepIn(TrimAll(parts)[k], IsListSep)
    {
      TrimmedPiece(parts[k]);
    }
  }

  /** Upper case survives: every parsed tag occurs, letter for letter, in
      the setting's text. */
  lemma ParseSelectedTagsKeepsCase(raw: string)
    ensures forall k :: 0 <= k < |ParseSelectedTags(raw)| ==> OccursIn(raw, ParseSelectedTags(raw)[k])
  {
    var parts := SplitWhen(raw, IsListSep);
    var trimmed := TrimAll(parts);
    SplitPiecesOccur(raw, IsListSep);
    forall m | 0 <= m < |trimmed| ensures OccursIn(raw, trimmed[m]) {
      TrimInside(raw, parts[m]);
    }
    var r := ParseSelectedTags(raw);
    assert r == NonEmpty(trimmed);
    forall k | 0 <= k < |r| ensures OccursIn(raw, r[k]) {
      var m :| 0 <= m < |trimmed| && trimmed[m] == r[k];
    }
  }

  /** The trimmed text of a piece that occurs in `raw` occurs in `raw` too. */
  lemma TrimInside(raw: string, piece: string)
    requires OccursIn(raw, piece)
    ensures OccursIn(raw, Trim(piece))
  {
    var i :| OccursAt(raw, piece, i);
    var t := Trim(piece);
    TrimShape(piece);
    var l := LeadingSpace(piece);
    assert OccursAt(piece, t, l);
    OccursAtTrans(raw, piece, t, i, l);
  }

  /** A single upper-case letter is kept as it is. */
  lemma ParseSelectedTagsUpper()
    ensures ParseSelectedTags("A") == ["A"]
  {
    assert NoSepIn("A", IsListSep);
    assert Trim("A") == "A" by {
      assert !IsSpace('A');
      TrimOfTrimmed("A");
    }
  }

  /** Characters a slug keeps: `[a-z0-9]`. */
  predicate IsSlugChar(c: char) { 'a' <= c <= 'z' || '0' <= c <= '9' }

  /** The text after the last `c` (all of it when there is none). */
  function AfterLast(s: string, c: char): (r: string)
    ensures c !in r
    ensures c !in s ==> r == s
  {
    s[LastIndexOf(s, c) + 1..]
  }

  function DropNonSlug(s: string): (r: string)
    ensures |r| <= |s|
    ensures |r| > 0 ==> IsSlugChar(r[0])
    ensures (|s| == 0 || IsSlugChar(s[0])) ==> r == s
    decreases |s|
  {
    if |s| > 0 && !IsSlugChar(s[0]) then DropNonSlug(s[1..]) else s
  }

  /** Each maximal run of characters outside `[a-z0-9]` becomes one '-'. */
  function Collapse(s: string): (r: string)
    ensures forall i :: 0 <= i < |r| ==> IsSlugChar(r[i]) || r[i] == '-'
    ensures forall i :: 0 <= i < |r| - 1 ==> !(r[i] == '-' && r[i + 1] == '-')
    ensures |r| > 0 && r[0] == '-' ==> |s| > 0 && !IsSlugChar(s[0])
    ensures |s| > 0 && IsSlugChar(s[0]) ==> |r| > 0 && r[0] == s[0]
    decreases |s|
  {
    if |s| == 0 then ""
    else if IsSlugChar(s[0]) then [s[0]] + Collapse(s[1..])
    else
      var rest := Collapse(DropNonSlug(s[1..]));
      "-" + rest
  }

  /** Removes one leading and one trailing '-'. */
  function StripEdges(s: string): (r: string)
    ensures |r| <= |s|
  {
    var a := if |s| > 0 && s[0] == '-' then s[1..] else s;
    if |a| > 0 && a[|a| - 1] == '-' then a[..|a| - 1] else a
  }

  lemma StripEdgesSlug(c: string)
    requires forall i :: 0 <= i < |c| ==> IsSlugChar(c[i]) || c[i] == '-'
    requires forall i :: 0 <= i < |c| - 1 ==> !(c[i] == '-' && c[i + 1] == '-')
    ensures IsSlug(StripEdges(c))
  {
    var a := if |c| > 0 && c[0] == '-' then c[1..] else c;
    var d := |c| - |a|;
    assert forall i :: 0 <= i < |a| ==> a[i] == c[i + d];
    assert d == 1 ==> c[0] == '-';
    assert |a| > 0 ==> a[0] != '-';
    var r := StripEdges(c);
    assert forall i :: 0 <= i < |r| ==> r[i] == a[i];
  }

  /** The shape of a comparable slug: `[a-z0-9-]` only, no dash at either
      end, no two dashes in a row. */
  predicate IsSlug(s: string) {
    (forall i :: 0 <= i < |s| ==> IsSlugChar(s[i]) || s[i] == '-')
    && (|s| > 0 ==> s[0] != '-' && s[|s| - 1] != '-')
    && (forall i :: 0 <= i < |s| - 1 ==> !(s[i] == '-' && s[i + 1] == '-'))
  }

  /** The part of a token that names the tag: lower-cased and trimmed, then
      the text after its last '/', then the text after its last ':'. */
  function TagSegment(token: string): (r: string)
    ensures '/' !in r && ':' !in r
  {
    AfterLast(AfterLast(Trim(ToLower(token)), '/'), ':')
  }

  /** `normalizeTagToken`: the tag segment, slugified. */
  function NormalizeTagToken(token: string): (r: string)
    ensures IsSlug(r)
  {
    StripEdgesSlug(Collapse(TagSegment(token)));
    StripEdges(Collapse(TagSegment(token)))
  }

  lemma {:induction false} CollapseOfSlug(s: string)
    requires forall i :: 0 <= i < |s| ==> IsSlugChar(s[i]) || s[i] == '-'
    requires forall i :: 0 <= i < |s| - 1 ==> !(s[i] == '-' && s[i + 1] == '-')
    ensures Collapse(s) == s
    decreases |s|
  {
    if |s| > 0 {
      var t := s[1..];
      assert forall i :: 0 <= i < |t| ==> t[i] == s[i + 1];
      CollapseOfSlug(t);
      if !IsSlugChar(s[0]) {
        assert |t| == 0 || IsSlugChar(t[0]);
        assert DropNonSlug(t) == t;
      }
    }
  }

  lemma SlugLowerTrimmed(r: string)
    requires IsSlug(r)
    ensures Trim(ToLower(r)) == r
  {
    assert forall i :: 0 <= i < |r| ==> LowerChar(r[i]) == r[i];
    assert ToLower(r) == r;
    if |r| > 0 {
      assert !IsSpace(r[0]) && !IsSpace(r[|r| - 1]);
    }
    TrimOfTrimmed(r);
  }

  lemma StripEdgesOfSlug(r: string)
    requires IsSlug(r)
    ensures StripEdges(r) == r
  {
  }

  lemma TagSegmentOfSlug(r: string)
    requires IsSlug(r)
    ensures TagSegment(r) == r
  {
    SlugLowerTrimmed(r);
    assert forall i :: 0 <= i < |r| ==> r[i] != '/' && r[i] != ':';
  }

  /** A slug is its own normal form. */
  lemma SlugIsFixed(r: string)
    requires IsSlug(r)
    ensures NormalizeTagToken(r) == r
  {
    TagSegmentOfSlug(r);
    CollapseOfSlug(r);
    StripEdgesOfSlug(r);
  }

  /** Normalising a token twice gives the same slug as normalising it once. */
  lemma NormalizeTagTokenIdempotent(token: string)
    ensures NormalizeTagToken(NormalizeTagToken(token)) == NormalizeTagToken(token)
  {
    SlugIsFixed(NormalizeTagToken(token));
  }

  // ---------------------------------------------------------------- inclusion

  /** An article's `tags` field: missing, a text, or an array. */
  datatype ArticleTags = NoTags | TagText(text: string) | TagList(items: seq<string>)

  datatype Article = Article(path: string, title: string, tags: ArticleTags)

  /** The authored configuration: type text, parent link, page links, tag text. */
  datatype FeedConfig = FeedConfig(feedType: string, parentHref: string, links: seq<string>, rawTags: string)

  predicate IsTagSep(c: char) { c == ',' || c == ';' || IsSpace(c) }

  function NormalizeAll(tokens: seq<string>): (r: seq<string>)
    ensures |r| == |tokens|
    ensures forall i :: 0 <= i < |r| ==> IsSlug(r[i])
  {
    seq(|tokens|, i requires 0 <= i < |tokens| => NormalizeTagToken(tokens[i]))
  }

  /** `tokens.map(normalizeTagToken).filter(Boolean)`: the non-empty slugs. */
  function SlugsOf(tokens: seq<string>): (r: seq<string>)
    ensures forall k :: 0 <= k < |r| ==> r[k] != "" && IsSlug(r[k])
  {
    NonEmpty(NormalizeAll(tokens))
  }

  /** Every token that normalises to something non-empty gives a slug. */
  lemma SlugsOfKeeps(tokens: seq<string>, i: int)
    requires 0 <= i < |tokens| && NormalizeTagToken(tokens[i]) != ""
    ensures NormalizeTagToken(tokens[i]) in SlugsOf(tokens)
  {
    assert NormalizeAll(tokens)[i] == NormalizeTagToken(tokens[i]);
    NonEmptyKeeps(NormalizeAll(tokens), NormalizeTagToken(tokens[i]));
  }

  /** The raw tags of an article: a text is split at separators (the empty
      pieces a run of separators leaves normalise to nothing and are dropped). */
  function RawArticleTags(tags: ArticleTags): seq<string> {
    match tags
    case NoTags => []
    case TagText(t) => if t == "" then [] else SplitWhen(t, IsTagSep)
    case TagList(xs) => xs
  }

  function ArticleSlugs(tags: ArticleTags): seq<string> {
    SlugsOf(RawArticleTags(tags))
  }

  function SelectedSlugs(cfg: FeedConfig): seq<string> {
    SlugsOf(ParseSelectedTags(cfg.rawTags))
  }

  function IndividualPaths(cfg: FeedConfig): set<string> {
    set k | 0 <= k < |cfg.links| && cfg.links[k] != "" :: NormalizePath(cfg.links[k])
  }

  function ParentPath(cfg: FeedConfig): string {
    NormalizePath(cfg.parentHref)
  }

  /** The exclusions every mode applies: index pages, navigation, footer. */
  predicate Excluded(a: Article) {
    Contains(a.title, "Index") || Contains(NormalizePath(a.path), "/nav") || Contains(NormalizePath(a.path), "/footer")
  }

  predicate SharesSlug(cfg: FeedConfig, a: Article) {
    exists k :: 0 <= k < |SelectedSlugs(cfg)| && SelectedSlugs(cfg)[k] in ArticleSlugs(a.tags)
  }

  /** `shouldInclude`. An empty type text means `parent_page`. */
  predicate ShouldInclude(cfg: FeedConfig, a: Article) {
    var p := NormalizePath(a.path);
    if Excluded(a) then false
    else if cfg.feedType == "individual_pages" then p in IndividualPaths(cfg)
    else if cfg.feedType == "tag" then
      SharesSlug(cfg, a) && (ParentPath(cfg) != "" ==> StartsWith(p, ParentPath(cfg)) && p != ParentPath(cfg))
    else ParentPath(cfg) != "" && p == ParentPath(cfg)
  }

  /** The articles of the feed: the included ones, in index order. */
  function Feed(cfg: FeedConfig, articles: seq<Article>): (r: seq<Article>)
    ensures forall a :: a in r <==> a in articles && ShouldInclude(cfg, a)
    ensures SubsequenceOf(r, articles)
  {
    Filter(articles, a => ShouldInclude(cfg, a))
  }

  /** Whatever the mode, index pages, navigation and footer are never listed. */
  lemma ExclusionsInEveryMode(cfg: FeedConfig, a: Article)
    requires Contains(a.title, "Index") || Contains(NormalizePath(a.path), "/nav") || Contains(NormalizePath(a.path), "/footer")
    ensures !ShouldInclude(cfg, a)
  {
  }

  /** Parent mode, the default for any type text it does not know, lists only
      the parent page itself, and nothing when no parent is set. */
  lemma ParentModeListsOnlyParent(cfg: FeedConfig, a: Article)
    requires cfg.feedType != "individual_pages" && cfg.feedType != "tag"
    ensures ShouldInclude(cfg, a) ==> ParentPath(cfg) != "" && NormalizePath(a.path) == ParentPath(cfg)
    ensures ParentPath(cfg) == "" ==> !ShouldInclude(cfg, a)
  {
  }

  /** Tag mode needs a shared slug, and below a set parent, a strict
      descendant path. */
  lemma TagModeNeedsSlugAndDescendant(cfg: FeedConfig, a: Article)
    requires cfg.feedType == "tag" && ShouldInclude(cfg, a)
    ensures |SelectedSlugs(cfg)| > 0 && |ArticleSlugs(a.tags)| > 0
    ensures ParentPath(cfg) != "" ==> StartsWith(NormalizePath(a.path), ParentPath(cfg)) && NormalizePath(a.path) != ParentPath(cfg)
  {
  }

  /** A tag feed and a parent feed over the same settings never list the same
      article: below a set parent the tag feed skips the parent page itself,
      and without a parent the parent feed is empty. */
  lemma TagFeedAvoidsParentFeed(cfg: FeedConfig, articles: seq<Article>)
    requires cfg.feedType == "tag"
    ensures forall a :: a in Feed(cfg, articles) ==> a !in Feed(cfg.(feedType := "parent_page"), articles)
  {
  }
}

=== FILE: block_helpers.dfy ===
/** The shared block helpers: class-name joining, the attribute rule of
    `createTag`, the language dictionary, and the country/language codes of a
    page path. */
module BlockHelpers {
  import opened Wrappers
  import opened Text

  // ---------------------------------------------------------------- cx

  /** `cx(...classes)`: the truthy arguments joined by single spaces. Every
      falsy argument is represented by "". */
  function Cx(classes: seq<string>): (r: string)
    ensures r == "" <==> forall k :: 0 <= k < |classes| ==> classes[k] == ""
  {
    var kept := NonEmpty(classes);
    assert |kept| > 0 ==> |kept[0]| > 0 && |Join(kept, " ")| >= |kept[0]|;
    assert (exists k :: 0 <= k < |classes| && classes[k] != "") ==> |kept| > 0 by {
      if k :| 0 <= k < |classes| && classes[k] != "" {
        assert classes[k] in classes;
        NonEmptyKeeps(classes, classes[k]);
      }
    }
    Join(kept, " ")
  }

  /** Splitting the class string at spaces gives back exactly the truthy
      arguments, in order, when no argument holds a space itself. */
  lemma CxReadsBack(classes: seq<string>)
    requires forall k :: 0 <= k < |classes| ==> ' ' !in classes[k]
    requires exists k :: 0 <= k < |classes| && classes[k] != ""
    ensures Split(Cx(classes), ' ') == NonEmpty(classes)
  {
    var kept := NonEmpty(classes);
    var k :| 0 <= k < |classes| && classes[k] != "";
    assert classes[k] in classes;
    NonEmptyKeeps(classes, classes[k]);
    forall j | 0 <= j < |kept| ensures ' ' !in kept[j] {
      var i :| 0 <= i < |classes| && classes[i] == kept[j];
    }
    SplitJoin(kept, ' ');
  }

  // ---------------------------------------------------------------- createTag

  /** The attribute values `createTag` distinguishes. */
  datatype AttrValue = AttrTrue | AttrFalse | AttrNull | AttrText(text: string)

  /** The text `createTag` writes for one value, if it writes any. */
  function AttrWritten(v: AttrValue): (r: Option<string>)
    ensures r.None? <==> v == AttrFalse || v == AttrNull || v == AttrText("")
  {
    match v
    case AttrTrue => Some("")
    case AttrText(t) => if t == "" then None else Some(t)
    case _ => None
  }

  /** The attributes of the element `createTag` builds. */
  function CreateTagAttributes(attributes: map<string, AttrValue>): (r: map<string, string>)
    ensures forall k :: k in r <==> k in attributes && AttrWritten(attributes[k]).Some?
    ensures forall k :: k in r ==> r[k] == AttrWritten(attributes[k]).value
  {
    map k | k in attributes && AttrWritten(attributes[k]).Some? :: AttrWritten(attributes[k]).value
  }

  /** A flag given as a boolean is present on the element exactly when it
      is true, and then it is empty; a non-empty text is written as given. */
  lemma CreateTagFlags(attributes: map<string, AttrValue>, k: string)
    requires k in attributes
    ensures attributes[k] == AttrTrue ==> k in CreateTagAttributes(attributes) && CreateTagAttributes(attributes)[k] == ""
    ensures attributes[k] == AttrFalse ==> k !in CreateTagAttributes(attributes)
    ensures attributes[k].AttrText? && attributes[k].text != "" ==>
      k in CreateTagAttributes(attributes) && CreateTagAttributes(attributes)[k] == attributes[k].text
  {
  }

  // ---------------------------------------------------------------- dictionary

  /** One dictionary row: its `key` column and its language columns. */
  datatype DictRow = DictRow(key: string, columns: map<string, string>)

  /** The page language, lower-cased, or "en-us" when unset. */
  function DocumentLanguage(lang: string): (r: string)
    ensures r != "" && IsLower(r)
    ensures ToLower(lang) == "" ==> r == "en-us"
    ensures ToLower(lang) != "" ==> r == ToLower(lang)
  {
    if ToLower(lang) == "" then "en-us" else (ToLowerIsLower(lang); ToLower(lang))
  }

  /** The `[key, value]` pairs of the rows that have a column for `lang`, in
      row order. */
  function LanguagePairs(rows: seq<DictRow>, lang: string): (r: seq<(string, string)>)
    ensures |r| <= |rows|
    decreases |rows|
  {
    if |rows| == 0 then []
    else
      var head := if lang in rows[0].columns then [(rows[0].key, rows[0].columns[lang])] else [];
      head + LanguagePairs(rows[1..], lang)
  }

  /** The rows of one language, a reference for `LanguagePairs`. */
  function RowsWith(rows: seq<DictRow>, lang: string): (r: seq<DictRow>)
    ensures forall i :: 0 <= i < |r| ==> lang in r[i].columns && r[i] in rows
    ensures forall row :: row in rows && lang in row.columns ==> row in r
    decreases |rows|
  {
    if |rows| == 0 then []
    else
      var rest := RowsWith(rows[1..], lang);
      assert forall row :: row in rows <==> row == rows[0] || row in rows[1..];
      (if lang in rows[0].columns then [rows[0]] else []) + rest
  }

  /** The pairs are, in order, the key and the language's value of exactly the
      rows that have a column for the language. */
  lemma {:induction false} LanguagePairsOfRows(rows: seq<DictRow>, lang: string)
    ensures |LanguagePairs(rows, lang)| == |RowsWith(rows, lang)|
    ensures forall i :: 0 <= i < |LanguagePairs(rows, lang)| ==>
      LanguagePairs(rows, lang)[i] == (RowsWith(rows, lang)[i].key, RowsWith(rows, lang)[i].columns[lang])
    decreases |rows|
  {
    if |rows| > 0 {
      LanguagePairsOfRows(rows[1..], lang);
    }
  }

  /** A node of the nested dictionary: a value, or an object of further nodes. */
  datatype Node = Leaf(text: string) | Branch(children: map<string, Node>)

  /** Walking `path` from the object `m` meets a value (a string) while a
      further step is left, where the lookup `k in acc` throws. */
  predicate HitsValue(m: map<string, Node>, path: seq<string>)
    decreases |path|
  {
    |path| >= 2 && path[0] in m
    && match m[path[0]]
       case Leaf(_) => true
       case Branch(ch) => HitsValue(ch, path[1..])
  }

  /** Walks `path` from the object `m`, creating an empty object for each
      missing name. Looking a name up in a value (a string) throws, which is
      `None`; only a lookup that has a further step to take reaches that. */
  function EnsurePath(m: map<string, Node>, path: seq<string>): (r: Option<map<string, Node>>)
    ensures r.Some? ==> forall k :: k in m ==> k in r.value
    ensures r.Some? ==> forall k :: k in r.value && k !in m ==> |path| > 0 && k == path[0]
    ensures r.Some? ==> forall k :: k in m && m[k].Leaf? ==> r.value[k] == m[k]
    ensures r.Some? && |path| > 0 ==> path[0] in r.value
    ensures r.None? <==> HitsValue(m, path)
    decreases |path|
  {
    if |path| == 0 then Some(m)
    else
      var k := path[0];
      if k in m then
        match m[k]
        case Leaf(_) => if |path| > 1 then None else Some(m)
        case Branch(ch) =>
          match EnsurePath(ch, path[1..])
          case None => None
          case Some(ch1) => Some(m[k := Branch(ch1)])
      else
        match EnsurePath(map[], path[1..])
        case None => None
        case Some(ch1) => Some(m[k := Branch(ch1)])
  }

  /** The segments of a dictionary key. */
  function Segments(key: string): (r: seq<string>)
    ensures |r| >= 1
  {
    Split(key, '.')
  }

  function LastSegment(key: string): string {
    Segments(key)[|Segments(key)| - 1]
  }

  /** The segments before the last one: the objects the key walks through. */
  function Leading(key: string): seq<string> {
    Segments(key)[..|Segments(key)| - 1]
  }

  /** One step of the nesting: the leading segments become (empty) objects,
      and the value is written at the TOP level under the last segment. A key
      whose last segment is empty is skipped. */
  function Insert(m: map<string, Node>, key: string, value: string): (r: Option<map<string, Node>>)
    ensures LastSegment(key) == "" ==> r == Some(m)
    ensures r.Some? ==> forall k :: k in m ==> k in r.value
    ensures r.Some? && LastSegment(key) != "" ==>
      LastSegment(key) in r.value && r.value[LastSegment(key)] == Leaf(value)
    ensures r.Some? ==> forall k :: k in m && m[k].Leaf? && k != LastSegment(key) ==> r.value[k] == m[k]
    ensures r.None? <==> LastSegment(key) != "" && HitsValue(m, Leading(key))
  {
    var segs := Segments(key);
    var last := segs[|segs| - 1];
    if last == "" then Some(m)
    else
      match EnsurePath(m, segs[..|segs| - 1])
      case None => None
      case Some(m1) => Some(m1[last := Leaf(value)])
  }

  /** No pair after `i` writes to the name pair `i` writes to. */
  predicate LastWrite(pairs: seq<(string, string)>, i: nat)
    requires i < |pairs|
  {
    forall k :: i < k < |pairs| ==> LastSegment(pairs[k].0) != LastSegment(pairs[i].0)
  }

  /** The nested dictionary built from the pairs in order; `None` when the
      build throws. */
  function Nest(pairs: seq<(string, string)>): (r: Option<map<string, Node>>)
    ensures r.Some? ==> forall i :: 0 <= i < |pairs| && LastSegment(pairs[i].0) != "" ==> LastSegment(pairs[i].0) in r.value
    ensures r.Some? && |pairs| > 0 && LastSegment(pairs[|pairs| - 1].0) != "" ==>
      r.value[LastSegment(pairs[|pairs| - 1].0)] == Leaf(pairs[|pairs| - 1].1)
    decreases |pairs|
  {
    if |pairs| == 0 then Some(map[])
    else
      match Nest(pairs[..|pairs| - 1])
      case None => None
      case Some(m) => Insert(m, pairs[|pairs| - 1].0, pairs[|pairs| - 1].1)
  }

  /** Pair `i`, applied to the dictionary built from the pairs before it,
      walks into a value. */
  predicate ThrowsAt(pairs: seq<(string, string)>, i: nat)
    requires i < |pairs|
  {
    Nest(pairs[..i]).Some? && LastSegment(pairs[i].0) != ""
    && HitsValue(Nest(pairs[..i]).value, Leading(pairs[i].0))
  }

  /** The build throws exactly when some pair, applied to the dictionary built
      so far, walks into a value. */
  lemma {:induction false} NestNone(pairs: seq<(string, string)>)
    ensures Nest(pairs).None? <==> exists i :: 0 <= i < |pairs| && ThrowsAt(pairs, i)
    decreases |pairs|
  {
    if |pairs| > 0 {
      var n := |pairs|;
      var init := pairs[..n - 1];
      NestNone(init);
      assert pairs[..n - 1] == init;
      forall i | 0 <= i < n - 1
        ensures ThrowsAt(init, i) <==> ThrowsAt(pairs, i)
      {
        assert init[..i] == pairs[..i] && init[i] == pairs[i];
      }
      if Nest(init).None? {
        var i :| 0 <= i < n - 1 && ThrowsAt(init, i);
        assert ThrowsAt(pairs, i);
      } else if Nest(pairs).None? {
        assert ThrowsAt(pairs, n - 1);
      } else {
        forall i | 0 <= i < n
          ensures !ThrowsAt(pairs, i)
        {
          if i < n - 1 {
            assert !ThrowsAt(init, i);
          }
        }
      }
    }
  }

  /** A key that walks through a name already holding a value makes the build
      throw: `{a: x}` then `a.b.c`. */
  lemma NestWalksIntoValue(a: string, b: string, c: string, x: string, y: string)
    requires '.' !in a && '.' !in b && '.' !in c && a != "" && c != ""
    ensures Nest([(a, x), (a + "." + b + "." + c, y)]).None?
  {
    var key := a + "." + b + "." + c;
    var pairs := [(a, x), (key, y)];
    SplitFree(a, '.');
    ThreeSegments(a, b, c);
    assert Leading(key) == [a, b];
    assert [(a, x)][..0] == [];
    assert Nest([(a, x)]) == Insert(map[], a, x);
    assert pairs[..1] == [(a, x)];
    assert Nest([(a, x)]) == Some(map[a := Leaf(x)]);
  }

  /** `obj[last] = value` for every pair: each name holds the value of the LAST
      pair written to it. Leading segments never overwrite a value, since an
      existing name is only walked through. */
  lemma {:induction false} NestLastWriterWins(pairs: seq<(string, string)>, i: nat)
    requires i < |pairs| && LastSegment(pairs[i].0) != "" && LastWrite(pairs, i)
    requires Nest(pairs).Some?
    ensures LastSegment(pairs[i].0) in Nest(pairs).value
    ensures Nest(pairs).value[LastSegment(pairs[i].0)] == Leaf(pairs[i].1)
    decreases |pairs|
  {
    var n := |pairs|;
    var init := pairs[..n - 1];
    if i < n - 1 {
      assert LastWrite(init, i) by {
        forall k | i < k < |init| ensures LastSegment(init[k].0) != LastSegment(init[i].0) {
          assert init[k] == pairs[k];
        }
      }
      assert init[i] == pairs[i];
      NestLastWriterWins(init, i);
      assert LastSegment(pairs[n - 1].0) != LastSegment(pairs[i].0);
    }
  }

  /** No row of the language after `i` writes to the name row `i` writes to. */
  predicate RowLastWrite(w: seq<DictRow>, i: nat)
    requires i < |w|
  {
    forall k :: i < k < |w| ==> LastSegment(w[k].key) != LastSegment(w[i].key)
  }

  /** Every name that no later row of the language overwrites holds the value
      of the row that wrote it. */
  predicate LastWritesStored(w: seq<DictRow>, lang: string, m: map<string, Node>)
  {
    forall i :: 0 <= i < |w| && lang in w[i].columns && LastSegment(w[i].key) != "" && RowLastWrite(w, i) ==>
      LastSegment(w[i].key) in m && m[LastSegment(w[i].key)] == Leaf(w[i].columns[lang])
  }

  /** Over the rows of one language, the value under each name is that of the
      last row written to it. */
  lemma RowsLastWriterWins(rows: seq<DictRow>, lang: string)
    ensures var pairs := LanguagePairs(rows, lang);
      Nest(pairs).Some? ==> LastWritesStored(RowsWith(rows, lang), lang, Nest(pairs).value)
  {
    var pairs := LanguagePairs(rows, lang);
    var w := RowsWith(rows, lang);
    LanguagePairsOfRows(rows, lang);
    if Nest(pairs).Some? {
      forall i | 0 <= i < |w| && LastSegment(w[i].key) != "" && RowLastWrite(w, i)
        ensures LastSegment(w[i].key) in Nest(pairs).value
        ensures Nest(pairs).value[LastSegment(w[i].key)] == Leaf(w[i].columns[lang])
      {
        assert pairs[i] == (w[i].key, w[i].columns[lang]);
        assert LastWrite(pairs, i) by {
          forall k | i < k < |pairs| ensures LastSegment(pairs[k].0) != LastSegment(pairs[i].0) {
            assert pairs[k].0 == w[k].key;
          }
        }
        NestLastWriterWins(pairs, i);
      }
    }
  }

  /** `getDictionary` over given rows and a given page language. */
  function Dictionary(rows: seq<DictRow>, docLang: string): (r: Option<map<string, Node>>)
    ensures var lang := DocumentLanguage(docLang);
      (forall row :: row in rows ==> lang !in row.columns) ==> r == Some(map[])
    ensures var lang := DocumentLanguage(docLang);
      r.Some? ==> forall row :: row in rows && lang in row.columns && LastSegment(row.key) != "" ==>
        LastSegment(row.key) in r.value
    ensures var lang := DocumentLanguage(docLang); var w := RowsWith(rows, lang);
      r.Some? && |w| > 0 && LastSegment(w[|w| - 1].key) != "" ==>
        r.value[LastSegment(w[|w| - 1].key)] == Leaf(w[|w| - 1].columns[lang])
    ensures var lang := DocumentLanguage(docLang);
      r.Some? ==> LastWritesStored(RowsWith(rows, lang), lang, r.value)
    ensures var pairs := LanguagePairs(rows, DocumentLanguage(docLang));
      r.None? <==> exists i :: 0 <= i < |pairs| && ThrowsAt(pairs, i)
  {
    var lang := DocumentLanguage(docLang);
    var pairs := LanguagePairs(rows, lang);
    LanguagePairsOfRows(rows, lang);
    RowsLastWriterWins(rows, lang);
    NestNone(pairs);
    assert forall row :: row in rows && lang in row.columns ==>
      exists i :: 0 <= i < |pairs| && pairs[i].0 == row.key;
    Nest(pairs)
  }

  /** The value of a key lands at the top level under its last segment,
      wherever the key points. */
  lemma InsertStoresAtTop(m: map<string, Node>, key: string, value: string)
    requires LastSegment(key) != ""
    requires Insert(m, key, value).Some?
    ensures LastSegment(key) in Insert(m, key, value).value
    ensures Insert(m, key, value).value[LastSegment(key)] == Leaf(value)
  {
  }

  /** A key whose last segment is empty changes nothing. */
  lemma InsertSkipsEmptyLast(m: map<string, Node>, key: string, value: string)
    requires LastSegment(key) == ""
    ensures Insert(m, key, value) == Some(m)
  {
  }

  lemma SplitAB()
    ensures Segments("a.b") == ["a", "b"]
  {
    assert Split("", '.') == [""];
    SplitCons('b', "", '.');
    assert "b" == ['b'] + "";
    assert Split("b", '.') == ["b"];
    SplitCons('.', "b", '.');
    assert ".b" == ['.'] + "b";
    assert Split(".b", '.') == ["", "b"];
    SplitCons('a', ".b", '.');
    assert "a.b" == ['a'] + ".b";
    assert Split("a.b", '.') == [['a'] + ""] + ["b"];
    assert ['a'] + "" == "a";
    assert Segments("a.b") == Split("a.b", '.');
  }

  /** A key of three dot-free words has those words as its segments. */
  lemma ThreeSegments(a: string, b: string, c: string)
    requires '.' !in a && '.' !in b && '.' !in c
    ensures Segments(a + "." + b + "." + c) == [a, b, c]
  {
    SplitFree(c, '.');
    DotJoin(b, c, [c]);
    DotJoin(a, b + "." + c, [b, c]);
    assert a + "." + b + "." + c == a + "." + (b + "." + c);
  }

  /** A dot-free word, a dot and a rest split into the word and the rest's
      segments. */
  lemma DotJoin(a: string, rest: string, parts: seq<string>)
    requires '.' !in a && Split(rest, '.') == parts
    ensures Split(a + "." + rest, '.') == [a] + parts
  {
    SplitCons('.', rest, '.');
    SplitWord(a, ['.'] + rest, '.');
    assert a + "" == a;
    assert a + "." + rest == a + (['.'] + rest);
  }

  lemma EnsureTwo(a: string, b: string)
    ensures EnsurePath(map[], [a, b]) == Some(map[a := Branch(map[b := Branch(map[])])])
  {
    assert [a, b][1..] == [b] && [b][1..] == [];
    assert EnsurePath(map[], [b]) == Some(map[b := Branch(map[])]);
  }

  /** A single key `a.b.c` builds `{a: {b: {}}, c: v}`. */
  lemma NestThree(a: string, b: string, c: string, v: string)
    requires '.' !in a && '.' !in b && '.' !in c && c != ""
    ensures Nest([(a + "." + b + "." + c, v)]) == Some(map[a := Branch(map[b := Branch(map[])])][c := Leaf(v)])
  {
    var key := a + "." + b + "." + c;
    ThreeSegments(a, b, c);
    var segs := Segments(key);
    assert segs[..2] == [a, b];
    EnsureTwo(a, b);
    assert [(key, v)][..0] == [];
    assert Nest([(key, v)]) == Insert(map[], key, v);
  }

  /** `a.b` gives `{a: {}, b: v}`: the value is not nested under `a`. */
  lemma NestAB(v: string)
    ensures Nest([("a.b", v)]) == Some(map["a" := Branch(map[]), "b" := Leaf(v)])
  {
    SplitAB();
    assert [("a.b", v)][..0] == [];
    var segs := Segments("a.b");
    assert segs[..|segs| - 1] == ["a"];
    assert EnsurePath(map[], ["a"][1..]) == Some(map[]);
    assert EnsurePath(map[], ["a"]) == Some(map["a" := Branch(map[])]);
  }

  /** A node holding no value at any depth. */
  predicate LeafFree(n: Node) {
    n.Branch? && forall k :: k in n.children ==> LeafFree(n.children[k])
  }

  /** Every object in the dictionary is value-free below the top level. */
  predicate ValuesOnTop(m: map<string, Node>) {
    forall k :: k in m && m[k].Branch? ==> LeafFree(m[k])
  }

  lemma {:induction false} EnsurePathLeafFree(m: map<string, Node>, path: seq<string>)
    requires forall k :: k in m ==> LeafFree(m[k])
    requires EnsurePath(m, path).Some?
    ensures forall k :: k in EnsurePath(m, path).value ==> LeafFree(EnsurePath(m, path).value[k])
    decreases |path|
  {
    if |path| > 0 {
      var k := path[0];
      if k in m {
        EnsurePathLeafFree(m[k].children, path[1..]);
      } else {
        EnsurePathLeafFree(map[], path[1..]);
      }
    }
  }

  lemma EnsurePathValuesOnTop(m: map<string, Node>, path: seq<string>)
    requires ValuesOnTop(m)
    requires EnsurePath(m, path).Some?
    ensures ValuesOnTop(EnsurePath(m, path).value)
  {
    if |path| > 0 {
      var k := path[0];
      if k in m && m[k].Branch? {
        EnsurePathLeafFree(m[k].children, path[1..]);
      } else if k !in m {
        EnsurePathLeafFree(map[], path[1..]);
      }
    }
  }

  /** Values only ever sit at the top level: every object the nesting creates
      stays empty of values at every depth. */
  lemma {:induction false} NestValuesOnTop(pairs: seq<(string, string)>)
    requires Nest(pairs).Some?
    ensures ValuesOnTop(Nest(pairs).value)
    decreases |pairs|
  {
    if |pairs| > 0 {
      var init := pairs[..|pairs| - 1];
      NestValuesOnTop(init);
      var m := Nest(init).value;
      var key := pairs[|pairs| - 1].0;
      var segs := Segments(key);
      if segs[|segs| - 1] != "" {
        EnsurePathValuesOnTop(m, segs[..|segs| - 1]);
      }
    }
  }

  // ---------------------------------------------------------------- country and language

  /** `xx-yy` at `q`, two ASCII letters either side of a dash, followed by
      `.html` (any case), '/' or the end. */
  predicate CodesAt(s: string, q: nat) {
    q + 5 <= |s|
    && IsAsciiLetter(s[q]) && IsAsciiLetter(s[q + 1]) && s[q + 2] == '-'
    && IsAsciiLetter(s[q + 3]) && IsAsciiLetter(s[q + 4])
    && (q + 5 == |s| || s[q + 5] == '/' || (q + 10 <= |s| && ToLower(s[q + 5..q + 10]) == ".html"))
  }

  /** The pattern matches with its codes at `q`: at the start of the path or
      right after a '/'. */
  predicate MatchAt(s: string, q: nat) {
    (q == 0 || (q <= |s| && s[q - 1] == '/')) && CodesAt(s, q)
  }

  /** The first position at or after `from` where the pattern's codes sit. */
  function FirstMatch(s: string, from: nat): (r: Option<nat>)
    ensures r.Some? ==> from <= r.value && MatchAt(s, r.value)
    ensures r.Some? ==> forall q :: from <= q < r.value ==> !MatchAt(s, q)
    ensures r.None? ==> forall q :: from <= q ==> !MatchAt(s, q)
    decreases |s| - from
  {
    if from + 5 > |s| then None
    else if MatchAt(s, from) then Some(from)
    else FirstMatch(s, from + 1)
  }

  /** `getCurrentCountryLanguage`: the two codes of the leftmost match, as
      written in the path, or two empty strings. A match that starts earlier
      has its codes earlier, so the leftmost match is the first position. */
  function CountryLanguage(path: string): (r: (string, string))
    ensures r != ("", "") <==> exists q :: MatchAt(path, q)
  {
    match FirstMatch(path, 0)
    case None => ("", "")
    case Some(q) => (path[q..q + 2], path[q + 3..q + 5])
  }

  /** Found codes come from the first `xx-yy` segment and are two letters each. */
  lemma CountryLanguageFirst(path: string, q: nat)
    requires MatchAt(path, q)
    requires forall p :: 0 <= p < q ==> !MatchAt(path, p)
    ensures CountryLanguage(path) == (path[q..q + 2], path[q + 3..q + 5])
  {
    var f := FirstMatch(path, 0);
    assert f.Some?;
    assert f.value == q;
  }
}

=== FILE: block_options.dfy ===
/** Reading a block's authored cells into named options: `getNodeValue`
    and `setBlockItemOptions`. */
module BlockOptions {
  import opened Wrappers
  import opened Text

  /** A cell as `getNodeValue` sees it: the text of its first descendant
      element that has no children, `None` when the cell holds no element
      at all (plain text directly in the cell). */
  datatype Cell = Cell(leafText: Option<string>)

  /** `getNodeValue`: "" for a missing cell, the trimmed leaf text
      otherwise, and undefined (`None`) for a cell without an element. */
  function NodeValue(cell: Option<Cell>): (r: Option<string>)
    ensures cell.None? ==> r == Some("")
    ensures cell.Some? && cell.value.leafText.None? ==> r.None?
    ensures cell.Some? && cell.value.leafText.Some? ==> r == Some(Trim(cell.value.leafText.value))
  {
    match cell
    case None => Some("")
    case Some(c) => match c.leafText case None => None case Some(t) => Some(Trim(t))
  }

  /** A block's options by name; an absent name is undefined. */
  type Config = map<string, string>

  /** The option is set to a non-empty value. */
  predicate Truthy(cfg: Config, key: string) { key in cfg && cfg[key] != "" }

  /** `cfg[key] || fallback`: the value when it is non-empty, the fallback
      when the option is missing or empty. */
  function Or(cfg: Config, key: string, fallback: string): (r: string)
    ensures Truthy(cfg, key) ==> r == cfg[key]
    ensures !Truthy(cfg, key) ==> r == fallback
  {
    if Truthy(cfg, key) then cfg[key] else fallback
  }

  /** `cfg[key]`: undefined (`None`) when the option is missing. */
  function Get(cfg: Config, key: string): Option<string> {
    if key in cfg then Some(cfg[key]) else None
  }

  function CellAt(cells: seq<Cell>, k: nat): Option<Cell> {
    if k < |cells| then Some(cells[k]) else None
  }

  /** `setBlockItemOptions`: the i-th name gets the i-th cell's value, so
      for a name given twice the last assignment wins. An undefined value is
      left out of the map, which every reader treats like a missing name. */
  function ItemOptions(names: seq<string>, cells: seq<Cell>): (r: map<string, string>)
    ensures forall k :: k in r ==> k in names
    ensures forall i :: 0 <= i < |names| && names[i] !in names[i + 1..] ==>
      (names[i] in r <==> NodeValue(CellAt(cells, i)).Some?)
      && (names[i] in r ==> r[names[i]] == NodeValue(CellAt(cells, i)).value)
  {
    var r := map k | k in names && NodeValue(CellAt(cells, LastIndexOf(names, k))).Some?
               :: NodeValue(CellAt(cells, LastIndexOf(names, k))).value;
    forall i | 0 <= i < |names| && names[i] !in names[i + 1..] ensures LastIndexOf(names, names[i]) == i {
      LastIndexUnique(names, i);
    }
    r
  }

  lemma LastIndexUnique(names: seq<string>, i: nat)
    requires i < |names| && names[i] !in names[i + 1..]
    ensures LastIndexOf(names, names[i]) == i
  {
    var j := LastIndexOf(names, names[i]);
    forall m | i < m < |names| ensures names[m] != names[i] {
      assert names[m] == names[i + 1..][m - i - 1];
    }
    forall m | j < m < |names| ensures names[m] != names[i] {
      assert names[m] == names[j + 1..][m - j - 1];
    }
  }

  /** The last position of a listed name. */
  function LastIndexOf(names: seq<string>, k: string): (i: nat)
    requires k in names
    ensures i < |names| && names[i] == k && k !in names[i + 1..]
    decreases |names|
  {
    if names[|names| - 1] == k then |names| - 1
    else
      assert names[..|names| - 1][..] + [names[|names| - 1]] == names;
      assert k in names[..|names| - 1];
      var i := LastIndexOf(names[..|names| - 1], k);
      assert names[i + 1..] == names[..|names| - 1][i + 1..] + [names[|names| - 1]];
      i
  }

  /** Trimmed values: every value read is its own trim. */
  lemma ItemOptionsTrimmed(names: seq<string>, cells: seq<Cell>, k: string)
    requires k in ItemOptions(names, cells)
    ensures Trim(ItemOptions(names, cells)[k]) == ItemOptions(names, cells)[k]
  {
    var i := LastIndexOf(names, k);
    var c := CellAt(cells, i);
    if c.Some? {
      TrimIdempotent(c.value.leafText.value);
    }
  }
}

=== FILE: button.dfy ===
/** The shared button renderer: parameter normalisation between the legacy
    and the simplified calling conventions, and the link attributes it
    writes. */
module Button {
  import opened Wrappers

  /** The anchor attributes the renderer reads and writes. `href` is the
      attribute as written (`None` when absent); reading the `href` property
      resolves it, which `resolve` stands for. */
  datatype Anchor = Anchor(
    href: Option<string>,
    target: Option<string>,
    text: string,
    title: Option<string>,
    download: bool,
    classes: seq<string>)

  /** The parameters, legacy and simplified (`visibleLabel` is the `label`
      key), each `None` when undefined or null. */
  datatype Params = Params(
    linkButton: Option<Anchor>,
    linkText: Option<string>, visibleLabel: Option<string>,
    linkTitle: Option<string>, title: Option<string>,
    linkTarget: Option<string>, target: Option<string>,
    linkType: Option<string>, kind: Option<string>,
    linkStyle: Option<string>, style: Option<string>,
    link: Option<string>)

  /** `a ?? b ?? ''`. */
  function Coalesce(a: Option<string>, b: Option<string>): (r: string)
    ensures a.Some? ==> r == a.value
    ensures a.None? && b.Some? ==> r == b.value
    ensures a.None? && b.None? ==> r == ""
  {
    match a
    case Some(x) => x
    case None => match b case Some(y) => y case None => ""
  }

  /** The normalised parameters. */
  datatype Normalised = Normalised(text: string, title: string, target: string, kind: string, style: string, href: string)

  function Normalise(p: Params): (n: Normalised)
    ensures n.text == Coalesce(p.linkText, p.visibleLabel) && n.title == Coalesce(p.linkTitle, p.title)
    ensures n.target == Coalesce(p.linkTarget, p.target) && n.kind == Coalesce(p.linkType, p.kind)
    ensures n.style == Coalesce(p.linkStyle, p.style) && n.href == Coalesce(p.link, None)
  {
    Normalised(Coalesce(p.linkText, p.visibleLabel), Coalesce(p.linkTitle, p.title), Coalesce(p.linkTarget, p.target),
               Coalesce(p.linkType, p.kind), Coalesce(p.linkStyle, p.style), Coalesce(p.link, None))
  }

  /** A legacy key that is present wins even when it is empty, so an empty
      `linkText` hides a non-empty `label`. */
  lemma EmptyLegacyTextHidesLabel(p: Params)
    requires p.linkText == Some("") && p.visibleLabel.Some? && p.visibleLabel.value != ""
    ensures Normalise(p).text == ""
  {
  }

  /** `classList.add`: appended unless already there. */
  function AddClass(classes: seq<string>, c: string): (r: seq<string>)
    ensures c in r && forall x :: x in classes ==> x in r
    ensures forall x :: x in r ==> x in classes || x == c
  {
    if c in classes then classes else classes + [c]
  }

  /** Reading the `href` property: "" without the attribute, the resolved
      URL otherwise. */
  function HrefProperty(a: Anchor, resolve: string -> string): string {
    match a.href
    case None => ""
    case Some(h) => resolve(h)
  }

  /** The anchor to work with: the passed one, or a fresh `button` anchor
      whose `href` is the normalised link. */
  function Base(p: Params): (a: Anchor)
    ensures p.linkButton.Some? ==> a == p.linkButton.value
    ensures p.linkButton.None? ==> a.href == Some(Normalise(p).href) && a.classes == ["button"] && !a.download
  {
    if p.linkButton.Some? then p.linkButton.value else Anchor(Some(Normalise(p).href), None, "", None, false, ["button"])
  }

  /** Target, text and title are written only when non-empty. */
  function WriteAttributes(a: Anchor, n: Normalised): (r: Anchor)
    ensures r.href == a.href && r.download == a.download && r.classes == a.classes
    ensures r.target == (if n.target != "" then Some(n.target) else a.target)
    ensures r.text == (if n.text != "" then n.text else a.text)
    ensures r.title == (if n.title != "" then Some(n.title) else a.title)
  {
    a.(target := if n.target != "" then Some(n.target) else a.target,
       text := if n.text != "" then n.text else a.text,
       title := if n.title != "" then Some(n.title) else a.title)
  }

  /** The href for a link type: `tel:` and `mailto:` in front for telephone
      and email, unchanged otherwise. */
  function SchemeHref(kind: string, h: string): (r: string)
    ensures kind == "telephone" ==> r == "tel:" + h
    ensures kind == "email" ==> r == "mailto:" + h
    ensures kind != "telephone" && kind != "email" ==> r == h
  {
    if kind == "telephone" then "tel:" + h else if kind == "email" then "mailto:" + h else h
  }

  /** `renderButton`. */
  function Render(p: Params, resolve: string -> string): (a: Anchor)
    ensures var base := Base(p); var n := Normalise(p);
      && a.href == Some(SchemeHref(n.kind, HrefProperty(base, resolve)))
      && (a.download <==> base.download || n.kind == "download")
      && a.target == WriteAttributes(base, n).target
      && a.text == WriteAttributes(base, n).text
      && a.title == WriteAttributes(base, n).title
  {
    var n := Normalise(p);
    var a1 := WriteAttributes(Base(p), n);
    var a2 := if n.kind == "download" then a1.(download := true) else a1;
    var a3 := if n.style != "" then a2.(classes := AddClass(a2.classes, n.style)) else a2;
    a3.(href := Some(SchemeHref(n.kind, HrefProperty(a1, resolve))))
  }

  /** The style class is added exactly when a style is given; the anchor's
      other classes stay. */
  lemma RenderClasses(p: Params, resolve: string -> string, c: string)
    ensures c in Render(p, resolve).classes <==> c in Base(p).classes || (Normalise(p).style != "" && c == Normalise(p).style)
  {
  }

  /** A button rendered into a passed anchor that has no `href` attribute
      keeps none of the link: its href is empty apart from the scheme. */
  lemma NoHrefAnchorLosesLink(p: Params, resolve: string -> string)
    requires p.linkButton.Some? && p.linkButton.value.href.None?
    ensures Render(p, resolve).href.value in {"", "tel:", "mailto:"}
  {
    assert HrefProperty(Base(p), resolve) == "";
    var k := Normalise(p).kind;
    assert SchemeHref(k, "") == "" || SchemeHref(k, "") == "tel:" || SchemeHref(k, "") == "mailto:";
  }

  /** A fresh anchor points at the given link, resolved, behind the scheme
      its type asks for. */
  lemma FreshAnchorKeepsLink(p: Params, resolve: string -> string)
    requires p.linkButton.None?
    ensures var n := Normalise(p);
      var h := resolve(n.href);
      Render(p, resolve).href.value == SchemeHref(n.kind, h) && "button" in Render(p, resolve).classes
  {
    RenderClasses(p, resolve, "button");
  }

  /** The simplified call most blocks make: `{link, label, target}`. */
  function Simple(link: Option<string>, caption: Option<string>, target: Option<string>): Params {
    Params(None, None, caption, None, None, None, target, None, None, None, None, link)
  }
}

=== FILE: carousel.dfy ===
/** The carousel block: how authored rows become slides, content and
    indicators, which slide the previous/next buttons and the indicators
    show, and what activating a slide marks. */
module Carousel {
  import opened Wrappers

  // ---------------------------------------------------------------- layout

  /** An authored row, as far as the layout looks: whether it holds a
      picture and whether it holds a link. */
  datatype SlideRow = SlideRow(hasPicture: bool, hasLink: bool)

  /** Where a row ends up. A row without a picture becomes content below the
      strip. A picture row becomes a slide carrying the running slide index;
      when the row holds a link the slide is wrapped in an anchor, and since
      the anchor is not itself a slide it is placed after the strip and the
      running index does not advance. */
  datatype Placed = Content | StripSlide(index: nat) | LinkedSlide(index: nat)

  predicate InStrip(row: SlideRow) { row.hasPicture && !row.hasLink }

  /** How many rows become slides in the strip. */
  function StripCount(rows: seq<SlideRow>): nat
    decreases |rows|
  {
    if |rows| == 0 then 0 else (if InStrip(rows[0]) then 1 else 0) + StripCount(rows[1..])
  }

  /** How many rows hold a picture (the slides the block counts). */
  function PictureCount(rows: seq<SlideRow>): (r: nat)
    ensures r >= StripCount(rows)
    decreases |rows|
  {
    if |rows| == 0 then 0 else (if rows[0].hasPicture then 1 else 0) + PictureCount(rows[1..])
  }

  lemma StripCountPrefix(rows: seq<SlideRow>, i: nat)
    requires 0 < i <= |rows|
    ensures StripCount(rows[..i]) == (if InStrip(rows[0]) then 1 else 0) + StripCount(rows[1..][..i - 1])
  {
    assert rows[..i][1..] == rows[1..][..i - 1];
  }

  /** The placement of `rows` when `next` slide indices have been used. */
  function PlaceFrom(rows: seq<SlideRow>, next: nat): (r: seq<Placed>)
    ensures |r| == |rows|
    ensures forall i :: 0 <= i < |rows| ==> (r[i] == Content <==> !rows[i].hasPicture)
    ensures forall i :: 0 <= i < |rows| && InStrip(rows[i]) ==> r[i] == StripSlide(next + StripCount(rows[..i]))
    ensures forall i :: 0 <= i < |rows| && rows[i].hasPicture && rows[i].hasLink ==>
      r[i] == LinkedSlide(next + StripCount(rows[..i]))
    decreases |rows|
  {
    if |rows| == 0 then []
    else
      var row := rows[0];
      var here := if !row.hasPicture then Content else if row.hasLink then LinkedSlide(next) else StripSlide(next);
      var rest := PlaceFrom(rows[1..], if InStrip(row) then next + 1 else next);
      forall i | 0 < i < |rows| ensures StripCount(rows[..i]) == (if InStrip(row) then 1 else 0) + StripCount(rows[1..][..i - 1]) {
        StripCountPrefix(rows, i);
      }
      assert rows[..0] == [];
      var r := [here] + rest;
      assert forall i :: 0 < i < |rows| ==> r[i] == rest[i - 1] && rows[i] == rows[1..][i - 1];
      r
  }

  /** The placement of a block's rows: every picture row's index counts only
      the strip slides before it, so content rows and linked slides consume
      no index. */
  function Place(rows: seq<SlideRow>): (r: seq<Placed>)
    ensures |r| == |rows|
    ensures forall i :: 0 <= i < |rows| ==> (r[i] == Content <==> !rows[i].hasPicture)
    ensures forall i :: 0 <= i < |rows| && InStrip(rows[i]) ==> r[i] == StripSlide(StripCount(rows[..i]))
    ensures forall i :: 0 <= i < |rows| && rows[i].hasPicture && rows[i].hasLink ==> r[i] == LinkedSlide(StripCount(rows[..i]))
  {
    PlaceFrom(rows, 0)
  }

  /** The strip indices are 0, 1, 2, … in row order: two strip slides never
      share an index and later rows get larger ones. */
  lemma {:induction false} StripIndicesIncrease(rows: seq<SlideRow>, i: nat, j: nat)
    requires i < j < |rows| && InStrip(rows[i]) && InStrip(rows[j])
    ensures Place(rows)[i].index < Place(rows)[j].index
  {
    StripCountGrows(rows, i, j);
  }

  lemma {:induction false} StripCountGrows(rows: seq<SlideRow>, i: nat, j: nat)
    requires i < j <= |rows| && InStrip(rows[i])
    ensures StripCount(rows[..i]) < StripCount(rows[..j])
    decreases j
  {
    if j == i + 1 {
      StripCountSnoc(rows, i);
    } else {
      StripCountGrows(rows, i, j - 1);
      StripCountSnoc(rows, j - 1);
    }
  }

  lemma {:induction false} StripCountSnoc(rows: seq<SlideRow>, i: nat)
    requires i < |rows|
    ensures StripCount(rows[..i + 1]) == StripCount(rows[..i]) + (if InStrip(rows[i]) then 1 else 0)
    decreases i
  {
    if i > 0 {
      StripCountPrefix(rows, i);
      StripCountPrefix(rows, i + 1);
      StripCountSnoc(rows[1..], i - 1);
      assert rows[1..][i - 1] == rows[i];
    } else {
      assert rows[..1] == [rows[0]];
      assert rows[..1][1..] == [];
    }
  }

  /** Navigation and indicators exist only with at least two picture rows. */
  predicate HasControls(rows: seq<SlideRow>) { PictureCount(rows) >= 2 }

  /** The indicator targets: one per strip slide, none without controls. */
  function Indicators(rows: seq<SlideRow>): (r: seq<nat>)
    ensures HasControls(rows) ==> |r| == StripCount(rows) && forall k :: 0 <= k < |r| ==> r[k] == k
    ensures !HasControls(rows) ==> r == []
  {
    if HasControls(rows) then seq(StripCount(rows), k => k) else []
  }

  // ---------------------------------------------------------------- navigation

  /** `showSlide`'s index normalisation over `count` slides: below zero goes
      to the last, past the end to the first. */
  function ShowSlide(count: nat, index: int): (r: nat)
    requires count >= 1
    ensures r < count
    ensures 0 <= index < count ==> r == index
    ensures index < 0 ==> r == count - 1
    ensures index >= count ==> r == 0
  {
    if index < 0 then count - 1 else if index >= count then 0 else index
  }

  /** The carousel after binding: the slide count, the slide index the
      intersection observer last recorded (none before it first fires), and
      the slide the strip is moved to. */
  datatype Nav = Nav(count: nat, active: Option<nat>, shown: nat)

  predicate ValidNav(n: Nav) {
    n.count >= 2 && n.shown < n.count && (n.active.Some? ==> n.active.value < n.count)
  }

  /** The target of the previous button: `(active - 1 + count) % count`. */
  function PrevTarget(count: nat, active: nat): (r: nat)
    requires active < count
    ensures r < count
    ensures active > 0 ==> r == active - 1
    ensures active == 0 ==> r == count - 1
  {
    (active - 1 + count) % count
  }

  /** The target of the next button: `(active + 1) % count`. */
  function NextTarget(count: nat, active: nat): (r: nat)
    requires active < count
    ensures r < count
    ensures active < count - 1 ==> r == active + 1
    ensures active == count - 1 ==> r == 0
  {
    (active + 1) % count
  }

  /** The previous button. Before the observer has recorded a slide the
      current index is NaN and the lookup of the slide fails: `None`. */
  function Prev(n: Nav): (r: Option<Nav>)
    requires ValidNav(n)
    ensures r.None? <==> n.active.None?
    ensures r.Some? ==> ValidNav(r.value) && r.value.active == n.active
    ensures r.Some? ==> r.value.shown == (if n.active.value > 0 then n.active.value - 1 else n.count - 1)
  {
    match n.active
    case None => None
    case Some(a) => Some(n.(shown := ShowSlide(n.count, PrevTarget(n.count, a))))
  }

  function Next(n: Nav): (r: Option<Nav>)
    requires ValidNav(n)
    ensures r.None? <==> n.active.None?
    ensures r.Some? ==> ValidNav(r.value) && r.value.active == n.active
    ensures r.Some? ==> r.value.shown == (if n.active.value < n.count - 1 then n.active.value + 1 else 0)
  {
    match n.active
    case None => None
    case Some(a) => Some(n.(shown := ShowSlide(n.count, NextTarget(n.count, a))))
  }

  /** An indicator click shows its target slide. */
  function ShowIndicator(n: Nav, target: nat): (r: Nav)
    requires ValidNav(n) && target < n.count
    ensures ValidNav(r) && r.shown == target && r.active == n.active
  {
    n.(shown := ShowSlide(n.count, target))
  }

  /** The observer records the index of a slide that came into view. */
  function Observe(n: Nav, slideIndex: nat): (r: Nav)
    requires ValidNav(n) && slideIndex < n.count
    ensures ValidNav(r) && r.active == Some(slideIndex) && r.shown == n.shown
  {
    n.(active := Some(slideIndex))
  }

  /** Next and previous are inverse on the slide they show, once the
      observer has recorded the slide next moved to. */
  lemma NextThenPrevReturns(n: Nav)
    requires ValidNav(n) && n.active.Some?
    ensures var m := Next(n).value;
      Prev(Observe(m, m.shown)).value.shown == n.active.value
  {
    var a := n.active.value;
    var t := NextTarget(n.count, a);
    assert Next(n).value.shown == t;
    assert PrevTarget(n.count, t) == a;
  }

  /** The buttons never move the recorded index themselves: pressing next
      twice before the observer fires shows the same slide twice. */
  lemma NextTwiceBeforeObserver(n: Nav)
    requires ValidNav(n) && n.active.Some?
    ensures Next(Next(n).value).value.shown == Next(n).value.shown
  {
  }

  // ---------------------------------------------------------------- activation

  /** What `updateActiveSlide` marks, position by position over the slides
      and the indicators. */
  datatype Marks = Marks(slideHidden: seq<bool>, indicatorDisabled: seq<bool>)

  function Activate(slideCount: nat, indicatorCount: nat, index: nat): (r: Marks)
    ensures |r.slideHidden| == slideCount && |r.indicatorDisabled| == indicatorCount
    ensures forall p :: 0 <= p < slideCount ==> (!r.slideHidden[p] <==> p == index)
    ensures forall p :: 0 <= p < indicatorCount ==> (r.indicatorDisabled[p] <==> p == index)
  {
    Marks(seq(slideCount, p => p != index), seq(indicatorCount, p => p == index))
  }

  /** Activating an existing slide leaves exactly one slide visible. */
  lemma ActivateShowsOne(slideCount: nat, indicatorCount: nat, index: nat)
    requires index < slideCount
    ensures var m := Activate(slideCount, indicatorCount, index);
      (forall p, q :: 0 <= p < q < slideCount ==> m.slideHidden[p] || m.slideHidden[q]) && !m.slideHidden[index]
  {
  }
}

=== FILE: content_image_teaser.dfy ===
/** The content-image-teaser block: alignment and accent classes, the
    heading level, the image or its placeholder, and the call to action. */
module ContentImageTeaser {
  import opened Wrappers
  import opened Text
  import Button
  import opened BlockOptions

  /** The field read from each of the block's rows. The list names neither
      a title type nor an image alt. */
  const Fields: seq<string> := ["pretitle", "title", "description", "image", "align", "coralLine", "link", "label", "target"]

  function ConfigOf(rows: seq<Cell>): (cfg: Config)
    ensures forall k :: k in cfg ==> k in Fields
  {
    ItemOptions(Fields, rows)
  }

  /** "align-" and the lower-cased alignment, "left" by default; any value
      is accepted. */
  function AlignClass(cfg: Config): (r: string)
    ensures StartsWith(r, "align-") && r[6..] == ToLower(Or(cfg, "align", "left"))
  {
    "align-" + ToLower(Or(cfg, "align", "left"))
  }

  /** The accent line is on for "true", "yes" or "on" in any letter case. */
  predicate CoralLine(cfg: Config) {
    ToLower(Or(cfg, "coralLine", "")) in {"true", "yes", "on"}
  }

  /** The accent flag does not depend on the letter case of the authored
      value, and an unset or unrecognised value leaves it off. */
  lemma CoralLineIgnoresCase(cfg: Config, v: string)
    ensures CoralLine(cfg["coralLine" := v]) <==> CoralLine(cfg["coralLine" := ToLower(v)])
    ensures "coralLine" !in cfg ==> !CoralLine(cfg)
  {
    ToLowerIdempotent(v);
  }

  const HeadingLevels := ["h2", "h3", "h4", "h5", "h6"]

  /** The title's heading: the lower-cased title type when it is h2–h6,
      "h2" otherwise. */
  function Heading(cfg: Config): (r: string)
    ensures r in HeadingLevels
    ensures "titleType" !in cfg ==> r == "h2"
  {
    var t := ToLower(Or(cfg, "titleType", ""));
    if t in HeadingLevels then t else "h2"
  }

  const PlaceholderSrc := "https://placehold.co/600x400"

  datatype Image = Picture(src: string, alt: string) | Placeholder(src: string, alt: string)

  /** The configured image, or a placeholder when none is configured. */
  function ImageOf(cfg: Config): (r: Image)
    ensures r.Picture? <==> Truthy(cfg, "image")
    ensures r.Picture? ==> r.src == cfg["image"] && r.alt == Or(cfg, "imageAlt", "")
    ensures r.Placeholder? ==> r.src == PlaceholderSrc && r.alt == Or(cfg, "imageAlt", "Placeholder Image")
  {
    if Truthy(cfg, "image") then Picture(cfg["image"], Or(cfg, "imageAlt", ""))
    else Placeholder(PlaceholderSrc, Or(cfg, "imageAlt", "Placeholder Image"))
  }

  /** The call to action, rendered only with a label. */
  function Cta(cfg: Config, resolve: string -> string): (r: Option<Button.Anchor>)
    ensures r.Some? <==> Truthy(cfg, "label")
    ensures r.Some? ==> r.value.text == cfg["label"] && "button" in r.value.classes
  {
    if Truthy(cfg, "label") then
      var p := Button.Simple(Get(cfg, "link"), Get(cfg, "label"), Get(cfg, "target"));
      Button.FreshAnchorKeepsLink(p, resolve);
      Some(Button.Render(p, resolve))
    else None
  }

  /** A configuration read from rows never carries a title type or an
      image alt, so the heading is always h2 and the alt text always the
      fallback. */
  lemma RowsGiveDefaultHeadingAndAlt(rows: seq<Cell>)
    ensures Heading(ConfigOf(rows)) == "h2"
    ensures ImageOf(ConfigOf(rows)).alt in {"", "Placeholder Image"}
  {
    UnlistedFields();
  }

  lemma UnlistedFields()
    ensures "titleType" !in Fields && "imageAlt" !in Fields
  {
    forall i | 0 <= i < |Fields| ensures Fields[i] != "titleType" && Fields[i] != "imageAlt" {
      var f := Fields[i];
      assert |f| != 9 || f[0] == 'c';
      assert |f| != 8 || f[0] == 'p';
    }
  }
}

=== FILE: custom_button.dfy ===
/** The custom-button block: a single anchor built from the block's
    key/value configuration. */
module CustomButton {
  import opened Wrappers

  /** A configuration value: `None` when the key is absent. */
  function Get(config: map<string, string>, key: string): (r: Option<string>)
    ensures r.Some? <==> key in config
    ensures r.Some? ==> r.value == config[key]
  {
    if key in config then Some(config[key]) else None
  }

  /** A destructuring default: applies only when the key is absent. */
  function Default(config: map<string, string>, key: string, fallback: string): (r: string)
    ensures key in config ==> r == config[key]
    ensures key !in config ==> r == fallback
  {
    if key in config then config[key] else fallback
  }

  /** An absent value written into a string attribute reads "undefined". */
  function Shown(o: Option<string>): (r: string)
    ensures o.Some? ==> r == o.value
    ensures o.None? ==> r == "undefined"
  {
    if o.Some? then o.value else "undefined"
  }

  /** The two spans inside the anchor. */
  datatype Span = LabelSpan(text: string) | TextSpan(text: string)

  datatype CustomAnchor = CustomAnchor(
    className: string, title: string, target: string, href: string, download: bool, spans: seq<Span>)

  /** The block's anchor. */
  function Build(config: map<string, string>): (a: CustomAnchor)
    ensures a.className == "custom-button " + Default(config, "style", "primary")
    ensures a.target == Default(config, "target", "_self")
    ensures Get(config, "title").Some? && config["title"] != "" ==> a.title == config["title"]
    ensures (Get(config, "title").None? || config["title"] == "") ==> a.title == Shown(Get(config, "text"))
    ensures a.download <==> Default(config, "type", "link") == "download"
    ensures 1 <= |a.spans| <= 2 && a.spans[|a.spans| - 1].TextSpan?
    ensures |a.spans| == 2 <==> "label" in config && config["label"] != ""
    ensures |a.spans| == 2 ==> a.spans[0] == LabelSpan(config["label"])
  {
    var kind := Default(config, "type", "link");
    var content := Shown(Get(config, "aemContent"));
    var title := Get(config, "title");
    var text := Get(config, "text");
    var href := if kind == "telephone" then "tel:" + content else if kind == "email" then "mailto:" + content else content;
    var labelSpans := if "label" in config && config["label"] != "" then [LabelSpan(config["label"])] else [];
    CustomAnchor("custom-button " + Default(config, "style", "primary"),
                 if title.Some? && title.value != "" then title.value else Shown(text),
                 Default(config, "target", "_self"),
                 href,
                 kind == "download",
                 labelSpans + [TextSpan(if text.Some? then text.value else "")])
  }

  /** The href is the content behind the scheme its type asks for; every
      other type, download included, keeps the content as it is. */
  lemma HrefByType(config: map<string, string>)
    ensures var kind := Default(config, "type", "link");
      var content := Shown(Get(config, "aemContent"));
      var h := Build(config).href;
      (kind == "telephone" ==> h == "tel:" + content)
      && (kind == "email" ==> h == "mailto:" + content)
      && (kind != "telephone" && kind != "email" ==> h == content)
  {
  }

  /** With no configuration at all the button is a primary same-window
      link whose title and href read "undefined". */
  lemma EmptyConfig()
    ensures var a := Build(map[]);
      a.className == "custom-button primary" && a.target == "_self" && !a.download
      && a.title == "undefined" && a.href == "undefined" && a.spans == [TextSpan("")]
  {
  }
}

=== FILE: event_teasers.dfy ===
/** The event-teasers block: one card per authored row, and the slider's
    page index with its clamping on clicks, swipes and resizes. */
module EventTeasers {
  import opened Wrappers
  import opened Text
  import Button
  import opened BlockOptions

  // ---------------------------------------------------------------- cards

  /** The columns of a row, in order. */
  const Fields: seq<string> := ["category", "title", "date", "location", "link", "label", "target"]

  /** `collectConfigs`: exactly one configuration per row, in row order. */
  function Configs(rows: seq<seq<Cell>>): (r: seq<map<string, string>>)
    ensures |r| == |rows|
    ensures forall i :: 0 <= i < |rows| ==> r[i] == ItemOptions(Fields, rows[i])
  {
    seq(|rows|, i requires 0 <= i < |rows| => ItemOptions(Fields, rows[i]))
  }

  /** What a card shows. */
  datatype EventCard = EventCard(category: string, title: string, date: Option<string>, location: Option<string>, button: Option<Button.Anchor>)

  /** `buildTeaserCard`: default category and title, date and location only
      when given, and an outlined button only with a label. */
  function CardOf(cfg: map<string, string>, resolve: string -> string): (c: EventCard)
    ensures c.category == (if Truthy(cfg, "category") then cfg["category"] else "Event")
    ensures c.title == (if Truthy(cfg, "title") then cfg["title"] else "Untitled Event")
    ensures c.date.Some? <==> Truthy(cfg, "date")
    ensures c.location.Some? <==> Truthy(cfg, "location")
    ensures c.button.Some? <==> Truthy(cfg, "label")
    ensures c.button.Some? ==> "outline" in c.button.value.classes && c.button.value.text == cfg["label"]
  {
    var button := if Truthy(cfg, "label") then
      var b := Button.Render(Button.Simple(Get(cfg, "link"), Get(cfg, "label"), Get(cfg, "target")), resolve);
      Some(b.(classes := Button.AddClass(b.classes, "outline")))
    else None;
    EventCard(if Truthy(cfg, "category") then cfg["category"] else "Event",
              if Truthy(cfg, "title") then cfg["title"] else "Untitled Event",
              if Truthy(cfg, "date") then Some(cfg["date"]) else None,
              if Truthy(cfg, "location") then Some(cfg["location"]) else None,
              button)
  }

  // ---------------------------------------------------------------- slider

  /** Cards per page for a window width. */
  function CardsPerPage(width: int): (r: nat)
    ensures 1 <= r <= 4
    ensures width >= 1200 ==> r == 4
    ensures 900 <= width < 1200 ==> r == 3
    ensures 600 <= width < 900 ==> r == 2
    ensures width < 600 ==> r == 1
  {
    if width >= 1200 then 4 else if width >= 900 then 3 else if width >= 600 then 2 else 1
  }

  /** A wider window never shows fewer cards per page. */
  lemma CardsPerPageMonotone(narrow: int, wide: int)
    requires narrow <= wide
    ensures CardsPerPage(narrow) <= CardsPerPage(wide)
  {
  }

  /** `max(0, ceil(cards / perPage) - 1)`: the page holding the last card. */
  function MaxPage(cards: nat, perPage: nat): (r: nat)
    requires perPage >= 1
    ensures cards == 0 ==> r == 0
    ensures cards > 0 ==> r * perPage < cards <= (r + 1) * perPage
  {
    if cards == 0 then 0 else (cards + perPage - 1) / perPage - 1
  }

  /** The slider: how many cards, the window width, and the page shown. */
  datatype Slider = Slider(cards: nat, width: int, page: nat)

  function LastPage(s: Slider): nat { MaxPage(s.cards, CardsPerPage(s.width)) }

  predicate InBounds(s: Slider) { s.page <= LastPage(s) }

  function NewSlider(cards: nat, width: int): (s: Slider)
    ensures InBounds(s) && s.page == 0
  {
    Slider(cards, width, 0)
  }

  /** The previous button: one page back, not below the first. */
  function PrevPage(s: Slider): (r: Slider)
    requires InBounds(s)
    ensures InBounds(r) && r.cards == s.cards && r.width == s.width
    ensures s.page == 0 ==> r == s
    ensures s.page > 0 ==> r.page == s.page - 1
  {
    s.(page := if s.page == 0 then 0 else s.page - 1)
  }

  /** The next button: one page on, not past the last. */
  function NextPage(s: Slider): (r: Slider)
    requires InBounds(s)
    ensures InBounds(r) && r.cards == s.cards && r.width == s.width
    ensures s.page == LastPage(s) ==> r == s
    ensures s.page < LastPage(s) ==> r.page == s.page + 1
  {
    s.(page := if s.page + 1 < LastPage(s) then s.page + 1 else LastPage(s))
  }

  /** A swipe from `startX` to `endX` moves one page when it is longer than
      50: a leftward swipe goes on, a rightward one back. */
  function SwipePages(s: Slider, startX: int, endX: int): (r: Slider)
    requires InBounds(s)
    ensures InBounds(r)
    ensures -50 <= endX - startX <= 50 ==> r == s
    ensures endX - startX < -50 ==> r == NextPage(s)
    ensures endX - startX > 50 ==> r == PrevPage(s)
  {
    var diff := endX - startX;
    if diff > 50 || diff < -50 then (if diff < 0 then NextPage(s) else PrevPage(s)) else s
  }

  /** A resize clamps the page to the new last page. */
  function Resize(s: Slider, width: int): (r: Slider)
    ensures InBounds(r) && r.cards == s.cards && r.width == width
    ensures r.page <= s.page
    ensures s.page <= LastPage(r) ==> r.page == s.page
  {
    var t := s.(width := width);
    t.(page := if s.page <= LastPage(t) then s.page else LastPage(t))
  }

  /** The disabled flags the buttons get. */
  function ButtonsDisabled(s: Slider): (r: (bool, bool))
    ensures r.0 <==> s.page == 0
    ensures r.1 <==> s.page == LastPage(s)
  {
    (s.page == 0, s.page == LastPage(s))
  }

  /** With everything on one page, both buttons are disabled. */
  lemma OnePageDisablesBoth(s: Slider)
    requires InBounds(s) && s.cards <= CardsPerPage(s.width)
    ensures ButtonsDisabled(s) == (true, true)
  {
  }

  /** Next then previous from a page before the last returns to it. */
  lemma NextThenPrev(s: Slider)
    requires InBounds(s) && s.page < LastPage(s)
    ensures PrevPage(NextPage(s)) == s
  {
  }
}

=== FILE: filter_item.dfy ===
/** The filter-item block: one card of a filterable list, with its link or
    video, its background flag, and its tag labels. */
module FilterItem {
  import opened Wrappers
  import opened Text
  import Tags

  /** The authored cells: type, title, description, link, asset, tags. */
  datatype ItemConfig = ItemConfig(
    itemType: string,
    title: string,
    description: string,
    link: string,
    asset: string,
    tags: string)

  // ---------------------------------------------------------------- icons

  /** Characters of an icon name: `[a-z0-9-]`, either letter case. */
  predicate IsNameChar(c: char) { IsAsciiLetter(c) || IsDigit(c) || c == '-' }

  /** The length of the run of name characters that `s` starts with. */
  function NameRun(s: string): (r: nat)
    ensures r <= |s|
    ensures forall i :: 0 <= i < r ==> IsNameChar(s[i])
    ensures r < |s| ==> !IsNameChar(s[r])
    decreases |s|
  {
    if |s| > 0 && IsNameChar(s[0]) then 1 + NameRun(s[1..]) else 0
  }

  /** The pattern `:name:` matches at the start of `s`; the name is the run,
      since no shorter run can be followed by ':'. */
  predicate IconAt(s: string) {
    |s| >= 3 && s[0] == ':' && NameRun(s[1..]) >= 1 && 1 + NameRun(s[1..]) < |s| && s[1 + NameRun(s[1..])] == ':'
  }

  function IconSpan(name: string): string {
    "<span class=\"icon icon-" + name + "\"></span>"
  }

  /** `convertIconsToSpans`: every `:name:`, scanned left to right without
      overlap, becomes an icon span; a missing text becomes "". */
  function ConvertIcons(s: string): (r: string)
    decreases |s|
  {
    if |s| == 0 then ""
    else if IconAt(s) then
      var n := NameRun(s[1..]);
      IconSpan(s[1..1 + n]) + ConvertIcons(s[n + 2..])
    else [s[0]] + ConvertIcons(s[1..])
  }

  /** Text without ':' has no icon and is kept as it is. */
  lemma {:induction false} ConvertPlain(s: string)
    requires ':' !in s
    ensures ConvertIcons(s) == s
    decreases |s|
  {
    if |s| > 0 {
      assert ':' !in s[1..];
      ConvertPlain(s[1..]);
      assert s == [s[0]] + s[1..];
    }
  }

  /** An icon marker in front of the text becomes a span, the rest is
      converted on its own. */
  lemma ConvertLeadingIcon(name: string, rest: string)
    requires |name| > 0 && forall i :: 0 <= i < |name| ==> IsNameChar(name[i])
    ensures ConvertIcons(":" + name + ":" + rest) == IconSpan(name) + ConvertIcons(rest)
  {
    var s := ":" + name + ":" + rest;
    var t := s[1..];
    assert t == name + (":" + rest);
    NameRunOf(name, ":" + rest);
    assert s[1..1 + |name|] == name;
    assert s[|name| + 2..] == rest;
  }

  lemma {:induction false} NameRunOf(name: string, rest: string)
    requires forall i :: 0 <= i < |name| ==> IsNameChar(name[i])
    requires |rest| > 0 && !IsNameChar(rest[0])
    ensures NameRun(name + rest) == |name|
    decreases |name|
  {
    if |name| > 0 {
      NameRunOf(name[1..], rest);
      assert (name + rest)[1..] == name[1..] + rest;
    } else {
      assert name + rest == rest;
    }
  }

  // ---------------------------------------------------------------- tags

  /** The title of an id in the taxonomy, when it has a non-empty one. */
  function TitleOr(tax: Tags.Taxonomy, id: string, fallback: string): (r: string)
    ensures r == fallback || (id in tax && r == tax[id].title && r != "")
  {
    if id in tax && tax[id].title != "" then tax[id].title else fallback
  }

  /** The text of one tag label: `parent/child` tags read
      "<description> <parent>: <child>", other tags their title or themselves. */
  function TagLabel(tax: Tags.Taxonomy, tag: string): (r: string)
  {
    var t := Trim(tag);
    var parts := Split(t, '/');
    if |parts| == 2 then
      var parentName := TitleOr(tax, Trim(parts[0]), Trim(parts[0]));
      var childName := TitleOr(tax, t, Trim(parts[1]));
      var desc := if t in tax then tax[t].description else "";
      ConvertIcons(desc) + " " + parentName + ": " + childName
    else TitleOr(tax, t, t)
  }

  /** A tag with exactly one '/' is shown as parent and child, ending in the
      child's title or trimmed text; any other tag by its own title or its
      trimmed text. */
  lemma TagLabelShape(tax: Tags.Taxonomy, tag: string)
    ensures CountChar(Trim(tag), '/') == 1 <==> |Split(Trim(tag), '/')| == 2
    ensures |Split(Trim(tag), '/')| == 2 ==>
      EndsWith(TagLabel(tax, tag), ": " + TitleOr(tax, Trim(tag), Trim(Split(Trim(tag), '/')[1])))
    ensures |Split(Trim(tag), '/')| != 2 ==> TagLabel(tax, tag) == TitleOr(tax, Trim(tag), Trim(tag))
  {
    SplitCount(Trim(tag), '/');
    var t := Trim(tag);
    var parts := Split(t, '/');
    if |parts| == 2 {
      var parentName := TitleOr(tax, Trim(parts[0]), Trim(parts[0]));
      var childName := TitleOr(tax, t, Trim(parts[1]));
      var desc := if t in tax then tax[t].description else "";
      var pre := ConvertIcons(desc) + " " + parentName;
      assert TagLabel(tax, tag) == pre + (": " + childName);
    }
  }

  /** One label per comma-separated piece of the tags text, in order; the
      labels are rendered only when the list shows tags and the text is
      non-empty. */
  function TagLabels(tax: Tags.Taxonomy, tags: string, showTags: bool): (r: seq<string>)
    ensures !showTags || tags == "" ==> r == []
    ensures showTags && tags != "" ==> |r| == CountChar(tags, ',') + 1
  {
    if !showTags || tags == "" then []
    else
      var pieces := Split(tags, ',');
      SplitCount(tags, ',');
      seq(|pieces|, i requires 0 <= i < |pieces| => TagLabel(tax, pieces[i]))
  }

  // ---------------------------------------------------------------- link

  const RepositoryPrefix := "/content/qnx-xwalk"

  predicate IsVideo(cfg: ItemConfig) {
    Contains(cfg.link, ".mp4") || Contains(cfg.asset, ".mp4")
  }

  /** The card link: '#' for a video (a modal plays it), the asset for a PDF,
      otherwise the link with its first repository prefix removed. */
  function Href(cfg: ItemConfig): string {
    if IsVideo(cfg) then "#"
    else if Contains(cfg.asset, ".pdf") then cfg.asset
    else ReplaceFirst(cfg.link, RepositoryPrefix, "")
  }

  /** Videos open in place, everything else in a new tab. */
  function Target(cfg: ItemConfig): (r: string)
    ensures r == "" <==> IsVideo(cfg)
  {
    if IsVideo(cfg) then "" else "_blank"
  }

  /** Putting the prefix back where it was removed restores the link; a link
      without the prefix is used as it is. */
  lemma HrefRestoresLink(cfg: ItemConfig)
    requires !IsVideo(cfg) && !Contains(cfg.asset, ".pdf")
    ensures !Contains(cfg.link, RepositoryPrefix) ==> Href(cfg) == cfg.link
    ensures Contains(cfg.link, RepositoryPrefix) ==>
      var k := IndexOf(cfg.link, RepositoryPrefix);
      0 <= k <= |Href(cfg)| && cfg.link == Href(cfg)[..k] + RepositoryPrefix + Href(cfg)[k..]
  {
    IndexOfFirst(cfg.link, RepositoryPrefix);
    ReplaceFirstRestores(cfg.link, RepositoryPrefix);
  }

  /** The URL the video modal plays: the link, else the asset. */
  function VideoUrl(cfg: ItemConfig): (r: Option<string>)
    ensures r.Some? <==> IsVideo(cfg)
    ensures r.Some? && cfg.link != "" ==> r.value == cfg.link
  {
    if !IsVideo(cfg) then None
    else if cfg.link != "" then Some(cfg.link) else Some(cfg.asset)
  }

  // ---------------------------------------------------------------- the card

  /** What the filters block reads back from the card. */
  function ItemOf(cfg: ItemConfig): (r: Tags.Item)
    ensures r.bgTransparent <==> cfg.itemType == ""
    ensures r.itemType == cfg.itemType && r.tags == cfg.tags && r.title == cfg.title
  {
    Tags.Item(cfg.itemType, cfg.tags, cfg.title, cfg.itemType == "")
  }

  /** The rendered card. */
  datatype Card = Card(
    item: Tags.Item,
    href: string,
    target: string,
    videoUrl: Option<string>,
    tagLabels: seq<string>)

  function Render(tax: Tags.Taxonomy, cfg: ItemConfig, showTags: bool): (r: Card)
    ensures r.item.bgTransparent <==> cfg.itemType == ""
    ensures IsVideo(cfg) ==> r.href == "#" && r.target == "" && r.videoUrl.Some?
    ensures !IsVideo(cfg) ==> r.target == "_blank" && r.videoUrl.None?
    ensures !IsVideo(cfg) && Contains(cfg.asset, ".pdf") ==> r.href == cfg.asset
  {
    Card(ItemOf(cfg), Href(cfg), Target(cfg), VideoUrl(cfg), TagLabels(tax, cfg.tags, showTags))
  }
}

=== FILE: filter_widgets.dfy ===
/** How the filter block wires its widgets: one multiple-mode NiceSelect per
    facet category, whose notices feed the selection update, and one NiceText
    search field, whose notices feed the stored query. */
module FilterWidgets {
  import opened Wrappers
  import opened Text
  import opened Tags
  import opened Filters
  import NiceSelect
  import NiceText

  /** `display.get(key) || key`: the display name, or the key when it has none
      or an empty one. */
  function DisplayOr(display: map<string, string>, key: string): (r: string)
    ensures r == key || (key in display && r == display[key] && r != "")
  {
    if key in display && display[key] != "" then display[key] else key
  }

  /** The dropdown built for one category of the facet map: named
      `tag-filter-<category>`, labelled and placeheld by the category's display
      name, in multiple mode, one unselected option per subcategory. */
  function TagDropdown(category: string, subs: seq<string>, display: map<string, string>): (s: NiceSelect.Select)
    ensures NiceSelect.Valid(s) && s.config.multiple
    ensures s.config.name == "tag-filter-" + category
    ensures |s.choices| == |subs| && forall i :: 0 <= i < |subs| ==> s.choices[i].value == subs[i]
    ensures s.chosen == [] && NiceSelect.Value(s) == ""
  {
    var caption := DisplayOr(display, category);
    var config := NiceSelect.SelectConfig("tag-filter-" + category, caption, true, false, caption,
                                          NiceSelect.DefaultSelectedText, false, false, false);
    var choices := seq(|subs|, i requires 0 <= i < |subs| =>
                         NiceSelect.Choice(DisplayOr(display, subs[i]), subs[i], false, false));
    var s := NiceSelect.Create(config, choices);
    assert forall i :: 0 <= i < |choices| ==> !choices[i].selected;
    assert forall x :: x !in s.chosen;
    s
  }

  /** The dropdown handler: the notice's value becomes the category's list. */
  function OnTagNotice(st: FilterState, category: string, n: NiceSelect.Notice): (r: FilterState)
    requires WellFormedSelection(st.selection)
    ensures WellFormedSelection(r.selection)
  {
    OnDropdown(st, category, EvString(n.value))
  }

  /** Because the native select is single-valued, every notice a dropdown
      dispatches carries one string, so however many options are ticked in the
      widget, the stored selection for its category holds at most one value. */
  lemma DropdownStoresAtMostOne(st: FilterState, category: string, dd: NiceSelect.Select, i: nat, browserValue: string)
    requires WellFormedSelection(st.selection) && NormalizeForMatch(category) != ""
    requires NiceSelect.Valid(dd) && i < |dd.choices|
    ensures forall e :: e in NiceSelect.ClickOption(dd, i, browserValue).events ==>
      var got := Lookup(OnTagNotice(st, category, e).selection, NormalizeForMatch(category));
      got.None? || |got.value| == 1
  {
    forall e | e in NiceSelect.ClickOption(dd, i, browserValue).events
      ensures var got := Lookup(OnTagNotice(st, category, e).selection, NormalizeForMatch(category));
        got.None? || |got.value| == 1
    {
      StringEventSelectsAtMostOne(st, category, e.value);
    }
  }

  /** The search field handler. */
  function OnSearchNotice(st: FilterState, n: NiceText.Notice): (r: FilterState)
    ensures r.searchQuery == Trim(ToLower(n.value))
  {
    OnSearch(st, n.value)
  }

  /** Clearing the search field sends two notices; the first clears the stored
      query and the second finds nothing left to change. */
  lemma SearchResetClearsOnce(st: FilterState, f: NiceText.TextField)
    ensures var ev := NiceText.Reset(f).events;
      var once := OnSearchNotice(st, ev[0]);
      once.searchQuery == "" && OnSearchNotice(once, ev[1]) == once
  {
  }
}

=== FILE: filters.dfy ===
/**
 * The state and controller of the filters block: the selected tag filters
 * (a JavaScript `Map` of category -> `Set` of subcategories, kept in
 * insertion order), their JSON persistence in `data-active-tag-filters` and
 * rehydration, the active type filter, the search query, the page size of
 * the load-more pagination, row visibility, and the counters.
 *
 * DOM rows become a sequence of `Tags.Item`; each widget event becomes a
 * transition function on `FilterState`.
 */
module Filters {
  import opened Wrappers
  import opened Text
  import opened Json
  import opened Tags

  // ---------------------------------------------------------------- ordered sets

  predicate Distinct(xs: seq<string>) {
    forall i, j :: 0 <= i < j < |xs| ==> xs[i] != xs[j]
  }

  /** `Array.from(new Set(xs))`: first occurrences, in order. */
  function Dedup(xs: seq<string>): (r: seq<string>)
    ensures forall x :: x in r <==> x in xs
    ensures Distinct(r)
    ensures |r| <= |xs|
    decreases |xs|
  {
    if |xs| == 0 then []
    else
      var d := Dedup(xs[..|xs| - 1]);
      var x := xs[|xs| - 1];
      assert xs == xs[..|xs| - 1] + [x];
      if x in d then d else d + [x]
  }

  /** A list without repetitions is its own set. */
  lemma {:induction false} DedupOfDistinct(xs: seq<string>)
    requires Distinct(xs)
    ensures Dedup(xs) == xs
    decreases |xs|
  {
    if |xs| > 0 {
      var init := xs[..|xs| - 1];
      assert Distinct(init);
      DedupOfDistinct(init);
      assert xs[|xs| - 1] !in init;
      assert init + [xs[|xs| - 1]] == xs;
    }
  }

  // ---------------------------------------------------------------- the selection map

  /** Position of `cat` among the selection's keys, or -1. */
  function Find(sel: Selection, cat: string): (r: int)
    ensures -1 <= r < |sel|
    ensures r >= 0 ==> sel[r].category == cat
    ensures forall j :: 0 <= j < |sel| && (r < 0 || j < r) ==> sel[j].category != cat
    decreases |sel|
  {
    if |sel| == 0 then -1
    else if sel[0].category == cat then 0
    else
      var k := Find(sel[1..], cat);
      if k < 0 then -1 else k + 1
  }

  /** `map.get(cat)`. */
  function Lookup(sel: Selection, cat: string): Option<seq<string>> {
    var k := Find(sel, cat);
    if k < 0 then None else Some(sel[k].subs)
  }

  /** Keys are distinct and every stored set is a set. */
  predicate WellFormedSelection(sel: Selection) {
    DistinctKeys(sel) && (forall i :: 0 <= i < |sel| ==> Distinct(sel[i].subs))
  }

  predicate DistinctKeys(sel: Selection) {
    forall i, j :: 0 <= i < j < |sel| ==> sel[i].category != sel[j].category
  }

  /** `map.set(cat, subs)`: an existing key keeps its position, a new key is
      appended. */
  function SetEntry(sel: Selection, cat: string, subs: seq<string>): (r: Selection)
    ensures Lookup(r, cat) == Some(subs)
    ensures forall c :: c != cat ==> Lookup(r, c) == Lookup(sel, c)
    ensures Find(sel, cat) >= 0 ==> |r| == |sel| && r[Find(sel, cat)] == SelEntry(cat, subs)
    ensures Find(sel, cat) < 0 ==> r == sel + [SelEntry(cat, subs)]
  {
    var k := Find(sel, cat);
    var r := if k < 0 then sel + [SelEntry(cat, subs)] else sel[k := SelEntry(cat, subs)];
    assert Find(r, cat) == (if k < 0 then |sel| else k) by {
      FindAt(r, cat, if k < 0 then |sel| else k);
    }
    forall c | c != cat ensures Lookup(r, c) == Lookup(sel, c) {
      FindUnchanged(sel, r, cat, c);
    }
    r
  }

  /** `map.delete(cat)`. */
  function DeleteEntry(sel: Selection, cat: string): (r: Selection)
    requires WellFormedSelection(sel)
    ensures Lookup(r, cat) == None
    ensures forall c :: c != cat ==> Lookup(r, c) == Lookup(sel, c)
    ensures forall e :: e in r ==> e in sel
  {
    var k := Find(sel, cat);
    if k < 0 then sel
    else
      var r := sel[..k] + sel[k + 1..];
      forall c ensures c != cat ==> Lookup(r, c) == Lookup(sel, c) {
        if c != cat {
          DeleteFind(sel, k, c);
        }
      }
      assert forall j :: 0 <= j < |r| ==> r[j].category != cat;
      r
  }

  lemma FindAt(sel: Selection, cat: string, k: int)
    requires 0 <= k < |sel| && sel[k].category == cat
    requires forall j :: 0 <= j < k ==> sel[j].category != cat
    ensures Find(sel, cat) == k
  {
  }

  /** Changing entries whose key is not `c` does not move `c`. */
  lemma FindUnchanged(sel: Selection, r: Selection, cat: string, c: string)
    requires c != cat
    requires |sel| <= |r| <= |sel| + 1
    requires forall j :: 0 <= j < |sel| && sel[j].category != cat ==> r[j] == sel[j]
    requires forall j :: 0 <= j < |sel| && sel[j].category == cat ==> r[j].category == cat
    requires |r| > |sel| ==> r[|sel|].category == cat
    ensures Lookup(r, c) == Lookup(sel, c)
  {
    var k := Find(sel, c);
    if k >= 0 {
      FindAt(r, c, k);
    } else {
      assert forall j :: 0 <= j < |r| ==> r[j].category != c;
    }
  }

  /** Removing the entry at `k` keeps every other key's entry. */
  lemma DeleteFind(sel: Selection, k: int, c: string)
    requires WellFormedSelection(sel)
    requires 0 <= k < |sel| && sel[k].category != c
    ensures Lookup(sel[..k] + sel[k + 1..], c) == Lookup(sel, c)
  {
    var r := sel[..k] + sel[k + 1..];
    var m := Find(sel, c);
    if m >= 0 {
      var m' := if m < k then m else m - 1;
      assert r[m'] == sel[m];
      forall j | 0 <= j < m' ensures r[j].category != c {
        assert r[j] == if j < k then sel[j] else sel[j + 1];
      }
      FindAt(r, c, m');
    } else {
      forall j | 0 <= j < |r| ensures r[j].category != c {
        assert r[j] == if j < k then sel[j] else sel[j + 1];
      }
    }
  }

  lemma SetEntryWellFormed(sel: Selection, cat: string, subs: seq<string>)
    requires WellFormedSelection(sel) && Distinct(subs)
    ensures WellFormedSelection(SetEntry(sel, cat, subs))
  {
  }

  lemma DeleteEntryWellFormed(sel: Selection, cat: string)
    requires WellFormedSelection(sel)
    ensures WellFormedSelection(DeleteEntry(sel, cat))
  {
    var k := Find(sel, cat);
    if k >= 0 {
      var r := sel[..k] + sel[k + 1..];
      forall i, j | 0 <= i < j < |r| ensures r[i].category != r[j].category {
        var i' := if i < k then i else i + 1;
        var j' := if j < k then j else j + 1;
        assert r[i] == sel[i'] && r[j] == sel[j'];
      }
      forall i | 0 <= i < |r| ensures Distinct(r[i].subs) {
        assert r[i] == if i < k then sel[i] else sel[i + 1];
      }
    }
  }

  // ---------------------------------------------------------------- state

  /** What the block keeps between events. `persisted` is the
      `data-active-tag-filters` attribute; `pageSize` is the current page
      size, 0 when pagination is off. */
  datatype FilterState = FilterState(
    selection: Selection,
    activeFilter: string,
    searchQuery: string,
    persisted: Option<string>,
    pageSize: nat)

  // ---------------------------------------------------------------- persistence

  function EncodeEntry(e: SelEntry): Json {
    JArr([JStr(e.category), JArr(StrItems(e.subs))])
  }

  /** `[[cat, [sub, ...]], ...]` in map order. */
  function EncodeSelection(sel: Selection): Json {
    JArr(seq(|sel|, i requires 0 <= i < |sel| => EncodeEntry(sel[i])))
  }

  lemma EncodeSelectionEncodable(sel: Selection)
    ensures Encodable(EncodeSelection(sel))
  {
    forall i | 0 <= i < |sel| ensures Encodable(EncodeEntry(sel[i])) {
      var subs := EncodeEntry(sel[i]).items[1];
      assert forall j :: 0 <= j < |subs.items| ==> Encodable(subs.items[j]);
    }
  }

  /** `JSON.stringify(entriesArray)`. */
  function SerializeSelection(sel: Selection): (r: string)
    ensures Parse(r) == Some(EncodeSelection(sel))
  {
    EncodeSelectionEncodable(sel);
    ParseStringify(EncodeSelection(sel));
    Stringify(EncodeSelection(sel))
  }

  /** `new Set(subArray)` for the shapes JSON can produce. An absent or null
      value is the empty set, a string is the set of its characters, an array
      of strings is the set of its members. Booleans, numbers and objects are
      not iterable and throw (`None`); arrays holding non-strings are outside
      the model and also give `None`. */
  function DecodeSubs(v: Option<Json>): Option<seq<string>> {
    match v
    case None => Some([])
    case Some(JNull) => Some([])
    case Some(JStr(s)) => Some(Dedup(seq(|s|, i requires 0 <= i < |s| => [s[i]])))
    case Some(JArr(items)) =>
      if forall k :: 0 <= k < |items| ==> items[k].JStr?
      then Some(Dedup(seq(|items|, k requires 0 <= k < |items| && items[k].JStr? => items[k].s)))
      else None
    case Some(_) => None
  }

  /** The destructuring `([cat, subArray]) => [cat, new Set(subArray)]` of one
      entry. Destructuring a non-iterable throws; a missing or non-string key
      is outside the model. Both give `None`. */
  function DecodeEntry(v: Json): Option<SelEntry> {
    match v
    case JArr(items) =>
      if |items| == 0 || !items[0].JStr? then None
      else
        var subs := DecodeSubs(if |items| >= 2 then Some(items[1]) else None);
        if subs.None? then None else Some(SelEntry(items[0].s, subs.value))
    case JStr(s) =>
      if |s| == 0 then None
      else Some(SelEntry([s[0]], if |s| >= 2 then [[s[1]]] else []))
    case _ => None
  }

  function DecodeEntries(items: seq<Json>): (r: Option<seq<SelEntry>>)
    ensures r.Some? ==> |r.value| == |items|
    decreases |items|
  {
    if |items| == 0 then Some([])
    else
      match (DecodeEntry(items[0]), DecodeEntries(items[1..]))
      case (Some(e), Some(es)) => Some([e] + es)
      case _ => None
  }

  /** `new Map(entries)`: later duplicates overwrite, first position kept. */
  function BuildMap(entries: seq<SelEntry>): (r: Selection)
    ensures forall i :: 0 <= i < |entries| ==> Lookup(r, entries[i].category).Some?
    ensures |entries| > 0 ==> Lookup(r, entries[|entries| - 1].category) == Some(entries[|entries| - 1].subs)
    decreases |entries|
  {
    if |entries| == 0 then []
    else
      var e := entries[|entries| - 1];
      SetEntry(BuildMap(entries[..|entries| - 1]), e.category, e.subs)
  }

  /** Every decoded set holds each member once. */
  lemma DecodeSubsDistinct(v: Option<Json>)
    ensures DecodeSubs(v).Some? ==> Distinct(DecodeSubs(v).value)
  {
  }

  lemma {:induction false} DecodeEntriesDistinct(items: seq<Json>)
    ensures DecodeEntries(items).Some? ==>
      forall i :: 0 <= i < |items| ==> Distinct(DecodeEntries(items).value[i].subs)
    decreases |items|
  {
    if |items| > 0 && DecodeEntries(items).Some? {
      DecodeEntriesDistinct(items[1..]);
      var d := DecodeEntry(items[0]);
      var v := items[0];
      if v.JArr? && |v.items| > 0 && v.items[0].JStr? {
        DecodeSubsDistinct(if |v.items| >= 2 then Some(v.items[1]) else None);
      }
      var es := DecodeEntries(items).value;
      assert es == [d.value] + DecodeEntries(items[1..]).value;
      forall i | 0 <= i < |items|
        ensures Distinct(es[i].subs)
      {
        if i > 0 {
          assert es[i] == DecodeEntries(items[1..]).value[i - 1];
        }
      }
    }
  }

  /** A Map built from sets that hold each member once is well formed. */
  lemma {:induction false} BuildMapWellFormed(entries: seq<SelEntry>)
    requires forall i :: 0 <= i < |entries| ==> Distinct(entries[i].subs)
    ensures WellFormedSelection(BuildMap(entries))
    decreases |entries|
  {
    if |entries| > 0 {
      var init := entries[..|entries| - 1];
      assert forall i :: 0 <= i < |init| ==> init[i] == entries[i];
      BuildMapWellFormed(init);
      var e := entries[|entries| - 1];
      SetEntryWellFormed(BuildMap(init), e.category, e.subs);
    }
  }

  /** The rehydration step at the end of decoration: an absent or empty
      attribute, malformed JSON, a non-array value or an entry that throws
      keeps the current selection. */
  function RehydrateSelection(current: Selection, attr: Option<string>): (r: Selection)
    ensures attr.None? || attr == Some("") ==> r == current
    ensures attr.Some? && !(Parse(attr.value).Some? && Parse(attr.value).value.JArr?) ==> r == current
    ensures r != current ==>
      attr.Some? && Parse(attr.value).Some? && Parse(attr.value).value.JArr?
      && DecodeEntries(Parse(attr.value).value.items).Some?
      && r == BuildMap(DecodeEntries(Parse(attr.value).value.items).value)
    ensures WellFormedSelection(current) ==> WellFormedSelection(r)
  {
    match attr
    case None => current
    case Some(text) =>
      if text == "" then current
      else
        match Parse(text)
        case Some(JArr(items)) =>
          (match DecodeEntries(items)
           case Some(entries) =>
             DecodeEntriesDistinct(items);
             BuildMapWellFormed(entries);
             BuildMap(entries)
           case None => current)
        case _ => current
  }

  lemma {:induction false} BuildMapOfDistinctKeys(sel: Selection)
    requires DistinctKeys(sel)
    ensures BuildMap(sel) == sel
    decreases |sel|
  {
    if |sel| > 0 {
      DistinctKeysInit(sel);
      BuildMapOfDistinctKeys(sel[..|sel| - 1]);
      BuildMapSnoc(sel);
      SetLastEntry(sel);
    }
  }

  lemma DistinctKeysInit(sel: Selection)
    requires DistinctKeys(sel) && |sel| > 0
    ensures DistinctKeys(sel[..|sel| - 1])
  {
  }

  /** Setting the last entry's key on the entries before it gives back the
      whole list, when the keys are distinct. */
  lemma SetLastEntry(sel: Selection)
    requires DistinctKeys(sel) && |sel| > 0
    ensures SetEntry(sel[..|sel| - 1], sel[|sel| - 1].category, sel[|sel| - 1].subs) == sel
  {
    var init := sel[..|sel| - 1];
    var e := sel[|sel| - 1];
    forall j | 0 <= j < |init| ensures init[j].category != e.category {
      assert init[j] == sel[j];
    }
    SetNewEntry(init, e);
    assert init + [e] == sel;
  }

  lemma BuildMapSnoc(entries: seq<SelEntry>)
    requires |entries| > 0
    ensures BuildMap(entries) == SetEntry(BuildMap(entries[..|entries| - 1]),
      entries[|entries| - 1].category, entries[|entries| - 1].subs)
  {
  }

  /** Setting a key the map does not hold appends its entry. */
  lemma SetNewEntry(sel: Selection, e: SelEntry)
    requires forall j :: 0 <= j < |sel| ==> sel[j].category != e.category
    ensures SetEntry(sel, e.category, e.subs) == sel + [e]
  {
    assert Find(sel, e.category) < 0;
  }

  function StrItems(xs: seq<string>): seq<Json> {
    seq(|xs|, j requires 0 <= j < |xs| => JStr(xs[j]))
  }

  lemma DecodeSubsOfStrings(xs: seq<string>)
    requires Distinct(xs)
    ensures DecodeSubs(Some(JArr(StrItems(xs)))) == Some(xs)
  {
    var items := StrItems(xs);
    assert forall k :: 0 <= k < |items| ==> items[k].JStr?;
    var strs := seq(|items|, k requires 0 <= k < |items| && items[k].JStr? => items[k].s);
    assert strs == xs;
    DedupOfDistinct(xs);
  }

  lemma DecodeEncodedEntry(e: SelEntry)
    requires Distinct(e.subs)
    ensures DecodeEntry(EncodeEntry(e)) == Some(e)
  {
    assert EncodeEntry(e) == JArr([JStr(e.category), JArr(StrItems(e.subs))]);
    DecodeSubsOfStrings(e.subs);
  }

  lemma {:induction false} DecodeEncodedEntries(sel: Selection)
    requires WellFormedSelection(sel)
    ensures DecodeEntries(EncodeSelection(sel).items) == Some(sel)
    decreases |sel|
  {
    if |sel| > 0 {
      var items := EncodeSelection(sel).items;
      DecodeEncodedEntry(sel[0]);
      assert WellFormedSelection(sel[1..]);
      DecodeEncodedEntries(sel[1..]);
      assert items[1..] == EncodeSelection(sel[1..]).items;
      assert [sel[0]] + sel[1..] == sel;
    }
  }

  /** What is written is read back: rehydrating the serialised form of a
      well-formed selection yields that selection, whatever was current. */
  lemma PersistenceRoundTrip(current: Selection, sel: Selection)
    requires WellFormedSelection(sel)
    ensures RehydrateSelection(current, Some(SerializeSelection(sel))) == sel
  {
    EncodeSelectionEncodable(sel);
    ParseStringify(EncodeSelection(sel));
    DecodeEncodedEntries(sel);
    BuildMapOfDistinctKeys(sel);
  }

  /** Text that is not JSON, or JSON that is not an array, changes nothing. */
  lemma RehydrateRejects(current: Selection, text: string)
    requires Parse(text).None? || !Parse(text).value.JArr?
    ensures RehydrateSelection(current, Some(text)) == current
  {
  }

  // ---------------------------------------------------------------- updateSelectedTag

  /** No category is stored with an empty set, and keys and members are
      normalised. This holds of every selection built by `UpdateSelectedTag`
      (a rehydrated one may break it). */
  predicate NormalSelection(sel: Selection) {
    WellFormedSelection(sel)
    && (forall i :: 0 <= i < |sel| ==> |sel[i].subs| > 0 && Normalized(sel[i].category))
    && (forall i, j :: 0 <= i < |sel| && 0 <= j < |sel[i].subs| ==> Normalized(sel[i].subs[j]))
  }

  function NormalizeAll(xs: seq<string>): (r: seq<string>)
    ensures |r| == |xs|
    ensures forall j :: 0 <= j < |r| ==> Normalized(r[j])
  {
    var r := seq(|xs|, j requires 0 <= j < |xs| => NormalizeForMatch(xs[j]));
    forall j | 0 <= j < |r| ensures Normalized(r[j]) {
      NormalizeShape(xs[j]);
    }
    r
  }

  /** `updateSelectedTag(category, subcategories)`. */
  function UpdateSelectedTag(st: FilterState, category: string, subs: seq<string>): (r: FilterState)
    requires WellFormedSelection(st.selection)
    ensures WellFormedSelection(r.selection)
  {
    var cat := NormalizeForMatch(category);
    if cat == "" then st
    else
      var sel :=
        if |subs| == 0 then
          (DeleteEntryWellFormed(st.selection, cat); DeleteEntry(st.selection, cat))
        else
          (SetEntryWellFormed(st.selection, cat, Dedup(NormalizeAll(subs))); SetEntry(st.selection, cat, Dedup(NormalizeAll(subs))));
      st.(selection := sel, persisted := Some(SerializeSelection(sel)))
  }

  /** The selection after an update: a blank category changes nothing; an
      empty list removes the category; otherwise the category holds exactly
      the normalised values. Other categories keep their entries. */
  lemma UpdateSelectedTagSpec(st: FilterState, category: string, subs: seq<string>, c: string)
    requires WellFormedSelection(st.selection)
    ensures var r := UpdateSelectedTag(st, category, subs);
      var cat := NormalizeForMatch(category);
      (cat == "" ==> r == st)
      && (cat != "" ==>
            (|subs| == 0 ==> Lookup(r.selection, cat).None?)
            && (|subs| > 0 ==>
                  (Lookup(r.selection, cat).Some?
                   && forall x :: x in Lookup(r.selection, cat).value <==>
                        exists j :: 0 <= j < |subs| && x == NormalizeForMatch(subs[j])))
            && (c != cat ==> Lookup(r.selection, c) == Lookup(st.selection, c)))
  {
    var cat := NormalizeForMatch(category);
    if cat != "" && |subs| > 0 {
      var ns := NormalizeAll(subs);
      assert UpdateSelectedTag(st, category, subs).selection == SetEntry(st.selection, cat, Dedup(ns));
      assert forall j :: 0 <= j < |subs| ==> ns[j] == NormalizeForMatch(subs[j]);
    }
  }

  /** After a real update the attribute holds the new selection: reading it
      back gives exactly that selection. */
  lemma UpdatePersists(st: FilterState, category: string, subs: seq<string>)
    requires WellFormedSelection(st.selection) && NormalizeForMatch(category) != ""
    ensures var r := UpdateSelectedTag(st, category, subs);
      r.persisted.Some? && RehydrateSelection(st.selection, r.persisted) == r.selection
  {
    var r := UpdateSelectedTag(st, category, subs);
    assert r.persisted == Some(SerializeSelection(r.selection));
    PersistenceRoundTrip(st.selection, r.selection);
  }

  /** Updates keep the selection normal: no category ever holds an empty set. */
  lemma UpdateKeepsNormal(st: FilterState, category: string, subs: seq<string>)
    requires NormalSelection(st.selection)
    ensures NormalSelection(UpdateSelectedTag(st, category, subs).selection)
  {
    var cat := NormalizeForMatch(category);
    NormalizeShape(category);
    if cat != "" {
      if |subs| == 0 {
        DeleteKeepsNormal(st.selection, cat);
      } else {
        var d := Dedup(NormalizeAll(subs));
        assert NormalizeAll(subs)[0] in d;
        DedupNormalized(NormalizeAll(subs));
        SetKeepsNormal(st.selection, cat, d);
      }
    }
  }

  lemma DedupNormalized(xs: seq<string>)
    requires forall j :: 0 <= j < |xs| ==> Normalized(xs[j])
    ensures forall j :: 0 <= j < |Dedup(xs)| ==> Normalized(Dedup(xs)[j])
  {
    forall j | 0 <= j < |Dedup(xs)| ensures Normalized(Dedup(xs)[j]) {
      var x := Dedup(xs)[j];
      assert x in xs;
    }
  }

  lemma DeleteKeepsNormal(sel: Selection, cat: string)
    requires NormalSelection(sel)
    ensures NormalSelection(DeleteEntry(sel, cat))
  {
    var r := DeleteEntry(sel, cat);
    DeleteEntryWellFormed(sel, cat);
    forall i | 0 <= i < |r| ensures |r[i].subs| > 0 && Normalized(r[i].category) {
      assert r[i] in sel;
    }
    forall i, j | 0 <= i < |r| && 0 <= j < |r[i].subs| ensures Normalized(r[i].subs[j]) {
      assert r[i] in sel;
    }
  }

  lemma SetKeepsNormal(sel: Selection, cat: string, subs: seq<string>)
    requires NormalSelection(sel) && Normalized(cat) && |subs| > 0 && Distinct(subs)
    requires forall j :: 0 <= j < |subs| ==> Normalized(subs[j])
    ensures NormalSelection(SetEntry(sel, cat, subs))
  {
    var r := SetEntry(sel, cat, subs);
    SetEntryWellFormed(sel, cat, subs);
    forall i | 0 <= i < |r| ensures |r[i].subs| > 0 && Normalized(r[i].category) && forall j :: 0 <= j < |r[i].subs| ==> Normalized(r[i].subs[j]) {
      if i < |sel| && r[i] != SelEntry(cat, subs) {
        assert r[i] == sel[i];
      }
    }
  }

  // ---------------------------------------------------------------- matching and pagination

  /** The query as `applyMultiTagFilter` reads it. */
  function SearchText(st: FilterState): string {
    ToLower(Trim(st.searchQuery))
  }

  function MatchFlags(tax: Taxonomy, items: seq<Item>, st: FilterState): (r: seq<bool>)
    ensures |r| == |items|
  {
    seq(|items|, i requires 0 <= i < |items| =>
      ItemMatches(tax, items[i], st.selection, st.activeFilter, SearchText(st)))
  }

  /** Number of matching rows among the first `n`. */
  function Rank(m: seq<bool>, n: nat): nat
    requires n <= |m|
    ensures Rank(m, n) <= n
  {
    if n == 0 then 0 else Rank(m, n - 1) + (if m[n - 1] then 1 else 0)
  }

  /** The count is the size of the set of matching positions. */
  lemma {:induction false} RankIsCardinality(m: seq<bool>, n: nat)
    requires n <= |m|
    ensures Rank(m, n) == |set i | 0 <= i < n && m[i]|
  {
    if n > 0 {
      RankIsCardinality(m, n - 1);
      var before := set i | 0 <= i < n - 1 && m[i];
      var now := set i | 0 <= i < n && m[i];
      if m[n - 1] {
        assert now == before + {n - 1};
      } else {
        assert now == before;
      }
    }
  }

  /** A row is shown when it matches and its 1-based rank among matching rows
      fits in the page (or pagination is off). */
  predicate ShownAt(m: seq<bool>, pageSize: nat, i: int)
    requires 0 <= i < |m|
  {
    m[i] && (pageSize == 0 || Rank(m, i + 1) <= pageSize)
  }

  function ShownCount(m: seq<bool>, pageSize: nat, n: nat): nat
    requires n <= |m|
  {
    if n == 0 then 0 else ShownCount(m, pageSize, n - 1) + (if ShownAt(m, pageSize, n - 1) then 1 else 0)
  }

  function Min(a: int, b: int): int {
    if a <= b then a else b
  }

  /** All matching rows are shown without pagination, otherwise the first
      `pageSize` of them. */
  lemma {:induction false} ShownCountIs(m: seq<bool>, pageSize: nat, n: nat)
    requires n <= |m|
    ensures ShownCount(m, pageSize, n) == if pageSize == 0 then Rank(m, n) else Min(pageSize, Rank(m, n))
  {
    if n > 0 {
      ShownCountIs(m, pageSize, n - 1);
    }
  }

  /** The pagination loop of `applyMultiTagFilter` over the rows' match
      flags: the `hidden` flag of every row. */
  method Paginate(m: seq<bool>, pageSize: nat) returns (hidden: seq<bool>)
    ensures |hidden| == |m|
    ensures forall i :: 0 <= i < |m| ==> (hidden[i] <==> !ShownAt(m, pageSize, i))
  {
    var visibleCount := 0;
    hidden := [];
    var i := 0;
    while i < |m|
      invariant 0 <= i <= |m|
      invariant |hidden| == i
      invariant visibleCount == if pageSize > 0 then Rank(m, i) else 0
      invariant forall j :: 0 <= j < i ==> (hidden[j] <==> !ShownAt(m, pageSize, j))
    {
      var shouldShow := m[i];
      if m[i] && pageSize > 0 {
        visibleCount := visibleCount + 1;
        shouldShow := visibleCount <= pageSize;
      }
      hidden := hidden + [!shouldShow];
      i := i + 1;
    }
  }

  /** `applyMultiTagFilter`: every row is matched against the current
      selection, type and query, then paginated. */
  method ApplyMultiTagFilter(tax: Taxonomy, items: seq<Item>, st: FilterState) returns (hidden: seq<bool>)
    ensures |hidden| == |items|
    ensures forall i :: 0 <= i < |items| ==> (hidden[i] <==> !ShownAt(MatchFlags(tax, items, st), st.pageSize, i))
  {
    hidden := Paginate(MatchFlags(tax, items, st), st.pageSize);
  }

  /** The counting loop of `countMatchingItems`. */
  method CountTrue(m: seq<bool>) returns (total: nat)
    ensures total == |set i | 0 <= i < |m| && m[i]|
  {
    total := 0;
    var i := 0;
    while i < |m|
      invariant 0 <= i <= |m|
      invariant total == Rank(m, i)
    {
      if m[i] {
        total := total + 1;
      }
      i := i + 1;
    }
    RankIsCardinality(m, |m|);
  }

  /** `countMatchingItems`: the number of rows the matcher accepts. */
  method CountMatchingItems(tax: Taxonomy, items: seq<Item>, st: FilterState) returns (total: nat)
    ensures total == |set i | 0 <= i < |items| && MatchFlags(tax, items, st)[i]|
  {
    total := CountTrue(MatchFlags(tax, items, st));
  }

  /** `updateLoadMoreButton`: hidden when pagination is off or every match
      fits in the page. */
  function LoadMoreHidden(pageSize: nat, total: nat): bool {
    pageSize == 0 || total <= pageSize
  }

  /** The button is hidden exactly when every matching row is shown. */
  lemma LoadMoreHiddenIffAllShown(m: seq<bool>, pageSize: nat)
    ensures LoadMoreHidden(pageSize, Rank(m, |m|)) <==> ShownCount(m, pageSize, |m|) == Rank(m, |m|)
  {
    ShownCountIs(m, pageSize, |m|);
  }

  /** `updateLoadMoreCounter`: untouched (`None`) when pagination is off,
      else "visible/total". */
  function CounterText(pageSize: nat, total: nat): Option<string> {
    if pageSize == 0 then None
    else Some(NatToString(Min(pageSize, total)) + "/" + NatToString(total))
  }

  /** The counter reads back as the number of shown rows and the number of
      matching rows. */
  lemma CounterReadsBack(m: seq<bool>, pageSize: nat)
    requires pageSize > 0
    ensures var text := CounterText(pageSize, Rank(m, |m|)).value;
      var parts := Split(text, '/');
      |parts| == 2
      && (forall k :: 0 <= k < 2 ==> forall i :: 0 <= i < |parts[k]| ==> IsDigit(parts[k][i]))
      && DigitsValue(parts[0]) == ShownCount(m, pageSize, |m|)
      && DigitsValue(parts[1]) == Rank(m, |m|)
  {
    var total := Rank(m, |m|);
    var a := NatToString(Min(pageSize, total));
    var b := NatToString(total);
    assert forall i :: 0 <= i < |a| ==> a[i] != '/';
    assert forall i :: 0 <= i < |b| ==> b[i] != '/';
    assert '/' !in a && '/' !in b;
    assert Join([a, b], ['/']) == a + "/" + b;
    SplitJoin([a, b], '/');
    NatToStringValue(Min(pageSize, total));
    NatToStringValue(total);
    ShownCountIs(m, pageSize, |m|);
  }

  /** `updateTotalCount`: the label (or nothing), a space, the count. */
  function TotalText(caption: string, total: nat): (r: string)
    ensures EndsWith(r, " " + NatToString(total))
    ensures StartsWith(r, caption) && |r| == |caption| + 1 + |NatToString(total)|
    ensures r[|caption|] == ' '
    ensures var digits := r[|caption| + 1..];
      |digits| >= 1 && (forall i :: 0 <= i < |digits| ==> IsDigit(digits[i]))
      && DigitsValue(digits) == total
  {
    var r := caption + " " + NatToString(total);
    assert r[..|caption|] == caption;
    assert r[|caption| + 1..] == NatToString(total);
    NatToStringValue(total);
    r
  }

  // ---------------------------------------------------------------- page size

  /** `parseInt(text, 10)` with `None` for NaN (an absent cell reads as the
      text "undefined"): leading white space, an optional sign, then the
      longest run of decimal digits, which must not be empty. */
  function ParseInt(text: Option<string>): (r: Option<int>)
    ensures text.Some? && |text.value| > 0 && IsDigit(text.value[0]) ==> r.Some? && r.value >= 0
  {
    match text
    case None => None
    case Some(s) =>
      var t := TrimStart(s);
      assert |s| > 0 && IsDigit(s[0]) ==> t == s by {
        if |s| > 0 && IsDigit(s[0]) { TrimStartOfNonSpace(s); }
      }
      var neg := |t| > 0 && t[0] == '-';
      var u := if |t| > 0 && (t[0] == '-' || t[0] == '+') then t[1..] else t;
      var d := DigitPrefix(u);
      var v: int := DigitsValue(d);
      if |d| == 0 then None else Some(if neg then -v else v)
  }

  /** The longest prefix of decimal digits. */
  function DigitPrefix(s: string): (r: string)
    ensures |r| <= |s| && r == s[..|r|]
    ensures forall i :: 0 <= i < |r| ==> IsDigit(s[i])
    ensures |r| < |s| ==> !IsDigit(s[|r|])
    decreases |s|
  {
    if |s| == 0 || !IsDigit(s[0]) then "" else [s[0]] + DigitPrefix(s[1..])
  }

  /** Printing then parsing a count gives the count back. */
  lemma ParseIntOfNat(n: nat)
    ensures ParseInt(Some(NatToString(n))) == Some(n)
  {
    var s := NatToString(n);
    TrimStartOfNonSpace(s);
    assert DigitPrefix(s) == s;
    NatToStringValue(n);
  }

  /** `parseInt(text, 10) || 0`. */
  function NumberOfItems(text: Option<string>): (r: int)
    ensures ParseInt(text).None? ==> r == 0
    ensures ParseInt(text).Some? ==> r == ParseInt(text).value
  {
    match ParseInt(text)
    case None => 0
    case Some(v) => v
  }

  /** A configured count written in decimal is read as that count. */
  lemma NumberOfItemsOfNat(n: nat)
    ensures NumberOfItems(Some(NatToString(n))) == n
  {
    ParseIntOfNat(n);
  }

  /** The configured count becomes the page size when none is set yet. */
  function InitialPageSize(current: nat, numberOfItems: int): (r: nat)
    ensures numberOfItems > 0 ==> r > 0
  {
    if current == 0 && numberOfItems > 0 then numberOfItems else current
  }

  /** The static item count taken once at decoration: the items without the
      `bg-transparent` class. It only decides whether load-more is built; the
      text it is first written into is overwritten at once by the filter pass,
      which writes the matching count through `updateTotalCount`. */
  function TotalItems(items: seq<Item>): (r: nat)
    ensures r <= |items|
    ensures (forall i :: 0 <= i < |items| ==> !items[i].bgTransparent) ==> r == |items|
    ensures (forall i :: 0 <= i < |items| ==> items[i].bgTransparent) ==> r == 0
    decreases |items|
  {
    if |items| == 0 then 0
    else TotalItems(items[..|items| - 1]) + (if items[|items| - 1].bgTransparent then 0 else 1)
  }

  /** The total is the number of positions whose item is not bg-transparent. */
  lemma {:induction false} TotalItemsCounts(items: seq<Item>)
    ensures TotalItems(items) == |set i | 0 <= i < |items| && !items[i].bgTransparent|
    decreases |items|
  {
    if |items| > 0 {
      var n := |items|;
      var init := items[..n - 1];
      TotalItemsCounts(init);
      var before := set i | 0 <= i < n - 1 && !init[i].bgTransparent;
      var now := set i | 0 <= i < n && !items[i].bgTransparent;
      assert before == set i | 0 <= i < n - 1 && !items[i].bgTransparent;
      if items[n - 1].bgTransparent {
        assert now == before;
      } else {
        assert now == before + {n - 1};
      }
    }
  }

  /** The load-more control is built only for a positive count smaller than
      the number of counted items. */
  predicate LoadMoreExists(numberOfItems: int, totalItems: nat) {
    numberOfItems > 0 && totalItems > numberOfItems
  }

  /** A click on load-more grows the page by the configured count. */
  function LoadMore(st: FilterState, numberOfItems: int, totalItems: nat): (r: FilterState)
    requires LoadMoreExists(numberOfItems, totalItems)
    ensures r.pageSize == st.pageSize + numberOfItems > st.pageSize
    ensures r.(pageSize := st.pageSize) == st
  {
    st.(pageSize := st.pageSize + numberOfItems)
  }

  /** Load-more never hides a shown row: with pagination on, at least as
      many rows are shown after the click. */
  lemma LoadMoreShowsMore(m: seq<bool>, st: FilterState, numberOfItems: int, totalItems: nat)
    requires LoadMoreExists(numberOfItems, totalItems) && st.pageSize > 0
    ensures ShownCount(m, LoadMore(st, numberOfItems, totalItems).pageSize, |m|) >= ShownCount(m, st.pageSize, |m|)
    ensures forall i :: 0 <= i < |m| && ShownAt(m, st.pageSize, i) ==>
      ShownAt(m, LoadMore(st, numberOfItems, totalItems).pageSize, i)
  {
    ShownCountIs(m, st.pageSize, |m|);
    ShownCountIs(m, LoadMore(st, numberOfItems, totalItems).pageSize, |m|);
  }

  /** Page size after `k` clicks. */
  function Clicks(st: FilterState, numberOfItems: int, totalItems: nat, k: nat): FilterState
    requires LoadMoreExists(numberOfItems, totalItems)
  {
    if k == 0 then st else LoadMore(Clicks(st, numberOfItems, totalItems, k - 1), numberOfItems, totalItems)
  }

  /** Starting from the initial page size, the page size is always a whole
      number of increments: it only ever grows by the configured count. */
  lemma {:induction false} PageSizeAfterClicks(st: FilterState, numberOfItems: int, totalItems: nat, k: nat)
    requires LoadMoreExists(numberOfItems, totalItems) && st.pageSize == 0
    ensures var s0 := st.(pageSize := InitialPageSize(st.pageSize, numberOfItems));
      Clicks(s0, numberOfItems, totalItems, k).pageSize == (k + 1) * numberOfItems
  {
    if k > 0 {
      PageSizeAfterClicks(st, numberOfItems, totalItems, k - 1);
    }
  }

  // ---------------------------------------------------------------- type filter

  /** `applyFilter(type)`: the active filter is the normalised type. */
  function ApplyFilter(st: FilterState, selectedType: string): (r: FilterState)
    ensures Normalized(r.activeFilter)
    ensures r.activeFilter == NormalizeForMatch(selectedType)
    ensures r.(activeFilter := st.activeFilter) == st
  {
    NormalizeShape(selectedType);
    st.(activeFilter := NormalizeForMatch(selectedType))
  }

  /** The visual state applied to each type tag by `applyFilter`. */
  function TypeTagStates(tagTypes: seq<string>, selectedType: string): (r: seq<bool>)
    ensures |r| == |tagTypes|
    ensures forall i :: 0 <= i < |r| ==> (r[i] <==> NormalizeForMatch(tagTypes[i]) == NormalizeForMatch(selectedType))
  {
    seq(|tagTypes|, i requires 0 <= i < |tagTypes| =>
      NormalizeForMatch(tagTypes[i]) == NormalizeForMatch(selectedType))
  }

  /** The tags built for a set of types: "All" (the empty type) first. */
  function TypeTags(types: seq<string>): seq<string> {
    [""] + types
  }

  /** The types collected from the items are distinct, normalised and
      non-empty. */
  predicate ValidTypes(types: seq<string>) {
    Distinct(types) && forall i :: 0 <= i < |types| ==> types[i] != "" && Normalized(types[i])
  }

  /** Selecting the empty type or a collected type marks exactly that tag. */
  lemma ExactlyOneTypeTag(types: seq<string>, selectedType: string)
    requires ValidTypes(types)
    requires NormalizeForMatch(selectedType) in TypeTags(types)
    ensures var flags := TypeTagStates(TypeTags(types), selectedType);
      exists i :: (0 <= i < |flags| && flags[i] && TypeTags(types)[i] == NormalizeForMatch(selectedType)
                   && forall j :: 0 <= j < |flags| && j != i ==> !flags[j])
  {
    var tags := TypeTags(types);
    var t := NormalizeForMatch(selectedType);
    var flags := TypeTagStates(tags, selectedType);
    assert Normalized("") by { AllSpaceTrim(""); }
    assert forall j :: 0 <= j < |tags| ==> Normalized(tags[j]) by {
      forall j | 0 <= j < |tags| ensures Normalized(tags[j]) {
        if j > 0 { assert tags[j] == types[j - 1]; }
      }
    }
    var i :| 0 <= i < |tags| && tags[i] == t;
    forall j | 0 <= j < |flags| && j != i ensures !flags[j] {
      assert flags[j] == (NormalizeForMatch(tags[j]) == t);
      assert NormalizeForMatch(tags[j]) == tags[j];
      TypeTagsDistinct(types, i, j);
    }
  }

  /** The type tags are pairwise different. */
  lemma TypeTagsDistinct(types: seq<string>, i: nat, j: nat)
    requires ValidTypes(types) && i < |TypeTags(types)| && j < |TypeTags(types)| && i != j
    ensures TypeTags(types)[i] != TypeTags(types)[j]
  {
    var tags := TypeTags(types);
    if i > 0 { assert tags[i] == types[i - 1]; }
    if j > 0 { assert tags[j] == types[j - 1]; }
  }

  /** A `nice-input` from the type tag for `tagType`. */
  function OnTypeTag(st: FilterState, tagType: string, isSelected: bool): (r: FilterState)
    ensures isSelected ==> r.activeFilter == NormalizeForMatch(tagType)
    ensures !isSelected && st.activeFilter == tagType ==> r.activeFilter == ""
    ensures !isSelected && st.activeFilter != tagType ==> r == st
    ensures r.(activeFilter := st.activeFilter) == st
  {
    assert Normalized("") by { AllSpaceTrim(""); }
    if isSelected then ApplyFilter(st, tagType)
    else if st.activeFilter == tagType then ApplyFilter(st, "")
    else st
  }

  /** The active filter always names one of the type tags: it starts as one
      and every tag event keeps it so. */
  lemma OnTypeTagKeepsActiveTag(st: FilterState, types: seq<string>, tagType: string, isSelected: bool)
    requires ValidTypes(types)
    requires st.activeFilter in TypeTags(types) && tagType in TypeTags(types)
    ensures OnTypeTag(st, tagType, isSelected).activeFilter in TypeTags(types)
    ensures isSelected ==> OnTypeTag(st, tagType, isSelected).activeFilter == tagType
    ensures !isSelected && st.activeFilter == tagType ==> OnTypeTag(st, tagType, isSelected).activeFilter == ""
    ensures !isSelected && st.activeFilter != tagType ==> OnTypeTag(st, tagType, isSelected) == st
  {
    assert Normalized("") by { AllSpaceTrim(""); }
    if tagType != "" {
      var k :| 0 <= k < |types| && types[k] == tagType;
    }
  }

  // ---------------------------------------------------------------- dropdowns and search

  /** `e.detail.value` of a dropdown event: a string (what the select widget
      sends) or an array. */
  datatype EventValue = EvString(s: string) | EvList(xs: seq<string>)

  /** An array is taken as is, a non-empty string becomes a one-element list,
      an empty string the empty list. */
  function DropdownValues(v: EventValue): (r: seq<string>)
    ensures v.EvString? ==> |r| <= 1
  {
    match v
    case EvList(xs) => xs
    case EvString(s) => if s != "" then [s] else []
  }

  /** The dropdown handler for the select of `category`. */
  function OnDropdown(st: FilterState, category: string, v: EventValue): (r: FilterState)
    requires WellFormedSelection(st.selection)
    ensures WellFormedSelection(r.selection)
  {
    UpdateSelectedTag(st, category, DropdownValues(v))
  }

  /** A string event leaves at most one subcategory for its category, and an
      empty string clears the category. */
  lemma StringEventSelectsAtMostOne(st: FilterState, category: string, s: string)
    requires WellFormedSelection(st.selection) && NormalizeForMatch(category) != ""
    ensures var r := OnDropdown(st, category, EvString(s)).selection;
      (s == "" ==> Lookup(r, NormalizeForMatch(category)).None?)
      && (s != "" ==> Lookup(r, NormalizeForMatch(category)) == Some([NormalizeForMatch(s)]))
  {
    if s != "" {
      assert NormalizeAll([s]) == [NormalizeForMatch(s)];
      assert Dedup([NormalizeForMatch(s)]) == [NormalizeForMatch(s)] by {
        assert [NormalizeForMatch(s)][..0] == [];
      }
    }
  }

  /** The search field handler: the value lower-cased and trimmed. */
  function OnSearch(st: FilterState, value: string): (r: FilterState)
    ensures IsTrimmed(r.searchQuery) && IsLower(r.searchQuery)
    ensures r.searchQuery == NormalizeForMatch(value)
    ensures r.(searchQuery := st.searchQuery) == st
  {
    TrimLowerCommute(value);
    NormalizeShape(value);
    st.(searchQuery := Trim(ToLower(value)))
  }

  /** The stored query is already in the form the matcher reads, and
      re-sending it changes nothing. */
  lemma SearchStoredNormalized(st: FilterState, value: string)
    ensures SearchText(OnSearch(st, value)) == OnSearch(st, value).searchQuery
    ensures OnSearch(OnSearch(st, value), OnSearch(st, value).searchQuery) == OnSearch(st, value)
  {
    var q := Trim(ToLower(value));
    TrimLowerCommute(value);
    NormalizeShape(value);
  }

  // ---------------------------------------------------------------- collecting facets

  /** The types for the type tags, the category map for the dropdowns and
      the display names. */
  datatype Facets = Facets(types: seq<string>, tags: map<string, set<string>>, display: map<string, string>)

  function MergeTags(a: map<string, set<string>>, b: map<string, set<string>>): map<string, set<string>> {
    map k | k in a.Keys + b.Keys :: (if k in a then a[k] else {}) + (if k in b then b[k] else {})
  }

  /** Keep existing names; take new keys from `b`. */
  function MergeFirst(a: map<string, string>, b: map<string, string>): map<string, string> {
    map k | k in a.Keys + b.Keys :: if k in a then a[k] else b[k]
  }

  function ItemTagsOf(tax: Taxonomy, item: Item): ItemTags {
    ParseItemTags(tax, Trim(item.tags))
  }

  /** The type list after one more item: its normalised type is appended
      when it is new and not empty. */
  function NextTypes(types: seq<string>, itemType: string): seq<string> {
    var ty := NormalizeForMatch(itemType);
    if ty != "" && ty !in types then types + [ty] else types
  }

  function FacetStep(tax: Taxonomy, f: Facets, item: Item): Facets {
    var types := NextTypes(f.types, item.itemType);
    var content := Trim(item.tags);
    if content == "" then f.(types := types)
    else
      var it := ParseItemTags(tax, content);
      Facets(types, MergeTags(f.tags, it.itemMap), MergeFirst(f.display, it.displayNames))
  }

  /** The collection loop over the filter items, in document order. */
  function CollectFacets(tax: Taxonomy, items: seq<Item>): (r: Facets)
    ensures |r.types| <= |items|
    decreases |items|
  {
    if |items| == 0 then Facets([], map[], map[])
    else FacetStep(tax, CollectFacets(tax, items[..|items| - 1]), items[|items| - 1])
  }

  lemma CollectFacetsSnoc(tax: Taxonomy, items: seq<Item>)
    requires |items| > 0
    ensures CollectFacets(tax, items) ==
      FacetStep(tax, CollectFacets(tax, items[..|items| - 1]), items[|items| - 1])
  {
  }

  predicate HasType(items: seq<Item>, t: string) {
    exists i :: 0 <= i < |items| && NormalizeForMatch(items[i].itemType) == t
  }

  /** The types are the distinct non-empty normalised item types, in order
      of first appearance. */
  lemma {:induction false} CollectedTypes(tax: Taxonomy, items: seq<Item>)
    ensures ValidTypes(CollectFacets(tax, items).types)
    ensures forall t :: t in CollectFacets(tax, items).types <==> t != "" && HasType(items, t)
    decreases |items|
  {
    if |items| > 0 {
      var init := items[..|items| - 1];
      var last := items[|items| - 1];
      CollectedTypes(tax, init);
      CollectFacetsSnoc(tax, items);
      TypeStep(tax, CollectFacets(tax, init), last);
      HasTypeSnoc(items);
    }
  }

  /** One item adds its normalised type when it is new and not empty. */
  lemma TypeStep(tax: Taxonomy, f: Facets, item: Item)
    requires ValidTypes(f.types)
    ensures ValidTypes(FacetStep(tax, f, item).types)
    ensures forall t :: t in FacetStep(tax, f, item).types <==>
      t in f.types || (t != "" && t == NormalizeForMatch(item.itemType))
  {
    assert FacetStep(tax, f, item).types == NextTypes(f.types, item.itemType);
    NextTypesValid(f.types, item.itemType);
  }

  lemma NextTypesValid(types: seq<string>, itemType: string)
    requires ValidTypes(types)
    ensures ValidTypes(NextTypes(types, itemType))
    ensures forall t :: t in NextTypes(types, itemType) <==>
      t in types || (t != "" && t == NormalizeForMatch(itemType))
  {
    var ty := NormalizeForMatch(itemType);
    NormalizeShape(itemType);
    if ty != "" && ty !in types {
      DistinctSnoc(types, ty);
      var r := types + [ty];
      assert forall i :: 0 <= i < |types| ==> r[i] == types[i];
    }
  }

  lemma DistinctSnoc(xs: seq<string>, x: string)
    requires Distinct(xs) && x !in xs
    ensures Distinct(xs + [x])
  {
    var r := xs + [x];
    forall i, j | 0 <= i < j < |r| ensures r[i] != r[j] {
      assert r[i] == xs[i];
      if j < |xs| { assert r[j] == xs[j]; }
    }
  }

  lemma HasTypeSnoc(items: seq<Item>)
    requires |items| > 0
    ensures forall t :: HasType(items, t) <==>
      HasType(items[..|items| - 1], t) || NormalizeForMatch(items[|items| - 1].itemType) == t
  {
    var init := items[..|items| - 1];
    forall t ensures HasType(items, t) <==> HasType(init, t) || NormalizeForMatch(items[|items| - 1].itemType) == t {
      if HasType(init, t) {
        var i :| 0 <= i < |init| && NormalizeForMatch(init[i].itemType) == t;
        assert items[i] == init[i];
      }
      if HasType(items, t) {
        var i :| 0 <= i < |items| && NormalizeForMatch(items[i].itemType) == t;
        if i < |init| { assert items[i] == init[i]; }
      }
    }
  }

  /** Every pair of every item's tags, as in `Tags.PairsOf`. */
  function AllPairs(tax: Taxonomy, items: seq<Item>): set<(string, string)>
    decreases |items|
  {
    if |items| == 0 then {}
    else AllPairs(tax, items[..|items| - 1]) + PairsOf(tax, Tokens(Trim(items[|items| - 1].tags), ','))
  }

  lemma ReferenceMapUnion(a: set<(string, string)>, b: set<(string, string)>)
    ensures MergeTags(ReferenceMap(a), ReferenceMap(b)) == ReferenceMap(a + b)
  {
    var lhs := MergeTags(ReferenceMap(a), ReferenceMap(b));
    var rhs := ReferenceMap(a + b);
    CategoriesUnion(a, b);
    assert lhs.Keys == rhs.Keys;
    forall k | k in lhs ensures lhs[k] == rhs[k] {
      SubsUnion(a, b, k);
      SubsOfAbsent(a, k);
      SubsOfAbsent(b, k);
    }
  }

  lemma CategoriesUnion(a: set<(string, string)>, b: set<(string, string)>)
    ensures CategoriesOf(a + b) == CategoriesOf(a) + CategoriesOf(b)
  {
    forall k | k in CategoriesOf(a + b) ensures k in CategoriesOf(a) + CategoriesOf(b) {
      var p :| p in a + b && p.0 == k;
      if p in a { assert k in CategoriesOf(a); } else { assert k in CategoriesOf(b); }
    }
    forall k | k in CategoriesOf(a) + CategoriesOf(b) ensures k in CategoriesOf(a + b) {
      var p :| (p in a || p in b) && p.0 == k;
      assert p in a + b;
    }
  }

  lemma SubsUnion(a: set<(string, string)>, b: set<(string, string)>, k: string)
    ensures SubsOf(a + b, k) == SubsOf(a, k) + SubsOf(b, k)
  {
    forall x | x in SubsOf(a + b, k) ensures x in SubsOf(a, k) + SubsOf(b, k) {
      assert (k, x) in a + b;
      if (k, x) in a { assert x in SubsOf(a, k); } else { assert x in SubsOf(b, k); }
    }
    forall x | x in SubsOf(a, k) + SubsOf(b, k) ensures x in SubsOf(a + b, k) {
      assert (k, x) in a + b;
    }
  }

  /** A category no pair names has no subcategories. */
  lemma SubsOfAbsent(a: set<(string, string)>, k: string)
    ensures k !in CategoriesOf(a) ==> SubsOf(a, k) == {}
  {
    forall x | x in SubsOf(a, k) ensures k in CategoriesOf(a) {
      assert (k, x) in a;
    }
  }

  /** The dropdown map is the union of the items' category maps: a category
      holds a subcategory exactly when some item pairs them. */
  lemma {:induction false} CollectedTagsAreUnion(tax: Taxonomy, items: seq<Item>)
    ensures CollectFacets(tax, items).tags == ReferenceMap(AllPairs(tax, items))
    decreases |items|
  {
    if |items| == 0 {
      assert ReferenceMap({}) == map[];
    } else {
      var init := items[..|items| - 1];
      var last := items[|items| - 1];
      CollectedTagsAreUnion(tax, init);
      var content := Trim(last.tags);
      var toks := Tokens(content, ',');
      ItemMapIsReference(tax, toks);
      if content == "" {
        TokensOfEmpty(',');
        assert PairsOf(tax, toks) == {};
        assert AllPairs(tax, items) == AllPairs(tax, init);
      } else {
        ReferenceMapUnion(AllPairs(tax, init), PairsOf(tax, toks));
      }
    }
  }

  /** The display names an item contributes. */
  function NamesOf(tax: Taxonomy, item: Item): map<string, string> {
    ParseItemTags(tax, Trim(item.tags)).displayNames
  }

  /** Names merged left to right, earlier names kept. */
  function FoldFirst(ds: seq<map<string, string>>): map<string, string>
    decreases |ds|
  {
    if |ds| == 0 then map[] else MergeFirst(FoldFirst(ds[..|ds| - 1]), ds[|ds| - 1])
  }

  /** Map `i` holds `k` and no earlier map does. */
  predicate FirstHolder(ds: seq<map<string, string>>, k: string, i: int)
    requires 0 <= i < |ds|
  {
    k in ds[i] && forall j :: 0 <= j < i ==> k !in ds[j]
  }

  lemma {:induction false} FoldFirstSpec(ds: seq<map<string, string>>)
    ensures forall k :: k in FoldFirst(ds) <==> exists i :: 0 <= i < |ds| && k in ds[i]
    ensures forall k, i :: 0 <= i < |ds| && FirstHolder(ds, k, i) ==> FoldFirst(ds)[k] == ds[i][k]
    decreases |ds|
  {
    if |ds| > 0 {
      var init := ds[..|ds| - 1];
      FoldFirstSpec(init);
      assert forall j :: 0 <= j < |init| ==> init[j] == ds[j];
      forall k, i | 0 <= i < |ds| && FirstHolder(ds, k, i) ensures k in FoldFirst(ds) && FoldFirst(ds)[k] == ds[i][k] {
        if i < |init| {
          assert FirstHolder(init, k, i);
          assert k in init[i];
        }
      }
    }
  }

  function NamesSeq(tax: Taxonomy, items: seq<Item>): (r: seq<map<string, string>>)
    ensures |r| == |items|
    ensures forall i :: 0 <= i < |items| ==> r[i] == NamesOf(tax, items[i])
  {
    seq(|items|, i requires 0 <= i < |items| => NamesOf(tax, items[i]))
  }

  lemma NamesSeqSnoc(tax: Taxonomy, items: seq<Item>)
    requires |items| > 0
    ensures NamesSeq(tax, items)[..|items| - 1] == NamesSeq(tax, items[..|items| - 1])
    ensures NamesSeq(tax, items)[|items| - 1] == NamesOf(tax, items[|items| - 1])
  {
  }

  lemma FoldFirstSnoc(ds: seq<map<string, string>>)
    requires |ds| > 0
    ensures FoldFirst(ds) == MergeFirst(FoldFirst(ds[..|ds| - 1]), ds[|ds| - 1])
  {
  }

  lemma FacetStepDisplay(tax: Taxonomy, f: Facets, item: Item)
    ensures FacetStep(tax, f, item).display == MergeFirst(f.display, NamesOf(tax, item))
  {
    if Trim(item.tags) == "" {
      assert NamesOf(tax, item) == map[];
      assert MergeFirst(f.display, map[]) == f.display;
    }
  }

  lemma {:induction false} DisplayIsFoldFirst(tax: Taxonomy, items: seq<Item>)
    ensures CollectFacets(tax, items).display == FoldFirst(NamesSeq(tax, items))
    decreases |items|
  {
    if |items| > 0 {
      var init := items[..|items| - 1];
      var last := items[|items| - 1];
      DisplayIsFoldFirst(tax, init);
      NamesSeqSnoc(tax, items);
      FoldFirstSnoc(NamesSeq(tax, items));
      CollectFacetsSnoc(tax, items);
      FacetStepDisplay(tax, CollectFacets(tax, init), last);
    }
  }

  /** Display names are first-writer-wins: a key is named when some item
      names it, and its name is the one given by the first such item. */
  lemma CollectedDisplayFirstWins(tax: Taxonomy, items: seq<Item>)
    ensures forall k :: k in CollectFacets(tax, items).display <==>
      exists i :: 0 <= i < |items| && k in NamesOf(tax, items[i])
    ensures forall k, i :: 0 <= i < |items| && FirstHolder(NamesSeq(tax, items), k, i) ==>
      CollectFacets(tax, items).display[k] == NamesOf(tax, items[i])[k]
  {
    DisplayIsFoldFirst(tax, items);
    NamesFirstWin(tax, items, CollectFacets(tax, items).display);
  }

  lemma NamesFirstWin(tax: Taxonomy, items: seq<Item>, d: map<string, string>)
    requires d == FoldFirst(NamesSeq(tax, items))
    ensures forall k :: k in d <==> exists i :: 0 <= i < |items| && k in NamesOf(tax, items[i])
    ensures forall k, i :: 0 <= i < |items| && FirstHolder(NamesSeq(tax, items), k, i) ==>
      d[k] == NamesOf(tax, items[i])[k]
  {
    FoldFirstSpec(NamesSeq(tax, items));
    NamesFirstWinKeys(tax, items, d);
  }

  lemma NamesFirstWinKeys(tax: Taxonomy, items: seq<Item>, d: map<string, string>)
    requires forall k :: k in d <==> exists i :: 0 <= i < |NamesSeq(tax, items)| && k in NamesSeq(tax, items)[i]
    ensures forall k :: k in d <==> exists i :: 0 <= i < |items| && k in NamesOf(tax, items[i])
  {
    var ns := NamesSeq(tax, items);
    forall k ensures k in d <==> exists i :: 0 <= i < |items| && k in NamesOf(tax, items[i]) {
      if k in d {
        var i :| 0 <= i < |ns| && k in ns[i];
        assert k in NamesOf(tax, items[i]);
      }
      if exists i :: 0 <= i < |items| && k in NamesOf(tax, items[i]) {
        var i :| 0 <= i < |items| && k in NamesOf(tax, items[i]);
        assert k in ns[i];
      }
    }
  }

  // ---------------------------------------------------------------- decoration

  /** The state after decoration: the page size is initialised from the
      configured count, the stored type filter is re-applied and the
      persisted selection is rehydrated. */
  function Initialize(st: FilterState, numberOfItemsText: Option<string>): (r: FilterState)
    ensures Normalized(r.activeFilter)
    ensures NumberOfItems(numberOfItemsText) > 0 ==> r.pageSize > 0
    ensures r.activeFilter == NormalizeForMatch(st.activeFilter)
    ensures r.pageSize == InitialPageSize(st.pageSize, NumberOfItems(numberOfItemsText))
    ensures r.selection == RehydrateSelection(st.selection, st.persisted)
    ensures WellFormedSelection(st.selection) ==> WellFormedSelection(r.selection)
    ensures r.(activeFilter := st.activeFilter, pageSize := st.pageSize, selection := st.selection) == st
  {
    var n := NumberOfItems(numberOfItemsText);
    var st1 := st.(pageSize := InitialPageSize(st.pageSize, n));
    var st2 := ApplyFilter(st1, st1.activeFilter);
    st2.(selection := RehydrateSelection(st2.selection, st2.persisted))
  }
}

=== FILE: framed_grid.dfy ===
/** The framed-grid block: the background configuration in the first row,
    up to six items from the rows after it, the layout class, and which
    items carry a frame. */
module FramedGrid {
  import opened Wrappers
  import opened Text

  /** `a || b`, for strings. */
  function Or(a: string, b: string): (r: string)
    ensures a != "" ==> r == a
    ensures a == "" ==> r == b
  {
    if a != "" then a else b
  }

  /** What the first row offers: its image's `src` and `alt`, its first
      anchor's `href`, and its cells' texts. */
  datatype ConfigRow = ConfigRow(imgSrc: Option<string>, imgAlt: Option<string>, anchorHref: Option<string>, cells: seq<string>)

  datatype Background = Background(url: string, alt: string, layout: string)

  function Given(o: Option<string>): string { if o.Some? then o.value else "" }

  function TrimmedCell(cells: seq<string>, k: nat): string {
    if k < |cells| then Trim(cells[k]) else ""
  }

  /** The background: the image's source, else the anchor's href; the
      image's alt, else the second cell; the layout from the third cell. No
      first row means no background. */
  function BackgroundOf(first: Option<ConfigRow>): (r: Background)
    ensures first.None? ==> r == Background("", "", "")
    ensures first.Some? ==> r.url == Or(Given(first.value.imgSrc), Given(first.value.anchorHref))
    ensures first.Some? ==> r.alt == Or(Given(first.value.imgAlt), TrimmedCell(first.value.cells, 1))
    ensures first.Some? ==> r.layout == TrimmedCell(first.value.cells, 2)
  {
    match first
    case None => Background("", "", "")
    case Some(row) =>
      Background(Or(Given(row.imgSrc), Given(row.anchorHref)),
                 Or(Given(row.imgAlt), TrimmedCell(row.cells, 1)),
                 TrimmedCell(row.cells, 2))
  }

  /** The layout class, only for exactly "half" or "quarter". */
  function LayoutClass(layout: string): (r: Option<string>)
    ensures r.Some? <==> layout == "half" || layout == "quarter"
    ensures r.Some? ==> r.value == "layout-" + layout
  {
    if layout == "half" || layout == "quarter" then Some("layout-" + layout) else None
  }

  // ---------------------------------------------------------------- items

  /** A cell: its text and the `href` of the anchor inside it, if any. */
  datatype GridCell = GridCell(text: string, anchorHref: Option<string>)

  /** The first anchor anywhere in the row. */
  datatype RowAnchor = RowAnchor(href: string, text: string, title: string, target: string)

  datatype ItemRow = ItemRow(cells: seq<GridCell>, anchor: Option<RowAnchor>)

  datatype Item = Item(title: string, description: string, link: string, linkText: string,
                       linkTitle: string, linkTarget: string, linkType: string, linkStyle: string)

  function CellText(r: ItemRow, k: nat): string {
    if k < |r.cells| then Trim(r.cells[k].text) else ""
  }

  function CellHref(r: ItemRow, k: nat): string {
    if k < |r.cells| then Given(r.cells[k].anchorHref) else ""
  }

  /** An item: the first two cells give title and description; the link is
      the third cell's anchor, else its text, else the row's anchor; each
      non-empty cell from the fourth on overrides the anchor's value. */
  function ItemOf(r: ItemRow): (it: Item)
    ensures it.title == CellText(r, 0) && it.description == CellText(r, 1)
    ensures it.link == Or(CellHref(r, 2), Or(CellText(r, 2), if r.anchor.Some? then r.anchor.value.href else ""))
    ensures CellText(r, 3) != "" ==> it.linkText == CellText(r, 3)
    ensures CellText(r, 3) == "" ==> it.linkText == (if r.anchor.Some? then Trim(r.anchor.value.text) else "")
    ensures CellText(r, 4) != "" ==> it.linkTitle == CellText(r, 4)
    ensures CellText(r, 5) != "" ==> it.linkTarget == CellText(r, 5)
    ensures it.linkType == CellText(r, 6) && it.linkStyle == CellText(r, 7)
  {
    var a := if r.anchor.Some? then r.anchor.value else RowAnchor("", "", "", "");
    var text := if r.anchor.Some? then Trim(a.text) else "";
    Item(CellText(r, 0), CellText(r, 1),
         Or(CellHref(r, 2), Or(CellText(r, 2), a.href)),
         Or(CellText(r, 3), text), Or(CellText(r, 4), a.title), Or(CellText(r, 5), a.target),
         CellText(r, 6), CellText(r, 7))
  }

  /** At most six items, from the rows after the first, in order. */
  function Items(rows: seq<ItemRow>): (r: seq<Item>)
    ensures |r| == if |rows| <= 1 then 0 else if |rows| - 1 < 6 then |rows| - 1 else 6
    ensures forall i :: 0 <= i < |r| ==> r[i] == ItemOf(rows[i + 1])
  {
    var rest := if |rows| == 0 then [] else rows[1..];
    var n := if |rest| < 6 then |rest| else 6;
    seq(n, i requires 0 <= i < n => ItemOf(rest[i]))
  }

  // ---------------------------------------------------------------- rendering

  /** The button an item renders, only with a link. The link type is read
      but never used. */
  datatype GridButton = GridButton(href: string, text: string, title: Option<string>, target: Option<string>, classes: seq<string>)

  datatype Rendered = Rendered(title: Option<string>, description: Option<string>, button: Option<GridButton>, frame: Option<Option<string>>)

  predicate FramePosition(index: nat) { index == 0 || index == 2 || index == 4 }

  /** One rendered item: title, description and button only when non-empty;
      a frame (with its label when the alt is non-empty) at positions 0, 2
      and 4 when there is a background. */
  function Render(it: Item, index: nat, bg: Background): (r: Rendered)
    ensures r.title.Some? <==> it.title != ""
    ensures r.description.Some? <==> it.description != ""
    ensures r.button.Some? <==> it.link != ""
    ensures r.button.Some? ==> r.button.value.href == it.link && r.button.value.text == it.linkText
    ensures r.button.Some? ==> "button" in r.button.value.classes && (it.linkStyle != "" ==> it.linkStyle in r.button.value.classes)
    ensures r.frame.Some? <==> FramePosition(index) && bg.url != ""
    ensures r.frame.Some? ==> (r.frame.value.Some? <==> bg.alt != "")
  {
    var button := if it.link == "" then None else
      Some(GridButton(it.link, it.linkText,
                      if it.linkTitle != "" then Some(it.linkTitle) else None,
                      if it.linkTarget != "" then Some(it.linkTarget) else None,
                      if it.linkStyle != "" && it.linkStyle != "button" then ["button", it.linkStyle] else ["button"]));
    Rendered(if it.title != "" then Some(it.title) else None,
             if it.description != "" then Some(it.description) else None,
             button,
             if FramePosition(index) && bg.url != "" then Some(if bg.alt != "" then Some(bg.alt) else None) else None)
  }
}

=== FILE: gallery.dfy ===
/** The gallery block: its configuration rows, the classification of its
    items, the aspect-ratio classes and embed URLs, and the carousel's index
    machine. */
module Gallery {
  import opened Wrappers
  import opened Text

  // ---------------------------------------------------------------- aspect ratio

  /** `getAspectRatioClass`: the four known ratios with ':' turned into '-';
      anything else is '16-9'. */
  const KnownRatios := {"16:9", "4:3", "16:10", "16:5"}

  function AspectRatioClass(ratio: string): (r: string)
    ensures r in {"16-9", "4-3", "16-10", "16-5"}
    ensures ratio !in KnownRatios ==> r == "16-9"
    ensures ratio in KnownRatios ==> |r| == |ratio| && forall k :: 0 <= k < |r| ==> r[k] == (if ratio[k] == ':' then '-' else ratio[k])
  {
    if ratio == "4:3" then "4-3"
    else if ratio == "16:10" then "16-10"
    else if ratio == "16:5" then "16-5"
    else "16-9"
  }

  // ---------------------------------------------------------------- embed URLs

  /** `s` holds the lower-case literal `lit` at `i`, compared case-insensitively. */
  predicate LowerAt(s: string, i: nat, lit: string) {
    i + |lit| <= |s| && ToLower(s[i..i + |lit|]) == lit
  }

  /** Characters a video id may hold: `[^"&?/\s]`. */
  predicate IsIdChar(c: char) { c != '"' && c != '&' && c != '?' && c != '/' && !IsSpace(c) }

  predicate IdAt(s: string, i: nat) {
    i + 11 <= |s| && forall k :: i <= k < i + 11 ==> IsIdChar(s[k])
  }

  /** The first '/' at or after `i`. */
  function NextSlash(s: string, i: nat): (r: Option<nat>)
    ensures r.Some? ==> i <= r.value < |s| && s[r.value] == '/'
    ensures r.Some? ==> forall k :: i <= k < r.value ==> s[k] != '/'
    ensures r.None? ==> forall k :: i <= k < |s| ==> s[k] != '/'
    decreases |s| - i
  {
    if i >= |s| then None else if s[i] == '/' then Some(i) else NextSlash(s, i + 1)
  }

  /** The end of the line that `i` is on: the first line terminator at or
      after `i`, or the length. */
  function LineEnd(s: string, i: nat): (r: nat)
    ensures i <= r || r == |s|
    ensures r <= |s|
    ensures forall k :: i <= k < r ==> !IsLineTerminator(s[k])
    ensures r < |s| ==> IsLineTerminator(s[r])
    decreases |s| - i
  {
    if i >= |s| then |s| else if IsLineTerminator(s[i]) then i else LineEnd(s, i + 1)
  }

  /** The largest `b` with `lo <= b <= hi` such that `s[b]` is '/' followed by
      an id: the greedy `.+\/` backtracking from the longest run. */
  function LastSlashBeforeId(s: string, lo: nat, hi: int): (r: Option<nat>)
    ensures r.Some? ==> lo <= r.value <= hi && r.value < |s| && s[r.value] == '/' && IdAt(s, r.value + 1)
    ensures r.Some? ==> forall b :: r.value < b <= hi && b < |s| ==> !(s[b] == '/' && IdAt(s, b + 1))
    ensures r.None? ==> forall b :: lo <= b <= hi && b < |s| ==> !(s[b] == '/' && IdAt(s, b + 1))
    decreases hi - lo + 1
  {
    if hi < lo then None
    else if hi < |s| && s[hi] == '/' && IdAt(s, hi + 1) then Some(hi)
    else LastSlashBeforeId(s, lo, hi - 1)
  }

  /** `[?&]v=` and an id follow at `c`. */
  predicate QueryIdAt(s: string, c: nat)
    requires c < |s|
  {
    (s[c] == '?' || s[c] == '&') && LowerAt(s, c + 1, "v=") && IdAt(s, c + 3)
  }

  /** The largest `c` with `lo <= c <= hi` where `[?&]v=` and an id follow:
      the greedy `.*[?&]v=`. */
  function LastQueryId(s: string, lo: nat, hi: int): (r: Option<nat>)
    ensures r.Some? ==> lo <= r.value <= hi && r.value < |s| && QueryIdAt(s, r.value)
    ensures r.Some? ==> forall c :: r.value < c <= hi && c < |s| ==> !QueryIdAt(s, c)
    ensures r.None? ==> forall c :: lo <= c <= hi && c < |s| ==> !QueryIdAt(s, c)
    decreases hi - lo + 1
  {
    if hi < lo then None
    else if hi < |s| && QueryIdAt(s, hi) then Some(hi)
    else LastQueryId(s, lo, hi - 1)
  }

  /** Where the id starts after `youtube.com/` at `q`: the three alternatives
      of the pattern, tried in order. */
  function YouTubeComId(s: string, q: nat): (r: Option<nat>)
    ensures r.Some? ==> q <= r.value && IdAt(s, r.value)
    ensures r.None? ==>
      !(LowerAt(s, q, "v/") && IdAt(s, q + 2)) && !(LowerAt(s, q, "embed/") && IdAt(s, q + 6))
      && !(LowerAt(s, q, "e/") && IdAt(s, q + 2))
      && forall c :: q <= c <= LineEnd(s, q) && c < |s| ==> !QueryIdAt(s, c)
  {
    var first := match NextSlash(s, q)
      case Some(a) =>
        if a > q then
          match LastSlashBeforeId(s, a + 2, LineEnd(s, a + 1))
          case Some(b) => Some(b + 1)
          case None => None
        else None
      case None => None;
    if first.Some? then first
    else if LowerAt(s, q, "v/") && IdAt(s, q + 2) then Some(q + 2)
    else if LowerAt(s, q, "embed/") && IdAt(s, q + 6) then Some(q + 6)
    else if LowerAt(s, q, "e/") && IdAt(s, q + 2) then Some(q + 2)
    else
      match LastQueryId(s, q, LineEnd(s, q))
      case Some(c) => Some(c + 3)
      case None => None
  }

  /** Where the id starts when the YouTube pattern matches starting at `p`. */
  function YouTubeIdAt(s: string, p: nat): (r: Option<nat>)
    ensures r.Some? ==> p <= r.value && IdAt(s, r.value)
    ensures r.Some? <==>
      (LowerAt(s, p, "youtube.com/") && YouTubeComId(s, p + 12).Some?)
      || (!LowerAt(s, p, "youtube.com/") && LowerAt(s, p, "youtu.be/") && IdAt(s, p + 9))
  {
    if LowerAt(s, p, "youtube.com/") then YouTubeComId(s, p + 12)
    else if LowerAt(s, p, "youtu.be/") && IdAt(s, p + 9) then Some(p + 9)
    else None
  }

  /** The YouTube pattern matches starting at `i` and captures `id`. */
  predicate IdFoundAt(s: string, i: nat, id: string) {
    match YouTubeIdAt(s, i)
    case Some(j) => id == s[j..j + 11]
    case None => false
  }

  /** No YouTube match starts anywhere in `p..i`. */
  predicate NoMatchBetween(s: string, p: nat, i: int) {
    forall k :: p <= k < i ==> YouTubeIdAt(s, k).None?
  }

  /** `id` is captured by the leftmost YouTube match at or after `p`. */
  predicate LeftmostMatchFrom(s: string, p: nat, id: string) {
    exists i :: p <= i < |s| && IdFoundAt(s, i, id) && NoMatchBetween(s, p, i)
  }

  /** The id of the leftmost YouTube match at or after `p`. */
  function YouTubeId(s: string, p: nat): (r: Option<string>)
    ensures r.Some? ==> |r.value| == 11 && (forall k :: 0 <= k < 11 ==> IsIdChar(r.value[k]))
    ensures r.Some? ==> exists i :: OccursAt(s, r.value, i)
    ensures r.Some? ==> LeftmostMatchFrom(s, p, r.value)
    ensures r.None? ==> NoMatchBetween(s, p, |s|)
    decreases |s| - p
  {
    if p >= |s| then None
    else
      match YouTubeIdAt(s, p)
      case Some(i) =>
        assert OccursAt(s, s[i..i + 11], i);
        assert IdFoundAt(s, p, s[i..i + 11]);
        Some(s[i..i + 11])
      case None =>
        var r := YouTubeId(s, p + 1);
        LeftmostStep(s, p, r);
        r
  }

  /** A position without a match passes the search on to the next one. */
  lemma LeftmostStep(s: string, p: nat, r: Option<string>)
    requires YouTubeIdAt(s, p).None?
    requires r.Some? ==> LeftmostMatchFrom(s, p + 1, r.value)
    requires r.None? ==> NoMatchBetween(s, p + 1, |s|)
    ensures r.Some? ==> LeftmostMatchFrom(s, p, r.value)
    ensures r.None? ==> NoMatchBetween(s, p, |s|)
  {
    if r.Some? {
      var i :| p + 1 <= i < |s| && IdFoundAt(s, i, r.value) && NoMatchBetween(s, p + 1, i);
      assert NoMatchBetween(s, p, i);
    }
  }

  /** The digits that follow at `i`. */
  function DigitsFrom(s: string, i: nat): (r: string)
    ensures forall k :: 0 <= k < |r| ==> IsDigit(r[k])
    ensures i + |r| <= |s| || r == ""
    ensures i + |r| <= |s| ==> s[i..i + |r|] == r
    ensures i + |r| < |s| ==> !IsDigit(s[i + |r|])
    decreases |s| - i
  {
    if i < |s| && IsDigit(s[i]) then [s[i]] + DigitsFrom(s, i + 1) else ""
  }

  /** The digits of the leftmost `vimeo.com/<digits>` at or after `p`
      (`vimeo.com` in any letter case). */
  function VimeoId(s: string, p: nat): (r: Option<string>)
    ensures r.Some? ==> r.value != "" && forall k :: 0 <= k < |r.value| ==> IsDigit(r.value[k])
    ensures r.Some? ==> exists i :: p <= i && LowerAt(s, i, "vimeo.com/") && OccursAt(s, r.value, i + 10)
    ensures r.None? ==> forall i :: p <= i && LowerAt(s, i, "vimeo.com/") ==> DigitsFrom(s, i + 10) == ""
    decreases |s| - p
  {
    if p >= |s| then
      assert forall i :: p <= i ==> !LowerAt(s, i, "vimeo.com/");
      None
    else if LowerAt(s, p, "vimeo.com/") && DigitsFrom(s, p + 10) != "" then
      var d := DigitsFrom(s, p + 10);
      Some(d)
    else VimeoId(s, p + 1)
  }

  const YouTubeEmbedPrefix := "https://www.youtube.com/embed/"
  const YouTubeEmbedSuffix := "?rel=0&showinfo=0"
  const VimeoEmbedPrefix := "https://player.vimeo.com/video/"
  const VimeoEmbedSuffix := "?title=0&byline=0&portrait=0"

  /** The iframe source for an embed URL: YouTube and Vimeo links with an
      extractable id become player URLs, everything else stays as given. */
  function EmbedSource(url: string): (r: string)
    ensures (Contains(url, "youtube.com") || Contains(url, "youtu.be")) ==>
      (YouTubeId(url, 0).Some? ==> r == YouTubeEmbedPrefix + YouTubeId(url, 0).value + YouTubeEmbedSuffix)
      && (YouTubeId(url, 0).None? ==> r == url)
    ensures !(Contains(url, "youtube.com") || Contains(url, "youtu.be")) && Contains(url, "vimeo.com") ==>
      (VimeoId(url, 0).Some? ==> r == VimeoEmbedPrefix + VimeoId(url, 0).value + VimeoEmbedSuffix)
      && (VimeoId(url, 0).None? ==> r == url)
    ensures !(Contains(url, "youtube.com") || Contains(url, "youtu.be") || Contains(url, "vimeo.com")) ==> r == url
  {
    if Contains(url, "youtube.com") || Contains(url, "youtu.be") then
      match YouTubeId(url, 0)
      case Some(id) => YouTubeEmbedPrefix + id + YouTubeEmbedSuffix
      case None => url
    else if Contains(url, "vimeo.com") then
      match VimeoId(url, 0)
      case Some(id) => VimeoEmbedPrefix + id + VimeoEmbedSuffix
      case None => url
    else url
  }

  /** A watch URL whose `embed/` segment carries no id but whose query does. */
  const EmbedNoIdUrl := "https://www." + "youtube.com/" + "embed/x?v=" + "dQw4w9WgXcQ"

  lemma EmbedNoIdUrlParts()
    ensures |EmbedNoIdUrl| == 45
    ensures EmbedNoIdUrl[12..24] == "youtube.com/"
    ensures EmbedNoIdUrl[24..30] == "embed/"
    ensures EmbedNoIdUrl[30..34] == "x?v="
    ensures EmbedNoIdUrl[34..] == "dQw4w9WgXcQ"
  {
  }

  lemma EmbedNoIdUrlChars()
    ensures |EmbedNoIdUrl| == 45
    ensures forall k :: 24 <= k < 29 ==> EmbedNoIdUrl[k] != '/'
    ensures EmbedNoIdUrl[29] == '/'
    ensures forall k :: 24 <= k < 45 ==> !IsLineTerminator(EmbedNoIdUrl[k])
    ensures forall k :: 30 <= k < 45 ==> EmbedNoIdUrl[k] != '/'
    ensures forall k :: 32 <= k < 45 ==> EmbedNoIdUrl[k] != '?' && EmbedNoIdUrl[k] != '&'
    ensures EmbedNoIdUrl[31] == '?' && LowerAt(EmbedNoIdUrl, 32, "v=") && IdAt(EmbedNoIdUrl, 34)
    ensures !IdAt(EmbedNoIdUrl, 30)
  {
    EmbedNoIdUrlParts();
    var u := EmbedNoIdUrl;
    assert forall k :: 24 <= k < 30 ==> u[k] == "embed/"[k - 24];
    assert forall k :: 30 <= k < 34 ==> u[k] == "x?v="[k - 30];
    assert forall k :: 34 <= k < 45 ==> u[k] == "dQw4w9WgXcQ"[k - 34];
    assert u[32..34] == "v=";
  }

  lemma EmbedNoIdUrlHost()
    ensures LowerAt(EmbedNoIdUrl, 12, "youtube.com/")
    ensures Contains(EmbedNoIdUrl, "youtube.com")
  {
    EmbedNoIdUrlParts();
    var u := EmbedNoIdUrl;
    assert ToLower(u[12..24]) == "youtube.com/";
    assert u[12..23] == "youtube.com";
    assert OccursAt(u, "youtube.com", 12);
    ContainsIff(u, "youtube.com");
  }

  lemma EmbedNoIdUrlComId()
    ensures YouTubeComId(EmbedNoIdUrl, 24) == Some(34)
  {
    EmbedNoIdUrlChars();
    var u := EmbedNoIdUrl;
    assert NextSlash(u, 24) == Some(29);
    assert LineEnd(u, 24) == 45 && LineEnd(u, 30) == 45;
    assert LastSlashBeforeId(u, 31, 45) == None;
    assert QueryIdAt(u, 31);
    assert LastQueryId(u, 24, 45) == Some(31);
  }

  /** Nothing in `https://www.` starts a YouTube match. */
  lemma EmbedNoIdUrlScheme()
    ensures forall p :: 0 <= p < 12 ==> YouTubeIdAt(EmbedNoIdUrl, p).None?
  {
    EmbedNoIdUrlParts();
    var u := EmbedNoIdUrl;
    assert u[..12] == "https://www.";
    assert forall k :: 0 <= k < 12 ==> u[k] == "https://www."[k];
    forall p | 0 <= p < 12
      ensures !LowerAt(u, p, "youtube.com/") && !LowerAt(u, p, "youtu.be/")
    {
      assert LowerChar(u[p]) != 'y';
      assert ToLower(u[p..p + 12])[0] == LowerChar(u[p]);
      assert ToLower(u[p..p + 9])[0] == LowerChar(u[p]);
    }
  }

  /** An `embed/` segment without an id does not stop the search: the pattern
      backtracks to its `[?&]v=` alternative further along the same URL. */
  lemma EmbedWithoutIdUsesQuery()
    ensures YouTubeId(EmbedNoIdUrl, 0) == Some("dQw4w9WgXcQ")
    ensures EmbedSource(EmbedNoIdUrl) == YouTubeEmbedPrefix + "dQw4w9WgXcQ" + YouTubeEmbedSuffix
  {
    EmbedNoIdUrlParts();
    EmbedNoIdUrlHost();
    EmbedNoIdUrlComId();
    EmbedNoIdUrlScheme();
    var u := EmbedNoIdUrl;
    assert YouTubeIdAt(u, 12) == Some(34);
    var p := 12;
    while p > 0
      invariant 0 <= p <= 12 && YouTubeId(u, p) == Some(u[34..45])
    {
      p := p - 1;
    }
    assert u[34..45] == "dQw4w9WgXcQ";
  }

  // ---------------------------------------------------------------- configuration and items

  /** What an item row contains, as far as classification looks. */
  datatype ItemRow = ItemRow(hasImage: bool, hasMp4Link: bool, hasIframe: bool)

  datatype ItemKind = ImageItem | VideoItem | EmbedItem

  /** Image before video before embed; other rows are left as they are. */
  function Classify(row: ItemRow): (r: Option<ItemKind>)
    ensures r == Some(ImageItem) <==> row.hasImage
    ensures r == Some(VideoItem) <==> !row.hasImage && row.hasMp4Link
    ensures r == Some(EmbedItem) <==> !row.hasImage && !row.hasMp4Link && row.hasIframe
  {
    if row.hasImage then Some(ImageItem)
    else if row.hasMp4Link then Some(VideoItem)
    else if row.hasIframe then Some(EmbedItem)
    else None
  }

  /** The three configuration rows' texts (trimmed) and the jump-link id. */
  datatype GalleryConfig = GalleryConfig(galleryType: string, perRow: string, jumpLabel: string, jumpId: string)

  /** Configuration read from the first three rows; a missing row reads "". */
  function ReadConfig(rows: seq<string>, jumpId: string): (r: GalleryConfig)
    ensures r.galleryType != "" && r.perRow != ""
    ensures |rows| > 0 && Trim(rows[0]) != "" ==> r.galleryType == Trim(rows[0])
    ensures (|rows| == 0 || Trim(rows[0]) == "") ==> r.galleryType == "grid"
    ensures (|rows| <= 1 || Trim(rows[1]) == "") ==> r.perRow == "3"
  {
    var t := if |rows| > 0 then Trim(rows[0]) else "";
    var c := if |rows| > 1 then Trim(rows[1]) else "";
    var l := if |rows| > 2 then Trim(rows[2]) else "";
    GalleryConfig(if t == "" then "grid" else t, if c == "" then "3" else c, l, jumpId)
  }

  /** The classes the block receives: `gallery`, `gallery-<type>` and, when
      there is at least one item, the column class, which is one column for a
      carousel. Without items the block only shows a "No gallery items found"
      message. */
  function BlockClasses(cfg: GalleryConfig, itemCount: nat): (r: seq<string>)
    ensures |r| >= 2 && r[0] == "gallery" && r[1] == "gallery-" + cfg.galleryType
    ensures itemCount == 0 <==> |r| == 2
    ensures itemCount > 0 && cfg.galleryType == "carousel" ==> r[2..] == ["gallery-cols-1"]
    ensures itemCount > 0 && cfg.galleryType != "carousel" ==> r[2..] == ["gallery-cols-" + cfg.perRow]
  {
    var base := ["gallery", "gallery-" + cfg.galleryType];
    if itemCount == 0 then base
    else if cfg.galleryType == "carousel" then base + ["gallery-cols-1"]
    else base + ["gallery-cols-" + cfg.perRow]
  }

  /** The jump link is added only with both an id and a label. */
  predicate HasJumpLink(cfg: GalleryConfig) {
    cfg.jumpId != "" && cfg.jumpLabel != ""
  }

  // ---------------------------------------------------------------- carousel

  /** The carousel: the current index among `count` items, and whether a
      transition is running (it ends when its timer fires). */
  datatype Carousel = Carousel(count: nat, current: nat, transitioning: bool)

  predicate ValidCarousel(c: Carousel) {
    c.count >= 1 && c.current < c.count
  }

  /** The carousel over a non-empty item list (an empty list never gets one). */
  function NewCarousel(count: nat): (c: Carousel)
    requires count >= 1
    ensures ValidCarousel(c) && c.current == 0 && !c.transitioning
  {
    Carousel(count, 0, false)
  }

  /** `goTo`: ignored during a transition or when already there; otherwise
      the index moves and a transition starts. */
  function GoTo(c: Carousel, index: nat): (r: Carousel)
    requires ValidCarousel(c) && index < c.count
    ensures ValidCarousel(r) && r.count == c.count
    ensures c.transitioning || index == c.current ==> r == c
    ensures !c.transitioning && index != c.current ==> r.current == index && r.transitioning
  {
    if c.transitioning || index == c.current then c
    else c.(current := index, transitioning := true)
  }

  /** The transition timer fires. */
  function TransitionEnd(c: Carousel): (r: Carousel)
    ensures r.current == c.current && r.count == c.count && !r.transitioning
  {
    c.(transitioning := false)
  }

  /** The previous index, wrapping from the first to the last. */
  function PrevIndex(c: Carousel): (r: nat)
    requires ValidCarousel(c)
    ensures r < c.count
    ensures r == (c.current - 1 + c.count) % c.count
  {
    var r := if c.current > 0 then c.current - 1 else c.count - 1;
    ModOfShifted(r, c.count);
    r
  }

  /** Adding a whole turn does not move an index. */
  lemma ModOfShifted(r: nat, n: nat)
    requires r < n
    ensures r % n == r && (r + n) % n == r
  {
  }

  /** The next index, wrapping from the last to the first. */
  function NextIndex(c: Carousel): (r: nat)
    requires ValidCarousel(c)
    ensures r < c.count
    ensures r == (c.current + 1) % c.count
  {
    if c.current < c.count - 1 then c.current + 1 else 0
  }

  function Prev(c: Carousel): (r: Carousel)
    requires ValidCarousel(c)
    ensures ValidCarousel(r) && r.count == c.count
    ensures c.transitioning ==> r == c
    ensures !c.transitioning ==> r.current == PrevIndex(c)
  {
    GoTo(c, PrevIndex(c))
  }

  function Next(c: Carousel): (r: Carousel)
    requires ValidCarousel(c)
    ensures ValidCarousel(r) && r.count == c.count
    ensures c.transitioning ==> r == c
    ensures !c.transitioning ==> r.current == NextIndex(c)
  {
    GoTo(c, NextIndex(c))
  }

  /** The keys the carousel handles. */
  datatype GalleryKey = ArrowLeft | ArrowRight | Home | End | OtherKey

  function KeyDown(c: Carousel, key: GalleryKey): (r: Carousel)
    requires ValidCarousel(c)
    ensures ValidCarousel(r)
    ensures key == Home && !c.transitioning ==> r.current == 0
    ensures key == End && !c.transitioning ==> r.current == c.count - 1
    ensures key == OtherKey ==> r == c
  {
    match key
    case ArrowLeft => Prev(c)
    case ArrowRight => Next(c)
    case Home => GoTo(c, 0)
    case End => GoTo(c, c.count - 1)
    case OtherKey => c
  }

  /** A swipe from `startX` to `endX`: only a move of more than 50 counts;
      a leftward move goes to the next item. */
  function Swipe(c: Carousel, startX: int, endX: int): (r: Carousel)
    requires ValidCarousel(c)
    ensures ValidCarousel(r)
    ensures -50 <= startX - endX <= 50 ==> r == c
    ensures startX - endX > 50 ==> r == Next(c)
    ensures startX - endX < -50 ==> r == Prev(c)
  {
    var diff := startX - endX;
    if diff > 50 || diff < -50 then (if diff > 0 then Next(c) else Prev(c)) else c
  }

  /** While a transition runs, nothing moves the carousel. */
  lemma TransitionBlocksNavigation(c: Carousel, key: GalleryKey, startX: int, endX: int, index: nat)
    requires ValidCarousel(c) && c.transitioning && index < c.count
    ensures Prev(c) == c && Next(c) == c && KeyDown(c, key) == c && Swipe(c, startX, endX) == c && GoTo(c, index) == c
  {
  }

  /** Once the transition of a `next` has ended, `prev` comes back. */
  lemma NextThenPrevReturns(c: Carousel)
    requires ValidCarousel(c) && !c.transitioning && c.count >= 2
    ensures Prev(TransitionEnd(Next(c))).current == c.current
  {
  }

  /** `next` from the last item wraps to the first, `prev` from the first to
      the last. */
  lemma NavigationWraps(c: Carousel)
    requires ValidCarousel(c) && !c.transitioning && c.count >= 2
    ensures c.current == c.count - 1 ==> Next(c).current == 0
    ensures c.current == 0 ==> Prev(c).current == c.count - 1
  {
  }

  /** The visible controls for the current index: prev and next disabled at
      the ends, one active thumbnail (thumbnails exist only for more than one
      item), and the 1-based position. */
  datatype Controls = Controls(prevDisabled: bool, nextDisabled: bool, activeThumbs: seq<bool>, ariaCurrent: nat)

  function ControlsOf(c: Carousel): (r: Controls)
    requires ValidCarousel(c)
    ensures r.prevDisabled <==> c.current == 0
    ensures r.nextDisabled <==> c.current == c.count - 1
    ensures c.count <= 1 ==> r.activeThumbs == []
    ensures c.count > 1 ==> |r.activeThumbs| == c.count && forall i :: 0 <= i < c.count ==> (r.activeThumbs[i] <==> i == c.current)
    ensures r.ariaCurrent == c.current + 1
  {
    Controls(c.current == 0, c.current == c.count - 1,
      if c.count > 1 then seq(c.count, i => i == c.current) else [],
      c.current + 1)
  }
}

=== FILE: header_teaser.dfy ===
/** The header-teaser block: heading level, calls to action, style tokens
    and the desktop/mobile media choice. */
module HeaderTeaser {
  import opened Wrappers
  import opened Text
  import Button
  import opened BlockOptions

  /** The field read from each of the block's rows, in row order. */
  const Fields: seq<string> := [
    "pretitle", "title", "titleLevel", "text", "mediaType", "image", "imageAlt", "video",
    "mobileMediaType", "mobileImage", "mobileImageAlt", "mobileVideo",
    "cta1Link", "cta1Text", "cta1Title", "cta1Target", "cta1Type", "cta1Style",
    "cta2Link", "cta2Text", "cta2Title", "cta2Target", "cta2Type", "cta2Style",
    "styles"]

  // ---------------------------------------------------------------- heading

  /** `/^h[1-6]$/i`. */
  predicate IsHeadingLevel(level: string) {
    |level| == 2 && (level[0] == 'h' || level[0] == 'H') && '1' <= level[1] <= '6'
  }

  /** The heading element: the level in lower case when it names h1–h6 in
      either case, "h2" otherwise. */
  function HeadingTag(level: string): (r: string)
    ensures |r| == 2 && r[0] == 'h' && '1' <= r[1] <= '6'
    ensures IsHeadingLevel(level) ==> r == ToLower(level)
    ensures !IsHeadingLevel(level) ==> r == "h2"
  {
    if IsHeadingLevel(level) then ToLower(level) else "h2"
  }

  /** A heading already in lower case is kept as it is. */
  lemma HeadingTagKeepsLowerLevel(level: string)
    requires |level| == 2 && level[0] == 'h' && '1' <= level[1] <= '6'
    ensures HeadingTag(level) == level
  {
    assert ToLower(level) == [LowerChar(level[0]), LowerChar(level[1])];
  }

  /** The title's heading, when there is a title. */
  function TitleHeading(cfg: Config): (r: Option<(string, string)>)
    ensures r.Some? <==> Truthy(cfg, "title")
    ensures r.Some? ==> r.value == (HeadingTag(Or(cfg, "titleLevel", "h2")), cfg["title"])
  {
    if Truthy(cfg, "title") then Some((HeadingTag(Or(cfg, "titleLevel", "h2")), cfg["title"])) else None
  }

  // ---------------------------------------------------------------- calls to action

  /** `createCTA` for the fields prefixed `prefix` (`cta1`, `cta2`): nothing
      without both a link and a text. The button is rendered into a fresh
      anchor that carries no `href`, so the link field itself never reaches
      it. */
  function Cta(cfg: Config, prefix: string, resolve: string -> string): (r: Option<Button.Anchor>)
    ensures r.Some? <==> Truthy(cfg, prefix + "Link") && Truthy(cfg, prefix + "Text")
    ensures r.Some? ==> r.value.text == cfg[prefix + "Text"] && "button" in r.value.classes
    ensures r.Some? ==> r.value.href in {Some(""), Some("tel:"), Some("mailto:")}
    ensures r.Some? ==> (r.value.download <==> ToLower(Or(cfg, prefix + "Type", "link")) == "download")
  {
    if !(Truthy(cfg, prefix + "Link") && Truthy(cfg, prefix + "Text")) then None
    else
      var blank := Button.Anchor(None, None, "", None, false, ["button"]);
      var p := Button.Params(Some(blank),
        Some(cfg[prefix + "Text"]), None,
        Some(Or(cfg, prefix + "Title", "")), None,
        Some(Or(cfg, prefix + "Target", "")), None,
        Some(ToLower(Or(cfg, prefix + "Type", "link"))), None,
        Some(ToLower(Or(cfg, prefix + "Style", ""))), None,
        None);
      Button.NoHrefAnchorLosesLink(p, resolve);
      Button.RenderClasses(p, resolve, "button");
      Some(Button.Render(p, resolve))
  }

  /** The calls to action in order; the container is appended only when it
      holds one. */
  function Ctas(cfg: Config, resolve: string -> string): (r: seq<Button.Anchor>)
    ensures |r| <= 2
    ensures r == [] <==> Cta(cfg, "cta1", resolve).None? && Cta(cfg, "cta2", resolve).None?
  {
    (match Cta(cfg, "cta1", resolve) case Some(a) => [a] case None => [])
    + (match Cta(cfg, "cta2", resolve) case Some(a) => [a] case None => [])
  }

  // ---------------------------------------------------------------- style tokens

  const PositionTokens := {"pos-left", "pos-center", "pos-right"}
  const BoxTokens := {"text-left", "text-center", "text-right", "no-bg", "glass-25", "glass-50", "glass-75",
                      "overlay-dark", "overlay-light", "height-short", "height-medium", "height-full"}

  /** The tokens of the styles text: split on ',', trimmed, lower-cased,
      empties dropped. */
  function StyleTokens(text: string): (r: seq<string>)
    ensures forall k :: 0 <= k < |r| ==> r[k] != ""
    ensures forall t :: t in r <==> t != "" && t in LowerTrimAll(Split(text, ','))
  {
    var lowered := LowerTrimAll(Split(text, ','));
    forall t | t in lowered && t != "" ensures t in NonEmpty(lowered) {
      NonEmptyKeeps(lowered, t);
    }
    NonEmpty(lowered)
  }

  /** Each piece trimmed, then lower-cased. */
  function LowerTrimAll(pieces: seq<string>): (r: seq<string>)
    ensures |r| == |pieces| && forall i :: 0 <= i < |pieces| ==> r[i] == ToLower(Trim(pieces[i]))
  {
    seq(|pieces|, i requires 0 <= i < |pieces| => ToLower(Trim(pieces[i])))
  }

  /** Where the tokens go: position tokens to the content, the listed text,
      glass, overlay, height and background tokens to both the text box and
      the media, everything else nowhere. */
  datatype StyleClasses = StyleClasses(content: set<string>, textbox: set<string>, media: set<string>)

  function ApplyStyleTokens(cfg: Config): (r: StyleClasses)
    ensures !Truthy(cfg, "styles") ==> r == StyleClasses({}, {}, {})
    ensures Truthy(cfg, "styles") ==>
      (forall t :: t in r.content <==> t in PositionTokens && t in StyleTokens(cfg["styles"]))
      && (forall t :: t in r.textbox <==> t in BoxTokens && t in StyleTokens(cfg["styles"]))
    ensures r.textbox == r.media
  {
    if !Truthy(cfg, "styles") then StyleClasses({}, {}, {})
    else
      var tokens := StyleTokens(cfg["styles"]);
      var content := set t | t in tokens && t in PositionTokens;
      var box := set t | t in tokens && t in BoxTokens;
      StyleClasses(content, box, box)
  }

  // ---------------------------------------------------------------- media

  const DesktopPlaceholder := "https://placehold.co/1600x900?text=Header%20Teaser"
  const MobilePlaceholder := "https://placehold.co/800x600?text=Header%20Teaser"

  datatype Media = Video(src: string, ariaLabel: string) | Picture(src: string, alt: string)

  /** The desktop media: a video only for type "video" with a video URL. */
  function DesktopMedia(cfg: Config): (r: Media)
    ensures r.Video? <==> ToLower(Or(cfg, "mediaType", "image")) == "video" && Truthy(cfg, "video")
    ensures r.Picture? ==> r.src == Or(cfg, "image", DesktopPlaceholder) && r.alt == Or(cfg, "imageAlt", "Header image")
  {
    if ToLower(Or(cfg, "mediaType", "image")) == "video" && Truthy(cfg, "video") then
      Video(cfg["video"], Or(cfg, "imageAlt", "Header video"))
    else Picture(Or(cfg, "image", DesktopPlaceholder), Or(cfg, "imageAlt", "Header image"))
  }

  /** The mobile override: none when the mobile type is "same" (its
      default); otherwise a video for "video" with a URL, else a picture
      falling back to the desktop image. */
  function MobileMedia(cfg: Config): (r: Option<Media>)
    ensures r.None? <==> ToLower(Or(cfg, "mobileMediaType", "same")) == "same"
    ensures r.Some? && r.value.Video? ==> ToLower(Or(cfg, "mobileMediaType", "same")) == "video" && Truthy(cfg, "mobileVideo")
    ensures r.Some? && r.value.Picture? ==>
      r.value.src == Or(cfg, "mobileImage", Or(cfg, "image", MobilePlaceholder))
  {
    var kind := ToLower(Or(cfg, "mobileMediaType", "same"));
    if kind == "same" then None
    else if kind == "video" && Truthy(cfg, "mobileVideo") then
      Some(Video(cfg["mobileVideo"], Or(cfg, "mobileImageAlt", Or(cfg, "imageAlt", "Header video"))))
    else
      Some(Picture(Or(cfg, "mobileImage", Or(cfg, "image", MobilePlaceholder)),
                   Or(cfg, "mobileImageAlt", Or(cfg, "imageAlt", "Header image"))))
  }

  /** With nothing authored the block shows the desktop placeholder picture
      and no mobile override. */
  lemma EmptyConfigMedia()
    ensures DesktopMedia(map[]) == Picture(DesktopPlaceholder, "Header image")
    ensures MobileMedia(map[]).None?
  {
    assert ToLower("same") == "same";
  }
}

=== FILE: json.dfy ===
/**
  * The part of JSON the filter block needs to persist its tag selection in a
  * `data-` attribute: `JSON.stringify` for strings and arrays (no white
  * space, the standard escapes) and a `JSON.parse` that accepts the whole
  * RFC 8259 grammar but keeps only what the filter block can use.
  */
module Json {
  import opened Wrappers
  import opened Text

  /** A parsed JSON value. The digits of a number and the members of an
      object are not retained: the filter block never looks into them. */
  datatype Json = JNull | JBool(b: bool) | JNum | JStr(s: string) | JArr(items: seq<Json>) | JObj

  /** Values `Stringify` can write: no numbers and no objects. */
  predicate Encodable(v: Json)
    decreases v
  {
    match v
    case JNum => false
    case JObj => false
    case JArr(items) => forall k :: 0 <= k < |items| ==> Encodable(items[k])
    case _ => true
  }

  // ---------------------------------------------------------------- stringify

  function HexDigit(d: nat): char
    requires d < 16
  {
    if d < 10 then DigitChar(d) else ('a' as int + d - 10) as char
  }

  /** How `JSON.stringify` writes one character inside a string literal. */
  function EscapeChar(c: char): string {
    if c == '"' then "\\\""
    else if c == '\\' then "\\\\"
    else if c == '\U{0008}' then "\\b"
    else if c == '\U{000C}' then "\\f"
    else if c == '\n' then "\\n"
    else if c == '\r' then "\\r"
    else if c == '\t' then "\\t"
    else if (c as int) < 0x20 then "\\u00" + [HexDigit(c as int / 16), HexDigit(c as int % 16)]
    else [c]
  }

  function EscapeString(s: string): string
    decreases |s|
  {
    if |s| == 0 then "" else EscapeChar(s[0]) + EscapeString(s[1..])
  }

  /** `JSON.stringify` of a string or array value. */
  function Stringify(v: Json): (r: string)
    requires Encodable(v)
    ensures |r| > 0 && r[0] in {'n', 't', 'f', '"', '['}
    ensures v.JArr? <==> r[0] == '['
    ensures v.JStr? <==> r[0] == '"'
    decreases v
  {
    match v
    case JNull => "null"
    case JBool(b) => if b then "true" else "false"
    case JStr(s) => "\"" + EscapeString(s) + "\""
    case JArr(items) =>
      "[" + Join(seq(|items|, k requires 0 <= k < |items| => Stringify(items[k])), ",") + "]"
  }

  // ---------------------------------------------------------------- parse

  predicate IsWs(c: char) {
    c == ' ' || c == '\t' || c == '\n' || c == '\r'
  }

  function SkipWs(s: string): (r: string)
    ensures |r| <= |s|
    decreases |s|
  {
    if |s| > 0 && IsWs(s[0]) then SkipWs(s[1..]) else s
  }

  function HexVal(c: char): (r: int)
    ensures -1 <= r < 16
  {
    if '0' <= c <= '9' then c as int - '0' as int
    else if 'a' <= c <= 'f' then c as int - 'a' as int + 10
    else if 'A' <= c <= 'F' then c as int - 'A' as int + 10
    else -1
  }

  /** Four hexadecimal digits at the start of `s`. */
  function Hex4(s: string): (r: Option<int>)
    ensures r.Some? ==> |s| >= 4 && 0 <= r.value < 0x10000
  {
    if |s| < 4 || HexVal(s[0]) < 0 || HexVal(s[1]) < 0 || HexVal(s[2]) < 0 || HexVal(s[3]) < 0 then None
    else Some(((HexVal(s[0]) * 16 + HexVal(s[1])) * 16 + HexVal(s[2])) * 16 + HexVal(s[3]))
  }

  /** The character an escape sequence stands for; `s` starts after the
      backslash. A `\u` escape of an unpaired surrogate is refused, because a
      string of this model holds Unicode scalar values only. */
  function ParseEscape(s: string): (r: Option<(char, string)>)
    ensures r.Some? ==> |r.value.1| < |s|
  {
    if |s| == 0 then None
    else if s[0] == '"' then Some(('"', s[1..]))
    else if s[0] == '\\' then Some(('\\', s[1..]))
    else if s[0] == '/' then Some(('/', s[1..]))
    else if s[0] == 'b' then Some(('\U{0008}', s[1..]))
    else if s[0] == 'f' then Some(('\U{000C}', s[1..]))
    else if s[0] == 'n' then Some(('\n', s[1..]))
    else if s[0] == 'r' then Some(('\r', s[1..]))
    else if s[0] == 't' then Some(('\t', s[1..]))
    else if s[0] == 'u' then
      match Hex4(s[1..])
      case None => None
      case Some(code) =>
        var rest := s[5..];
        if 0xD800 <= code <= 0xDBFF then
          if |rest| >= 6 && rest[0] == '\\' && rest[1] == 'u' then
            match Hex4(rest[2..])
            case None => None
            case Some(lo) =>
              if 0xDC00 <= lo <= 0xDFFF
              then Some((((code - 0xD800) * 0x400 + (lo - 0xDC00) + 0x10000) as char, rest[6..]))
              else None
          else None
        else if 0xDC00 <= code <= 0xDFFF then None
        else Some((code as char, rest))
    else None
  }

  /** The body of a string literal up to its closing quote; `s` starts after
      the opening quote. Returns the text and what follows the quote. */
  function ParseChars(s: string): (r: Option<(string, string)>)
    ensures r.Some? ==> |r.value.1| < |s|
    decreases |s|
  {
    if |s| == 0 then None
    else if s[0] == '"' then Some(("", s[1..]))
    else if s[0] == '\\' then
      match ParseEscape(s[1..])
      case None => None
      case Some((c, rest)) =>
        match ParseChars(rest)
        case None => None
        case Some((str, r)) => Some(([c] + str, r))
    else if (s[0] as int) < 0x20 then None
    else
      match ParseChars(s[1..])
      case None => None
      case Some((str, r)) => Some(([s[0]] + str, r))
  }

  function SkipDigits(s: string): (r: string)
    ensures |r| <= |s|
    decreases |s|
  {
    if |s| > 0 && IsDigit(s[0]) then SkipDigits(s[1..]) else s
  }

  /** Optional `.digits` then optional exponent; `None` when a part is cut short. */
  function ParseFraction(b: string): (r: Option<string>)
    ensures r.Some? ==> |r.value| <= |b|
  {
    var c :=
      if |b| > 0 && b[0] == '.' then
        if |b| > 1 && IsDigit(b[1]) then Some(SkipDigits(b[1..])) else None
      else Some(b);
    match c
    case None => None
    case Some(d) =>
      if |d| > 0 && (d[0] == 'e' || d[0] == 'E') then
        var e := if |d| > 1 && (d[1] == '+' || d[1] == '-') then d[2..] else d[1..];
        if |e| > 0 && IsDigit(e[0]) then Some(SkipDigits(e)) else None
      else Some(d)
  }

  /** A number token; returns what follows it. */
  function ParseNumber(t: string): (r: Option<string>)
    ensures r.Some? ==> |r.value| < |t|
  {
    var a := if |t| > 0 && t[0] == '-' then t[1..] else t;
    if |a| == 0 || !IsDigit(a[0]) then None
    else
      var b := if a[0] == '0' then a[1..] else SkipDigits(a[1..]);
      ParseFraction(b)
  }

  /** One value after optional white space; returns the value and the text
      after it. */
  function ParseValue(s: string): (r: Option<(Json, string)>)
    ensures r.Some? ==> |r.value.1| < |s|
    ensures r.Some? ==>
      (SkipWs(s) != ""
       && (r.value.0.JArr? <==> SkipWs(s)[0] == '[')
       && (r.value.0.JObj? <==> SkipWs(s)[0] == '{')
       && (r.value.0.JStr? <==> SkipWs(s)[0] == '"'))
    decreases |s|, 0
  {
    var t := SkipWs(s);
    if |t| == 0 then None
    else if t[0] == '[' then ParseArray(t[1..])
    else if t[0] == '{' then ParseObject(t[1..])
    else if t[0] == '"' then
      match ParseChars(t[1..])
      case None => None
      case Some((str, rest)) => Some((JStr(str), rest))
    else if StartsWith(t, "null") then Some((JNull, t[4..]))
    else if StartsWith(t, "true") then Some((JBool(true), t[4..]))
    else if StartsWith(t, "false") then Some((JBool(false), t[5..]))
    else if t[0] == '-' || IsDigit(t[0]) then
      match ParseNumber(t)
      case None => None
      case Some(rest) => Some((JNum, rest))
    else None
  }

  /** An array after its `[`. */
  function ParseArray(u: string): (r: Option<(Json, string)>)
    ensures r.Some? ==> |r.value.1| < |u| && r.value.0.JArr?
    decreases |u|, 2
  {
    var u1 := SkipWs(u);
    if |u1| > 0 && u1[0] == ']' then Some((JArr([]), u1[1..]))
    else ParseElements(u1, [])
  }

  /** Array elements, the first of them at the start of `x`; `acc` holds the
      elements already read. */
  function ParseElements(x: string, acc: seq<Json>): (r: Option<(Json, string)>)
    ensures r.Some? ==> |r.value.1| < |x| && r.value.0.JArr?
    decreases |x|, 1
  {
    match ParseValue(x)
    case None => None
    case Some((v, r1)) =>
      var r2 := SkipWs(r1);
      if |r2| > 0 && r2[0] == ',' then ParseElements(r2[1..], acc + [v])
      else if |r2| > 0 && r2[0] == ']' then Some((JArr(acc + [v]), r2[1..]))
      else None
  }

  /** An object after its `{`. */
  function ParseObject(u: string): (r: Option<(Json, string)>)
    ensures r.Some? ==> |r.value.1| < |u| && r.value.0 == JObj
    decreases |u|, 2
  {
    var u1 := SkipWs(u);
    if |u1| > 0 && u1[0] == '}' then Some((JObj, u1[1..]))
    else ParseMembers(u1)
  }

  /** Object members `"key": value`, separated by commas, up to the `}`. */
  function ParseMembers(x: string): (r: Option<(Json, string)>)
    ensures r.Some? ==> |r.value.1| < |x| && r.value.0 == JObj
    decreases |x|, 1
  {
    var x1 := SkipWs(x);
    if |x1| == 0 || x1[0] != '"' then None
    else
      match ParseChars(x1[1..])
      case None => None
      case Some((_, r1)) =>
        var r2 := SkipWs(r1);
        if |r2| == 0 || r2[0] != ':' then None
        else
          match ParseValue(r2[1..])
          case None => None
          case Some((_, r3)) =>
            var r4 := SkipWs(r3);
            if |r4| > 0 && r4[0] == ',' then ParseMembers(r4[1..])
            else if |r4| > 0 && r4[0] == '}' then Some((JObj, r4[1..]))
            else None
  }

  /** `JSON.parse`: one value and nothing but white space after it;
      `None` where `JSON.parse` throws a SyntaxError. */
  function Parse(text: string): (r: Option<Json>)
    ensures SkipWs(text) == "" ==> r.None?
    ensures r.Some? ==>
      ((r.value.JArr? <==> SkipWs(text)[0] == '[')
       && (r.value.JObj? <==> SkipWs(text)[0] == '{')
       && (r.value.JStr? <==> SkipWs(text)[0] == '"'))
  {
    match ParseValue(text)
    case None => None
    case Some((v, rest)) => if SkipWs(rest) == "" then Some(v) else None
  }

  // ---------------------------------------------------------------- round trip

  lemma HexRoundTrip(d: nat)
    requires d < 16
    ensures HexVal(HexDigit(d)) == d
  {
  }

  lemma SkipWsNonWs(s: string)
    requires |s| == 0 || !IsWs(s[0])
    ensures SkipWs(s) == s
  {
  }

  /** Reading back one escaped character. */
  lemma EscapeCharRoundTrip(c: char, tail: string)
    ensures ParseChars(EscapeChar(c) + tail) ==
      match ParseChars(tail)
      case None => None
      case Some((str, r)) => Some(([c] + str, r))
  {
    var e := EscapeChar(c);
    if c == '"' || c == '\\' || c == '\U{0008}' || c == '\U{000C}' || c == '\n' || c == '\r' || c == '\t' {
      var x := e[1..] + tail;
      assert e + tail == "\\" + x;
      assert x[1..] == tail;
      BackslashStep(x, c, tail);
    } else if (c as int) < 0x20 {
      var x := e[1..] + tail;
      assert e + tail == "\\" + x;
      HexEscapeRoundTrip(c, tail);
      assert x == "u00" + [HexDigit(c as int / 16), HexDigit(c as int % 16)] + tail;
      BackslashStep(x, c, tail);
    } else {
      assert (e + tail)[1..] == tail;
    }
  }

  /** A backslash followed by an escape that stands for `c`. */
  lemma BackslashStep(x: string, c: char, tail: string)
    requires ParseEscape(x) == Some((c, tail))
    ensures ParseChars("\\" + x) ==
      match ParseChars(tail)
      case None => None
      case Some((str, r)) => Some(([c] + str, r))
  {
    assert ("\\" + x)[1..] == x;
  }

  /** A `\u00XY` escape of a control character reads back as the character. */
  lemma HexEscapeRoundTrip(c: char, tail: string)
    requires (c as int) < 0x20
    ensures ParseEscape("u00" + [HexDigit(c as int / 16), HexDigit(c as int % 16)] + tail) == Some((c, tail))
  {
    var hi := c as int / 16;
    var lo := c as int % 16;
    HexRoundTrip(hi);
    HexRoundTrip(lo);
    var u := "u00" + [HexDigit(hi), HexDigit(lo)] + tail;
    var h := u[1..];
    assert h[0] == '0' && h[1] == '0' && h[2] == HexDigit(hi) && h[3] == HexDigit(lo);
    assert Hex4(h) == Some(hi * 16 + lo);
    assert u[5..] == tail;
  }

  /** The body of a stringified string literal reads back as the string. */
  lemma {:induction false} EscapeStringRoundTrip(str: string, rest: string)
    ensures ParseChars(EscapeString(str) + "\"" + rest) == Some((str, rest))
    decreases |str|
  {
    if |str| == 0 {
      assert (EscapeString(str) + "\"" + rest)[1..] == rest;
    } else {
      var tail := EscapeString(str[1..]) + "\"" + rest;
      EscapeStringRoundTrip(str[1..], rest);
      EscapeStringCons(str, "\"" + rest);
      AppendAssoc(EscapeString(str), "\"", rest);
      AppendAssoc(EscapeString(str[1..]), "\"", rest);
      EscapeCharRoundTrip(str[0], tail);
      assert [str[0]] + str[1..] == str;
    }
  }

  lemma EscapeStringCons(str: string, q: string)
    requires |str| > 0
    ensures EscapeString(str) + q == EscapeChar(str[0]) + (EscapeString(str[1..]) + q)
  {
    EscapeStringUnfold(str);
    AppendAssoc(EscapeChar(str[0]), EscapeString(str[1..]), q);
  }

  lemma EscapeStringUnfold(str: string)
    requires |str| > 0
    ensures EscapeString(str) == EscapeChar(str[0]) + EscapeString(str[1..])
  {
  }

  lemma AppendAssoc(a: string, b: string, c: string)
    ensures (a + b) + c == a + (b + c)
  {
  }

  function Pieces(items: seq<Json>): seq<string>
    requires forall k :: 0 <= k < |items| ==> Encodable(items[k])
  {
    seq(|items|, k requires 0 <= k < |items| => Stringify(items[k]))
  }

  /** `JSON.parse(JSON.stringify(v))` gives `v` back, whatever follows the
      value in the text. */
  lemma {:induction false} ParseValueRoundTrip(v: Json, rest: string)
    requires Encodable(v)
    ensures ParseValue(Stringify(v) + rest) == Some((v, rest))
    decreases v, if v.JArr? then |v.items| + 1 else 0
  {
    if !v.JArr? {
      ScalarRoundTrip(v, rest);
    } else if |v.items| == 0 {
      EmptyArrayRoundTrip(rest);
    } else {
      ElementsRoundTrip(v, 0, rest);
      ArrayOpen(v, rest);
    }
  }

  /** The leaves: `null`, the booleans and strings. */
  lemma ScalarRoundTrip(v: Json, rest: string)
    requires Encodable(v) && !v.JArr?
    ensures ParseValue(Stringify(v) + rest) == Some((v, rest))
  {
    var s := Stringify(v) + rest;
    SkipWsNonWs(s);
    match v
    case JNull =>
      assert s[4..] == rest;
    case JBool(b) =>
      if b { assert s[4..] == rest; } else { assert s[5..] == rest; }
    case JStr(str) =>
      assert s[1..] == EscapeString(str) + "\"" + rest;
      EscapeStringRoundTrip(str, rest);
  }

  lemma EmptyArrayRoundTrip(rest: string)
    ensures ParseValue(Stringify(JArr([])) + rest) == Some((JArr([]), rest))
  {
    var s := Stringify(JArr([])) + rest;
    assert s == "[]" + rest;
    SkipWsNonWs(s);
    assert s[1..] == "]" + rest;
    SkipWsNonWs(s[1..]);
    assert s[1..][1..] == rest;
  }

  /** A non-empty array hands its text after `[` to the element reader. */
  lemma ArrayOpen(v: Json, rest: string)
    requires v.JArr? && Encodable(v) && |v.items| > 0
    requires ParseElements(Join(Pieces(v.items)[0..], ",") + "]" + rest, v.items[..0]) == Some((v, rest))
    ensures ParseValue(Stringify(v) + rest) == Some((v, rest))
  {
    var items := v.items;
    var body := Join(Pieces(items), ",");
    var x := body + "]" + rest;
    assert Pieces(items)[0..] == Pieces(items);
    assert items[..0] == [];
    StringifyArray(v);
    AppendAssoc("[" + body, "]", rest);
    AppendAssoc("[", body, "]" + rest);
    AppendAssoc(body, "]", rest);
    var s := "[" + x;
    assert Stringify(v) + rest == s;
    SkipWsNonWs(s);
    assert s[1..] == x;
    JoinHead(Pieces(items));
    SkipWsNonWs(x);
  }

  lemma StringifyArray(v: Json)
    requires v.JArr? && Encodable(v)
    ensures Stringify(v) == "[" + Join(Pieces(v.items), ",") + "]"
  {
    var items := v.items;
    assert Pieces(items) == seq(|items|, k requires 0 <= k < |items| => Stringify(items[k]));
  }

  /** A join of stringified values starts with the first one's first character. */
  lemma JoinHead(ps: seq<string>)
    requires |ps| > 0 && |ps[0]| > 0
    ensures |Join(ps, ",")| > 0 && Join(ps, ",")[0] == ps[0][0]
  {
    if |ps| > 1 {
      assert Join(ps, ",") == ps[0] + "," + Join(ps[1..], ",");
    }
  }

  /** The elements `k..` of a stringified array, followed by `]`, read back as
      the whole array when the elements before `k` were already read. */
  lemma {:induction false} ElementsRoundTrip(arr: Json, k: nat, rest: string)
    requires arr.JArr? && Encodable(arr) && k < |arr.items|
    ensures ParseElements(Join(Pieces(arr.items)[k..], ",") + "]" + rest, arr.items[..k])
            == Some((arr, rest))
    decreases arr, |arr.items| - k
  {
    var items := arr.items;
    assert Encodable(items[k]);
    if k + 1 == |items| {
      LastPiece(items, k, rest);
      ParseValueRoundTrip(items[k], "]" + rest);
      LastElement(items[k], Stringify(items[k]), items, k, rest);
    } else {
      var after := Join(Pieces(items)[k + 1..], ",") + "]" + rest;
      NextPiece(items, k, rest);
      ParseValueRoundTrip(items[k], "," + after);
      ElementsRoundTrip(arr, k + 1, rest);
      NextElement(items[k], Stringify(items[k]), after, items, k, rest);
    }
  }

  /** The last element, written as `text`, closes the array. */
  lemma LastElement(v: Json, text: string, whole: seq<Json>, k: nat, rest: string)
    requires k + 1 == |whole| && v == whole[k]
    requires ParseValue(text + ("]" + rest)) == Some((v, "]" + rest))
    ensures ParseElements(text + ("]" + rest), whole[..k]) == Some((JArr(whole), rest))
  {
    CloseStep(v, rest, whole[..k], text + ("]" + rest));
    assert whole[..k] + [v] == whole;
  }

  /** An element, written as `text`, followed by a comma hands over to the
      next element. */
  lemma NextElement(v: Json, text: string, after: string, whole: seq<Json>, k: nat, rest: string)
    requires k < |whole| && v == whole[k]
    requires ParseValue(text + ("," + after)) == Some((v, "," + after))
    requires ParseElements(after, whole[..k + 1]) == Some((JArr(whole), rest))
    ensures ParseElements(text + ("," + after), whole[..k]) == Some((JArr(whole), rest))
  {
    CommaStep(v, after, whole[..k], text + ("," + after));
    assert whole[..k] + [v] == whole[..k + 1];
  }

  lemma LastPiece(items: seq<Json>, k: nat, rest: string)
    requires (forall j :: 0 <= j < |items| ==> Encodable(items[j])) && k + 1 == |items|
    ensures Join(Pieces(items)[k..], ",") + "]" + rest == Stringify(items[k]) + ("]" + rest)
  {
    assert Pieces(items)[k..] == [Stringify(items[k])];
  }

  lemma NextPiece(items: seq<Json>, k: nat, rest: string)
    requires (forall j :: 0 <= j < |items| ==> Encodable(items[j])) && k + 1 < |items|
    ensures Join(Pieces(items)[k..], ",") + "]" + rest
      == Stringify(items[k]) + ("," + (Join(Pieces(items)[k + 1..], ",") + "]" + rest))
  {
    var ps := Pieces(items);
    assert ps[k..][1..] == ps[k + 1..];
    assert Join(ps[k..], ",") == ps[k] + "," + Join(ps[k + 1..], ",");
  }

  /** An element followed by a comma hands the rest to the next element. */
  lemma CommaStep(v: Json, after: string, acc: seq<Json>, x: string)
    requires ParseValue(x) == Some((v, "," + after))
    ensures ParseElements(x, acc) == ParseElements(after, acc + [v])
  {
    assert SkipWs("," + after) == "," + after;
    assert ("," + after)[1..] == after;
  }

  /** An element followed by `]` closes the array. */
  lemma CloseStep(v: Json, rest: string, acc: seq<Json>, x: string)
    requires ParseValue(x) == Some((v, "]" + rest))
    ensures ParseElements(x, acc) == Some((JArr(acc + [v]), rest))
  {
    assert SkipWs("]" + rest) == "]" + rest;
    assert ("]" + rest)[1..] == rest;
  }

  /** Parsing what `JSON.stringify` wrote gives back the value. */
  lemma ParseStringify(v: Json)
    requires Encodable(v)
    ensures Parse(Stringify(v)) == Some(v)
  {
    ParseValueRoundTrip(v, "");
    assert Stringify(v) + "" == Stringify(v);
  }
}

=== FILE: nice_select.dfy ===
/** The NiceSelect dropdown widget: a custom list in front of a native
    single-value select. The DOM is abstracted into one immutable record per
    widget; every handler is a function from the record (and the event) to the
    next record plus the `nice-input` notices it dispatches. */
module NiceSelect {
  import opened Wrappers
  import opened Text

  // ---------------------------------------------------------------- data

  /** One configured option: label, value, initial `selected` flag, `disabled` flag. */
  datatype Choice = Choice(text: string, value: string, selected: bool, disabled: bool)

  datatype SelectConfig = SelectConfig(
    name: string,
    caption: string,
    multiple: bool,
    showSelectedItems: bool,
    placeholder: string,
    selectedText: string,
    disabled: bool,
    required: bool,
    readOnly: bool)

  const DefaultPlaceholder := "Select an option"
  const DefaultSelectedText := "selected"

  /** The configuration when only a name and a label are given. */
  function DefaultConfig(name: string, caption: string): SelectConfig {
    SelectConfig(name, caption, false, false, DefaultPlaceholder, DefaultSelectedText, false, false, false)
  }

  /** The widget state.
      - `chosen`: the selected-options list, as indices into `choices`, in
        the order they were added;
      - `marked`: the `selected` class of each list item;
      - `attrs`: the `selected` attribute of each native option;
      - `nativeDisabled`: the `disabled` attribute of each native option;
      - `nativeValue`: the native select's value ("" when nothing is selected);
      - `focus`: the list item carrying the `focus` class;
      - `hidden`: `aria-hidden="true"` on each list item;
      - `search`: the text in the search box. */
  datatype Select = Select(
    config: SelectConfig,
    choices: seq<Choice>,
    chosen: seq<nat>,
    marked: seq<bool>,
    attrs: seq<bool>,
    nativeDisabled: seq<bool>,
    nativeValue: string,
    isOpen: bool,
    focus: Option<nat>,
    hidden: seq<bool>,
    search: string,
    disabled: bool,
    required: bool,
    readOnly: bool)

  /** The shape every reachable state has: per-option flags line up with the
      options and every index points at an option. */
  predicate Valid(s: Select) {
    |s.marked| == |s.choices| && |s.attrs| == |s.choices| && |s.hidden| == |s.choices|
    && |s.nativeDisabled| == |s.choices|
    && (forall k :: 0 <= k < |s.chosen| ==> s.chosen[k] < |s.choices|)
    && (s.focus.Some? ==> s.focus.value < |s.choices|)
  }

  /** The detail of a `nice-input` event (the validity object is left out). */
  datatype Notice = Notice(name: string, caption: string, value: string)

  /** A handler's result: the next state and the notices dispatched, in order. */
  datatype Outcome = Outcome(state: Select, events: seq<Notice>)

  /** The `value` getter: the native select has no `multiple` attribute, so this
      is always one string, even in multiple mode. */
  function Value(s: Select): string {
    s.nativeValue
  }

  function NoticeOf(s: Select): Notice {
    Notice(s.config.name, s.config.caption, Value(s))
  }

  // ---------------------------------------------------------------- helpers

  function AllFalse(n: nat): (r: seq<bool>)
    ensures |r| == n && forall i :: 0 <= i < n ==> !r[i]
  {
    seq(n, _ => false)
  }

  /** The indices whose flag is set, in increasing order. */
  function Flagged(flags: seq<bool>): (r: seq<nat>)
    ensures forall k :: 0 <= k < |r| ==> r[k] < |flags| && flags[r[k]]
    ensures forall i :: 0 <= i < |flags| && flags[i] ==> i in r
    ensures forall a, b :: 0 <= a < b < |r| ==> r[a] < r[b]
    decreases |flags|
  {
    if |flags| == 0 then []
    else
      var init := Flagged(flags[..|flags| - 1]);
      var r := init + (if flags[|flags| - 1] then [|flags| - 1] else []);
      FlaggedStep(flags, init, r);
      r
  }

  /** One more flag extends the list of set flags by its index when set. */
  lemma FlaggedStep(flags: seq<bool>, init: seq<nat>, r: seq<nat>)
    requires |flags| > 0
    requires forall k :: 0 <= k < |init| ==> init[k] < |flags| - 1 && flags[..|flags| - 1][init[k]]
    requires forall i :: 0 <= i < |flags| - 1 && flags[..|flags| - 1][i] ==> i in init
    requires forall a, b :: 0 <= a < b < |init| ==> init[a] < init[b]
    requires r == init + (if flags[|flags| - 1] then [|flags| - 1] else [])
    ensures forall k :: 0 <= k < |r| ==> r[k] < |flags| && flags[r[k]]
    ensures forall i :: 0 <= i < |flags| && flags[i] ==> i in r
    ensures forall a, b :: 0 <= a < b < |r| ==> r[a] < r[b]
  {
    var n := |flags| - 1;
    forall k | 0 <= k < |r| ensures r[k] < |flags| && flags[r[k]] {
      if k < |init| {
        assert r[k] == init[k] && flags[..n][init[k]] == flags[init[k]];
      }
    }
    forall i | 0 <= i < |flags| && flags[i] ensures i in r {
      if i < n {
        assert flags[..n][i] == flags[i];
        assert i in init;
      } else {
        assert r[|r| - 1] == n;
      }
    }
    forall a, b | 0 <= a < b < |r| ensures r[a] < r[b] {
      assert r[a] == init[a];
      if b < |init| {
        assert r[b] == init[b];
      }
    }
  }

  function SelectedFlags(cs: seq<Choice>): (r: seq<bool>)
    ensures |r| == |cs|
  {
    seq(|cs|, i requires 0 <= i < |cs| => cs[i].selected)
  }

  function DisabledFlags(cs: seq<Choice>): (r: seq<bool>)
    ensures |r| == |cs|
  {
    seq(|cs|, i requires 0 <= i < |cs| => cs[i].disabled)
  }

  /** The first option carrying value `v` (what a `option[value="v"]` query
      finds); `|cs|` when there is none. */
  function FirstWithValue(cs: seq<Choice>, v: string): (r: nat)
    ensures r <= |cs|
    ensures r < |cs| ==> cs[r].value == v
    ensures forall j :: 0 <= j < |cs| && cs[j].value == v ==> r <= j
    decreases |cs|
  {
    if |cs| == 0 then 0
    else if cs[0].value == v then 0
    else 1 + FirstWithValue(cs[1..], v)
  }

  /** No two options share a value. */
  predicate DistinctValues(cs: seq<Choice>) {
    forall i, j :: 0 <= i < j < |cs| ==> cs[i].value != cs[j].value
  }

  // ---------------------------------------------------------------- creation

  /** The state right after construction: the selected list is the options
      flagged `selected`; with none flagged the native selection is cleared
      (`selectedIndex = -1`), otherwise the last flagged option is the
      native selection, as for any single-value select. */
  function Create(config: SelectConfig, choices: seq<Choice>): (s: Select)
    ensures Valid(s)
    ensures forall i :: 0 <= i < |choices| ==> (i in s.chosen <==> choices[i].selected)
    ensures forall a, b :: 0 <= a < b < |s.chosen| ==> s.chosen[a] < s.chosen[b]
    ensures (forall i :: 0 <= i < |choices| ==> !choices[i].selected) ==> s.nativeValue == ""
    ensures !s.isOpen && s.focus.None?
    ensures s.disabled == config.disabled
    ensures s.choices == choices
    ensures forall i :: 0 <= i < |choices| ==> s.nativeDisabled[i] == choices[i].disabled
  {
    var flags := SelectedFlags(choices);
    var chosen := Flagged(flags);
    var value := if |chosen| == 0 then "" else choices[chosen[|chosen| - 1]].value;
    Select(config, choices, chosen, flags, flags, DisabledFlags(choices), value, false, None,
           AllFalse(|choices|), "", config.disabled, config.required, config.readOnly)
  }

  /** The five element ids of instance `n`: root, element, label, select, list. */
  function InstanceIds(n: nat): seq<string> {
    [NumberedId("nice-select-", n, ""), NumberedId("nice-select-", n, "-element"),
     NumberedId("nice-select-", n, "-label"), NumberedId("nice-select-", n, "-select"),
     NumberedId("nice-select-", n, "-list")]
  }

  /** Instances take increasing counter values, and two instances never share
      an element id. */
  lemma InstanceIdsDisjoint(m: nat, n: nat)
    requires m != n
    ensures forall a, b :: 0 <= a < 5 && 0 <= b < 5 ==> InstanceIds(m)[a] != InstanceIds(n)[b]
  {
    var sfx := ["", "-element", "-label", "-select", "-list"];
    forall a, b | 0 <= a < 5 && 0 <= b < 5 ensures InstanceIds(m)[a] != InstanceIds(n)[b] {
      assert InstanceIds(m)[a] == NumberedId("nice-select-", m, sfx[a]);
      assert InstanceIds(n)[b] == NumberedId("nice-select-", n, sfx[b]);
      if InstanceIds(m)[a] == InstanceIds(n)[b] {
        NumberedIdUnique("nice-select-", m, sfx[a], n, sfx[b]);
      }
    }
  }

  // ---------------------------------------------------------------- display

  /** The text of the current-value box for the given selected texts. */
  function DisplayText(config: SelectConfig, texts: seq<string>): (r: string)
    ensures !config.multiple ==> (|texts| > 0 ==> r == texts[0]) && (|texts| == 0 ==> r == config.placeholder)
    ensures config.multiple && |texts| == 0 ==> r == config.placeholder
  {
    if config.multiple then
      if config.showSelectedItems || |texts| < 2 then
        var joined := Join(texts, ", ");
        if joined == "" then config.placeholder else joined
      else
        NatToString(|texts|) + " " + config.selectedText
    else if |texts| > 0 then texts[0]
    else config.placeholder
  }

  function Texts(s: Select): (r: seq<string>)
    requires Valid(s)
    ensures |r| == |s.chosen|
  {
    seq(|s.chosen|, k requires 0 <= k < |s.chosen| => s.choices[s.chosen[k]].text)
  }

  function Display(s: Select): string
    requires Valid(s)
  {
    DisplayText(s.config, Texts(s))
  }

  /** The list form prints every text in order: cutting the display at the
      commas and trimming the pieces gives the selected texts back, provided
      the texts are non-empty, trimmed and comma-free. */
  lemma DisplayListReadsBack(config: SelectConfig, texts: seq<string>)
    requires config.multiple && (config.showSelectedItems || |texts| < 2) && |texts| > 0
    requires forall k :: 0 <= k < |texts| ==> texts[k] != "" && IsTrimmed(texts[k]) && ',' !in texts[k]
    ensures TrimAll(Split(DisplayText(config, texts), ',')) == texts
  {
    var spaced := Spaced(texts);
    JoinSpaced(texts);
    assert Join(texts, ", ") != "" by {
      JoinHead(texts, ", ");
    }
    forall k | 0 <= k < |spaced| ensures ',' !in spaced[k] {
      if k > 0 {
        assert spaced[k] == " " + texts[k];
      }
    }
    SplitJoin(spaced, ',');
    forall k | 0 <= k < |texts| ensures Trim(spaced[k]) == texts[k] {
      TrimOfTrimmed(texts[k]);
      if k > 0 {
        assert spaced[k] == " " + texts[k];
        assert (" " + texts[k])[1..] == texts[k];
      }
    }
  }

  /** The texts with a space in front of every one but the first. */
  function Spaced(texts: seq<string>): (r: seq<string>)
    requires |texts| > 0
    ensures |r| == |texts| && r[0] == texts[0]
    ensures forall k :: 0 < k < |texts| ==> r[k] == " " + texts[k]
  {
    seq(|texts|, k requires 0 <= k < |texts| => if k == 0 then texts[0] else " " + texts[k])
  }

  lemma JoinHead(parts: seq<string>, sep: string)
    requires |parts| > 0
    ensures |Join(parts, sep)| >= |parts[0]|
    ensures Join(parts, sep)[..|parts[0]|] == parts[0]
  {
  }

  lemma {:induction false} JoinSpaced(texts: seq<string>)
    requires |texts| > 0
    ensures Join(texts, ", ") == Join(Spaced(texts), [','])
    decreases |texts|
  {
    if |texts| > 1 {
      var rest := texts[1..];
      JoinSpaced(rest);
      var sr := Spaced(rest);
      var st := Spaced(texts);
      assert st[1..] == [" " + rest[0]] + sr[1..];
      JoinLeadingSpace(sr, rest[0]);
    }
  }

  lemma JoinLeadingSpace(sr: seq<string>, h: string)
    requires |sr| > 0 && sr[0] == h
    ensures Join([" " + h] + sr[1..], [',']) == " " + Join(sr, [','])
  {
    var xs := [" " + h] + sr[1..];
    assert xs[1..] == sr[1..];
  }

  /** The count form starts with the decimal count of the selected options. */
  lemma DisplayCountReadsBack(config: SelectConfig, texts: seq<string>)
    requires config.multiple && !config.showSelectedItems && |texts| >= 2
    ensures var r := DisplayText(config, texts);
      var d := DigitRun(r);
      d >= 1 && (forall i :: 0 <= i < d ==> IsDigit(r[i])) && DigitsValue(r[..d]) == |texts|
      && r[d..] == " " + config.selectedText
  {
    var digits := NatToString(|texts|);
    var r := DisplayText(config, texts);
    assert r == digits + (" " + config.selectedText);
    DigitRunOf(digits, " " + config.selectedText);
    assert r[..|digits|] == digits;
    NatToStringValue(|texts|);
  }

  // ---------------------------------------------------------------- open / close / click

  /** `open()`: refused only when disabled; the read-only getter reads an unset
      lower-case property, so read-only never blocks opening. */
  function Open(s: Select): (r: Select)
    ensures r.isOpen <==> s.isOpen || !s.disabled
    ensures r == s.(isOpen := r.isOpen)
  {
    if s.disabled then s else s.(isOpen := true)
  }

  /** `close()`: closed, and no option keeps the focus mark. */
  function Close(s: Select): (r: Select)
    ensures !r.isOpen && r.focus.None?
    ensures r == s.(isOpen := false, focus := None)
  {
    s.(isOpen := false, focus := None)
  }

  /** What a click on the widget landed on. */
  datatype Target = OnDisabledOption | OnCancel | OnDisplay | Elsewhere

  /** The widget's click handler. */
  function OnClicked(s: Select, t: Target): (r: Select)
    requires Valid(s)
    ensures Valid(r) && r.choices == s.choices && r.config == s.config
    ensures r.chosen == s.chosen && r.nativeValue == s.nativeValue && r.attrs == s.attrs && r.marked == s.marked
    ensures t == OnDisabledOption ==> r == s
    ensures t != OnDisabledOption && !s.isOpen && t != OnCancel ==> (r.isOpen <==> !s.disabled)
    ensures t != OnDisabledOption && s.isOpen && !s.config.multiple ==> !r.isOpen
    ensures t != OnDisabledOption && s.isOpen && s.config.multiple ==> (r.isOpen <==> t != OnDisplay)
    ensures r.isOpen && t != OnDisabledOption ==> r.search == "" && forall i :: 0 <= i < |r.hidden| ==> !r.hidden[i]
  {
    if t == OnDisabledOption then s
    else
      var s1 :=
        if !s.isOpen && t != OnCancel then Open(s)
        else if s.config.multiple then (if t == OnDisplay then Close(s) else s)
        else Close(s);
      if s1.isOpen then s1.(search := "", hidden := AllFalse(|s1.choices|)) else s1
  }

  /** A click anywhere on the page: one outside the widget closes it. */
  function ClickOutside(s: Select, inside: bool): (r: Select)
    ensures !inside ==> !r.isOpen && r.focus.None? && r.chosen == s.chosen
    ensures inside ==> r == s
  {
    if inside then s else Close(s)
  }

  /** In single mode the click that opened the list and the next click on the
      widget close it again, leaving the selection alone. */
  lemma SingleClickTwiceCloses(s: Select)
    requires Valid(s) && !s.config.multiple && !s.isOpen && !s.disabled
    ensures OnClicked(s, Elsewhere).isOpen
    ensures var r := OnClicked(OnClicked(s, Elsewhere), Elsewhere);
      !r.isOpen && r.chosen == s.chosen && r.nativeValue == s.nativeValue
  {
  }

  // ---------------------------------------------------------------- option clicks

  /** Sets the native `selected` attribute to `b` on the first option carrying
      the value of each listed option. */
  function SetAttrsFor(cs: seq<Choice>, attrs: seq<bool>, list: seq<nat>, b: bool): (r: seq<bool>)
    requires |attrs| == |cs|
    requires forall k :: 0 <= k < |list| ==> list[k] < |cs|
    ensures |r| == |attrs|
    ensures forall j :: 0 <= j < |r| ==>
      r[j] == (if exists k :: 0 <= k < |list| && FirstWithValue(cs, cs[list[k]].value) == j then b else attrs[j])
    decreases |list|
  {
    if |list| == 0 then attrs
    else
      var rest := SetAttrsFor(cs, attrs, list[..|list| - 1], b);
      var j := FirstWithValue(cs, cs[list[|list| - 1]].value);
      assert forall k :: 0 <= k < |list| - 1 ==> list[..|list| - 1][k] == list[k];
      if j < |cs| then rest[j := b] else rest
  }

  /** The selected list without every option whose value is `v`. */
  function DropValue(cs: seq<Choice>, list: seq<nat>, v: string): (r: seq<nat>)
    requires forall k :: 0 <= k < |list| ==> list[k] < |cs|
    ensures forall k :: 0 <= k < |r| ==> r[k] < |cs|
    ensures forall x :: x in r <==> x in list && cs[x].value != v
    decreases |list|
  {
    if |list| == 0 then []
    else
      var rest := DropValue(cs, list[1..], v);
      assert forall x :: x in list <==> x == list[0] || x in list[1..];
      if cs[list[0]].value != v then [list[0]] + rest else rest
  }

  /** A click on the list item of option `i`. In multiple mode the item's
      `selected` class decides: a marked item is removed (every selected option
      with its value goes), an unmarked one is appended; in single mode it
      replaces the selection. An enabled option dispatches exactly one notice;
      a disabled one changes nothing. After attributes change, which option the
      browser reports as the native value is decided by its selectedness rules,
      so that value is the input `browserValue`. */
  function ItemClicked(s: Select, i: nat, browserValue: string): (r: Outcome)
    requires Valid(s) && i < |s.choices|
    ensures Valid(r.state) && r.state.choices == s.choices && r.state.config == s.config
    ensures s.choices[i].disabled ==> r == Outcome(s, [])
    ensures !s.choices[i].disabled ==> r.events == [NoticeOf(r.state)]
    ensures !s.choices[i].disabled && !s.config.multiple ==>
      r.state.chosen == [i] && Value(r.state) == s.choices[i].value
      && forall j :: 0 <= j < |s.choices| ==> (r.state.marked[j] <==> j == i)
    ensures !s.choices[i].disabled && s.config.multiple && s.marked[i] ==>
      !r.state.marked[i]
      && (forall x :: x in r.state.chosen <==> x in s.chosen && s.choices[x].value != s.choices[i].value)
      && forall j :: 0 <= j < |s.choices| ==>
           r.state.attrs[j] ==
             if exists x :: x in r.state.chosen && FirstWithValue(s.choices, s.choices[x].value) == j then true
             else if j == FirstWithValue(s.choices, s.choices[i].value) then false
             else s.attrs[j]
    ensures !s.choices[i].disabled && s.config.multiple && !s.marked[i] ==>
      r.state.marked[i] && r.state.chosen == s.chosen + [i]
    ensures r.state.isOpen == s.isOpen && r.state.focus == s.focus && r.state.hidden == s.hidden
  {
    var c := s.choices[i];
    if c.disabled then Outcome(s, [])
    else
      var s1 :=
        if s.config.multiple then
          if s.marked[i] then
            var first := FirstWithValue(s.choices, c.value);
            var chosen := DropValue(s.choices, s.chosen, c.value);
            s.(marked := s.marked[i := false],
               chosen := chosen,
               attrs := SetAttrsFor(s.choices, s.attrs[first := false], chosen, true),
               nativeValue := browserValue)
          else
            var chosen := s.chosen + [i];
            s.(marked := s.marked[i := true],
               chosen := chosen,
               attrs := SetAttrsFor(s.choices, s.attrs, chosen, true),
               nativeValue := browserValue)
        else
          s.(marked := seq(|s.choices|, j requires 0 <= j < |s.choices| => j == i),
             chosen := [i],
             nativeValue := c.value);
      Outcome(s1, [NoticeOf(s1)])
  }

  /** A full click on option `i`: the item handler runs, then the click
      bubbles to the widget's handler. */
  function ClickOption(s: Select, i: nat, browserValue: string): (r: Outcome)
    requires Valid(s) && i < |s.choices|
    ensures Valid(r.state)
    ensures r.events == ItemClicked(s, i, browserValue).events
    ensures r.state.chosen == ItemClicked(s, i, browserValue).state.chosen
    ensures r.state.attrs == ItemClicked(s, i, browserValue).state.attrs
    ensures r.state.nativeValue == ItemClicked(s, i, browserValue).state.nativeValue
    ensures s.choices[i].disabled ==> r == Outcome(s, [])
    ensures !s.choices[i].disabled && s.isOpen ==> (r.state.isOpen <==> s.config.multiple)
  {
    var o := ItemClicked(s, i, browserValue);
    var t := if s.choices[i].disabled then OnDisabledOption else Elsewhere;
    Outcome(OnClicked(o.state, t), o.events)
  }

  /** In multiple mode, clicking an unselected option twice puts the selection
      back as it was. */
  lemma ToggleTwiceRestores(s: Select, i: nat, v1: string, v2: string)
    requires Valid(s) && i < |s.choices| && s.config.multiple && !s.choices[i].disabled
    requires !s.marked[i]
    requires forall k :: 0 <= k < |s.chosen| ==> s.choices[s.chosen[k]].value != s.choices[i].value
    ensures var once := ItemClicked(s, i, v1).state;
      var twice := ItemClicked(once, i, v2).state;
      (forall x :: x in twice.chosen <==> x in s.chosen) && twice.marked == s.marked
  {
    var once := ItemClicked(s, i, v1).state;
    assert once.chosen == s.chosen + [i];
    assert once.marked[i];
    var twice := ItemClicked(once, i, v2).state;
    forall x ensures x in twice.chosen <==> x in s.chosen {
      assert x in once.chosen <==> x in s.chosen || x == i;
    }
    assert twice.marked == s.marked[i := true][i := false];
  }

  /** In single mode the display shows the text of the option just clicked. */
  lemma SingleClickDisplays(s: Select, i: nat, v: string)
    requires Valid(s) && i < |s.choices| && !s.config.multiple && !s.choices[i].disabled
    ensures Display(ClickOption(s, i, v).state) == s.choices[i].text
  {
    var r := ClickOption(s, i, v).state;
    assert r.chosen == [i];
    assert Texts(r) == [s.choices[i].text];
  }

  // ---------------------------------------------------------------- keyboard

  /** An option the arrow keys may move to: not disabled and not hidden. */
  predicate Eligible(s: Select, j: int)
    requires Valid(s)
  {
    0 <= j < |s.choices| && !s.choices[j].disabled && !s.hidden[j]
  }

  /** The first eligible option at or after `j`. */
  function ScanDown(s: Select, j: nat): (r: Option<nat>)
    requires Valid(s)
    ensures r.Some? ==> (j <= r.value && Eligible(s, r.value)
      && forall k :: j <= k < r.value ==> !Eligible(s, k))
    ensures r.None? ==> forall k :: j <= k < |s.choices| ==> !Eligible(s, k)
    decreases |s.choices| - j
  {
    if j >= |s.choices| then None
    else if Eligible(s, j) then Some(j)
    else ScanDown(s, j + 1)
  }

  /** The last eligible option at or before `j`. */
  function ScanUp(s: Select, j: int): (r: Option<nat>)
    requires Valid(s) && j < |s.choices|
    ensures r.Some? ==> (r.value <= j && Eligible(s, r.value)
      && forall k :: r.value < k <= j ==> !Eligible(s, k))
    ensures r.None? ==> forall k :: 0 <= k <= j ==> !Eligible(s, k)
    decreases j + 1
  {
    if j < 0 then None
    else if Eligible(s, j) then Some(j)
    else ScanUp(s, j - 1)
  }

  /** The option after the focused one (from the top when none is focused)
      that the down arrow moves to; none past the end: no wrap. */
  function FindNext(s: Select): (r: Option<nat>)
    requires Valid(s)
    ensures var from := if s.focus.Some? then s.focus.value + 1 else 0;
      (r.Some? ==> from <= r.value && Eligible(s, r.value) && forall k :: from <= k < r.value ==> !Eligible(s, k))
      && (r.None? ==> forall k :: from <= k < |s.choices| ==> !Eligible(s, k))
  {
    ScanDown(s, if s.focus.Some? then s.focus.value + 1 else 0)
  }

  /** The option before the focused one (from the bottom when none is
      focused) that the up arrow moves to; none before the start: no wrap. */
  function FindPrev(s: Select): (r: Option<nat>)
    requires Valid(s)
    ensures var from := if s.focus.Some? then s.focus.value - 1 else |s.choices| - 1;
      (r.Some? ==> r.value <= from && Eligible(s, r.value) && forall k :: r.value < k <= from ==> !Eligible(s, k))
      && (r.None? ==> forall k :: 0 <= k <= from ==> !Eligible(s, k))
  {
    ScanUp(s, if s.focus.Some? then s.focus.value - 1 else |s.choices| - 1)
  }

  /** Keys the handler looks at. The handler's 'Space' case compares against a
      key name no keyboard produces, so a space bar press is `OtherKey`. */
  datatype Key = Enter | ArrowDown | ArrowUp | Escape | OtherKey

  /** The keydown handler. */
  function KeyPressed(s: Select, key: Key, browserValue: string): (r: Outcome)
    requires Valid(s)
    ensures Valid(r.state)
    ensures !s.isOpen && (key == Enter || key == ArrowDown || key == ArrowUp) ==>
      r == Outcome(OnClicked(s, Elsewhere), [])
    ensures s.isOpen && !s.disabled && key == Escape ==>
      !r.state.isOpen && r.events == [] && r.state.chosen == s.chosen
    ensures s.isOpen && key == ArrowDown ==>
      r.events == [] && r.state.isOpen && r.state.chosen == s.chosen
      && r.state.focus == (if FindNext(s).Some? then FindNext(s) else s.focus)
    ensures s.isOpen && key == ArrowUp ==>
      r.events == [] && r.state.isOpen && r.state.chosen == s.chosen
      && r.state.focus == (if FindPrev(s).Some? then FindPrev(s) else s.focus)
    ensures key == OtherKey || ((!s.isOpen || s.disabled) && key == Escape) ==> r == Outcome(s, [])
  {
    match key
    case Enter =>
      if !s.isOpen then Outcome(OnClicked(s, Elsewhere), [])
      else if s.focus.Some? then ClickOption(s, s.focus.value, browserValue)
      else Outcome(s, [])
    case ArrowDown =>
      if !s.isOpen then Outcome(OnClicked(s, Elsewhere), [])
      else
        var next := FindNext(s);
        Outcome(if next.Some? then s.(focus := next) else s, [])
    case ArrowUp =>
      if !s.isOpen then Outcome(OnClicked(s, Elsewhere), [])
      else
        var prev := FindPrev(s);
        Outcome(if prev.Some? then s.(focus := prev) else s, [])
    case Escape =>
      // a scripted click on a disabled input dispatches nothing
      if s.isOpen && !s.disabled then Outcome(OnClicked(s, OnDisplay), []) else Outcome(s, [])
    case OtherKey => Outcome(s, [])
  }

  /** Down then up comes back to an eligible focused option: every option the
      down arrow skipped is one the up arrow skips too. */
  lemma DownThenUpReturns(s: Select, v1: string, v2: string)
    requires Valid(s) && s.isOpen && s.focus.Some? && Eligible(s, s.focus.value)
    requires FindNext(s).Some?
    ensures KeyPressed(KeyPressed(s, ArrowDown, v1).state, ArrowUp, v2).state.focus == s.focus
  {
    var d := KeyPressed(s, ArrowDown, v1).state;
    var n := FindNext(s).value;
    assert d.focus == Some(n);
    var f := s.focus.value;
    assert forall k :: Eligible(d, k) == Eligible(s, k);
    assert Eligible(d, f);
    var p := FindPrev(d);
    assert p.Some?;
    assert p.value >= f;
    assert p.value <= f;
  }

  /** At the last eligible option the down arrow stays put, and at the first
      the up arrow does: the focus never wraps around. */
  lemma ArrowsNeverWrap(s: Select, v: string)
    requires Valid(s) && s.isOpen && s.focus.Some?
    ensures (forall k :: s.focus.value < k < |s.choices| ==> !Eligible(s, k)) ==>
      KeyPressed(s, ArrowDown, v).state.focus == s.focus
    ensures (forall k :: 0 <= k < s.focus.value ==> !Eligible(s, k)) ==>
      KeyPressed(s, ArrowUp, v).state.focus == s.focus
  {
  }

  // ---------------------------------------------------------------- search

  /** The search box handler. The lower-cased text is compiled as a regular
      expression (`compile`, None when it is not a valid pattern, in which
      case the handler throws and nothing changes but the typed text). Empty
      text unhides everything; otherwise, while open, each option is hidden
      exactly when the pattern MATCHES its lower-cased label. */
  function SearchInput(s: Select, text: string, compile: string -> Option<string -> bool>): (r: Select)
    requires Valid(s)
    ensures Valid(r) && r.choices == s.choices
    ensures r.search == text && r.chosen == s.chosen && r.isOpen == s.isOpen
    ensures ToLower(text) == "" ==> r.focus.None? && forall i :: 0 <= i < |r.hidden| ==> !r.hidden[i]
    ensures ToLower(text) != "" && s.isOpen && compile(ToLower(text)).Some? ==>
      r.focus.None? && forall i :: 0 <= i < |s.choices| ==>
        (r.hidden[i] <==> compile(ToLower(text)).value(ToLower(s.choices[i].text)))
    ensures ToLower(text) != "" && !s.isOpen ==> r.hidden == s.hidden && r.focus.None?
    ensures ToLower(text) != "" && s.isOpen && compile(ToLower(text)).None? ==> r == s.(search := text)
  {
    var lower := ToLower(text);
    if lower == "" then s.(search := text, hidden := AllFalse(|s.choices|), focus := None)
    else if !s.isOpen then s.(search := text, focus := None)
    else
      match compile(lower)
      case None => s.(search := text)
      case Some(test) =>
        s.(search := text, focus := None,
           hidden := seq(|s.choices|, i requires 0 <= i < |s.choices| => test(ToLower(s.choices[i].text))))
  }

  /** After a search the down arrow only ever lands on options whose label
      does NOT match the typed pattern. */
  lemma SearchSkipsMatches(s: Select, text: string, compile: string -> Option<string -> bool>)
    requires Valid(s) && s.isOpen && ToLower(text) != "" && compile(ToLower(text)).Some?
    ensures var r := SearchInput(s, text, compile);
      FindNext(r).Some? ==>
        !compile(ToLower(text)).value(ToLower(s.choices[FindNext(r).value].text))
  {
  }

  // ---------------------------------------------------------------- update / reset / setValue

  /** The selected list and item classes rebuilt from the native options, in
      native order, for the first `n` of them. Each native option stands for
      the first option with its value. */
  function Rebuild(cs: seq<Choice>, attrs: seq<bool>, marked: seq<bool>, n: nat): (r: (seq<nat>, seq<bool>))
    requires |attrs| == |cs| && |marked| == |cs| && n <= |cs|
    ensures |r.1| == |cs|
    ensures forall k :: 0 <= k < |r.0| ==> r.0[k] < |cs|
    decreases n
  {
    if n == 0 then ([], marked)
    else
      var (chosen, mk) := Rebuild(cs, attrs, marked, n - 1);
      var j := FirstWithValue(cs, cs[n - 1].value);
      (if attrs[n - 1] then chosen + [j] else chosen, mk[j := attrs[n - 1]])
  }

  /** With distinct option values, rebuilding reads the attributes off
      directly: the selected list is the options carrying the attribute, in
      order, and each item's class copies its option's attribute. */
  lemma {:induction false} RebuildDistinct(cs: seq<Choice>, attrs: seq<bool>, marked: seq<bool>, n: nat)
    requires |attrs| == |cs| && |marked| == |cs| && n <= |cs| && DistinctValues(cs)
    ensures Rebuild(cs, attrs, marked, n).0 == Flagged(attrs[..n])
    ensures forall j :: 0 <= j < |cs| ==> Rebuild(cs, attrs, marked, n).1[j] == (if j < n then attrs[j] else marked[j])
    decreases n
  {
    if n > 0 {
      RebuildDistinct(cs, attrs, marked, n - 1);
      assert FirstWithValue(cs, cs[n - 1].value) == n - 1;
      assert attrs[..n][..n - 1] == attrs[..n - 1];
    }
  }

  /** Rebuilding from attributes that are all clear selects nothing. */
  lemma {:induction false} RebuildNone(cs: seq<Choice>, attrs: seq<bool>, marked: seq<bool>, n: nat)
    requires |attrs| == |cs| && |marked| == |cs| && n <= |cs|
    requires forall j :: 0 <= j < |attrs| ==> !attrs[j]
    ensures Rebuild(cs, attrs, marked, n).0 == []
    decreases n
  {
    if n > 0 {
      RebuildNone(cs, attrs, marked, n - 1);
    }
  }

  /** No native option after `i` and before `n` carries `i`'s value. */
  predicate LastBefore(cs: seq<Choice>, i: nat, n: nat)
    requires i < n <= |cs|
  {
    forall k :: i < k < n ==> cs[k].value != cs[i].value
  }

  /** No native option after `i` carries `i`'s value. */
  predicate LastOfValue(cs: seq<Choice>, i: nat)
    requires i < |cs|
  {
    LastBefore(cs, i, |cs|)
  }

  /** The option data after `update()` walks the first `n` native options in
      order: each one's `selected` and `disabled` attributes are written onto
      the FIRST option with its value, so the last native option of a value
      wins. */
  function Refresh(cs: seq<Choice>, attrs: seq<bool>, nd: seq<bool>, n: nat): (r: seq<Choice>)
    requires |attrs| == |cs| && |nd| == |cs| && n <= |cs|
    ensures |r| == |cs|
    decreases n
  {
    if n == 0 then cs
    else
      var prev := Refresh(cs, attrs, nd, n - 1);
      var j := FirstWithValue(cs, cs[n - 1].value);
      prev[j := prev[j].(selected := attrs[n - 1], disabled := nd[n - 1])]
  }

  /** `Refresh` keeps every text and value. */
  lemma {:induction false} RefreshKeepsNames(cs: seq<Choice>, attrs: seq<bool>, nd: seq<bool>, n: nat, j: nat)
    requires |attrs| == |cs| && |nd| == |cs| && n <= |cs| && j < |cs|
    ensures Refresh(cs, attrs, nd, n)[j].text == cs[j].text
    ensures Refresh(cs, attrs, nd, n)[j].value == cs[j].value
    decreases n
  {
    if n > 0 {
      RefreshKeepsNames(cs, attrs, nd, n - 1, j);
    }
  }

  /** `Refresh` never touches an option that is not the first with its value. */
  lemma {:induction false} RefreshKeepsOthers(cs: seq<Choice>, attrs: seq<bool>, nd: seq<bool>, n: nat, j: nat)
    requires |attrs| == |cs| && |nd| == |cs| && n <= |cs| && j < |cs|
    requires FirstWithValue(cs, cs[j].value) != j
    ensures Refresh(cs, attrs, nd, n)[j] == cs[j]
    decreases n
  {
    if n > 0 {
      RefreshKeepsOthers(cs, attrs, nd, n - 1, j);
      assert j != FirstWithValue(cs, cs[n - 1].value);
    }
  }

  /** The first option with a value carries the attributes of the last of the
      first `n` native options with that value. */
  lemma {:induction false} RefreshWritesFirst(cs: seq<Choice>, attrs: seq<bool>, nd: seq<bool>, n: nat, i: nat)
    requires |attrs| == |cs| && |nd| == |cs| && i < n <= |cs| && LastBefore(cs, i, n)
    ensures FirstWithValue(cs, cs[i].value) < |cs|
    ensures Refresh(cs, attrs, nd, n)[FirstWithValue(cs, cs[i].value)].disabled == nd[i]
    ensures Refresh(cs, attrs, nd, n)[FirstWithValue(cs, cs[i].value)].selected == attrs[i]
    decreases n
  {
    if i < n - 1 {
      assert LastBefore(cs, i, n - 1);
      RefreshWritesFirst(cs, attrs, nd, n - 1, i);
      assert cs[n - 1].value != cs[i].value;
      assert FirstWithValue(cs, cs[i].value) != FirstWithValue(cs, cs[n - 1].value);
    }
  }

  /** The same texts and values, position by position. */
  predicate SameNames(before: seq<Choice>, after: seq<Choice>) {
    |after| == |before|
    && forall j :: 0 <= j < |before| ==> after[j].text == before[j].text && after[j].value == before[j].value
  }

  /** Options that are not the first with their value are unchanged. */
  predicate OthersUntouched(before: seq<Choice>, after: seq<Choice>)
    requires |after| == |before|
  {
    forall j :: 0 <= j < |before| && FirstWithValue(before, before[j].value) != j ==> after[j] == before[j]
  }

  /** The first option with each value carries the `disabled` attribute of the
      last native option with that value. */
  predicate FirstCarriesLast(before: seq<Choice>, nd: seq<bool>, after: seq<Choice>)
    requires |after| == |before| && |nd| == |before|
  {
    forall i :: 0 <= i < |before| && LastOfValue(before, i) ==>
      FirstWithValue(before, before[i].value) < |before|
      && after[FirstWithValue(before, before[i].value)].disabled == nd[i]
  }

  /** The first option with each value carries the `selected` attribute of the
      last native option with that value. */
  predicate FirstSelectedLast(before: seq<Choice>, attrs: seq<bool>, after: seq<Choice>)
    requires |after| == |before| && |attrs| == |before|
  {
    forall i :: 0 <= i < |before| && LastOfValue(before, i) ==>
      FirstWithValue(before, before[i].value) < |before|
      && after[FirstWithValue(before, before[i].value)].selected == attrs[i]
  }

  /** `after` is the option data `update()` leaves for `before`: texts and
      values are kept, an option that is not the first with its value is
      untouched, and the first option with a value carries the `disabled`
      attribute of the last native option with that value. */
  predicate DisabledCopied(before: seq<Choice>, nd: seq<bool>, after: seq<Choice>) {
    SameNames(before, after) && |nd| == |before|
    && OthersUntouched(before, after) && FirstCarriesLast(before, nd, after)
  }

  lemma RefreshSameNames(cs: seq<Choice>, attrs: seq<bool>, nd: seq<bool>)
    requires |attrs| == |cs| && |nd| == |cs|
    ensures SameNames(cs, Refresh(cs, attrs, nd, |cs|))
  {
    var r := Refresh(cs, attrs, nd, |cs|);
    forall j | 0 <= j < |cs|
      ensures r[j].text == cs[j].text && r[j].value == cs[j].value
    {
      RefreshKeepsNames(cs, attrs, nd, |cs|, j);
    }
  }

  lemma RefreshOthersUntouched(cs: seq<Choice>, attrs: seq<bool>, nd: seq<bool>)
    requires |attrs| == |cs| && |nd| == |cs|
    ensures OthersUntouched(cs, Refresh(cs, attrs, nd, |cs|))
  {
    var r := Refresh(cs, attrs, nd, |cs|);
    forall j | 0 <= j < |cs| && FirstWithValue(cs, cs[j].value) != j
      ensures r[j] == cs[j]
    {
      RefreshKeepsOthers(cs, attrs, nd, |cs|, j);
    }
  }

  lemma RefreshFirstCarries(cs: seq<Choice>, attrs: seq<bool>, nd: seq<bool>)
    requires |attrs| == |cs| && |nd| == |cs|
    ensures FirstCarriesLast(cs, nd, Refresh(cs, attrs, nd, |cs|))
    ensures FirstSelectedLast(cs, attrs, Refresh(cs, attrs, nd, |cs|))
  {
    var r := Refresh(cs, attrs, nd, |cs|);
    forall i | 0 <= i < |cs| && LastOfValue(cs, i)
      ensures FirstWithValue(cs, cs[i].value) < |cs|
      ensures r[FirstWithValue(cs, cs[i].value)].disabled == nd[i]
      ensures r[FirstWithValue(cs, cs[i].value)].selected == attrs[i]
    {
      RefreshWritesFirst(cs, attrs, nd, |cs|, i);
    }
  }

  /** `update()`: copy the native attributes onto the options, rebuild the
      selection from them, let an open list take a click on the widget, then
      restore the CONFIGURED disabled flag. */
  function Update(s: Select): (r: Select)
    requires Valid(s)
    ensures Valid(r) && r.config == s.config && r.nativeDisabled == s.nativeDisabled
    ensures DisabledCopied(s.choices, s.nativeDisabled, r.choices)
    ensures FirstSelectedLast(s.choices, s.attrs, r.choices)
    ensures r.chosen == Rebuild(s.choices, s.attrs, s.marked, |s.choices|).0
    ensures r.nativeValue == s.nativeValue && r.attrs == s.attrs
    ensures r.disabled == s.config.disabled
    ensures !s.config.multiple ==> !r.isOpen
  {
    var rb := Rebuild(s.choices, s.attrs, s.marked, |s.choices|);
    var cs := Refresh(s.choices, s.attrs, s.nativeDisabled, |s.choices|);
    RefreshSameNames(s.choices, s.attrs, s.nativeDisabled);
    RefreshOthersUntouched(s.choices, s.attrs, s.nativeDisabled);
    RefreshFirstCarries(s.choices, s.attrs, s.nativeDisabled);
    var s1 := s.(choices := cs, chosen := rb.0, marked := rb.1);
    var s2 := if s1.isOpen then OnClicked(s1, Elsewhere) else s1;
    s2.(disabled := s2.config.disabled)
  }

  /** With distinct values, every option takes its own native `disabled`
      attribute. */
  lemma UpdateDistinctCopies(s: Select)
    requires Valid(s) && DistinctValues(s.choices)
    ensures forall i :: 0 <= i < |s.choices| ==> Update(s).choices[i].disabled == s.nativeDisabled[i]
  {
    var r := Update(s);
    forall i | 0 <= i < |s.choices|
      ensures r.choices[i].disabled == s.nativeDisabled[i]
    {
      assert LastOfValue(s.choices, i);
      assert FirstWithValue(s.choices, s.choices[i].value) == i;
    }
  }

  /** When the last native option of a value is disabled, after `update()` a
      click on the list item of the first option with that value does nothing,
      whatever that option was before. */
  lemma UpdateDisablesFirstOfValue(s: Select, i: nat, browserValue: string)
    requires Valid(s) && i < |s.choices| && LastOfValue(s.choices, i) && s.nativeDisabled[i]
    ensures var u := Update(s); var j := FirstWithValue(s.choices, s.choices[i].value);
      j < |u.choices| && ItemClicked(u, j, browserValue) == Outcome(u, [])
  {
  }

  /** Clears the `selected` class of every listed item. */
  function Unmark(marked: seq<bool>, list: seq<nat>): (r: seq<bool>)
    requires forall k :: 0 <= k < |list| ==> list[k] < |marked|
    ensures |r| == |marked|
    ensures forall j :: 0 <= j < |r| ==> r[j] == (marked[j] && j !in list)
    decreases |list|
  {
    if |list| == 0 then marked
    else
      var rest := Unmark(marked, list[1..]);
      assert forall x :: x in list <==> x == list[0] || x in list[1..];
      rest[list[0] := false]
  }

  /** Every native `selected` attribute belongs to a selected option: the
      attributes and the selected list agree. */
  predicate Consistent(s: Select)
    requires Valid(s)
  {
    forall j :: 0 <= j < |s.attrs| && s.attrs[j] ==>
      exists k :: 0 <= k < |s.chosen| && FirstWithValue(s.choices, s.choices[s.chosen[k]].value) == j
  }

  /** `reset()`: clear the attributes of the selected options and the native
      selection, rebuild through `update()`, and dispatch one notice. */
  function Reset(s: Select): (r: Outcome)
    requires Valid(s)
    ensures Valid(r.state) && r.state.config == s.config && r.state.nativeDisabled == s.nativeDisabled
    ensures DisabledCopied(s.choices, s.nativeDisabled, r.state.choices)
    ensures Value(r.state) == ""
    ensures r.events == [Notice(s.config.name, s.config.caption, "")]
    ensures r.state.disabled == s.config.disabled
  {
    var attrs := SetAttrsFor(s.choices, s.attrs, s.chosen, false);
    var s1 := s.(chosen := [], marked := Unmark(s.marked, s.chosen), attrs := attrs, nativeValue := "");
    var s2 := Update(s1);
    Outcome(s2, [NoticeOf(s2)])
  }

  /** When the attributes agree with the selected list, reset selects nothing
      and the display falls back to the placeholder. */
  lemma ResetClears(s: Select)
    requires Valid(s) && Consistent(s)
    ensures Reset(s).state.chosen == []
    ensures Display(Reset(s).state) == s.config.placeholder
  {
    var attrs := SetAttrsFor(s.choices, s.attrs, s.chosen, false);
    forall j | 0 <= j < |attrs| ensures !attrs[j] {
    }
    var s1 := s.(chosen := [], marked := Unmark(s.marked, s.chosen), attrs := attrs, nativeValue := "");
    RebuildNone(s.choices, attrs, s1.marked, |s.choices|);
    assert Texts(Reset(s).state) == [];
  }

  /** The cancel button: reset, then the click reaches the widget only if the
      list is still open. */
  function CancelClicked(s: Select): (r: Outcome)
    requires Valid(s)
    ensures Valid(r.state)
    ensures r.events == Reset(s).events
    ensures r.state.chosen == Reset(s).state.chosen && Value(r.state) == ""
  {
    var o := Reset(s);
    if o.state.isOpen then Outcome(OnClicked(o.state, OnCancel), o.events) else o
  }

  /** The argument of `setValue`: one value or an array of values. */
  datatype ValueArg = OneValue(v: string) | Values(vs: seq<string>)

  function Listed(arg: ValueArg): seq<string> {
    match arg
    case OneValue(v) => [v]
    case Values(vs) => vs
  }

  /** The native options whose value is listed and whose `disabled`
      attribute is clear. */
  function Matched(cs: seq<Choice>, nd: seq<bool>, values: seq<string>): (r: seq<bool>)
    requires |nd| == |cs|
    ensures |r| == |cs|
    ensures forall i :: 0 <= i < |cs| ==> (r[i] <==> cs[i].value in values && !nd[i])
  {
    seq(|cs|, i requires 0 <= i < |cs| => cs[i].value in values && !nd[i])
  }

  /** `setValue`: exactly the enabled listed options get the attribute; when
      none matches, the first option is selected instead. Each matched option
      is made selected in turn, so the last one is the native selection. No
      notice is dispatched. Without any option the code indexes past the end
      and throws: None. */
  function SetValue(s: Select, arg: ValueArg): (r: Option<Select>)
    requires Valid(s)
    ensures r.None? <==> |s.choices| == 0
    ensures r.Some? ==> Valid(r.value) && r.value.config == s.config && r.value.nativeDisabled == s.nativeDisabled
    ensures r.Some? ==> DisabledCopied(s.choices, s.nativeDisabled, r.value.choices)
    ensures r.Some? ==> r.value.chosen == Rebuild(s.choices, r.value.attrs, s.marked, |s.choices|).0
    ensures r.Some? ==> forall i :: 0 <= i < |s.choices| ==>
      (r.value.attrs[i] <==> (Matched(s.choices, s.nativeDisabled, Listed(arg))[i]
        || (i == 0 && forall j :: 0 <= j < |s.choices| ==> !Matched(s.choices, s.nativeDisabled, Listed(arg))[j])))
  {
    var m := Matched(s.choices, s.nativeDisabled, Listed(arg));
    var hits := Flagged(m);
    if |s.choices| == 0 then None
    else
      var attrs := if |hits| == 0 then m[0 := true] else m;
      var value := if |hits| == 0 then s.choices[0].value else s.choices[hits[|hits| - 1]].value;
      Some(Update(s.(attrs := attrs, nativeValue := value)))
  }

  /** With distinct values, `setValue` selects exactly the listed enabled
      options, in option order, or just the first option when none is listed. */
  lemma SetValueSelects(s: Select, arg: ValueArg)
    requires Valid(s) && |s.choices| > 0 && DistinctValues(s.choices)
    ensures var r := SetValue(s, arg).value;
      forall i :: 0 <= i < |s.choices| ==>
        (i in r.chosen <==> ((s.choices[i].value in Listed(arg) && !s.nativeDisabled[i])
          || (i == 0 && forall j :: 0 <= j < |s.choices| ==>
                !(s.choices[j].value in Listed(arg) && !s.nativeDisabled[j]))))
  {
    var r := SetValue(s, arg).value;
    RebuildIsFlagged(s.choices, r.attrs, s.marked);
    FlaggedMembers(r.attrs);
    NoneMatched(s.choices, s.nativeDisabled, Listed(arg));
  }

  lemma RebuildIsFlagged(cs: seq<Choice>, attrs: seq<bool>, marked: seq<bool>)
    requires |attrs| == |cs| && |marked| == |cs| && DistinctValues(cs)
    ensures Rebuild(cs, attrs, marked, |cs|).0 == Flagged(attrs)
  {
    RebuildDistinct(cs, attrs, marked, |cs|);
    assert attrs[..|cs|] == attrs;
  }

  lemma FlaggedMembers(flags: seq<bool>)
    ensures forall i :: 0 <= i < |flags| ==> (i in Flagged(flags) <==> flags[i])
  {
    forall i | 0 <= i < |flags| ensures i in Flagged(flags) <==> flags[i] {
      FlaggedHas(flags, i);
    }
  }

  lemma NoneMatched(cs: seq<Choice>, nd: seq<bool>, values: seq<string>)
    requires |nd| == |cs|
    ensures (forall j :: 0 <= j < |cs| ==> !Matched(cs, nd, values)[j]) <==>
      (forall j :: 0 <= j < |cs| ==> !(cs[j].value in values && !nd[j]))
  {
    var m := Matched(cs, nd, values);
    if forall j :: 0 <= j < |cs| ==> !m[j] {
      forall j | 0 <= j < |cs| ensures !(cs[j].value in values && !nd[j]) {
        assert !m[j];
      }
    }
    if forall j :: 0 <= j < |cs| ==> !(cs[j].value in values && !nd[j]) {
      forall j | 0 <= j < |cs| ensures !m[j] {
        assert !(cs[j].value in values && !nd[j]);
      }
    }
  }

  /** An index is listed exactly when its flag is set. */
  lemma FlaggedHas(flags: seq<bool>, i: nat)
    requires i < |flags|
    ensures i in Flagged(flags) <==> flags[i]
  {
    if i in Flagged(flags) {
      var k :| 0 <= k < |Flagged(flags)| && Flagged(flags)[k] == i;
    }
  }

  // ---------------------------------------------------------------- flags

  /** `setDisabled`/`disable`/`enable`: one flag mirrored onto the native
      select, the value box and the search box. */
  function SetDisabled(s: Select, b: bool): (r: Select)
    ensures r.disabled == b && r == s.(disabled := b)
  {
    s.(disabled := b)
  }

  function SetRequired(s: Select, b: bool): (r: Select)
    ensures r.required == b && r == s.(required := b)
  {
    s.(required := b)
  }

  function SetReadOnly(s: Select, b: bool): (r: Select)
    ensures r.readOnly == b && r == s.(readOnly := b)
  {
    s.(readOnly := b)
  }

  /** A read-only but enabled widget still opens. */
  lemma ReadOnlyStillOpens(s: Select)
    requires !s.disabled
    ensures Open(SetReadOnly(s, true)).isOpen
  {
  }
}

=== FILE: nice_text.dfy ===
/** The NiceText input widget: a labelled text input with a cancel button that
    re-dispatches native input as `nice-input` notices. */
module NiceText {
  import opened Text

  datatype TextConfig = TextConfig(
    name: string,
    caption: string,
    inputType: string,
    placeholder: string,
    value: string,
    required: bool,
    disabled: bool,
    readOnly: bool)

  /** The configuration when nothing is given. */
  const DefaultConfig := TextConfig("", "", "text", "", "", false, false, false)

  /** The widget state: the input's value and flags, the cancel button's flag,
      the ARIA attribute texts that mirror them, and whether the input holds
      the keyboard focus. */
  datatype TextField = TextField(
    config: TextConfig,
    value: string,
    disabled: bool,
    cancelDisabled: bool,
    ariaDisabled: string,
    cancelAriaDisabled: string,
    required: bool,
    ariaRequired: string,
    readOnly: bool,
    ariaReadOnly: string,
    focused: bool)

  /** The detail of a `nice-input` event (the validity object is left out). */
  datatype Notice = Notice(name: string, caption: string, value: string)

  datatype Outcome = Outcome(state: TextField, events: seq<Notice>)

  /** `String(b)`. */
  function BoolText(b: bool): string {
    if b then "true" else "false"
  }

  /** Every mirror agrees with the flag it mirrors. */
  predicate Mirrored(f: TextField) {
    f.cancelDisabled == f.disabled
    && f.ariaDisabled == BoolText(f.disabled)
    && f.cancelAriaDisabled == BoolText(f.disabled)
    && f.ariaRequired == BoolText(f.required)
    && f.ariaReadOnly == BoolText(f.readOnly)
  }

  function NoticeOf(f: TextField): Notice {
    Notice(f.config.name, f.config.caption, f.value)
  }

  /** `setDisabled`: the input, the cancel button and both ARIA attributes. */
  function SetDisabled(f: TextField, b: bool): (r: TextField)
    ensures r.disabled == b && r.cancelDisabled == b
    ensures r.ariaDisabled == BoolText(b) && r.cancelAriaDisabled == BoolText(b)
    ensures Mirrored(f) ==> Mirrored(r)
    ensures r.value == f.value && r.required == f.required && r.readOnly == f.readOnly
  {
    f.(disabled := b, ariaDisabled := BoolText(b), cancelDisabled := b, cancelAriaDisabled := BoolText(b))
  }

  function SetRequired(f: TextField, b: bool): (r: TextField)
    ensures r.required == b && r.ariaRequired == BoolText(b)
    ensures Mirrored(f) ==> Mirrored(r)
    ensures r.value == f.value && r.disabled == f.disabled && r.readOnly == f.readOnly
  {
    f.(required := b, ariaRequired := BoolText(b))
  }

  function SetReadOnly(f: TextField, b: bool): (r: TextField)
    ensures r.readOnly == b && r.ariaReadOnly == BoolText(b)
    ensures Mirrored(f) ==> Mirrored(r)
    ensures r.value == f.value && r.disabled == f.disabled && r.required == f.required
  {
    f.(readOnly := b, ariaReadOnly := BoolText(b))
  }

  /** The input types whose value is not sanitised as a single line of text.
      Every other type string, unknown ones included, is in the Text state. */
  const NonTextTypes := {"email", "url", "number", "range", "color", "date", "month", "week", "time",
                         "datetime-local", "hidden", "checkbox", "radio", "file", "submit", "image",
                         "reset", "button"}

  predicate IsLineBreak(c: char) { c == '\n' || c == '\r' }

  /** The value with every line feed and carriage return removed. */
  function StripLineBreaks(v: string): (r: string)
    ensures forall k :: 0 <= k < |r| ==> !IsLineBreak(r[k])
    ensures forall c :: c in r <==> c in v && !IsLineBreak(c)
    ensures (forall k :: 0 <= k < |v| ==> !IsLineBreak(v[k])) ==> r == v
    decreases |v|
  {
    if |v| == 0 then "" else (if IsLineBreak(v[0]) then "" else [v[0]]) + StripLineBreaks(v[1..])
  }

  /** The value sanitisation of an input of the given type: a text-like
      input (text, search, tel, password) keeps one line. */
  function Sanitize(inputType: string, v: string): (r: string)
    ensures inputType !in NonTextTypes ==> r == StripLineBreaks(v)
    ensures inputType in NonTextTypes ==> r == v
  {
    if inputType in NonTextTypes then v else StripLineBreaks(v)
  }

  /** The state right after construction: the configured value, then the
      required, disabled and read-only setters in that order. */
  function Create(config: TextConfig): (r: TextField)
    ensures Mirrored(r)
    ensures r.value == Sanitize(config.inputType, config.value) && !r.focused
    ensures r.disabled == config.disabled && r.required == config.required && r.readOnly == config.readOnly
  {
    var blank := TextField(config, Sanitize(config.inputType, config.value), false, false, "", "", false, "", false, "", false);
    SetReadOnly(SetDisabled(SetRequired(blank, config.required), config.disabled), config.readOnly)
  }

  /** The three element ids of instance `n`: root, label, input. */
  function InstanceIds(n: nat): seq<string> {
    [NumberedId("nice-text-", n, ""), NumberedId("nice-text-", n, "-label"), NumberedId("nice-text-", n, "-input")]
  }

  /** Two instances never share an element id. */
  lemma InstanceIdsDisjoint(m: nat, n: nat)
    requires m != n
    ensures forall a, b :: 0 <= a < 3 && 0 <= b < 3 ==> InstanceIds(m)[a] != InstanceIds(n)[b]
  {
    var sfx := ["", "-label", "-input"];
    forall a, b | 0 <= a < 3 && 0 <= b < 3 ensures InstanceIds(m)[a] != InstanceIds(n)[b] {
      assert InstanceIds(m)[a] == NumberedId("nice-text-", m, sfx[a]);
      assert InstanceIds(n)[b] == NumberedId("nice-text-", n, sfx[b]);
      if InstanceIds(m)[a] == InstanceIds(n)[b] {
        NumberedIdUnique("nice-text-", m, sfx[a], n, sfx[b]);
      }
    }
  }

  /** The user edits the input: the browser fires one native input event and
      the widget re-dispatches it as one notice carrying the new value. */
  function UserInput(f: TextField, text: string): (r: Outcome)
    ensures r.state.value == text
    ensures r.events == [Notice(f.config.name, f.config.caption, text)]
    ensures Mirrored(f) ==> Mirrored(r.state)
  {
    var f1 := f.(value := text);
    Outcome(f1, [NoticeOf(f1)])
  }

  /** `setValue`: assigning `input.value` stores the sanitised value, and no
      notice is dispatched. */
  function SetValue(f: TextField, v: string): (r: TextField)
    ensures f.config.inputType !in NonTextTypes ==>
      (forall k :: 0 <= k < |r.value| ==> !IsLineBreak(r.value[k]))
      && forall c :: c in r.value <==> c in v && !IsLineBreak(c)
    ensures (forall k :: 0 <= k < |v| ==> !IsLineBreak(v[k])) ==> r.value == v
    ensures r == f.(value := r.value)
  {
    f.(value := Sanitize(f.config.inputType, v))
  }

  /** Setting the value the field reports changes nothing. */
  lemma SetValueReadBack(f: TextField, v: string)
    ensures var r := SetValue(f, v); SetValue(r, r.value) == r
  {
    var r := SetValue(f, v);
    if f.config.inputType !in NonTextTypes {
      assert forall k :: 0 <= k < |r.value| ==> !IsLineBreak(r.value[k]);
    }
  }

  /** `reset`: clear the value, then dispatch a native input event (which the
      widget's own listener turns into a notice) and a notice directly, so two
      identical notices go out. */
  function Reset(f: TextField): (r: Outcome)
    ensures r.state.value == ""
    ensures |r.events| == 2 && r.events[0] == r.events[1] == Notice(f.config.name, f.config.caption, "")
    ensures Mirrored(f) ==> Mirrored(r.state)
  {
    var f1 := SetValue(f, "");
    var fromListener := UserInput(f1, f1.value);
    Outcome(fromListener.state, fromListener.events + [NoticeOf(fromListener.state)])
  }

  /** The cancel button: reset, then focus the input. */
  function CancelClicked(f: TextField): (r: Outcome)
    ensures r.state.value == "" && r.state.focused
    ensures r.events == Reset(f).events
    ensures Mirrored(f) ==> Mirrored(r.state)
  {
    var o := Reset(f);
    Outcome(o.state.(focused := true), o.events)
  }

  /** Whatever was typed or set before, a reset reports exactly what a reset of
      the untouched widget reports, and the widget ends in the same state: the
      history of the value is forgotten. */
  lemma ResetForgetsValue(f: TextField, text: string, v: string)
    ensures Reset(UserInput(f, text).state) == Reset(f)
    ensures Reset(SetValue(f, v)) == Reset(f)
  {
  }

  /** `setValue` followed by a user edit looks, to a listener, exactly like
      the edit alone: a programmatic value is never reported by itself. */
  lemma SetValueIsSilent(f: TextField, v: string, text: string)
    ensures UserInput(SetValue(f, v), text) == UserInput(f, text)
  {
  }
}

=== FILE: seqs.dfy ===
/** Order-keeping filtering, the `Array.prototype.filter` every block uses. */
module Seqs {

  /** `r` is `xs` with some elements struck out. */
  predicate SubsequenceOf<T(==,!new)>(r: seq<T>, xs: seq<T>)
    decreases |xs|
  {
    |r| == 0 || (|xs| > 0 && (if r[0] == xs[0] then SubsequenceOf(r[1..], xs[1..]) else SubsequenceOf(r, xs[1..])))
  }

  /** The elements of `xs` that `keep` accepts, in their order. */
  function Filter<T(==,!new)>(xs: seq<T>, keep: T -> bool): (r: seq<T>)
    ensures |r| <= |xs|
    ensures forall k :: 0 <= k < |r| ==> keep(r[k])
    ensures forall x :: x in r <==> x in xs && keep(x)
    ensures SubsequenceOf(r, xs)
    decreases |xs|
  {
    if |xs| == 0 then []
    else
      var rest := Filter(xs[1..], keep);
      assert forall x :: x in xs <==> x == xs[0] || x in xs[1..];
      if keep(xs[0]) then [xs[0]] + rest else rest
  }

  /** Filtering twice with the same acceptor is filtering once. */
  lemma {:induction false} FilterIdempotent<T(!new)>(xs: seq<T>, keep: T -> bool)
    ensures Filter(Filter(xs, keep), keep) == Filter(xs, keep)
    decreases |xs|
  {
    if |xs| > 0 {
      FilterIdempotent(xs[1..], keep);
      if keep(xs[0]) {
        assert Filter(xs, keep)[1..] == Filter(xs[1..], keep);
      }
    }
  }

  /** The first index of `x` in `xs`, or -1: `indexOf`. */
  function FirstIndex<T(==)>(xs: seq<T>, x: T): (r: int)
    ensures -1 <= r < |xs|
    ensures r >= 0 ==> xs[r] == x && x !in xs[..r]
    ensures r < 0 <==> x !in xs
    decreases |xs|
  {
    if |xs| == 0 then -1
    else if xs[0] == x then 0
    else
      var i := FirstIndex(xs[1..], x);
      if i < 0 then -1
      else
        assert xs[..i + 1] == [xs[0]] + xs[1..][..i];
        i + 1
  }

  /** Inserts `x` before the first element whose key is not smaller. */
  function InsertByKey<T>(x: T, s: seq<T>, key: T -> int): (r: seq<T>)
    ensures |r| == |s| + 1
    ensures multiset(r) == multiset(s) + multiset{x}
    decreases |s|
  {
    if |s| == 0 || key(x) <= key(s[0]) then [x] + s
    else
      assert s == [s[0]] + s[1..];
      [s[0]] + InsertByKey(x, s[1..], key)
  }

  /** A stable sort by an integer key: `Array.prototype.sort` with the
      comparator `key(a) - key(b)`. */
  function SortByKey<T>(xs: seq<T>, key: T -> int): (r: seq<T>)
    ensures |r| == |xs|
    ensures multiset(r) == multiset(xs)
    decreases |xs|
  {
    if |xs| == 0 then []
    else
      assert xs == [xs[0]] + xs[1..];
      InsertByKey(xs[0], SortByKey(xs[1..], key), key)
  }

  predicate SortedByKey<T>(s: seq<T>, key: T -> int) {
    forall i, j :: 0 <= i < j < |s| ==> key(s[i]) <= key(s[j])
  }

  /** A bound below `x` and every key of `s` stays below every key after
      the insertion. */
  lemma {:induction false} InsertLowerBound<T>(x: T, s: seq<T>, key: T -> int, b: int)
    requires b <= key(x) && forall i :: 0 <= i < |s| ==> b <= key(s[i])
    ensures forall j :: 0 <= j < |InsertByKey(x, s, key)| ==> b <= key(InsertByKey(x, s, key)[j])
    decreases |s|
  {
    if |s| > 0 && key(x) > key(s[0]) {
      InsertLowerBound(x, s[1..], key, b);
      var t := InsertByKey(x, s[1..], key);
      assert InsertByKey(x, s, key) == [s[0]] + t;
    }
  }

  lemma {:induction false} InsertKeepsSorted<T>(x: T, s: seq<T>, key: T -> int)
    requires SortedByKey(s, key)
    ensures SortedByKey(InsertByKey(x, s, key), key)
    decreases |s|
  {
    if |s| > 0 && key(x) > key(s[0]) {
      var t := InsertByKey(x, s[1..], key);
      assert SortedByKey(s[1..], key);
      InsertKeepsSorted(x, s[1..], key);
      InsertLowerBound(x, s[1..], key, key(s[0]));
      var r := InsertByKey(x, s, key);
      assert r == [s[0]] + t;
      assert forall j :: 1 <= j < |r| ==> r[j] == t[j - 1];
    }
  }

  /** The sorted sequence is ordered by key. */
  lemma {:induction false} SortByKeySorted<T>(xs: seq<T>, key: T -> int)
    ensures SortedByKey(SortByKey(xs, key), key)
    decreases |xs|
  {
    if |xs| > 0 {
      SortByKeySorted(xs[1..], key);
      InsertKeepsSorted(xs[0], SortByKey(xs[1..], key), key);
    }
  }

  /** The elements of one key, in order. */
  function WithKey<T>(s: seq<T>, key: T -> int, k: int): (r: seq<T>)
    decreases |s|
  {
    if |s| == 0 then []
    else (if key(s[0]) == k then [s[0]] else []) + WithKey(s[1..], key, k)
  }

  lemma {:induction false} InsertWithKey<T>(x: T, s: seq<T>, key: T -> int, k: int)
    ensures WithKey(InsertByKey(x, s, key), key, k) ==
      (if key(x) == k then [x] else []) + WithKey(s, key, k)
    decreases |s|
  {
    var r := InsertByKey(x, s, key);
    if |s| == 0 || key(x) <= key(s[0]) {
      assert r == [x] + s;
      assert r[1..] == s;
    } else {
      InsertWithKey(x, s[1..], key, k);
      assert r == [s[0]] + InsertByKey(x, s[1..], key);
      assert r[1..] == InsertByKey(x, s[1..], key);
    }
  }

  /** Stability: the elements of any one key come out in their input order. */
  lemma {:induction false} SortByKeyStable<T>(xs: seq<T>, key: T -> int, k: int)
    ensures WithKey(SortByKey(xs, key), key, k) == WithKey(xs, key, k)
    decreases |xs|
  {
    if |xs| > 0 {
      SortByKeyStable(xs[1..], key, k);
      InsertWithKey(xs[0], SortByKey(xs[1..], key), key, k);
    }
  }
}

=== FILE: tags.dfy ===
/**
 * The tag vocabulary of the filters block: normalisation for matching,
 * parsing of an item's `namespace:category/subcategory` tag list into a
 * category -> subcategories map with display names, the tag/type/search
 * matcher, and the mapping of taxonomy entries to tag records.
 *
 * The taxonomy (fetched over the network in the source) is a given map from
 * tag id to its title and description.
 */
module Tags {
  import opened Wrappers
  import opened Text

  datatype TagInfo = TagInfo(title: string, description: string)

  /** Taxonomy lookup by tag id. */
  type Taxonomy = map<string, TagInfo>

  // ---------------------------------------------------------------- normalisation

  /** `normalizeForMatch`: trimmed and lower-cased. A missing string is `""`. */
  function NormalizeForMatch(s: string): string {
    ToLower(Trim(s))
  }

  predicate Normalized(s: string) {
    NormalizeForMatch(s) == s
  }

  /** Normalising yields a trimmed lower-case fixed point, and trimming first
      changes nothing. */
  lemma NormalizeShape(s: string)
    ensures IsTrimmed(NormalizeForMatch(s)) && IsLower(NormalizeForMatch(s))
    ensures Normalized(NormalizeForMatch(s))
    ensures NormalizeForMatch(Trim(s)) == NormalizeForMatch(s)
  {
    TrimIdempotent(s);
    TrimLowerCommute(Trim(s));
    ToLowerIdempotent(Trim(s));
    ToLowerIsLower(Trim(s));
    TrimShape(s);
    TrimShape(ToLower(Trim(s)));
  }

  /** A string is normalised exactly when it is trimmed and has no upper-case
      ASCII letter. */
  lemma NormalizedIff(s: string)
    ensures Normalized(s) <==> IsTrimmed(s) && IsLower(s)
  {
    NormalizeShape(s);
    if IsTrimmed(s) && IsLower(s) {
      TrimOfTrimmed(s);
      ToLowerIsLower(s);
    }
  }

  // ---------------------------------------------------------------- one tag token

  /** The three groups of `^([^:]+):([^/]+)\/(.+)$`. */
  datatype TagToken = TagToken(namespace: string, category: string, subcategory: string)

  predicate NoLineBreak(s: string) {
    forall k :: 0 <= k < |s| ==> !IsLineTerminator(s[k])
  }

  /** What the pattern admits: a namespace without ':', a category without
      '/', and a subcategory without line breaks, all non-empty. */
  predicate WellFormedToken(t: TagToken) {
    |t.namespace| > 0 && ':' !in t.namespace
    && |t.category| > 0 && '/' !in t.category
    && |t.subcategory| > 0 && NoLineBreak(t.subcategory)
  }

  function CategoryId(t: TagToken): string {
    t.namespace + ":" + t.category
  }

  function SubcategoryId(t: TagToken): string {
    CategoryId(t) + "/" + t.subcategory
  }

  /** Match one trimmed token against the tag pattern: the namespace runs to
      the first ':', the category to the next '/', the rest is the
      subcategory. What it returns is well formed and spells the token. */
  function ParseToken(tok: string): (r: Option<TagToken>)
    ensures r.Some? ==> WellFormedToken(r.value) && SubcategoryId(r.value) == tok
  {
    var i := IndexOf(tok, ":");
    if i <= 0 then None
    else
      var rest := tok[i + 1..];
      var j := IndexOf(rest, "/");
      if j <= 0 then None
      else
        var sub := rest[j + 1..];
        if |sub| == 0 || !NoLineBreak(sub) then None
        else
          IndexOfCharFound(tok, ':');
          IndexOfCharFound(rest, '/');
          SpellsBack(tok, i, j);
          Some(TagToken(tok[..i], rest[..j], sub))
  }

  /** Cutting a token at its ':' and at the following '/' loses nothing. */
  lemma SpellsBack(tok: string, i: int, j: int)
    requires 0 < i < |tok| && tok[i] == ':'
    requires 0 < j < |tok| - i - 1 && tok[i + 1..][j] == '/'
    ensures tok[..i] + ":" + tok[i + 1..][..j] + "/" + tok[i + 1..][j + 1..] == tok
  {
    var rest := tok[i + 1..];
    assert rest == rest[..j] + "/" + rest[j + 1..];
    assert tok == tok[..i] + ":" + rest;
  }

  /** Every well-formed token is recognised, with exactly its own parts. */
  lemma ParseTokenComplete(t: TagToken)
    requires WellFormedToken(t)
    ensures ParseToken(SubcategoryId(t)) == Some(t)
  {
    var tok := SubcategoryId(t);
    assert tok[..|t.namespace|] == t.namespace;
    IndexOfCharAt(tok, ':', |t.namespace|);
    var rest := tok[|t.namespace| + 1..];
    assert rest == t.category + "/" + t.subcategory;
    assert rest[..|t.category|] == t.category;
    IndexOfCharAt(rest, '/', |t.category|);
  }

  // ---------------------------------------------------------------- names

  /** The category name used when the taxonomy has none: "--" reads " & ",
      then every remaining "-" reads " ". */
  function CategoryFallback(category: string): string {
    ReplaceAll(ReplaceAll(category, "--", " & "), "-", " ")
  }

  /** The subcategory name used when the taxonomy has none. */
  function SubcategoryFallback(subcategory: string): string {
    ReplaceAll(subcategory, "-", " ")
  }

  lemma FallbacksHaveNoDash(category: string, subcategory: string)
    ensures '-' !in CategoryFallback(category)
    ensures '-' !in SubcategoryFallback(subcategory)
  {
    ReplaceAllRemovesChar(ReplaceAll(category, "--", " & "), '-', " ");
    ReplaceAllRemovesChar(subcategory, '-', " ");
  }

  /** `getDisplayName`: the taxonomy title when there is a non-empty one. */
  function DisplayName(tax: Taxonomy, id: string, fallback: string): string {
    if id in tax && tax[id].title != "" then tax[id].title else fallback
  }

  function CategoryName(tax: Taxonomy, t: TagToken): string {
    DisplayName(tax, CategoryId(t), CategoryFallback(t.category))
  }

  function SubcategoryName(tax: Taxonomy, t: TagToken): string {
    DisplayName(tax, SubcategoryId(t), SubcategoryFallback(t.subcategory))
  }

  function CategoryKey(tax: Taxonomy, t: TagToken): string {
    NormalizeForMatch(CategoryName(tax, t))
  }

  function SubcategoryKey(tax: Taxonomy, t: TagToken): string {
    NormalizeForMatch(SubcategoryName(tax, t))
  }

  // ---------------------------------------------------------------- parseItemTags

  datatype ItemTags = ItemTags(itemMap: map<string, set<string>>, displayNames: map<string, string>)

  const NoTags := ItemTags(map[], map[])

  /** The promised shape: keys and members are normalised, no category has an
      empty set, and each display name is trimmed and normalises to its key. */
  predicate WellFormedTags(it: ItemTags) {
    WellFormedMap(it.itemMap) && WellFormedNames(it.displayNames)
  }

  predicate WellFormedMap(m: map<string, set<string>>) {
    (forall c :: c in m ==> Normalized(c) && m[c] != {})
    && (forall c, s :: c in m && s in m[c] ==> Normalized(s))
  }

  predicate WellFormedNames(d: map<string, string>) {
    forall k :: k in d ==> IsTrimmed(d[k]) && NormalizeForMatch(d[k]) == k
  }

  /** Record one tag under its display names: both names are stored trimmed
      under their normalised keys, and the subcategory joins the category's
      set. */
  function AddTag(acc: ItemTags, catName: string, subName: string): ItemTags {
    var cat := NormalizeForMatch(catName);
    var sub := NormalizeForMatch(subName);
    var names := acc.displayNames[cat := Trim(catName)][sub := Trim(subName)];
    var subs := if cat in acc.itemMap then acc.itemMap[cat] else {};
    ItemTags(acc.itemMap[cat := subs + {sub}], names)
  }

  /** One token of the `forEach`: unmatched tokens are skipped. */
  function TokenStep(tax: Taxonomy, acc: ItemTags, tok: string): ItemTags {
    match ParseToken(tok)
    case None => acc
    case Some(t) => AddTag(acc, CategoryName(tax, t), SubcategoryName(tax, t))
  }

  /** Adding one tag keeps the promised shape. */
  lemma AddTagWellFormed(acc: ItemTags, catName: string, subName: string)
    requires WellFormedTags(acc)
    ensures WellFormedTags(AddTag(acc, catName, subName))
  {
    var cat := NormalizeForMatch(catName);
    var sub := NormalizeForMatch(subName);
    NormalizeShape(catName);
    NormalizeShape(subName);
    var subs := if cat in acc.itemMap then acc.itemMap[cat] else {};
    AddToMapWellFormed(acc.itemMap, cat, subs, sub);
    NameFacts(catName);
    NameFacts(subName);
    AddNameWellFormed(acc.displayNames, cat, Trim(catName));
    AddNameWellFormed(acc.displayNames[cat := Trim(catName)], sub, Trim(subName));
  }

  /** A stored display name is trimmed and normalises to its key. */
  lemma NameFacts(name: string)
    ensures IsTrimmed(Trim(name)) && NormalizeForMatch(Trim(name)) == NormalizeForMatch(name)
  {
    TrimShape(name);
    NormalizeShape(name);
  }

  lemma AddToMapWellFormed(m: map<string, set<string>>, cat: string, subs: set<string>, sub: string)
    requires WellFormedMap(m) && Normalized(cat) && Normalized(sub)
    requires forall x :: x in subs ==> Normalized(x)
    ensures WellFormedMap(m[cat := subs + {sub}])
  {
  }

  lemma AddNameWellFormed(d: map<string, string>, key: string, name: string)
    requires WellFormedNames(d) && IsTrimmed(name) && NormalizeForMatch(name) == key
    ensures WellFormedNames(d[key := name])
  {
  }

  lemma TokenStepWellFormed(tax: Taxonomy, acc: ItemTags, tok: string)
    requires WellFormedTags(acc)
    ensures WellFormedTags(TokenStep(tax, acc, tok))
  {
    match ParseToken(tok)
    case None =>
    case Some(t) => AddTagWellFormed(acc, CategoryName(tax, t), SubcategoryName(tax, t));
  }

  /** The tokens folded left to right. */
  function ParseTokens(tax: Taxonomy, toks: seq<string>): (r: ItemTags)
    ensures WellFormedTags(r)
    decreases |toks|
  {
    if |toks| == 0 then NoTags
    else
      var acc := ParseTokens(tax, toks[..|toks| - 1]);
      TokenStepWellFormed(tax, acc, toks[|toks| - 1]);
      TokenStep(tax, acc, toks[|toks| - 1])
  }

  /** `parseItemTags`: split on ',', trim, drop empty pieces, fold. */
  function ParseItemTags(tax: Taxonomy, content: string): (r: ItemTags)
    ensures content == "" ==> r == NoTags
    ensures WellFormedTags(r)
  {
    if content == "" then NoTags else ParseTokens(tax, Tokens(content, ','))
  }

  // ---------------------------------------------------------------- reference map

  /** The (category, subcategory) key pairs the recognised tokens stand for.
      It depends only on which tokens occur, not on their order or count. */
  function PairsOf(tax: Taxonomy, toks: seq<string>): set<(string, string)> {
    set tok | tok in toks && ParseToken(tok).Some? :: PairOf(tax, ParseToken(tok).value)
  }

  /** The (category, subcategory) key pair of one tag. */
  function PairOf(tax: Taxonomy, t: TagToken): (string, string) {
    (CategoryKey(tax, t), SubcategoryKey(tax, t))
  }

  /** What one token adds to the pairs. */
  function TokenPairs(tax: Taxonomy, tok: string): set<(string, string)> {
    if ParseToken(tok).Some? then {PairOf(tax, ParseToken(tok).value)} else {}
  }

  function CategoriesOf(pairs: set<(string, string)>): set<string> {
    set p | p in pairs :: p.0
  }

  function SubsOf(pairs: set<(string, string)>, c: string): set<string> {
    set p | p in pairs && p.0 == c :: p.1
  }

  /** The category map described declaratively: each category maps to the set
      of subcategories paired with it. */
  function ReferenceMap(pairs: set<(string, string)>): map<string, set<string>> {
    map c | c in CategoriesOf(pairs) :: SubsOf(pairs, c)
  }

  lemma ReferenceMapAdd(pairs: set<(string, string)>, c: string, s: string)
    ensures ReferenceMap(pairs + {(c, s)}) ==
      ReferenceMap(pairs)[c := (if c in ReferenceMap(pairs) then ReferenceMap(pairs)[c] else {}) + {s}]
  {
    var big := pairs + {(c, s)};
    var lhs := ReferenceMap(big);
    var rhs := ReferenceMap(pairs)[c := (if c in ReferenceMap(pairs) then ReferenceMap(pairs)[c] else {}) + {s}];
    assert (c, s) in big;
    forall k ensures k in lhs <==> k in rhs {
      if k in CategoriesOf(pairs) {
        var p :| p in pairs && p.0 == k;
        assert p in big;
      }
    }
    forall k | k in lhs ensures lhs[k] == rhs[k] {
      if k == c {
        assert s in SubsOf(big, k);
      }
    }
  }

  lemma PairsOfSnoc(tax: Taxonomy, toks: seq<string>, tok: string)
    ensures PairsOf(tax, toks + [tok]) == PairsOf(tax, toks) + TokenPairs(tax, tok)
  {
    PairsOfSnocSub(tax, toks, tok);
    PairsOfSnocSup(tax, toks, tok);
  }

  lemma PairsOfSnocSub(tax: Taxonomy, toks: seq<string>, tok: string)
    ensures PairsOf(tax, toks + [tok]) <= PairsOf(tax, toks) + TokenPairs(tax, tok)
  {
    var all := toks + [tok];
    forall p | p in PairsOf(tax, all) ensures p in PairsOf(tax, toks) + TokenPairs(tax, tok) {
      var x :| x in all && ParseToken(x).Some? && p == PairOf(tax, ParseToken(x).value);
      if x == tok {
        assert p in TokenPairs(tax, tok);
      } else {
        assert x in toks;
        assert p in PairsOf(tax, toks);
      }
    }
  }

  lemma PairsOfSnocSup(tax: Taxonomy, toks: seq<string>, tok: string)
    ensures PairsOf(tax, toks) + TokenPairs(tax, tok) <= PairsOf(tax, toks + [tok])
  {
    var all := toks + [tok];
    forall p | p in PairsOf(tax, toks) ensures p in PairsOf(tax, all) {
      var x :| x in toks && ParseToken(x).Some? && p == PairOf(tax, ParseToken(x).value);
      assert x in all;
    }
    assert tok in all;
  }

  /** The fold computes the declarative map. */
  lemma {:induction false} ItemMapIsReference(tax: Taxonomy, toks: seq<string>)
    ensures ParseTokens(tax, toks).itemMap == ReferenceMap(PairsOf(tax, toks))
    decreases |toks|
  {
    if |toks| == 0 {
      assert PairsOf(tax, toks) == {};
      assert ReferenceMap({}) == map[];
    } else {
      var init := toks[..|toks| - 1];
      var last := toks[|toks| - 1];
      assert init + [last] == toks;
      var acc := ParseTokens(tax, init);
      assert ParseTokens(tax, toks) == TokenStep(tax, acc, last);
      ItemMapIsReference(tax, init);
      PairsOfSnoc(tax, init, last);
      StepIsReferenceAdd(tax, acc, last, PairsOf(tax, init));
    }
  }

  lemma StepIsReferenceAdd(tax: Taxonomy, acc: ItemTags, tok: string, pairs: set<(string, string)>)
    requires acc.itemMap == ReferenceMap(pairs)
    ensures TokenStep(tax, acc, tok).itemMap == ReferenceMap(pairs + TokenPairs(tax, tok))
  {
    match ParseToken(tok)
    case None =>
      assert pairs + {} == pairs;
    case Some(t) =>
      ReferenceMapAdd(pairs, CategoryKey(tax, t), SubcategoryKey(tax, t));
  }

  /** The category map depends only on which tokens occur: reordering or
      repeating tokens gives the same map. */
  lemma ItemMapOrderFree(tax: Taxonomy, a: seq<string>, b: seq<string>)
    requires forall x :: x in a <==> x in b
    ensures ParseTokens(tax, a).itemMap == ParseTokens(tax, b).itemMap
  {
    ItemMapIsReference(tax, a);
    ItemMapIsReference(tax, b);
    assert PairsOf(tax, a) == PairsOf(tax, b);
  }

  /** A token at the end of the list overwrites the display names of its own
      category and subcategory keys, whatever came before. */
  lemma LaterDisplayNameWins(tax: Taxonomy, toks: seq<string>, tok: string)
    requires ParseToken(tok).Some?
    ensures var t := ParseToken(tok).value;
      var names := ParseTokens(tax, toks + [tok]).displayNames;
      names[SubcategoryKey(tax, t)] == Trim(SubcategoryName(tax, t))
      && (CategoryKey(tax, t) != SubcategoryKey(tax, t) ==>
            names[CategoryKey(tax, t)] == Trim(CategoryName(tax, t)))
  {
    assert (toks + [tok])[..|toks|] == toks;
  }

  // ---------------------------------------------------------------- matching

  /** One selected category with its selected subcategories, in insertion
      order (a JavaScript `Map` entry holding a `Set`). */
  datatype SelEntry = SelEntry(category: string, subs: seq<string>)

  type Selection = seq<SelEntry>

  /** OR within a category: some selected subcategory is on the item. */
  predicate CategoryMatches(e: SelEntry, itemMap: map<string, set<string>>) {
    NormalizeForMatch(e.category) in itemMap
    && exists j :: 0 <= j < |e.subs| && NormalizeForMatch(e.subs[j]) in itemMap[NormalizeForMatch(e.category)]
  }

  /** `Array.from(subs).some(...)`. */
  function AnySub(subs: seq<string>, itemSubs: set<string>): (r: bool)
    ensures r <==> exists j :: 0 <= j < |subs| && NormalizeForMatch(subs[j]) in itemSubs
    decreases |subs|
  {
    if |subs| == 0 then false
    else NormalizeForMatch(subs[0]) in itemSubs || AnySub(subs[1..], itemSubs)
  }

  /** `matchesTagFilters`: `entries().every(...)`, true for no selection. */
  function MatchesTagFilters(sel: Selection, itemMap: map<string, set<string>>): (r: bool)
    ensures r <==> forall i :: 0 <= i < |sel| ==> CategoryMatches(sel[i], itemMap)
    decreases |sel|
  {
    if |sel| == 0 then true
    else
      var cat := NormalizeForMatch(sel[0].category);
      (cat in itemMap && AnySub(sel[0].subs, itemMap[cat]))
      && MatchesTagFilters(sel[1..], itemMap)
  }

  /** Adding subcategories to selected categories never removes a match. */
  lemma MoreSubsKeepMatch(sel: Selection, wider: Selection, itemMap: map<string, set<string>>)
    requires |sel| == |wider|
    requires forall i :: 0 <= i < |sel| ==> wider[i].category == sel[i].category
    requires forall i, x :: 0 <= i < |sel| && x in sel[i].subs ==> x in wider[i].subs
    ensures MatchesTagFilters(sel, itemMap) ==> MatchesTagFilters(wider, itemMap)
  {
    if MatchesTagFilters(sel, itemMap) {
      forall i | 0 <= i < |wider| ensures CategoryMatches(wider[i], itemMap) {
        assert CategoryMatches(sel[i], itemMap);
        var j :| 0 <= j < |sel[i].subs| && NormalizeForMatch(sel[i].subs[j]) in itemMap[NormalizeForMatch(sel[i].category)];
        assert sel[i].subs[j] in wider[i].subs;
        var j' :| 0 <= j' < |wider[i].subs| && wider[i].subs[j'] == sel[i].subs[j];
      }
    }
  }

  /** Adding categories never creates a match: a selection matched by an item
      still matches after any of its entries are dropped. */
  lemma MoreCategoriesNarrow(sel: Selection, bigger: Selection, itemMap: map<string, set<string>>)
    requires forall e :: e in sel ==> e in bigger
    ensures MatchesTagFilters(bigger, itemMap) ==> MatchesTagFilters(sel, itemMap)
  {
    if MatchesTagFilters(bigger, itemMap) {
      forall i | 0 <= i < |sel| ensures CategoryMatches(sel[i], itemMap) {
        assert sel[i] in bigger;
        var k :| 0 <= k < |bigger| && bigger[k] == sel[i];
        assert CategoryMatches(bigger[k], itemMap);
      }
    }
  }

  /** A selected category with no subcategories rules every item out. */
  lemma EmptyCategoryNeverMatches(sel: Selection, i: int, itemMap: map<string, set<string>>)
    requires 0 <= i < |sel| && sel[i].subs == []
    ensures !MatchesTagFilters(sel, itemMap)
  {
    assert !CategoryMatches(sel[i], itemMap);
  }

  // ---------------------------------------------------------------- item matcher

  /** What the filters block reads from a rendered filter item: its
      `data-type`, its `data-tags`, its title text and whether it carries the
      `bg-transparent` class. A row without a filter item reads as empty
      strings. */
  datatype Item = Item(itemType: string, tags: string, title: string, bgTransparent: bool)

  /** `createItemMatcher(...)(item, selected, search)`. */
  function ItemMatches(tax: Taxonomy, item: Item, sel: Selection, activeFilter: string, search: string): bool {
    var itemMap := ParseItemTags(tax, Trim(item.tags)).itemMap;
    var itemType := NormalizeForMatch(item.itemType);
    var active := NormalizeForMatch(activeFilter);
    var titleText := ToLower(Trim(item.title));
    MatchesTagFilters(sel, itemMap)
    && (active == "" || itemType == active)
    && (search == "" || Contains(titleText, search))
  }

  /** Some selected subcategory of the entry is paired with its category. */
  predicate PairedWith(e: SelEntry, pairs: set<(string, string)>) {
    exists j :: 0 <= j < |e.subs| && (NormalizeForMatch(e.category), NormalizeForMatch(e.subs[j])) in pairs
  }

  lemma CategoryMatchesReference(e: SelEntry, pairs: set<(string, string)>)
    ensures CategoryMatches(e, ReferenceMap(pairs)) <==> PairedWith(e, pairs)
  {
    var m := ReferenceMap(pairs);
    var c := NormalizeForMatch(e.category);
    forall j | 0 <= j < |e.subs|
      ensures (c in m && NormalizeForMatch(e.subs[j]) in m[c]) <==> (c, NormalizeForMatch(e.subs[j])) in pairs
    {
      var s := NormalizeForMatch(e.subs[j]);
      if (c, s) in pairs {
        assert c in CategoriesOf(pairs);
        assert s in SubsOf(pairs, c);
      }
    }
  }

  /** Tag matching against the declarative map: each selected category is
      paired with one of its selected subcategories. */
  lemma MatchesReference(sel: Selection, pairs: set<(string, string)>)
    ensures MatchesTagFilters(sel, ReferenceMap(pairs)) <==>
      forall i :: 0 <= i < |sel| ==> PairedWith(sel[i], pairs)
  {
    forall i | 0 <= i < |sel|
      ensures CategoryMatches(sel[i], ReferenceMap(pairs)) <==> PairedWith(sel[i], pairs)
    {
      CategoryMatchesReference(sel[i], pairs);
    }
  }

  lemma TokensOfEmpty(sep: char)
    ensures Tokens("", sep) == []
  {
    assert Split("", sep) == [""];
    assert TrimAll([""]) == [""];
  }

  /** The matcher in declarative terms: every selected category pairs, on
      some tag of the item, with one of its selected subcategories; the type
      filter is off or equal; the query occurs in the title. */
  lemma ItemMatchesIff(tax: Taxonomy, item: Item, sel: Selection, activeFilter: string, search: string)
    ensures ItemMatches(tax, item, sel, activeFilter, search) <==>
      (forall i :: 0 <= i < |sel| ==> PairedWith(sel[i], PairsOf(tax, Tokens(Trim(item.tags), ','))))
      && (NormalizeForMatch(activeFilter) == ""
          || NormalizeForMatch(item.itemType) == NormalizeForMatch(activeFilter))
      && (search == "" || exists k :: OccursAt(ToLower(Trim(item.title)), search, k))
  {
    var content := Trim(item.tags);
    var toks := Tokens(content, ',');
    TokensOfEmpty(',');
    assert ParseItemTags(tax, content) == ParseTokens(tax, toks);
    ItemMapIsReference(tax, toks);
    MatchesReference(sel, PairsOf(tax, toks));
    ContainsIff(ToLower(Trim(item.title)), search);
  }

  // ---------------------------------------------------------------- taxonomy records

  const TagsRoot := "/content/cq:tags"
  const TagNamespace := "blog-blueprint"

  /** `mapTagIdToPath`: no path for an empty id; otherwise the id under the
      tag root, with its first namespace prefix dropped. */
  function MapTagIdToPath(id: string): (r: Option<string>)
    ensures r.None? <==> id == ""
    ensures r.Some? ==> StartsWith(r.value, TagsRoot + "/" + TagNamespace + "/")
  {
    if id == "" then None
    else Some(TagsRoot + "/" + TagNamespace + "/" + ReplaceFirst(id, TagNamespace + ":", ""))
  }

  /** An id in the namespace lands under the namespace folder with the prefix
      removed; an id that never mentions the prefix is appended unchanged. */
  lemma MapTagIdToPathCases(id: string)
    ensures StartsWith(id, TagNamespace + ":") ==>
      MapTagIdToPath(id) == Some(TagsRoot + "/" + TagNamespace + "/" + id[|TagNamespace + ":"|..])
    ensures id != "" && !Contains(id, TagNamespace + ":") ==>
      MapTagIdToPath(id) == Some(TagsRoot + "/" + TagNamespace + "/" + id)
  {
    IndexOfFirst(id, TagNamespace + ":");
    if StartsWith(id, TagNamespace + ":") {
      assert IndexOf(id, TagNamespace + ":") == 0;
      assert id[..0] + "" + id[|TagNamespace + ":"|..] == id[|TagNamespace + ":"|..];
      assert ReplaceFirst(id, TagNamespace + ":", "") == id[|TagNamespace + ":"|..];
    }
  }

  /** A row of the taxonomy spreadsheet. */
  datatype TaxonomyEntry = TaxonomyEntry(tag: string, title: string, description: string)

  datatype Tag = Tag(id: string, path: Option<string>, name: string, title: string, description: string)

  /** The text after the last '/', or "" when there is none. */
  function TagName(id: string): (r: string)
    ensures '/' !in r
    ensures '/' !in id ==> r == ""
    ensures '/' in id ==> EndsWith(id, "/" + r)
  {
    var k := LastIndexOf(id, '/');
    if k < 0 then ""
    else
      assert id[k..] == "/" + id[k + 1..];
      id[k + 1..]
  }

  /** `mapTaxonomy`: nothing unless the data is an array; otherwise one tag
      per entry, in order. */
  function MapTaxonomy(data: Option<seq<TaxonomyEntry>>): (r: seq<Tag>)
    ensures data.None? ==> r == []
    ensures data.Some? ==> |r| == |data.value|
    ensures data.Some? ==> forall i :: 0 <= i < |r| ==>
      r[i].id == data.value[i].tag && r[i].title == data.value[i].title
      && r[i].description == data.value[i].description
      && (r[i].path.None? <==> data.value[i].tag == "")
      && '/' !in r[i].name
    ensures data.Some? ==> forall i :: 0 <= i < |r| ==>
      r[i].name == TagName(data.value[i].tag) && r[i].path == MapTagIdToPath(data.value[i].tag)
    ensures data.Some? ==> forall i :: 0 <= i < |r| && '/' in data.value[i].tag ==>
      EndsWith(data.value[i].tag, "/" + r[i].name)
  {
    match data
    case None => []
    case Some(entries) =>
      seq(|entries|, i requires 0 <= i < |entries| =>
        Tag(entries[i].tag, MapTagIdToPath(entries[i].tag), TagName(entries[i].tag),
            entries[i].title, entries[i].description))
  }
}

=== FILE: teaser.dfy ===
/** The teaser block: the smart-crop choice, the article's class string,
    the parent's style classes, the teaser type and its link tweaks, and
    whether the image shows. */
module Teaser {
  import opened Wrappers
  import opened Text
  import Seqs

  // ---------------------------------------------------------------- smart crop

  /** The crop rules in the order they are applied; a later match overrides
      an earlier one. */
  const CropRules: seq<(string, string)> := [
    ("teaser-grid-columns-1", "32-9"),
    ("teaser-grid-columns-2", "16-9"),
    ("teaser-grid-columns-3", "1-1"),
    ("teaser-grid-columns-4", "4-3"),
    ("regular-teaser", "1-1")]

  /** Reference reading of the rules: the crop of the last rule whose class
      the parent has, or the default. */
  function LastMatching(rules: seq<(string, string)>, classes: seq<string>, default: string): string
    decreases |rules|
  {
    if |rules| == 0 then default
    else
      var last := rules[|rules| - 1];
      if last.0 in classes then last.1 else LastMatching(rules[..|rules| - 1], classes, default)
  }

  /** The crop the teaser's image asks for, applied rule by rule. */
  function SmartCrop(classes: seq<string>): (r: string)
    ensures r in {"32-9", "16-9", "1-1", "4-3", "original"}
    ensures "regular-teaser" in classes ==> r == "1-1"
  {
    var c1 := if "teaser-grid-columns-1" in classes then "32-9" else "original";
    var c2 := if "teaser-grid-columns-2" in classes then "16-9" else c1;
    var c3 := if "teaser-grid-columns-3" in classes then "1-1" else c2;
    var c4 := if "teaser-grid-columns-4" in classes then "4-3" else c3;
    if "regular-teaser" in classes then "1-1" else c4
  }

  /** The step-by-step assignment agrees with "the last matching rule wins". */
  lemma SmartCropIsLastMatching(classes: seq<string>)
    ensures SmartCrop(classes) == LastMatching(CropRules, classes, "original")
  {
    var r := CropRules;
    var d := "original";
    var l1 := if "teaser-grid-columns-1" in classes then "32-9" else d;
    var l2 := if "teaser-grid-columns-2" in classes then "16-9" else l1;
    var l3 := if "teaser-grid-columns-3" in classes then "1-1" else l2;
    var l4 := if "teaser-grid-columns-4" in classes then "4-3" else l3;
    assert r[..0] == [] && LastMatching(r[..0], classes, d) == d;
    assert r[..1][..0] == r[..0] && r[..1][0] == r[0];
    assert LastMatching(r[..1], classes, d) == l1;
    assert r[..2][..1] == r[..1] && r[..2][1] == r[1];
    assert LastMatching(r[..2], classes, d) == l2;
    assert r[..3][..2] == r[..2] && r[..3][2] == r[2];
    assert LastMatching(r[..3], classes, d) == l3;
    assert r[..4][..3] == r[..3] && r[..4][3] == r[3];
    assert LastMatching(r[..4], classes, d) == l4;
    assert r[..|r| - 1] == r[..4];
  }

  // ---------------------------------------------------------------- classes

  /** The article's class string: the authored CLASSES text split on ',' and
      joined with nothing. */
  function ArticleClass(classesText: string): (r: string)
    ensures ',' !in r
    ensures r == Without(classesText, ',')
  {
    SplitJoinEmptyDeletes(classesText, ',');
    Join(Split(classesText, ','), "")
  }

  /** The parent classes that carry opacity options. */
  predicate HasOpacityOptions(parent: seq<string>) {
    "content-box-teaser" in parent || "image-teaser" in parent
  }

  predicate IsStyleClass(c: string) {
    StartsWith(c, "teaser-background-") || StartsWith(c, "teaser-opacity-")
  }

  /** The parent's classes after the teaser runs: without opacity options,
      the background and opacity classes are removed. */
  function ParentAfter(parent: seq<string>): (r: seq<string>)
    ensures HasOpacityOptions(parent) ==> r == parent
    ensures !HasOpacityOptions(parent) ==> forall c :: c in r <==> c in parent && !IsStyleClass(c)
  {
    if HasOpacityOptions(parent) then parent else Seqs.Filter(parent, c => !IsStyleClass(c))
  }

  /** The teaser type: the first parent class ending in "-teaser", or "". */
  function TeaserType(parent: seq<string>): (r: string)
    ensures r != "" ==> r in parent && EndsWith(r, "-teaser")
    ensures r == "" ==> forall c :: c in parent ==> !EndsWith(c, "-teaser") || c == ""
    ensures r != "" ==>
      exists i :: 0 <= i < |parent| && parent[i] == r && forall j :: 0 <= j < i ==> !EndsWith(parent[j], "-teaser")
    decreases |parent|
  {
    if |parent| == 0 then ""
    else if EndsWith(parent[0], "-teaser") then parent[0]
    else
      TeaserType(parent[1..])
  }

  /** The link tweaks: the target (the authored one or "_self"), the arrow
      on the button container and the primary class. */
  datatype LinkTweaks = LinkTweaks(target: string, arrow: bool, primary: bool)

  function Tweaks(parent: seq<string>, targetText: string): (r: LinkTweaks)
    ensures r.target == (if targetText != "" then targetText else "_self")
    ensures r.arrow <==> TeaserType(parent) in {"content-box-teaser", "regular-teaser", "image-teaser"}
    ensures r.primary <==> TeaserType(parent) == "glass-effect-teaser"
  {
    var t := TeaserType(parent);
    LinkTweaks(if targetText != "" then targetText else "_self",
               t == "content-box-teaser" || t == "regular-teaser" || t == "image-teaser",
               t == "glass-effect-teaser")
  }

  // ---------------------------------------------------------------- image

  /** The article's own opacity is set and is not 100. */
  predicate OwnOpacity(article: string) {
    Contains(article, "teaser-opacity-") && !Contains(article, "teaser-opacity-100")
  }

  /** Some parent class names a non-100 opacity. */
  predicate GridOpacity(parent: seq<string>) {
    exists c :: c in parent && Contains(c, "teaser-opacity-") && c != "teaser-opacity-100"
  }

  /** `showImage` after the three assignments of the block. */
  function ShowImage(parent: seq<string>, article: string): (r: bool)
  {
    var removed := !HasOpacityOptions(parent) && exists c :: c in parent && IsStyleClass(c);
    var inGrid :=
      if "teaser-grid" in parent && HasOpacityOptions(parent) then
        var inherits := Contains(article, "teaser-opacity-inherit");
        (inherits && GridOpacity(parent)) || (!inherits && OwnOpacity(article))
      else removed;
    if article != "" && !HasOpacityOptions(parent) && OwnOpacity(article) then true else inGrid
  }

  /** The three cases of the image decision. */
  lemma ShowImageCases(parent: seq<string>, article: string)
    ensures HasOpacityOptions(parent) && "teaser-grid" in parent ==>
      (ShowImage(parent, article) <==>
        (Contains(article, "teaser-opacity-inherit") && GridOpacity(parent))
        || (!Contains(article, "teaser-opacity-inherit") && OwnOpacity(article)))
    ensures HasOpacityOptions(parent) && "teaser-grid" !in parent ==> !ShowImage(parent, article)
    ensures !HasOpacityOptions(parent) ==>
      (ShowImage(parent, article) <==> (exists c :: c in parent && IsStyleClass(c)) || OwnOpacity(article))
  {
    if OwnOpacity(article) {
      assert article != "";
    }
  }

  /** What the image slot holds. */
  datatype ImageSlot = Picture | Placeholder

  function ImageSlotOf(parent: seq<string>, article: string, hasImage: bool): (r: ImageSlot)
    ensures r == Picture <==> ShowImage(parent, article) && hasImage
  {
    if ShowImage(parent, article) && hasImage then Picture else Placeholder
  }
}

=== FILE: teaser_list.dfy ===
/** The teaser-list block: which query-index pages it lists (children of a
    parent page, an authored list of pages, or pages carrying a tag) and the
    texts of each teaser card. */
module TeaserList {
  import opened Wrappers
  import opened Text
  import opened Seqs
  import BlockHelpers

  /** A page's `tags` field: not an array, or an array of texts (a falsy
      entry is ""). */
  datatype PageTags = NotArray | TagArray(entries: seq<string>)

  /** A query-index row; a missing path is "", other missing fields `None`. */
  datatype Page = Page(
    path: string,
    tags: PageTags,
    teaserTitle: Option<string>,
    title: Option<string>,
    teaserImage: Option<string>,
    image: Option<string>,
    teaserDescription: Option<string>,
    description: Option<string>)

  /** The authored rows: list type, parent link, page links (the cell's text,
      `None` when the cell is missing), tag text, heading element, link label. */
  datatype TeaserConfig = TeaserConfig(
    listType: string,
    parentText: string,
    pagesText: Option<string>,
    tagText: string,
    titleElement: string,
    linkLabel: string)

  /** The path-mapping function (URL handling outside this model). */
  type PathMap = string -> string

  // ---------------------------------------------------------------- parent page

  /** `parent_page`: pages strictly below the mapped parent path. */
  function ParentPages(mapPath: PathMap, parentText: string, pages: seq<Page>): (r: seq<Page>)
    ensures forall p :: p in r <==> (p in pages && p.path != ""
      && StartsWith(p.path, mapPath(parentText)) && p.path != mapPath(parentText))
    ensures SubsequenceOf(r, pages)
  {
    var parent := mapPath(parentText);
    Filter(pages, (p: Page) => p.path != "" && StartsWith(p.path, parent) && p.path != parent)
  }

  // ---------------------------------------------------------------- individual pages

  /** A mapped link, with a leading '/' forced. */
  function Rooted(c: string): (r: string)
    ensures StartsWith(r, "/")
    ensures StartsWith(c, "/") ==> r == c
    ensures !StartsWith(c, "/") ==> r == "/" + c
  {
    if StartsWith(c, "/") then c else "/" + c
  }

  /** The listed paths: the text split at ',', trimmed, empties dropped,
      each mapped and rooted. */
  function ListedPaths(mapPath: PathMap, text: string): (r: seq<string>)
    ensures |r| == |Tokens(text, ',')|
    ensures forall i :: 0 <= i < |r| ==> StartsWith(r[i], "/") && r[i] == Rooted(mapPath(Tokens(text, ',')[i]))
  {
    var links := Tokens(text, ',');
    seq(|links|, i requires 0 <= i < |links| => Rooted(mapPath(links[i])))
  }

  /** The position of a page's path in the list. */
  function ListPosition(paths: seq<string>): Page -> int {
    (p: Page) => FirstIndex(paths, p.path)
  }

  /** `individual_pages`: the listed pages, ordered by the first position of
      their path in the list, pages of one path in index order. */
  function IndividualPages(mapPath: PathMap, text: Option<string>, pages: seq<Page>): (r: seq<Page>)
  {
    if text.None? || text.value == "" then []
    else
      var paths := ListedPaths(mapPath, text.value);
      SortByKey(Filter(pages, (p: Page) => p.path != "" && p.path in paths), ListPosition(paths))
  }

  /** The pages listed are exactly the index pages whose path is in the list;
      they are ordered by list position, and two pages of one path keep their
      index order. */
  lemma IndividualPagesOrder(mapPath: PathMap, text: string, pages: seq<Page>, k: int)
    requires text != ""
    ensures var paths := ListedPaths(mapPath, text);
      var r := IndividualPages(mapPath, Some(text), pages);
      (forall p :: p in r <==> p in pages && p.path in paths)
      && SortedByKey(r, ListPosition(paths))
      && WithKey(r, ListPosition(paths), k) == WithKey(Filter(pages, (p: Page) => p.path != "" && p.path in paths), ListPosition(paths), k)
  {
    var paths := ListedPaths(mapPath, text);
    var kept := Filter(pages, (p: Page) => p.path != "" && p.path in paths);
    var r := IndividualPages(mapPath, Some(text), pages);
    assert r == SortByKey(kept, ListPosition(paths));
    SortedPages(kept, ListPosition(paths), k);
    ListedPathsNonEmpty(mapPath, text);
  }

  /** Sorting keeps the elements, orders them, and keeps each key's order. */
  lemma SortedPages(kept: seq<Page>, key: Page -> int, k: int)
    ensures forall p :: p in SortByKey(kept, key) <==> p in kept
    ensures SortedByKey(SortByKey(kept, key), key)
    ensures WithKey(SortByKey(kept, key), key, k) == WithKey(kept, key, k)
  {
    var r := SortByKey(kept, key);
    assert forall p :: p in r <==> p in multiset(kept);
    SortByKeySorted(kept, key);
    SortByKeyStable(kept, key, k);
  }

  /** Every listed path is rooted, so never empty. */
  lemma ListedPathsNonEmpty(mapPath: PathMap, text: string)
    ensures "" !in ListedPaths(mapPath, text)
  {
    var paths := ListedPaths(mapPath, text);
    forall i | 0 <= i < |paths| ensures paths[i] != "" {
      assert StartsWith(paths[i], "/");
    }
  }

  // ---------------------------------------------------------------- tag

  /** `tag`: pages whose first tags entry, split at ',' and trimmed, shares a
      value with the authored text split at ',' (authored entries are NOT
      trimmed). */
  predicate HasTag(authored: seq<string>, p: Page) {
    p.tags.TagArray? && |p.tags.entries| > 0 && p.tags.entries[0] != ""
    && exists t :: t in TrimAll(Split(p.tags.entries[0], ',')) && t in authored
  }

  function TagPages(tagText: string, pages: seq<Page>): (r: seq<Page>)
    ensures forall p :: p in r <==> p in pages && HasTag(Split(tagText, ','), p)
    ensures SubsequenceOf(r, pages)
  {
    var authored := Split(tagText, ',');
    Filter(pages, (p: Page) => HasTag(authored, p))
  }

  lemma SplitAB()
    ensures Split("a, b", ',') == ["a", " b"]
  {
    SplitWord("a", ", b", ',');
    assert "a, b" == "a" + ", b";
    SplitCons(',', " b", ',');
    assert ", b" == [','] + " b";
    SplitFree(" b", ',');
    assert Split(", b", ',') == ["", " b"];
    assert "a" + "" == "a";
  }

  /** An authored "a, b" does not find a page tagged "b": the space stays on
      the authored entry. */
  lemma AuthoredTagsUntrimmed(p: Page)
    requires p.tags == TagArray(["b"])
    ensures !HasTag(Split("a, b", ','), p)
  {
    SplitAB();
    var authored := Split("a, b", ',');
    SplitFree("b", ',');
    assert Trim("b") == "b" by { TrimOfTrimmed("b"); }
    assert TrimAll(["b"]) == ["b"];
    assert "b" !in authored;
  }

  // ---------------------------------------------------------------- the list

  /** The pages the block lists; an unknown list type lists none. */
  function SelectPages(mapPath: PathMap, cfg: TeaserConfig, pages: seq<Page>): (r: seq<Page>)
    ensures cfg.listType !in {"parent_page", "individual_pages", "tag"} ==> r == []
    ensures forall p :: p in r ==> p in pages
  {
    if cfg.listType == "parent_page" then ParentPages(mapPath, cfg.parentText, pages)
    else if cfg.listType == "individual_pages" then
      var r := IndividualPages(mapPath, cfg.pagesText, pages);
      assert forall p :: p in r ==> p in multiset(r);
      r
    else if cfg.listType == "tag" then TagPages(cfg.tagText, pages)
    else []
  }

  // ---------------------------------------------------------------- cards

  const DefaultButtonLabel := "Read more"

  /** `a || b` over optional texts. */
  function OrElse(a: Option<string>, b: Option<string>): (r: Option<string>)
    ensures a.Some? && a.value != "" ==> r == a
    ensures (a.None? || a.value == "") ==> r == b
  {
    if a.Some? && a.value != "" then a else b
  }

  /** How a template literal shows an optional text. */
  function Shown(o: Option<string>): string {
    match o
    case None => "undefined"
    case Some(s) => s
  }

  /** What `dictionary?.teaserlist?.button?.label` finds. */
  function DictionaryLabel(dict: map<string, BlockHelpers.Node>): Option<BlockHelpers.Node> {
    if "teaserlist" in dict && dict["teaserlist"].Branch?
       && "button" in dict["teaserlist"].children && dict["teaserlist"].children["button"].Branch?
       && "label" in dict["teaserlist"].children["button"].children
    then Some(dict["teaserlist"].children["button"].children["label"])
    else None
  }

  /** The button label: the authored label, else the dictionary's, else
      "Read more". An object found in the dictionary shows as the text
      "[object Object]". */
  function ButtonLabel(authored: string, dict: map<string, BlockHelpers.Node>): (r: string)
    ensures authored != "" ==> r == authored
  {
    if authored != "" then authored
    else
      match DictionaryLabel(dict)
      case Some(Leaf(t)) => if t != "" then t else DefaultButtonLabel
      case Some(Branch(_)) => "[object Object]"
      case None => DefaultButtonLabel
  }

  /** The dictionary can never supply a label text: its values sit at the top
      level, so an unauthored label reads "Read more" or, when some key
      begins `teaserlist.button.label.`, "[object Object]". */
  lemma LabelNeverFromDictionary(pairs: seq<(string, string)>)
    requires BlockHelpers.Nest(pairs).Some?
    ensures var r := ButtonLabel("", BlockHelpers.Nest(pairs).value);
      r == DefaultButtonLabel || r == "[object Object]"
  {
    BlockHelpers.NestValuesOnTop(pairs);
    var d := BlockHelpers.Nest(pairs).value;
    if DictionaryLabel(d).Some? {
      var t := d["teaserlist"];
      assert BlockHelpers.LeafFree(t);
      assert BlockHelpers.LeafFree(t.children["button"]);
      assert BlockHelpers.LeafFree(t.children["button"].children["label"]);
    }
  }

  /** The key a reader would expect to set the label does not: the value goes
      to the top level under `label`. */
  lemma LabelKeyMisses(v: string)
    ensures BlockHelpers.Nest([("teaserlist.button.label", v)]).Some?
    ensures ButtonLabel("", BlockHelpers.Nest([("teaserlist.button.label", v)]).value) == DefaultButtonLabel
  {
    assert forall i :: 0 <= i < |"teaserlist"| ==> "teaserlist"[i] != '.';
    assert forall i :: 0 <= i < |"button"| ==> "button"[i] != '.';
    assert forall i :: 0 <= i < |"label"| ==> "label"[i] != '.';
    BlockHelpers.NestThree("teaserlist", "button", "label", v);
    var key := "teaserlist" + "." + "button" + "." + "label";
    assert key == "teaserlist.button.label";
    var d := map["teaserlist" := BlockHelpers.Branch(map["button" := BlockHelpers.Branch(map[])])]["label" := BlockHelpers.Leaf(v)];
    assert BlockHelpers.Nest([(key, v)]) == Some(d);
    assert "label" !in d["teaserlist"].children["button"].children;
    assert DictionaryLabel(d) == None;
  }

  /** One teaser card. */
  datatype Card = Card(
    heading: string,
    title: string,
    description: string,
    image: Option<string>,
    href: string,
    ariaDisabled: bool,
    buttonLabel: string)

  /** The card of one page. */
  function CardOf(cfg: TeaserConfig, dict: map<string, BlockHelpers.Node>, p: Page): (r: Card)
    ensures r.heading == (if cfg.titleElement == "" then "h3" else cfg.titleElement)
    ensures r.href == (if p.path == "" then "#" else p.path) && r.ariaDisabled == (p.path == "")
    ensures r.buttonLabel == ButtonLabel(cfg.linkLabel, dict)
    ensures p.teaserTitle.Some? && p.teaserTitle.value != "" ==> r.title == p.teaserTitle.value
  {
    Card(
      if cfg.titleElement == "" then "h3" else cfg.titleElement,
      Shown(OrElse(p.teaserTitle, p.title)),
      Shown(OrElse(p.teaserDescription, p.description)),
      OrElse(p.teaserImage, p.image),
      if p.path == "" then "#" else p.path,
      p.path == "",
      ButtonLabel(cfg.linkLabel, dict))
  }

  /** The cards of the block, one per selected page, in selection order. */
  function Cards(mapPath: PathMap, cfg: TeaserConfig, dict: map<string, BlockHelpers.Node>, pages: seq<Page>): (r: seq<Card>)
    ensures |r| == |SelectPages(mapPath, cfg, pages)|
    ensures forall i :: 0 <= i < |r| ==> r[i] == CardOf(cfg, dict, SelectPages(mapPath, cfg, pages)[i])
  {
    var sel := SelectPages(mapPath, cfg, pages);
    seq(|sel|, i requires 0 <= i < |sel| => CardOf(cfg, dict, sel[i]))
  }
}

=== FILE: text.dfy ===
/**
  * String operations with the meaning of the JavaScript `String` methods the
  * blocks rely on (`trim`, `toLowerCase`, `split`, `join`, `includes`,
  * `startsWith`, `replace`). Strings are sequences of Unicode scalar values.
  */
module Text {

  /** The code points JavaScript's `trim` removes and a regex `\s` matches:
      the WhiteSpace and LineTerminator productions of ECMAScript. */
  predicate IsSpace(c: char) {
    c == '\t' || c == '\n' || c == '\U{000B}' || c == '\U{000C}' || c == '\r'
    || c == ' ' || c == '\U{00A0}' || c == '\U{1680}'
    || ('\U{2000}' <= c <= '\U{200A}') || c == '\U{2028}' || c == '\U{2029}'
    || c == '\U{202F}' || c == '\U{205F}' || c == '\U{3000}' || c == '\U{FEFF}'
  }

  /** The characters a regex `.` does not match. */
  predicate IsLineTerminator(c: char) {
    c == '\n' || c == '\r' || c == '\U{2028}' || c == '\U{2029}'
  }

  predicate IsDigit(c: char) { '0' <= c <= '9' }
  predicate IsLowerAscii(c: char) { 'a' <= c <= 'z' }
  predicate IsAsciiLetter(c: char) { 'a' <= c <= 'z' || 'A' <= c <= 'Z' }

  // ---------------------------------------------------------------- case

  /** `toLowerCase` on one character; only A-Z are folded in this model. */
  function LowerChar(c: char): char {
    if 'A' <= c <= 'Z' then (c as int + 32) as char else c
  }

  function ToLower(s: string): string {
    seq(|s|, i requires 0 <= i < |s| => LowerChar(s[i]))
  }

  predicate IsLower(s: string) {
    forall i :: 0 <= i < |s| ==> LowerChar(s[i]) == s[i]
  }

  lemma LowerCharKeepsSpace(c: char)
    ensures IsSpace(LowerChar(c)) == IsSpace(c)
    ensures LowerChar(LowerChar(c)) == LowerChar(c)
  {
  }

  /** Lower-casing yields lower-case text and leaves lower-case text alone. */
  lemma ToLowerIsLower(s: string)
    ensures IsLower(ToLower(s))
    ensures IsLower(s) ==> ToLower(s) == s
  {
    forall i | 0 <= i < |s| ensures LowerChar(ToLower(s)[i]) == ToLower(s)[i] {
      LowerCharKeepsSpace(s[i]);
    }
  }

  lemma ToLowerIdempotent(s: string)
    ensures ToLower(ToLower(s)) == ToLower(s)
  {
    ToLowerIsLower(s);
    ToLowerIsLower(ToLower(s));
  }

  lemma ToLowerAppend(a: string, b: string)
    ensures ToLower(a + b) == ToLower(a) + ToLower(b)
  {
  }

  lemma ToLowerSlice(s: string, i: int, j: int)
    requires 0 <= i <= j <= |s|
    ensures ToLower(s[i..j]) == ToLower(s)[i..j]
  {
  }

  // ---------------------------------------------------------------- trim

  predicate AllSpace(s: string) {
    forall i :: 0 <= i < |s| ==> IsSpace(s[i])
  }

  /** No leading and no trailing white space. */
  predicate IsTrimmed(s: string) {
    |s| == 0 || (!IsSpace(s[0]) && !IsSpace(s[|s| - 1]))
  }

  function TrimStart(s: string): string
    decreases |s|
  {
    if |s| > 0 && IsSpace(s[0]) then TrimStart(s[1..]) else s
  }

  function TrimEnd(s: string): string
    decreases |s|
  {
    if |s| > 0 && IsSpace(s[|s| - 1]) then TrimEnd(s[..|s| - 1]) else s
  }

  /** `String.prototype.trim`. */
  function Trim(s: string): string {
    TrimEnd(TrimStart(s))
  }

  /** `TrimStart` drops exactly the maximal run of leading white space. */
  lemma {:induction false} TrimStartShape(s: string)
    ensures |TrimStart(s)| <= |s|
    ensures TrimStart(s) == s[|s| - |TrimStart(s)|..]
    ensures AllSpace(s[..|s| - |TrimStart(s)|])
    ensures |TrimStart(s)| == 0 || !IsSpace(TrimStart(s)[0])
    decreases |s|
  {
    if |s| > 0 && IsSpace(s[0]) {
      TrimStartShape(s[1..]);
      var k := |s| - |TrimStart(s)|;
      assert s[1..][..k - 1] == s[1..k];
      assert forall i :: 1 <= i < k ==> s[i] == s[1..][..k - 1][i - 1];
    }
  }

  /** `TrimEnd` drops exactly the maximal run of trailing white space. */
  lemma {:induction false} TrimEndShape(s: string)
    ensures |TrimEnd(s)| <= |s|
    ensures TrimEnd(s) == s[..|TrimEnd(s)|]
    ensures AllSpace(s[|TrimEnd(s)|..])
    ensures |TrimEnd(s)| == 0 || !IsSpace(TrimEnd(s)[|TrimEnd(s)| - 1])
    decreases |s|
  {
    if |s| > 0 && IsSpace(s[|s| - 1]) {
      var p := s[..|s| - 1];
      TrimEndShape(p);
      var k := |TrimEnd(s)|;
      assert p[..k] == s[..k];
      assert forall i :: k <= i < |s| - 1 ==> s[i] == p[k..][i - k];
    }
  }

  lemma TrimStartOfNonSpace(s: string)
    requires |s| == 0 || !IsSpace(s[0])
    ensures TrimStart(s) == s
  {
  }

  lemma TrimEndOfNonSpace(s: string)
    requires |s| == 0 || !IsSpace(s[|s| - 1])
    ensures TrimEnd(s) == s
  {
  }

  /** `trim` keeps a contiguous slice of its input, drops only white space
      around it, and leaves nothing to drop. */
  /** How much white space `trim` drops at the start. */
  function LeadingSpace(s: string): int {
    |s| - |TrimStart(s)|
  }

  lemma TrimShape(s: string)
    ensures IsTrimmed(Trim(s))
    ensures 0 <= LeadingSpace(s) <= |s| - |Trim(s)| && Trim(s) == s[LeadingSpace(s)..LeadingSpace(s) + |Trim(s)|]
    ensures exists i :: (0 <= i <= |s| - |Trim(s)| && Trim(s) == s[i..i + |Trim(s)|]
                         && AllSpace(s[..i]) && AllSpace(s[i + |Trim(s)|..]))
  {
    TrimStartShape(s);
    var u := TrimStart(s);
    var i := |s| - |u|;
    TrimEndShape(u);
    var t := TrimEnd(u);
    assert Trim(s) == t;
    assert t == s[i..i + |t|] by {
      assert u == s[i..];
      assert t == u[..|t|];
    }
    if |t| > 0 {
      assert t[0] == u[0];
    }
    assert AllSpace(s[i + |t|..]) by {
      assert s[i + |t|..] == u[|t|..];
    }
    assert 0 <= i <= |s| - |t| && AllSpace(s[..i]);
  }

  /** `trim` is idempotent and leaves trimmed text alone. */
  lemma TrimOfTrimmed(s: string)
    requires IsTrimmed(s)
    ensures Trim(s) == s
  {
    TrimStartOfNonSpace(s);
    TrimEndOfNonSpace(s);
  }

  lemma TrimIdempotent(s: string)
    ensures Trim(Trim(s)) == Trim(s)
  {
    TrimShape(s);
    TrimOfTrimmed(Trim(s));
  }

  lemma {:induction false} TrimStartLower(s: string)
    ensures TrimStart(ToLower(s)) == ToLower(TrimStart(s))
    decreases |s|
  {
    if |s| > 0 {
      LowerCharKeepsSpace(s[0]);
      assert ToLower(s)[1..] == ToLower(s[1..]);
      if IsSpace(s[0]) {
        TrimStartLower(s[1..]);
      }
    }
  }

  lemma {:induction false} TrimEndLower(s: string)
    ensures TrimEnd(ToLower(s)) == ToLower(TrimEnd(s))
    decreases |s|
  {
    if |s| > 0 {
      LowerCharKeepsSpace(s[|s| - 1]);
      assert ToLower(s)[..|s| - 1] == ToLower(s[..|s| - 1]);
      if IsSpace(s[|s| - 1]) {
        TrimEndLower(s[..|s| - 1]);
      }
    }
  }

  /** Lower-casing and trimming commute, so `s.trim().toLowerCase()` and
      `s.toLowerCase().trim()` agree. */
  lemma TrimLowerCommute(s: string)
    ensures Trim(ToLower(s)) == ToLower(Trim(s))
  {
    TrimStartLower(s);
    TrimEndLower(TrimStart(s));
  }

  lemma {:induction false} AllSpaceTrim(s: string)
    requires AllSpace(s)
    ensures TrimStart(s) == "" && Trim(s) == ""
    decreases |s|
  {
    if |s| > 0 {
      assert AllSpace(s[1..]) by {
        assert forall i :: 0 <= i < |s| - 1 ==> s[1..][i] == s[i + 1];
      }
      AllSpaceTrim(s[1..]);
    }
  }

  // ---------------------------------------------------------------- prefixes

  predicate StartsWith(s: string, p: string) {
    |p| <= |s| && s[..|p|] == p
  }

  predicate EndsWith(s: string, p: string) {
    |p| <= |s| && s[|s| - |p|..] == p
  }

  /** `s.includes(t)`. */
  predicate Contains(s: string, t: string)
    decreases |s|
  {
    StartsWith(s, t) || (|s| > 0 && Contains(s[1..], t))
  }

  predicate OccursAt(s: string, t: string, i: int) {
    0 <= i && i + |t| <= |s| && s[i..i + |t|] == t
  }

  /** `includes` holds exactly when the text occurs at some position. */
  lemma {:induction false} ContainsIff(s: string, t: string)
    ensures Contains(s, t) <==> exists i :: OccursAt(s, t, i)
    decreases |s|
  {
    if |s| > 0 {
      ContainsIff(s[1..], t);
      ShiftOccurrence(s, t);
      if exists i :: OccursAt(s[1..], t, i) {
        var i :| OccursAt(s[1..], t, i);
        assert OccursAt(s, t, i + 1);
      }
      if exists i :: OccursAt(s, t, i) {
        var i :| OccursAt(s, t, i);
        if i > 0 {
          assert OccursAt(s[1..], t, i - 1);
        }
      }
    } else {
      if |t| == 0 {
        assert OccursAt(s, t, 0);
      }
    }
  }

  /** An occurrence in `s[1..]` is an occurrence in `s` one place later;
      an occurrence at 0 is a prefix. */
  lemma ShiftOccurrence(s: string, t: string)
    requires |s| > 0
    ensures forall i :: 1 <= i ==> (OccursAt(s, t, i) <==> OccursAt(s[1..], t, i - 1))
    ensures OccursAt(s, t, 0) <==> StartsWith(s, t)
  {
    forall i | 1 <= i
      ensures OccursAt(s, t, i) <==> OccursAt(s[1..], t, i - 1)
    {
      if i + |t| <= |s| {
        assert s[1..][i - 1..i - 1 + |t|] == s[i..i + |t|];
      }
    }
    if |t| <= |s| {
      assert s[0..|t|] == s[..|t|];
    }
  }

  lemma ContainsWitness(s: string, t: string, i: int)
    requires OccursAt(s, t, i)
    ensures Contains(s, t)
  {
    ContainsIff(s, t);
  }

  /** A text without the character `c` contains no pattern that holds `c`. */
  lemma NotContainsChar(s: string, t: string, c: char)
    requires c !in s && c in t
    ensures !Contains(s, t)
  {
    ContainsIff(s, t);
    var k :| 0 <= k < |t| && t[k] == c;
    forall i | 0 <= i && i + |t| <= |s| ensures !OccursAt(s, t, i) {
      assert s[i..i + |t|][k] == s[i + k];
    }
  }

  /** First index at which `t` occurs in `s` (`indexOf`), or -1. */
  function IndexOf(s: string, t: string): (r: int)
    ensures -1 <= r <= |s|
    ensures r >= 0 ==> OccursAt(s, t, r)
    decreases |s|
  {
    if StartsWith(s, t) then 0
    else if |s| == 0 then -1
    else
      var k := IndexOf(s[1..], t);
      if k < 0 then -1 else k + 1
  }

  /** `IndexOf` finds the first occurrence and fails only when there is none. */
  lemma {:induction false} IndexOfFirst(s: string, t: string)
    ensures IndexOf(s, t) >= 0 <==> Contains(s, t)
    ensures forall j :: 0 <= j < IndexOf(s, t) ==> !OccursAt(s, t, j)
    decreases |s|
  {
    if !StartsWith(s, t) && |s| > 0 {
      IndexOfFirst(s[1..], t);
      ShiftOccurrence(s, t);
    }
  }

  /** For a one-character pattern, `IndexOf` is the position of the first
      occurrence of that character, and -1 exactly when it is absent. */
  lemma IndexOfCharFound(s: string, c: char)
    ensures IndexOf(s, [c]) >= 0 ==>
      IndexOf(s, [c]) < |s| && s[IndexOf(s, [c])] == c && c !in s[..IndexOf(s, [c])]
    ensures IndexOf(s, [c]) < 0 ==> c !in s
  {
    IndexOfFirst(s, [c]);
    ContainsIff(s, [c]);
    var k := IndexOf(s, [c]);
    if k >= 0 {
      assert s[k..k + 1] == [s[k]];
      forall j | 0 <= j < k ensures s[..k][j] != c {
        assert !OccursAt(s, [c], j);
        assert s[j..j + 1] == [s[j]];
      }
    } else {
      forall j | 0 <= j < |s| ensures s[j] != c {
        assert !OccursAt(s, [c], j);
        assert s[j..j + 1] == [s[j]];
      }
    }
  }

  /** The first position holding `c` is what `IndexOf` reports. */
  lemma IndexOfCharAt(s: string, c: char, k: int)
    requires 0 <= k < |s| && s[k] == c && c !in s[..k]
    ensures IndexOf(s, [c]) == k
  {
    assert s[k..k + 1] == [c];
    ContainsWitness(s, [c], k);
    IndexOfFirst(s, [c]);
    IndexOfCharFound(s, c);
    var m := IndexOf(s, [c]);
    assert forall j :: 0 <= j < k ==> s[..k][j] == s[j];
  }

  /** Last index of the character `c` in `s` (`lastIndexOf`), or -1. */
  function LastIndexOf(s: string, c: char): (r: int)
    ensures -1 <= r < |s|
    ensures r >= 0 ==> s[r] == c && c !in s[r + 1..]
    ensures r < 0 ==> c !in s
    decreases |s|
  {
    if |s| == 0 then -1
    else if s[|s| - 1] == c then |s| - 1
    else
      var init := s[..|s| - 1];
      var r := LastIndexOf(init, c);
      if r >= 0 then
        assert s[r + 1..] == init[r + 1..] + [s[|s| - 1]];
        r
      else
        assert s == init + [s[|s| - 1]];
        r
  }

  /** `s.replace(t, rep)` with a string pattern: only the first occurrence. */
  function ReplaceFirst(s: string, t: string, rep: string): string {
    var k := IndexOf(s, t);
    if k < 0 then s else s[..k] + rep + s[k + |t|..]
  }

  /** Removing the first occurrence of `t` is undone by putting `t` back at
      the index where it was found; without an occurrence nothing changes. */
  lemma ReplaceFirstRestores(s: string, t: string)
    ensures IndexOf(s, t) < 0 ==> ReplaceFirst(s, t, "") == s
    ensures var k := IndexOf(s, t); var r := ReplaceFirst(s, t, "");
      k >= 0 ==> k <= |r| && s == r[..k] + t + r[k..]
  {
    var k := IndexOf(s, t);
    if k >= 0 {
      var r := ReplaceFirst(s, t, "");
      assert r == s[..k] + s[k + |t|..];
      assert r[..k] == s[..k];
      assert r[k..] == s[k + |t|..];
      assert s == s[..k] + s[k..k + |t|] + s[k + |t|..];
    }
  }

  /** `s.replace(/pat/g, rep)` for a literal, non-empty pattern: occurrences
      are replaced left to right without overlapping. */
  function ReplaceAll(s: string, pat: string, rep: string): string
    requires |pat| > 0
    decreases |s|
  {
    if |s| == 0 then ""
    else if StartsWith(s, pat) then rep + ReplaceAll(s[|pat|..], pat, rep)
    else [s[0]] + ReplaceAll(s[1..], pat, rep)
  }

  /** Replacing every `c` by text without `c` leaves no `c`. */
  lemma {:induction false} ReplaceAllRemovesChar(s: string, c: char, rep: string)
    requires c !in rep
    ensures c !in ReplaceAll(s, [c], rep)
    decreases |s|
  {
    if |s| > 0 {
      ReplaceAllRemovesChar(s[1..], c, rep);
    }
  }

  /** Replacement keeps a character that neither the pattern nor the
      replacement mentions out of the result when the input lacks it. */
  lemma {:induction false} ReplaceAllKeepsAbsent(s: string, pat: string, rep: string, c: char)
    requires |pat| > 0 && c !in s && c !in rep
    ensures c !in ReplaceAll(s, pat, rep)
    decreases |s|
  {
    if |s| > 0 {
      if StartsWith(s, pat) {
        ReplaceAllKeepsAbsent(s[|pat|..], pat, rep, c);
      } else {
        ReplaceAllKeepsAbsent(s[1..], pat, rep, c);
      }
    }
  }

  // ---------------------------------------------------------------- split / join

  /** `s.split(sep)` where `sep` is one character or a one-character class:
      always at least one piece, empty pieces kept. */
  function SplitWhen(s: string, isSep: char -> bool): (r: seq<string>)
    ensures |r| >= 1
    decreases |s|
  {
    if |s| == 0 then [""]
    else
      var rest := SplitWhen(s[1..], isSep);
      if isSep(s[0]) then [""] + rest else [[s[0]] + rest[0]] + rest[1..]
  }

  function Split(s: string, sep: char): seq<string> {
    SplitWhen(s, c => c == sep)
  }

  /** How `split` treats its first character. */
  lemma SplitCons(c: char, s: string, sep: char)
    ensures Split([c] + s, sep) ==
      if c == sep then [""] + Split(s, sep) else [[c] + Split(s, sep)[0]] + Split(s, sep)[1..]
  {
    assert ([c] + s)[1..] == s;
  }

  /** How many times `c` occurs in `s`. */
  function CountChar(s: string, c: char): nat
    decreases |s|
  {
    if |s| == 0 then 0 else (if s[0] == c then 1 else 0) + CountChar(s[1..], c)
  }

  /** `split` makes one piece more than there are separators. */
  lemma {:induction false} SplitCount(s: string, sep: char)
    ensures |Split(s, sep)| == CountChar(s, sep) + 1
    decreases |s|
  {
    if |s| > 0 {
      SplitCount(s[1..], sep);
      SplitCons(s[0], s[1..], sep);
      assert s == [s[0]] + s[1..];
    }
  }

  /** A word without the separator is one piece. */
  lemma {:induction false} SplitFree(w: string, sep: char)
    requires sep !in w
    ensures Split(w, sep) == [w]
    decreases |w|
  {
    if |w| > 0 {
      SplitFree(w[1..], sep);
      SplitCons(w[0], w[1..], sep);
      assert w == [w[0]] + w[1..];
    }
  }

  /** A word without the separator glues onto the first piece of what follows. */
  lemma {:induction false} SplitWord(w: string, rest: string, sep: char)
    requires sep !in w
    ensures Split(w + rest, sep) == [w + Split(rest, sep)[0]] + Split(rest, sep)[1..]
    decreases |w|
  {
    if |w| > 0 {
      assert w[0] != sep;
      assert sep !in w[1..];
      SplitWord(w[1..], rest, sep);
      SplitCons(w[0], w[1..] + rest, sep);
      var parts := Split(rest, sep);
      assert [w[0]] + (w[1..] + parts[0]) == w + parts[0];
      assert w + rest == [w[0]] + (w[1..] + rest);
      assert w == [w[0]] + w[1..];
    } else {
      var parts := Split(rest, sep);
      assert w + rest == rest;
      assert w + parts[0] == parts[0];
      assert parts == [parts[0]] + parts[1..];
    }
  }

  /** `parts.join(sep)`. */
  function Join(parts: seq<string>, sep: string): string
    decreases |parts|
  {
    if |parts| == 0 then ""
    else if |parts| == 1 then parts[0]
    else parts[0] + sep + Join(parts[1..], sep)
  }

  predicate NoSepIn(p: string, isSep: char -> bool) {
    forall i :: 0 <= i < |p| ==> !isSep(p[i])
  }

  /** No piece of a split contains a separator. */
  lemma {:induction false} SplitPiecesFree(s: string, isSep: char -> bool)
    ensures forall k :: 0 <= k < |SplitWhen(s, isSep)| ==> NoSepIn(SplitWhen(s, isSep)[k], isSep)
    decreases |s|
  {
    if |s| > 0 {
      SplitPiecesFree(s[1..], isSep);
      var rest := SplitWhen(s[1..], isSep);
      if !isSep(s[0]) {
        assert NoSepIn(rest[0], isSep);
        var h := [s[0]] + rest[0];
        assert forall i :: 1 <= i < |h| ==> h[i] == rest[0][i - 1];
      }
    }
  }

  /** `t` occurs somewhere in `s`. */
  ghost predicate OccursIn(s: string, t: string) {
    exists i :: OccursAt(s, t, i)
  }

  /** Occurrence is transitive: what occurs in an occurrence occurs in the
      whole text, at the sum of the offsets. */
  lemma OccursAtTrans(s: string, u: string, t: string, i: int, l: int)
    requires OccursAt(s, u, i) && OccursAt(u, t, l)
    ensures OccursAt(s, t, i + l)
  {
    forall j | 0 <= j < |t| ensures s[i + l + j] == t[j] {
      assert t[j] == u[l + j];
      assert u[l + j] == s[i..i + |u|][l + j];
    }
  }

  /** What occurs in the tail of a text occurs in the text. */
  lemma OccursInTail(s: string, t: string)
    requires |s| > 0 && OccursIn(s[1..], t)
    ensures OccursIn(s, t)
  {
    var i :| OccursAt(s[1..], t, i);
    assert s[i + 1..i + 1 + |t|] == s[1..][i..i + |t|];
    assert OccursAt(s, t, i + 1);
  }

  /** Every piece of a split occurs in the text, the first one at its start. */
  lemma {:induction false} SplitPiecesOccur(s: string, isSep: char -> bool)
    ensures OccursAt(s, SplitWhen(s, isSep)[0], 0)
    ensures forall k :: 0 <= k < |SplitWhen(s, isSep)| ==> OccursIn(s, SplitWhen(s, isSep)[k])
    decreases |s|
  {
    var r := SplitWhen(s, isSep);
    if |s| == 0 {
      assert OccursAt(s, r[0], 0);
    } else {
      var t := s[1..];
      var rest := SplitWhen(t, isSep);
      SplitPiecesOccur(t, isSep);
      forall k | 0 <= k < |rest| ensures OccursIn(s, rest[k]) {
        OccursInTail(s, rest[k]);
      }
      if isSep(s[0]) {
        assert r == [""] + rest;
        assert OccursAt(s, r[0], 0);
        forall k | 0 <= k < |r| ensures OccursIn(s, r[k]) {
          if k > 0 {
            assert r[k] == rest[k - 1];
          }
        }
      } else {
        assert r == [[s[0]] + rest[0]] + rest[1..];
        assert t[..|rest[0]|] == rest[0];
        assert s[..1 + |rest[0]|] == [s[0]] + t[..|rest[0]|];
        assert OccursAt(s, r[0], 0);
        forall k | 0 <= k < |r| ensures OccursIn(s, r[k]) {
          if k > 0 {
            assert r[k] == rest[k];
          }
        }
      }
    }
  }

  /** Text without a separator is a single piece. */
  lemma {:induction false} SplitWhenNoSep(s: string, isSep: char -> bool)
    ensures NoSepIn(s, isSep) ==> SplitWhen(s, isSep) == [s]
    decreases |s|
  {
    if |s| > 0 && NoSepIn(s, isSep) {
      assert NoSepIn(s[1..], isSep) by {
        assert forall i :: 0 <= i < |s[1..]| ==> s[1..][i] == s[i + 1];
      }
      SplitWhenNoSep(s[1..], isSep);
      assert !isSep(s[0]);
      assert [s[0]] + s[1..] == s;
    }
  }

  /** Joining the pieces of a split with the separator gives back the input. */
  lemma {:induction false} JoinSplit(s: string, sep: char)
    ensures Join(Split(s, sep), [sep]) == s
    decreases |s|
  {
    if |s| > 0 {
      JoinSplit(s[1..], sep);
      var rest := Split(s[1..], sep);
      assert SplitWhen(s[1..], c => c == sep) == rest;
      if s[0] == sep {
        assert Split(s, sep) == [""] + rest;
        assert ([""] + rest)[1..] == rest;
      } else {
        assert Split(s, sep) == [[s[0]] + rest[0]] + rest[1..];
        if |rest| > 1 {
          assert ([[s[0]] + rest[0]] + rest[1..])[1..] == rest[1..];
          assert Join(rest, [sep]) == rest[0] + [sep] + Join(rest[1..], [sep]);
        }
      }
    }
  }

  /** Splitting a join of separator-free pieces gives back the pieces. */
  lemma {:induction false} SplitJoin(parts: seq<string>, sep: char)
    requires |parts| >= 1
    requires forall k :: 0 <= k < |parts| ==> sep !in parts[k]
    ensures Split(Join(parts, [sep]), sep) == parts
    decreases |parts|, |parts[0]|
  {
    var p := parts[0];
    if |p| > 0 {
      var tailParts := [p[1..]] + parts[1..];
      assert tailParts[0] == p[1..];
      forall k | 0 <= k < |tailParts| ensures sep !in tailParts[k] {
        if k == 0 {
          assert forall i :: 0 <= i < |p[1..]| ==> p[1..][i] == p[i + 1];
        } else {
          assert tailParts[k] == parts[k];
        }
      }
      SplitJoin(tailParts, sep);
      JoinConsHead(parts, p[0], sep);
      var j := Join(parts, [sep]);
      assert j[1..] == Join(tailParts, [sep]);
      assert j[0] == p[0];
      assert Split(j, sep) == [[p[0]] + tailParts[0]] + tailParts[1..];
      assert [p[0]] + p[1..] == p;
      assert tailParts[1..] == parts[1..];
    } else if |parts| > 1 {
      SplitJoin(parts[1..], sep);
      var j := Join(parts, [sep]);
      assert j == "" + [sep] + Join(parts[1..], [sep]);
      assert j[1..] == Join(parts[1..], [sep]);
      assert Split(j, sep) == [""] + parts[1..];
    }
  }

  lemma JoinConsHead(parts: seq<string>, c: char, sep: char)
    requires |parts| >= 1 && |parts[0]| > 0 && parts[0][0] == c
    ensures Join(parts, [sep]) == [c] + Join([parts[0][1..]] + parts[1..], [sep])
  {
    var tailParts := [parts[0][1..]] + parts[1..];
    assert tailParts[1..] == parts[1..];
    if |parts| > 1 {
      assert Join(tailParts, [sep]) == parts[0][1..] + [sep] + Join(parts[1..], [sep]);
    }
    assert parts[0] == [c] + parts[0][1..];
  }

  function TrimAll(xs: seq<string>): (r: seq<string>)
    ensures |r| == |xs|
  {
    seq(|xs|, i requires 0 <= i < |xs| => Trim(xs[i]))
  }

  /** `.filter(Boolean)` over strings: drops the empty ones, keeps order. */
  function NonEmpty(xs: seq<string>): (r: seq<string>)
    ensures |r| <= |xs|
    ensures forall k :: 0 <= k < |r| ==> r[k] != "" && r[k] in xs
    decreases |xs|
  {
    if |xs| == 0 then []
    else if xs[0] == "" then NonEmpty(xs[1..])
    else [xs[0]] + NonEmpty(xs[1..])
  }

  lemma {:induction false} NonEmptyKeeps(xs: seq<string>, x: string)
    requires x in xs && x != ""
    ensures x in NonEmpty(xs)
    decreases |xs|
  {
    if xs[0] != x {
      NonEmptyKeeps(xs[1..], x);
    }
  }

  /** The trimmed, non-empty pieces of `s.split(sep)`: the ubiquitous
      `split(',').map(trim).filter(Boolean)`. */
  function Tokens(s: string, sep: char): seq<string> {
    NonEmpty(TrimAll(Split(s, sep)))
  }

  /** Every token is non-empty, trimmed and separator-free. */
  lemma TokensShape(s: string, sep: char)
    ensures forall k :: 0 <= k < |Tokens(s, sep)| ==>
      Tokens(s, sep)[k] != "" && IsTrimmed(Tokens(s, sep)[k]) && sep !in Tokens(s, sep)[k]
  {
    var pieces := Split(s, sep);
    var toks := Tokens(s, sep);
    SplitPiecesFree(s, c => c == sep);
    forall k | 0 <= k < |toks| ensures IsTrimmed(toks[k]) && sep !in toks[k] {
      var j :| 0 <= j < |pieces| && TrimAll(pieces)[j] == toks[k];
      assert NoSepIn(pieces[j], c => c == sep);
      TrimmedFree(pieces[j], sep);
    }
  }

  /** Trimming a piece without the separator gives a trimmed piece without it. */
  lemma TrimmedFree(p: string, sep: char)
    requires forall m :: 0 <= m < |p| ==> p[m] != sep
    ensures IsTrimmed(Trim(p)) && sep !in Trim(p)
  {
    TrimShape(p);
    var i :| 0 <= i <= |p| - |Trim(p)| && Trim(p) == p[i..i + |Trim(p)|]
             && AllSpace(p[..i]) && AllSpace(p[i + |Trim(p)|..]);
    var t := Trim(p);
    forall m | 0 <= m < |t| ensures t[m] != sep {
      assert t[m] == p[i + m];
    }
  }

  /** Every character of a text that is not `c`, in order. */
  function Without(s: string, c: char): (r: string)
    ensures c !in r
    ensures |r| <= |s|
    decreases |s|
  {
    if |s| == 0 then ""
    else if s[0] == c then Without(s[1..], c)
    else [s[0]] + Without(s[1..], c)
  }

  /** `s.split(c).join('')` deletes every `c` and nothing else. */
  lemma {:induction false} SplitJoinEmptyDeletes(s: string, c: char)
    ensures Join(Split(s, c), "") == Without(s, c)
    decreases |s|
  {
    if |s| > 0 {
      SplitJoinEmptyDeletes(s[1..], c);
      var rest := Split(s[1..], c);
      assert SplitWhen(s[1..], x => x == c) == rest;
      if s[0] == c {
        assert Split(s, c) == [""] + rest;
        assert ([""] + rest)[1..] == rest;
      } else {
        assert Split(s, c) == [[s[0]] + rest[0]] + rest[1..];
        if |rest| > 1 {
          assert ([[s[0]] + rest[0]] + rest[1..])[1..] == rest[1..];
          assert Join(rest, "") == rest[0] + "" + Join(rest[1..], "");
        }
      }
    }
  }

  // ---------------------------------------------------------------- numbers

  function DigitChar(d: nat): char
    requires d < 10
  {
    ('0' as int + d) as char
  }

  /** Decimal rendering of a natural number (`String(n)`). */
  function NatToString(n: nat): (r: string)
    ensures |r| >= 1
    ensures forall i :: 0 <= i < |r| ==> IsDigit(r[i])
    decreases n
  {
    if n < 10 then [DigitChar(n)] else NatToString(n / 10) + [DigitChar(n % 10)]
  }

  function DigitValue(c: char): nat
    requires IsDigit(c)
  {
    c as int - '0' as int
  }

  /** The value of a run of decimal digits. */
  function DigitsValue(s: string): nat
    requires forall i :: 0 <= i < |s| ==> IsDigit(s[i])
    decreases |s|
  {
    if |s| == 0 then 0 else DigitsValue(s[..|s| - 1]) * 10 + DigitValue(s[|s| - 1])
  }

  /** Reading the rendered digits back gives the number. */
  lemma {:induction false} NatToStringValue(n: nat)
    ensures DigitsValue(NatToString(n)) == n
    decreases n
  {
    if n >= 10 {
      NatToStringValue(n / 10);
      var r := NatToString(n);
      assert r[..|r| - 1] == NatToString(n / 10);
    }
  }

  /** Distinct numbers render as distinct strings. */
  lemma NatToStringInjective(m: nat, n: nat)
    requires NatToString(m) == NatToString(n)
    ensures m == n
  {
    NatToStringValue(m);
    NatToStringValue(n);
  }

  /** An element id built as `prefix + String(n) + suffix`, where the suffix is
      empty or starts with a non-digit (the `-label`, `-input`, ... ids of a
      widget instance). */
  function NumberedId(prefix: string, n: nat, suffix: string): string {
    prefix + NatToString(n) + suffix
  }

  predicate SuffixAfterNumber(suffix: string) {
    suffix == [] || !IsDigit(suffix[0])
  }

  /** The number of leading decimal digits of `t`. */
  function DigitRun(t: string): (r: nat)
    ensures r <= |t|
  {
    if |t| > 0 && IsDigit(t[0]) then 1 + DigitRun(t[1..]) else 0
  }

  lemma {:induction false} DigitRunOf(d: string, a: string)
    requires forall i :: 0 <= i < |d| ==> IsDigit(d[i])
    requires SuffixAfterNumber(a)
    ensures DigitRun(d + a) == |d|
    decreases |d|
  {
    if |d| > 0 {
      assert (d + a)[1..] == d[1..] + a;
      DigitRunOf(d[1..], a);
    } else {
      assert d + a == a;
    }
  }

  /** Numbered ids are unique: equal ids come from the same number and the same
      suffix, so instances with different counters never share an id. */
  lemma NumberedIdUnique(prefix: string, m: nat, a: string, n: nat, b: string)
    requires SuffixAfterNumber(a) && SuffixAfterNumber(b)
    requires NumberedId(prefix, m, a) == NumberedId(prefix, n, b)
    ensures m == n && a == b
  {
    var dm, dn := NatToString(m), NatToString(n);
    var x := NumberedId(prefix, m, a);
    assert x[|prefix|..] == dm + a;
    assert x[|prefix|..] == dn + b;
    var t := x[|prefix|..];
    DigitRunOf(dm, a);
    DigitRunOf(dn, b);
    assert dm == t[..|dm|] == dn;
    NatToStringInjective(m, n);
    assert a == t[|dm|..] == b;
  }
}

=== FILE: wrappers.dfy ===
/** Failure-carrying values used across the model: a missing value and a thrown error. */
module Wrappers {

  /** A value that may be absent (JavaScript `undefined`/`null`, a failed lookup). */
  datatype Option<T> = None | Some(value: T) {
    function GetOr(default: T): T {
      match this
      case Some(v) => v
      case None => default
    }
  }

  /** The outcome of code that may throw: `Err` stands for the exception. */
  datatype Result<T> = Ok(value: T) | Err(reason: string)
}
